=== FILE: README.md ===
# Advent of Code 2025 solutions, modelled in Dafny

This project models the Rust solutions to twelve Advent of Code 2025 puzzles
and the small library they share. It also proves what each solution computes.
The shared library has three parts:

- a two-dimensional `Point` with its moves and neighbourhoods;
- a row-major `Grid<T>` read from text;
- `gcd`/`lcm`.

Each day reads its puzzle input, parses it and answers two parts:

1. a combination dial counted at zero;
2. ranges of ids made of a repeated block of digits;
3. the largest number formed by digits kept in order;
4. paper rolls with fewer than four neighbours, removed until none are left;
5. merged ranges of fresh ingredient ids;
6. a worksheet of column sums and products;
7. a beam split by splitters, and the count of its timelines;
8. junction boxes joined closest-first with a union-find structure;
9. rectangles between red tiles, with and without the green boundary;
10. lights toggled by buttons, searched breadth-first over 16-bit states;
11. paths counted in a device graph by memoised search;
12. presents in regions, judged by an area test.

The model keeps the form of the code:

- **Pure code → functions.** Parsing and the closed-form answers are
  functions over datatypes.
- **Mutating code → classes.** Values updated in place become classes:
  - `Grids.Grid`, whose `data` the days mutate cell by cell;
  - `Day01.Safe`, the dial;
  - `Day07.Heap`, the priority queue;
  - `Day08.Dsu`, union-find with path compression.
- **Loops → methods.** Each loop becomes a method whose `ensures` ties the
  result to a specification function, with loop invariants to match. The
  specifications include:
  - Day 2's id collection;
  - Day 3's stack;
  - Day 4's erosion queue;
  - Day 5's merge and binary search;
  - Day 6's column folds;
  - Day 7's breadth-first beam;
  - Day 8's edge list and joins;
  - Day 10's breadth-first search;
  - Day 11's memoised depth-first search.
- **Input as text.** Where the source reads a file, the model takes the
  file's text as a parameter. A parse that would `unwrap` a failure returns
  `None` instead.

Rust's string and number parsing (`lines`, `split`, `split_once`,
`split_whitespace`, `trim`, `str::parse`) is modelled once, in the modules
`Text` and `Seqs`. Every day uses them.

## Model

| member | source | states |
|---|---|---|
| Points.Up | src/etc/point.rs:31-33 | `up` moves one row up: y decreases by one, x unchanged |
| Points.Down | src/etc/point.rs:34-36 | `down` moves one row down: y increases by one |
| Points.Left | src/etc/point.rs:37-39 | `left` moves one column left: x decreases by one |
| Points.Right | src/etc/point.rs:40-42 | `right` moves one column right: x increases by one |
| Points.MovesInverse | src/etc/point.rs:19-42 | up/down and left/right undo each other; the unit vectors are opposite in pairs |
| Points.ManhattanIsMetric | src/etc/point.rs:43-45 | the Manhattan distance is zero exactly on equal points, symmetric, and obeys the triangle inequality |
| Points.ManhattanTranslation | src/etc/point.rs:43-45 | translating both points by one vector keeps their Manhattan distance |
| Points.Neighbors | src/etc/point.rs:51-58 | there are exactly four orthogonal neighbours |
| Points.NeighborsComplete | src/etc/point.rs:51-58 | the four neighbours are distinct, and a point is among them iff it is at Manhattan distance 1 |
| Points.NeighborsDiagonal | src/etc/point.rs:62-73 | eight neighbours, the four orthogonal ones first |
| Points.NeighborsDiagonalComplete | src/etc/point.rs:62-73 | the eight are distinct, and a point is among them iff it is at Chebyshev distance 1 |
| Points.AddSubInverse | src/etc/point.rs:97-163 | adding then subtracting a vector is the identity (both orders); subtraction is addition of the negation |
| Points.AddGroup | src/etc/point.rs:97-129 | addition is commutative and associative, the origin is neutral, and negation gives the inverse |
| Points.ScaleLaws | src/etc/point.rs:165-197 | scalar product from either side agrees, distributes over point and scalar sums, and times -1 negates |
| Grids.Grid.FromData | src/etc/grid.rs:23-26 | `from_data` demands width*height == data length and keeps all three |
| Grids.Grid.New | src/etc/grid.rs:73-76 | `new` fills every cell of a width x height grid with the default |
| Grids.Grid.Clone | src/etc/grid.rs:10 | the derived `clone` is a fresh grid with the same width, height and cells |
| Grids.Grid.Index | src/etc/grid.rs:59-63 | `index` maps an in-bounds (x, y) below width*height |
| Grids.Grid.Coords | src/etc/grid.rs:64-69 | `coords` maps an index to an in-bounds point whose `index` is that index |
| Grids.Grid.IndexCoords | src/etc/grid.rs:59-69 | `coords` undoes `index` on every in-bounds point |
| Grids.Grid.IndexOrder | src/etc/grid.rs:59-63 | index order is row-major order: an earlier index iff an earlier row, or the same row and a smaller x |
| Grids.Grid.Set | src/etc/grid.rs:130-142 | writing through `IndexMut<Point>` changes that one cell and leaves every other cell as it was |
| Grids.Grid.Get | src/etc/grid.rs:38-49 | `get` is `Some` exactly for in-bounds points, holding that cell |
| Grids.Grid.GetOr | src/etc/grid.rs:77-79 | `get_or` gives the cell in bounds and the default outside |
| Grids.Grid.Enumerate | src/etc/grid.rs:53-58 | `enumerate` lists every cell once with its coordinates, in row-major order |
| Grids.FindFrom | src/etc/grid.rs:83-87 | the first matching cell at or after an index, or none from there on |
| Grids.Find | src/etc/grid.rs:83-87 | `find` is `None` iff no cell equals the element; otherwise the row-major first match |
| Grids.FindAllFrom | src/etc/grid.rs:88-92 | every match at or after an index, each once, in row-major order |
| Grids.FindAll | src/etc/grid.rs:88-92 | `find_all` lists exactly the matching cells, in row-major order |
| Grids.NeighborsInBounds | src/etc/point.rs:59-61 | the orthogonal neighbours that lie in the grid, and only those, in the order `neighbors` lists them |
| Grids.NeighborsDiagonalInBounds | src/etc/point.rs:74-76 | the eight-way neighbours that lie in the grid, and only those, in the order `neighbors_diagonal` lists them |
| Grids.LoneCellHasNoNeighbors | src/etc/point.rs:59-76 | a 1x1 grid's only cell has no neighbours in bounds, orthogonal or diagonal |
| Grids.InteriorHasAllNeighbors | src/etc/point.rs:59-76 | an interior cell keeps all four and all eight neighbours |
| Grids.Dimensions | src/etc/grid.rs:27-31 | the width is the first line's length, and width*height is the number of non-whitespace characters; `None` where the source panics |
| Grids.MapFromStr | src/etc/grid.rs:27-31 | `map_from_str` builds the grid of `Dimensions`, mapping each non-whitespace character in order |
| Grids.FromStr | src/etc/grid.rs:95-99 | `Grid<char>::from_str` keeps the non-whitespace characters as cells |
| Grids.Render | src/etc/grid.rs:144-153 | the `Display` loop writes each row's cells followed by a newline |
| Grids.RowsTextCells | src/etc/grid.rs:144-153 | the non-whitespace characters of a rendered grid are its cells |
| Grids.RenderRoundTrip | src/etc/grid.rs:27-31 | parsing a rendered character grid gives back its width, height and cells |
| NumUtils.Gcd | src/etc/utils.rs:1-8 | Euclid's loop returns a common divisor that every common divisor divides; zero only for (0, 0) |
| NumUtils.GcdOfIsGreatest | src/etc/utils.rs:1-8 | the recursive specification divides both inputs and is divided by every common divisor |
| NumUtils.GcdOfZero | src/etc/utils.rs:1-8 | the gcd is zero iff both inputs are |
| NumUtils.Lcm | src/etc/utils.rs:9-11 | `a / gcd * b` is a common multiple, and lcm * gcd == a * b |
| NumUtils.CommonMultiple | src/etc/utils.rs:9-11 | dividing first by a common divisor still yields a common multiple with that product |
| Day01.ParseInstruction | src/days/day01.rs:8-13 | an empty line has no instruction (the source's `split_at(1)` panics there) |
| Day01.ParseInstructions | src/days/day01.rs:6-14 | all lines parse, one instruction each, or some line does not |
| Day01.ReadAndParse | src/days/day01.rs:4-15 | one rotation per line, each that line's parse; `None` iff some line does not parse |
| Day01.ParseFormatInstruction | src/days/day01.rs:8-13 | `L`/`R` followed by the magnitude parses back to the signed rotation |
| Day01.ReadAndParseRoundTrip | src/days/day01.rs:4-15 | the text of a list of rotations parses back to the list |
| Day01.TruncDiv100 | src/days/day01.rs:28 | Rust's `/ 100` rounds toward zero, for negative values too |
| Day01.Safe.constructor | src/days/day01.rs:22-24 | the dial starts at 50 |
| Day01.Safe.AddValue | src/days/day01.rs:25-31 | the dial moves to (value + d) mod 100 and counts the clicks at zero given by `Clicks` |
| Day01.ClicksLandingOnZero | src/days/day01.rs:25-31 | the clicks counted are exactly the multiples of 100 the dial passes or lands on during the rotation |
| Day01.DialAfter | src/days/day01.rs:34-40 | the dial always shows 0..99 |
| Day01.ZeroStops | src/days/day01.rs:34-40 | at most one stop at zero per rotation |
| Day01.StopsAreAlsoPassings | src/days/day01.rs:34-47 | with no zero-length rotations, the part 1 count never exceeds the part 2 count |
| Day01.Part1 | src/days/day01.rs:34-40 | the number of rotations after which the dial shows 0 |
| Day01.Part2 | src/days/day01.rs:41-47 | the total of clicks at zero over all rotations |
| Day02.ParseInterval | src/days/day02.rs:14-19 | an id range parses only when the text splits at `-` |
| Day02.ParseFormatInterval | src/days/day02.rs:14-19 | `start-end` parses back to the range |
| Day02.ParseIntervals | src/days/day02.rs:72-79 | all comma-separated pieces parse, one range each, or some piece does not |
| Day02.ReadAndParse | src/days/day02.rs:72-79 | one range per comma-separated piece of the trimmed text, each that piece's parse; `None` iff some piece does not parse |
| Day02.NumDigits | src/days/day02.rs:85-87 | `num_digits(n)` is the d with 10^(d-1) <= n < 10^d (and 1 for 0) |
| Day02.NumDigitsUnique | src/days/day02.rs:85-87 | that digit count is unique |
| Day02.GetDivisors | src/days/day02.rs:81-83 | exactly the divisors 2..n of n, ascending |
| Day02.PieceDigits | src/days/day02.rs:28-43 | each piece of `spread` has a single digit count, from the start's up to the end's |
| Day02.Spread | src/days/day02.rs:23-45 | one piece per digit count, bounded by the range ends and by powers of ten |
| Day02.RepUnitTimes | src/days/day02.rs:57-58 | (10^p - 1) * RepUnit(p, k) == 10^(pk) - 1 |
| Day02.FactorIsRepUnit | src/days/day02.rs:58 | the `factor` is the repunit 1..01 with k blocks of width p |
| Day02.AddMultiples | src/days/day02.rs:59-66 | the `min_x..=max_x` loop adds exactly the multiples of the factor within the range |
| Day02.AddRepetitions | src/days/day02.rs:53-67 | on a single-digit-count range, adds exactly the ids that repeat a block 2..max_divisor times |
| Day02.GetIncorrectNumbers | src/days/day02.rs:46-69 | adds exactly the range's ids that repeat a block 2..max_divisor times |
| Day02.IncorrectIdsAreRepeatedBlocks | src/days/day02.rs:46-69 | an id counts iff its digit count splits into d >= 2 equal blocks with d <= max_divisor and the id repeats one block |
| Day02.RepeatsWithText | src/days/day02.rs:57-66 | an arithmetic repetition is a textual repetition of the id's digits |
| Day02.TextRepeatsWith | src/days/day02.rs:57-66 | a textual repetition is an arithmetic one |
| Day02.Sum | src/days/day02.rs:94 | the sum over the set of collected ids |
| Day02.AllInvalidMembers | src/days/day02.rs:89-102 | an id is collected iff some range contains it and it repeats a block |
| Day02.CollectIncorrect | src/days/day02.rs:90-93 | the shared set holds the invalid ids of all ranges |
| Day02.Part1 | src/days/day02.rs:89-95 | the sum of the ids made of a block repeated twice |
| Day02.Part2 | src/days/day02.rs:96-102 | the sum of the ids made of a block repeated 2..10 times |
| Day02.Part1AtMostPart2 | src/days/day02.rs:89-102 | the part 1 ids are among the part 2 ids, so their sum is no larger |
| Day03.ParseDigits | src/days/day03.rs:12-19 | a line parses iff all its characters are digits, and then each battery is its digit |
| Day03.ParseBank | src/days/day03.rs:12-19 | a line parses iff its trimmed text is all digits; one battery per character, holding its digit |
| Day03.ParseBanks | src/days/day03.rs:45-51 | all lines parse, one bank each, or some line does not |
| Day03.ReadAndParse | src/days/day03.rs:45-51 | one bank per line, each that line's parse; `None` iff some line does not parse |
| Day03.ValueBound | src/days/day03.rs:38-41 | k digits fold to a number below 10^k |
| Day03.ValueAppend | src/days/day03.rs:38-41 | folding a + c is a shifted past c, plus c |
| Day03.LexGeValue | src/days/day03.rs:38-41 | for digit strings of one length, dictionary order is numeric order |
| Day03.Pick | src/days/day03.rs:23-42 | the digits at increasing positions form a subsequence |
| Day03.BestIsUpperBound | src/days/day03.rs:23-42 | no choice of k digits, kept in order, writes more than `Best` |
| Day03.BestWitness | src/days/day03.rs:23-42 | some choice of k digits writes exactly `Best` |
| Day03.BestIsMaximum | src/days/day03.rs:23-42 | `Best` is the maximum over all in-order choices of k digits |
| Day03.PopSmaller | src/days/day03.rs:28-35 | the inner loop pops only entries smaller than the new digit, one removal each, stopping at a larger top or when removals run out |
| Day03.FinalStack | src/days/day03.rs:38-41 | after the loop, the first k stack entries write `Best` |
| Day03.GetBiggestNumber | src/days/day03.rs:23-42 | the monotone stack returns the largest number that num_len of the batteries, kept in order, can form |
| Day03.SumBiggest | src/days/day03.rs:53-64 | the sum over banks of the largest k-digit number |
| Day03.Part1 | src/days/day03.rs:53-58 | the sum of the largest two-digit numbers |
| Day03.Part2 | src/days/day03.rs:59-64 | the sum of the largest twelve-digit numbers |
| Day04.FromChar | src/days/day04.rs:13-20 | only `.` and `@` are cells; `@` is a roll with count 0 |
| Day04.ReadAndParse | src/days/day04.rs:38-41 | the grid of the input with each character decoded; `None` where the source panics |
| Day04.RollsAmongInBounds | src/days/day04.rs:28-32 | counting rolls among all eight neighbours or among those in bounds gives the same count |
| Day04.RollNeighborsAreAdjacentRolls | src/days/day04.rs:28-32 | the neighbour count is the number of rolls at Chebyshev distance 1 |
| Day04.CountRollNeighbors | src/days/day04.rs:27-32 | the inner loop counts the rolls among the in-bounds neighbours |
| Day04.FillCell | src/days/day04.rs:26-34 | a roll gets its neighbour count from the clone; any other cell is unchanged |
| Day04.FillRolls | src/days/day04.rs:23-36 | every roll holds its number of neighbouring rolls, counted on the grid before filling |
| Day04.FilledIsCounted | src/days/day04.rs:23-36 | after filling, every roll's value is its live neighbour count |
| Day04.Part1 | src/days/day04.rs:43-48 | the number of rolls with fewer than four neighbour rolls |
| Day04.Part1CountsAccessibleRolls | src/days/day04.rs:43-48 | that number, as a set of cells |
| Day04.EmptyAccessible | src/days/day04.rs:53-63 | the first loops queue and empty exactly the accessible rolls, counting each once |
| Day04.VisitNeighbor | src/days/day04.rs:67-75 | a neighbouring roll is decremented, and emptied and queued once it drops below four |
| Day04.VisitNeighbors | src/days/day04.rs:66-76 | the eight neighbours of a popped cell are visited; the rolls left shrink by the number queued |
| Day04.Drain | src/days/day04.rs:65-77 | the queue is drained; every removed roll is emptied and counted once |
| Day04.Part2 | src/days/day04.rs:49-79 | the count is the number of distinct rolls removed; no roll appears from nothing, every remaining roll has at least four neighbours, correct counts stay correct, and on correct counts each removed roll had fewer than four rolls left among its neighbours when it was removed |
| Day05.ParseInterval | src/days/day05.rs:14-19 | a line parses iff it splits at `-` into two numbers |
| Day05.ParseIntervalRoundTrip | src/days/day05.rs:14-19 | `start-end` parses back to the range |
| Day05.ParseIntervals | src/days/day05.rs:40-43 | all lines parse as ranges, or some line does not |
| Day05.ParseValues | src/days/day05.rs:44-47 | all lines parse as ids, or some line does not |
| Day05.ReadAndParse | src/days/day05.rs:37-49 | both blocks, split at the first blank line, parse line by line: one range per line of the first and one id per line of the second, each that line's parse; `None` where the source panics |
| Day05.OverlapsMeansSharing | src/days/day05.rs:23-25 | `overlaps` is symmetric and, on non-empty ranges, holds iff they share an id |
| Day05.Merge | src/days/day05.rs:26-31 | the merged start is the smaller start and the end the larger end |
| Day05.MergeCoversBoth | src/days/day05.rs:26-31 | merging overlapping ranges covers exactly the ids of both |
| Day05.EmptyAbsorbed | src/days/day05.rs:51-62 | an empty range starting inside the last merged one leaves it unchanged |
| Day05.Len | src/days/day05.rs:32-34 | `len` is end - start + 1, at least 1 |
| Day05.LenCountsRange | src/days/day05.rs:32-34 | `len` counts the ids in the range |
| Day05.Sort | src/days/day05.rs:52 | `sort` orders ranges by start then end, as a permutation |
| Day05.MergeIntervals | src/days/day05.rs:51-62 | the merged list covers the same ids, is no longer, is sorted by start and, on non-empty ranges, is disjoint and separated |
| Day05.Compare | src/days/day05.rs:68-76 | the comparator is `Equal` iff the range holds the id, and `Less` iff it ends below it |
| Day05.BinarySearch | src/days/day05.rs:68-76 | a hit is always in some range; on ordered disjoint ranges a hit happens iff some range holds the id |
| Day05.CountCovered | src/days/day05.rs:64-79 | the number of ids held by some range, at most the number of ids |
| Day05.Part1 | src/days/day05.rs:64-79 | on merged ranges, the count of fresh ids |
| Day05.Part2 | src/days/day05.rs:80-86 | the total length of the ranges |
| Day05.Part2CountsCovered | src/days/day05.rs:80-86 | on merged ranges, that total is the number of distinct fresh ids |
| Day05.Solve | src/days/day05.rs:88-95 | any answer is the count of fresh listed ids and the number of fresh ids; there is one whenever the input parses and no range is empty |
| Day06.ParseOperation | src/days/day06.rs:23-27 | `+` and `*` only; anything else is the panic case |
| Day06.ParseOperations | src/days/day06.rs:21-28 | all tokens are operations, or some token is not |
| Day06.ParseNats | src/days/day06.rs:16-18 | all words parse as numbers, or some word does not |
| Day06.ParseRows | src/days/day06.rs:12-20 | every row but the last parses as numbers, one list per row |
| Day06.ParseTable | src/days/day06.rs:10-28 | the number rows and the operator row parse, or the source panics |
| Day06.ApplySnoc | src/days/day06.rs:34-40 | folding one more number adds it or multiplies by it |
| Day06.Column | src/days/day06.rs:34-38 | column i collects the i-th number of every row |
| Day06.ColumnResult | src/days/day06.rs:33-41 | the loop over rows folds the column with its operation |
| Day06.SumColumns | src/days/day06.rs:30-43 | the sum over columns of the folded columns |
| Day06.Part1 | src/days/day06.rs:10-44 | the sum over columns of each column's sum or product; `None` where parsing panics |
| Day06.NumberOfIsDecimal | src/days/day06.rs:66-71 | reading the digits down a character column gives the decimal value of that column's digits |
| Day06.ColumnNumber | src/days/day06.rs:66-71 | the loop down a character column computes that value |
| Day06.SpaceColumns | src/days/day06.rs:47-49 | the columns that are blank in every row, ascending |
| Day06.Separators | src/days/day06.rs:47-50 | those blank columns, then the row length |
| Day06.OperatorTokens | src/days/day06.rs:52-54 | the non-empty space-free tokens of the operator row |
| Day06.Numbers | src/days/day06.rs:65-71 | one number per character column of a block |
| Day06.BlockSnoc | src/days/day06.rs:72-79 | the first column starts the fold, each later column is added or multiplied in |
| Day06.BlockResult | src/days/day06.rs:64-80 | a block's columns folded with the block's operation |
| Day06.SumBlocks | src/days/day06.rs:61-83 | the sum of the block results between consecutive separators |
| Day06.Part2 | src/days/day06.rs:45-86 | the sum of the blocks' results; `None` where the operators do not parse |
| Day07.FromChar | src/days/day07.rs:17-24 | only `.`, `S` and `^` are cells, as empty, start and splitter |
| Day07.ReadAndParse | src/days/day07.rs:51-59 | the grid and the row-major first start cell; `None` where the source panics |
| Day07.AddValue | src/days/day07.rs:43-48 | `add_value` keeps the kind and adds to every kind but empty |
| Day07.Succs | src/days/day07.rs:111-118 | a beam continues down, or at a splitter to the left and right |
| Day07.SplitsAmongDistinct | src/days/day07.rs:109-121 | the count of splitters among distinct cells is the size of the set of splitters reached |
| Day07.ProcessCell | src/days/day07.rs:61-75 | an empty cell becomes a beam and is queued; a splitter is queued; anything else, or out of bounds, is left alone |
| Day07.Visit | src/days/day07.rs:61-75 | one call of `process_cell` keeps the breadth-first invariant |
| Day07.VisitSuccessors | src/days/day07.rs:112-118 | the successors of a popped cell are processed in order |
| Day07.Step | src/days/day07.rs:111-119 | one pop of the queue keeps the invariant and advances the head |
| Day07.BeamingDone | src/days/day07.rs:111-121 | an empty queue means every reachable cell has been reached and the count is the splitters reached |
| Day07.Part1 | src/days/day07.rs:106-122 | the order of reached cells is closed under beam moves, every reached empty cell is lit, and the count is the number of distinct splitters reached |
| Day07.EntryLeTotal | src/days/day07.rs:79-83 | the heap order (row, then priority) is a total preorder |
| Day07.Heap.constructor | src/days/day07.rs:93-97 | a new heap is empty |
| Day07.Heap.Push | src/days/day07.rs:98-100 | `push` adds the entry |
| Day07.Heap.Pop | src/days/day07.rs:101-103 | `pop` is `None` only on an empty heap; otherwise it removes and returns a greatest entry |
| Day07.WeightRemove | src/days/day07.rs:135-163 | removing an entry lowers the queue's weight by its rank (the measure that ends the loop) |
| Day07.SeedBottomRow | src/days/day07.rs:126-133 | every bottom-row beam becomes 1 and is queued with priority, left to right; every other cell is unchanged |
| Day07.BottomBeamsQueued | src/days/day07.rs:126-133 | the seeded entries are prioritised bottom-row beams |
| Day07.AddTo | src/days/day07.rs:141-155 | `add_value` on one cell, nothing else changed |
| Day07.AddAndQueue | src/days/day07.rs:141-148 | adds to a cell and queues it |
| Day07.FeedCells | src/days/day07.rs:140-152 | feeding a value changes only the fed cell, and only when it has the kind that accepts it |
| Day07.FeedUp | src/days/day07.rs:139-143 | a beam or start above gets the value added and is queued with priority; otherwise grid and queue are unchanged |
| Day07.FeedLeft | src/days/day07.rs:144-149 | an in-bounds splitter on the left gets the value added and is queued without priority; otherwise grid and queue are unchanged |
| Day07.FeedRight | src/days/day07.rs:150-152 | an in-bounds splitter on the right gets the value added; nothing is queued |
| Day07.FromBeam | src/days/day07.rs:138-153 | the beam branch feeds up, then left, then right, and queues what those feeds queue; the invariants hold and the queue's weight falls |
| Day07.FromSplit | src/days/day07.rs:154-157 | the splitter branch adds the value to the cell above and queues it with priority; the invariants hold and the queue's weight falls |
| Day07.Backtrack | src/days/day07.rs:136-162 | per kind of popped cell: the start returns its value and stops; a beam or splitter makes the updates of its branch; an empty cell changes nothing |
| Day07.Drain | src/days/day07.rs:135-165 | cells pop in non-increasing heap order; the answer is the start's value |
| Day07.Part2 | src/days/day07.rs:124-166 | cell kinds are kept, bottom beams hold 1, and the answer is the value accumulated at the start |
| Day08.BoxOf | src/days/day08.rs:16-26 | the first three comma-separated numbers are x, y, z |
| Day08.ParseBox | src/days/day08.rs:16-26 | a line parses iff every comma-separated piece is a number and there are at least three; x, y, z are the first three |
| Day08.ParseBoxRoundTrip | src/days/day08.rs:16-26 | `x,y,z` parses back to the box |
| Day08.ReadAndParse | src/days/day08.rs:74-79 | one box per line, each that line's parse; `None` iff some line does not parse |
| Day08.Distance | src/days/day08.rs:30-35 | the squared distance is zero iff the boxes coincide |
| Day08.DistanceSymmetric | src/days/day08.rs:30-35 | the squared distance is symmetric |
| Day08.RelabelMembers | src/days/day08.rs:56-67 | relabelling one circuit into another unites their member sets, which were disjoint |
| Day08.JoinedCircuits | src/days/day08.rs:56-67 | after joining, two boxes share a circuit iff they did before or each was with one of the joined boxes |
| Day08.Dsu.constructor | src/days/day08.rs:44-49 | every box is its own parent with size 1 |
| Day08.Dsu.Find | src/days/day08.rs:50-55 | `find` returns the root of the box's circuit and only re-points nodes to their root |
| Day08.Dsu.Link | src/days/day08.rs:62-66 | the smaller root is put under the larger and the sizes are added |
| Day08.Dsu.Union | src/days/day08.rs:56-67 | after `union` the two boxes share a circuit, the circuits are exactly joined, and sizes add when they were apart |
| Day08.Dsu.NetworkCount | src/days/day08.rs:68-71 | the size of the box's circuit |
| Day08.PairEdgesMembers | src/days/day08.rs:85-90 | the edges are exactly the pairs i < j with their distance |
| Day08.PairEdgesCount | src/days/day08.rs:84-90 | there are n(n-1)/2 edges |
| Day08.BuildEdges | src/days/day08.rs:84-90 | the double loop builds that edge list |
| Day08.SortEdges | src/days/day08.rs:91 | the edges sorted by distance, as a permutation, and stable: the edges of each distance keep their order |
| Seqs.SortByStable | src/days/day08.rs:91 | the insertion sort keeps the order of the elements of each rank |
| Day08.Processing | src/days/day08.rs:82-98 | the sorted edges and the circuits after joining the first `pair_count` of them |
| Day08.JoinEdges | src/days/day08.rs:94-96 | joining a prefix of the edges, in order |
| Day08.Largest | src/days/day08.rs:107-108 | the k largest sizes: a sub-multiset no smaller than anything left out |
| Day08.Part1 | src/days/day08.rs:100-109 | the product of the three largest circuit sizes |
| Day08.SpansAll | src/days/day08.rs:114 | a circuit has n members iff every box is in it |
| Day08.Part2 | src/days/day08.rs:110-119 | the product of the x coordinates of the first edge after `pair_count` whose union joins every box; `None` when none does |
| Day08.Solve | src/days/day08.rs:121-128 | both answers for 1000 pairs; `None` only when the input does not parse, is empty, or no edge after the first 1000 joins every box |
| Day08.NoAnswerExcludes | src/days/day08.rs:110-119 | when no edge after the first 1000 joins every box, no pair of answers exists |
| Day09.ParsePoint | src/days/day09.rs:36-41 | a line parses iff its first two comma-separated pieces are integers |
| Day09.ParsePointRoundTrip | src/days/day09.rs:36-41 | `x,y` parses back to the point |
| Day09.ReadAndParse | src/days/day09.rs:32-42 | one point per line, each that line's parse; `None` iff some line does not parse |
| Day09.NewRect | src/days/day09.rs:13-20 | the normal rectangle with the two points as opposite corners |
| Day09.NewRectSymmetric | src/days/day09.rs:13-20 | the corners can be given in either order |
| Day09.Area | src/days/day09.rs:21-23 | the area counts tiles, at least 1 |
| Day09.AreaOfCorners | src/days/day09.rs:21-23 | the area is (abs(dx)+1) * (abs(dy)+1) |
| Day09.ExceedsIffMeetInside | src/days/day09.rs:24-29 | `exceeds_rect` holds iff the interiors overlap on both axes; it is symmetric |
| Day09.ExceedsIffSharedCell | src/days/day09.rs:24-29 | `exceeds_rect` holds iff the open interiors share a cell |
| Day09.PairsMembers | src/days/day09.rs:46-49 | the pairs (i, j) with i < j, each once |
| Day09.Part1 | src/days/day09.rs:45-52 | the largest area over all pairs of red tiles, attained by some pair; `None` for fewer than two tiles |
| Day09.BoundaryClosed | src/days/day09.rs:55-62 | the boundary rectangles join consecutive tiles and close the loop |
| Day09.Kept | src/days/day09.rs:64-66 | exactly the rectangles that cross no boundary rectangle |
| Day09.Part2 | src/days/day09.rs:54-70 | the largest area over allowed pairs, attained by an allowed pair; `None` iff no pair is allowed |
| Day10.ControlsBits | src/days/day10.rs:20-22 | light bit k is on iff the k-th character from the right is `#` |
| Day10.BitLen | src/days/day10.rs:23 | `len as u16 - 2`, wrapping the length to 16 bits; `None` where the subtraction underflows |
| Day10.Shift | src/days/day10.rs:32 | the shift `bit_len - 1 - b`, defined only where it neither underflows nor overflows |
| Day10.ButtonBits | src/days/day10.rs:29-32 | a button's bit is set iff one of its indices maps to it |
| Day10.ParseU16 | src/days/day10.rs:31 | `parse::<u16>` accepts the numbers below 2^16 |
| Day10.ParseButton | src/days/day10.rs:28-33 | a button parses iff its piece is a list of numbers that each have a bit; bit k of the mask is set iff some number b has `bit_len - 1 - b == k` |
| Day10.ParseMachine | src/days/day10.rs:18-58 | lights read from the first piece and one button per middle piece, each that piece's `ParseButton`; `None` iff the source panics: no pieces, a first piece shorter than 2 or with no bit length, an energy piece or a button that does not parse |
| Day10.ReadAndParse | src/days/day10.rs:105-110 | one machine per line, each that line's parse; `None` iff some line does not parse |
| Day10.PressTwice | src/days/day10.rs:73 | pressing a button twice undoes it |
| Day10.MinimalUnique | src/days/day10.rs:62-82 | the least number of presses is unique |
| Day10.CountButtonsPressed | src/days/day10.rs:62-82 | breadth-first search returns the least number of presses that reaches the lights; `None` iff they cannot be reached |
| Day10.Part1 | src/days/day10.rs:112-114 | the sum of each machine's minimum presses; `None` iff some machine cannot be solved |
| Day11.ParseLine | src/days/day11.rs:10-12 | the name before the first `: ` and the whitespace-separated targets after it; `None` without one |
| Day11.Collect | src/days/day11.rs:9-14 | the map has one key per name, and a later line wins |
| Day11.ReadAndParse | src/days/day11.rs:5-14 | `None` iff some line has no `: `; otherwise the keys are exactly the names the lines give, and each name maps to the outputs of its last line |
| Day11.CountPositive | src/days/day11.rs:20-40 | the path count is positive iff a path exists |
| Day11.PathCounted | src/days/day11.rs:20-40 | every path is counted |
| Day11.CountedPath | src/days/day11.rs:20-40 | a positive count has a path |
| Day11.CountRankFree | src/days/day11.rs:20-40 | the count does not depend on the ranking that proves termination |
| Day11.UnreachedCycle | src/days/day11.rs:20-40 | a cycle the search cannot reach does not stop the count from being defined |
| Day11.AcyclicRanked | src/days/day11.rs:44-56 | in an acyclic graph, the search is defined from every device |
| Day11.OneWay | src/days/day11.rs:44-47 | in an acyclic graph, paths run between two nodes in at most one direction |
| Day11.Dfs | src/days/day11.rs:20-40 | the memoised search returns the number of paths, and the cache only grows with correct entries, wherever no cycle avoiding the end is reachable |
| Day11.PathsCount | src/days/day11.rs:16-19 | the number of paths from start to end |
| Day11.Part1 | src/days/day11.rs:41-43 | the number of paths from `you` to `out`, positive iff one exists, when no cycle avoiding `out` is reachable from `you` |
| Day11.Part2 | src/days/day11.rs:44-56 | the product over the segments srv→dac→fft→out, or srv→fft→dac→out when no dac→fft path exists |
| Day12.FitsArea | src/days/day12.rs:20 | the test is: whole thirds of the width times the height is at least three times the presents |
| Day12.BlocksFit | src/days/day12.rs:20 | a region that holds one 3x3 block per present passes |
| Day12.LeftToRight | src/days/day12.rs:20 | the converse fails: 6x5 with three presents passes the test |
| Day12.ParseFormat | src/days/day12.rs:12-19 | a region line written back parses to the region |
| Day12.ParseSize | src/days/day12.rs:13-15 | a size parses iff its first two `x`-separated pieces are numbers, which are the width and height |
| Day12.ParseRegion | src/days/day12.rs:12-19 | the size before the first `: ` and one count per word after it; `None` iff there is no `: `, the size does not parse or a word is not a number |
| Day12.LastBlock | src/days/day12.rs:6-10 | the text after the last blank line, with no blank line in it |
| Day12.FittingCount | src/days/day12.rs:11-26 | counting parsed regions that pass is counting lines that pass |
| Day12.Part1 | src/days/day12.rs:4-27 | the number of lines of the last block whose region passes; `None` iff some line does not parse |
| Day12.Part2 | src/days/day12.rs:28-30 | always 0 |

## Left out

- File reading (`read_to_string`), `solve`, the `main` driver and the timing and printing code are left out. The model's entry points take the file's text as a parameter.
- Every `unwrap`, `expect`, `panic!` and `unreachable!` becomes a `None` result, or a `requires` where the source's callers guarantee it.
- Integers are unbounded. Fixed widths (`u8`, `u16`, `u32`, `u64`, `usize`, `isize`, `i32`) and their overflow panics are not modelled. The exceptions are Day 10's 16-bit light masks and its `as u16` length, which are modelled exactly.
- `Point::euclidean_distance` is floating point and is left out. The `PrimInt` conversions `From<(I, I)>` and `From<Point>` are left out too; points are built from integer coordinates directly. Indexing by a tuple of any integer type (`Index<(I, I)>`, `IndexMut<(I, I)>`) is modelled only through `Point` (`Grids.Grid.At` and `Grids.Grid.Set`), whose negative coordinates the `requires` rule out where the source panics.
- Characters are `char`, not bytes. Every length and slice of text is taken in characters, which matches the source only on ASCII input: the grid width (the first line's `len`), Day 10's `parts[0].len()` behind `bit_len` and its `line[1..line.len() - 1]` slices, Day 6's `as_bytes` and Day 3's `to_digit`.
- Day10.Part1: the `part2` integer linear program (`count_energy_buttons_pressed`, solved with an external LP solver) and the energy values it reads are left out; the energy piece is only checked to parse.
- Day10.CountButtonsPressed: the `visited` table is a sequence of 65536 booleans, not a vector.
- Day03.GetBiggestNumber: requires fewer than 256 batteries, because the source casts the length to `u8` and would wrap.
- Day04.Part2: the count of neighbours is decremented on the cell itself, so a cell's stored count is kept only for rolls still standing. That each removal was justified is promised only when the grid's counts were correct at the start, as after `fill_rolls`.
- Day05.MergeIntervals: sorts a copy rather than the caller's slice in place.
- Day05.Solve: on input with an empty range (end below start), the contract says only that an answer, if any, is right; which empty ranges the merge absorbs, and so whether `len` underflows, is not stated in terms of the input.
- Day05.Part1: the count equals the number of fresh ids only on merged, ordered ranges (as `solve` calls it); on other inputs it is only bounded by the number of ids.
- Day06.Part1: requires a non-empty text and, when the text parses, a value per operator in each number row; the source's `table.len() - 1` underflows on an empty text and its `values[0][i]` and `row[i]` panic otherwise.
- Day06.Part2: requires every row to have the length of the first, which the source assumes when it indexes `row[i]` and `row[j]`.
- Day06.Part2: requires no character below '0' other than a space in the number rows (`Readable`), because the source's `row[j] - b'0'` underflows and panics on one; a character above '9' is read as its code minus '0', as the source does.
- Day06.Part2: requires an operator for every block of two or more columns (`OperatorsSuffice`), because the source's `operations[i]` panics when there are fewer operators than such blocks.
- Day07.Part2: the answer is proved to be the value accumulated at the start cell, in non-increasing heap order; it is not proved equal to the number of timelines.
- Day07.Part1: requires that no splitter sits directly beside another, because the source's loop does not stop otherwise: `process_cell` queues a splitter without marking it, so two adjacent splitters queue each other forever.
- Day07.Heap: the binary heap's tie-breaking among equal entries is left open; `Pop` returns any greatest entry.
- Day08.Processing: requires at least one box, because `n - 1` underflows on an empty list.
- Day08.Part2: returns `None` where the source reaches `unreachable!()`.
- Day09.Part1: requires at least one tile, because `len() - 1` underflows otherwise; fewer than two tiles gives `None` where the source unwraps an empty maximum.
- Day09.Part2: requires at least one tile, for the same reason.
- Day11.Dfs: requires a ghost set of devices holding the start and closed under the outputs of every device in it other than the end, with a ranking that falls along those edges. This says no cycle avoiding the end is reachable from the start; on such a cycle the source's recursion does not stop.
- Day11.PathsCount: requires the same set and ranking.
- Day11.Part1: requires the same for `you` and `out`.
- Day11.Part2: requires an acyclic graph. The product is not proved to be the number of srv→out paths through both dac and fft.
- Day11.Collect: models `HashMap::from_iter`; iteration order of the map is not observable in the source and is not modelled.
- Day12.Part1: `u32` overflow in the size test is not modelled.

=== FILE: day01.dfy ===
/**
 * Day 1: a dial numbered 0..99 that starts at 50 and is turned left
 * (negative) or right (positive) by a number of clicks. Part 1 counts the
 * turns that leave the dial at 0; part 2 counts every click that lands on 0.
 * The source's `i32` arithmetic is unbounded here.
 */
module Day01 {
  import opened Wrappers
  import Text
  import opened NumUtils

  /** One line: a direction letter, then a signed decimal count; 'L' negates it. */
  function ParseInstruction(line: string): (r: Option<int>)
    ensures line == [] ==> r.None?
  {
    if line == [] then None
    else
      match Text.ParseInt(line[1..])
      case None => None
      case Some(n) => Some(if line[0] == 'L' then -n else n)
  }

  /** Every line of the input, parsed; nothing when some line does not parse. */
  function ParseInstructions(lines: seq<string>): (r: Option<seq<int>>)
    ensures r.Some? ==> |r.value| == |lines|
    ensures r.Some? ==> forall i :: 0 <= i < |lines| ==> ParseInstruction(lines[i]) == Some(r.value[i])
    ensures r.None? ==> exists i :: 0 <= i < |lines| && ParseInstruction(lines[i]).None?
  {
    if lines == [] then Some([])
    else
      match ParseInstruction(lines[0])
      case None => None
      case Some(d) =>
        match ParseInstructions(lines[1..])
        case None => None
        case Some(rest) => Some([d] + rest)
  }

  /** `read_and_parse` over the text of the input: one rotation per line, `None` when a line does not parse. */
  function ReadAndParse(input: string): (r: Option<seq<int>>)
    ensures r.Some? ==> |r.value| == |Text.Lines(input)|
    ensures r.Some? ==> forall i :: 0 <= i < |Text.Lines(input)| ==> ParseInstruction(Text.Lines(input)[i]) == Some(r.value[i])
    ensures r.None? ==> exists i :: 0 <= i < |Text.Lines(input)| && ParseInstruction(Text.Lines(input)[i]).None?
  {
    ParseInstructions(Text.Lines(input))
  }

  /** The canonical text of an instruction: 'L' with the count for a left turn, 'R' otherwise. */
  function FormatInstruction(d: int): (line: string)
    ensures line != [] && '\n' !in line && line[|line| - 1] != '\r'
  {
    var digits := Text.NatToString(Abs(d));
    assert Text.IsDigit(digits[|digits| - 1]);
    assert forall c | c in digits :: Text.IsDigit(c);
    (if d < 0 then "L" else "R") + digits
  }

  /** Parsing the text of an instruction gives the instruction back. */
  lemma ParseFormatInstruction(d: int)
    ensures ParseInstruction(FormatInstruction(d)) == Some(d)
  {
    var digits := Text.NatToString(Abs(d));
    Text.ParseNatRoundTrip(Abs(d));
    assert FormatInstruction(d)[1..] == digits;
    assert Text.IsDigit(digits[0]);
  }

  function FormatAll(ds: seq<int>): (ls: seq<string>)
    ensures |ls| == |ds| && forall i :: 0 <= i < |ds| ==> ls[i] == FormatInstruction(ds[i])
  {
    if ds == [] then [] else [FormatInstruction(ds[0])] + FormatAll(ds[1..])
  }

  /** An input written one instruction per line parses back to the instructions. */
  lemma ReadAndParseRoundTrip(ds: seq<int>)
    ensures ReadAndParse(Text.Join(FormatAll(ds), "\n")) == Some(ds)
  {
    var ls := FormatAll(ds);
    Text.LinesOfJoin(ls);
    forall i | 0 <= i < |ds| ensures ParseInstruction(ls[i]) == Some(ds[i]) {
      ParseFormatInstruction(ds[i]);
    }
    var r := ParseInstructions(ls);
    assert r.Some?;
    assert r.value == ds;
  }

  /** Rust's `/ 100` on a signed number: the quotient rounded toward zero. */
  function TruncDiv100(a: int): (q: int)
    ensures a >= 0 ==> 0 <= 100 * q <= a < 100 * q + 100
    ensures a < 0 ==> 100 * q - 100 < a <= 100 * q <= 0
  {
    if a >= 0 then a / 100 else -((-a) / 100)
  }

  /** The count `add_value` reports for a turn by `d` from `value`. */
  function Clicks(value: int, d: int): nat {
    (if value != 0 && value + d <= 0 then 1 else 0) + Abs(TruncDiv100(value + d))
  }

  class Safe {
    var value: int

    ghost predicate Valid()
      reads this
    {
      0 <= value < 100
    }

    /** `Safe::new`: the dial starts at 50. */
    constructor ()
      ensures Valid() && value == 50
    {
      value := 50;
    }

    /**
     * `add_value`: turns the dial, returning its new reading (the sum
     * reduced with `rem_euclid(100)`) and the count of clicks that land on 0.
     */
    method AddValue(d: int) returns (v: int, count: nat)
      requires Valid()
      modifies this
      ensures Valid()
      ensures value == (old(value) + d) % 100 && v == value
      ensures count == Clicks(old(value), d)
    {
      var c: nat := if value != 0 && value + d <= 0 then 1 else 0;
      value := value + d;
      c := c + Abs(TruncDiv100(value));
      value := value % 100;
      v, count := value, c;
    }
  }

  /** The number of multiples of 100 in the half-open range `[lo, hi)`. */
  function MultiplesIn(lo: int, hi: int): nat
    decreases hi - lo
  {
    if hi <= lo then 0 else MultiplesIn(lo, hi - 1) + (if (hi - 1) % 100 == 0 then 1 else 0)
  }

  lemma {:induction false} MultiplesInClosedForm(lo: int, hi: int)
    requires lo <= hi
    ensures MultiplesIn(lo, hi) == (hi - 1) / 100 - (lo - 1) / 100
    decreases hi - lo
  {
    if lo < hi {
      MultiplesInClosedForm(lo, hi - 1);
      var a := hi - 1;
      if a % 100 == 0 {
        assert (a - 1) / 100 == a / 100 - 1;
      } else {
        assert (a - 1) / 100 == a / 100;
      }
    }
  }

  /**
   * From a reading in 0..99, the reported count is the number of clicks of
   * the turn that land on 0: the multiples of 100 in `(value, value + d]`
   * turning right, in `[value + d, value)` turning left.
   */
  lemma ClicksLandingOnZero(value: int, d: int)
    requires 0 <= value < 100
    ensures d >= 0 ==> Clicks(value, d) == MultiplesIn(value + 1, value + d + 1)
    ensures d < 0 ==> Clicks(value, d) == MultiplesIn(value + d, value)
  {
    if d >= 0 {
      MultiplesInClosedForm(value + 1, value + d + 1);
    } else {
      MultiplesInClosedForm(value + d, value);
      var a := value + d;
      if value == 0 {
        assert Clicks(value, d) == (-a) / 100;
        assert (a - 1) / 100 == -((-a) / 100) - 1;
      } else if a <= 0 {
        assert Clicks(value, d) == 1 + (-a) / 100;
        assert (a - 1) / 100 == -((-a) / 100) - 1;
      } else {
        assert Clicks(value, d) == 0;
      }
    }
  }

  /** The reading after the turns in `ins`, starting from 50. */
  function DialAfter(ins: seq<int>): (v: int)
    ensures 0 <= v < 100
  {
    if ins == [] then 50 else (DialAfter(ins[..|ins| - 1]) + ins[|ins| - 1]) % 100
  }

  /** How many of the turns in `ins` leave the dial at 0. */
  function ZeroStops(ins: seq<int>): (n: nat)
    ensures n <= |ins|
  {
    if ins == [] then 0
    else ZeroStops(ins[..|ins| - 1]) + (if DialAfter(ins) == 0 then 1 else 0)
  }

  /** How many clicks, over all the turns in `ins`, land on 0. */
  function ZeroPassings(ins: seq<int>): nat {
    if ins == [] then 0
    else
      var init := ins[..|ins| - 1];
      ZeroPassings(init) + Clicks(DialAfter(init), ins[|ins| - 1])
  }

  /** A turn that stops on 0 has its last click on 0, so with no empty turn, stops never outnumber passings. */
  lemma {:induction false} StopsAreAlsoPassings(ins: seq<int>)
    requires forall i :: 0 <= i < |ins| ==> ins[i] != 0
    ensures ZeroStops(ins) <= ZeroPassings(ins)
  {
    if ins != [] {
      var init, d := ins[..|ins| - 1], ins[|ins| - 1];
      StopsAreAlsoPassings(init);
      var value := DialAfter(init);
      if DialAfter(ins) == 0 {
        assert (value + d) % 100 == 0;
        ClicksLandingOnZero(value, d);
        if d > 0 {
          MultiplesInClosedForm(value + 1, value + d);
          assert Clicks(value, d) == MultiplesIn(value + 1, value + d) + 1;
        } else {
          MultiplesInClosedForm(value + d + 1, value);
          assert MultiplesIn(value + d, value) >= 1 by {
            MultiplesInClosedForm(value + d, value);
          }
        }
      }
    }
  }

  /** `part1`: the turns after which the dial reads 0. */
  method Part1(instructions: seq<int>) returns (zeros: nat)
    ensures zeros == ZeroStops(instructions)
    ensures zeros <= |instructions|
  {
    var safe := new Safe();
    zeros := 0;
    for i := 0 to |instructions|
      invariant safe.Valid() && safe.value == DialAfter(instructions[..i])
      invariant zeros == ZeroStops(instructions[..i])
    {
      assert instructions[..i + 1][..i] == instructions[..i];
      var v, _ := safe.AddValue(instructions[i]);
      if v == 0 {
        zeros := zeros + 1;
      }
    }
    assert instructions[..|instructions|] == instructions;
  }

  /** `part2`: the sum of the counts, i.e. the clicks that land on 0. */
  method Part2(instructions: seq<int>) returns (total: nat)
    ensures total == ZeroPassings(instructions)
  {
    var safe := new Safe();
    total := 0;
    for i := 0 to |instructions|
      invariant safe.Valid() && safe.value == DialAfter(instructions[..i])
      invariant total == ZeroPassings(instructions[..i])
    {
      assert instructions[..i + 1][..i] == instructions[..i];
      var _, count := safe.AddValue(instructions[i]);
      total := total + count;
    }
    assert instructions[..|instructions|] == instructions;
  }
}

=== FILE: day02.dfy ===
/**
 * Day 2: product-id ranges `start-end`; an id is incorrect when its decimal
 * text is one block of digits repeated at least twice (part 1: exactly
 * twice, part 2: up to ten times). The answer is the sum of the distinct
 * incorrect ids over all ranges. The source's `u64` values are unbounded here.
 */
module Day02 {
  import opened Wrappers
  import Text
  import opened NumUtils

  datatype Interval = Interval(start: nat, end: nat)

  /** `Interval::from_str`: two unsigned numbers around the first '-'. */
  function ParseInterval(s: string): (r: Option<Interval>)
    ensures r.Some? ==> Text.SplitOnce(s, "-").Some?
  {
    var parts := Text.SplitOnce(s, "-");
    if parts.None? then None
    else
      var start, end := Text.ParseNat(parts.value.0), Text.ParseNat(parts.value.1);
      if start.None? || end.None? then None
      else Some(Interval(start.value, end.value))
  }

  function FormatInterval(iv: Interval): string {
    Text.NatToString(iv.start) + "-" + Text.NatToString(iv.end)
  }

  /** Parsing the text of a range gives the range back. */
  lemma ParseFormatInterval(iv: Interval)
    ensures ParseInterval(FormatInterval(iv)) == Some(iv)
  {
    var a, b := Text.NatToString(iv.start), Text.NatToString(iv.end);
    assert '-' !in a by {
      assert forall i :: 0 <= i < |a| ==> Text.IsDigit(a[i]);
    }
    Text.SplitOnceJoin(a, '-', b);
    assert FormatInterval(iv) == a + ['-'] + b;
    Text.ParseNatRoundTrip(iv.start);
    Text.ParseNatRoundTrip(iv.end);
  }

  /** Every comma-separated piece, parsed; nothing when one does not parse. */
  function ParseIntervals(pieces: seq<string>): (r: Option<seq<Interval>>)
    ensures r.Some? ==> |r.value| == |pieces|
    ensures r.Some? ==> forall i :: 0 <= i < |pieces| ==> ParseInterval(pieces[i]) == Some(r.value[i])
    ensures r.None? ==> exists i :: 0 <= i < |pieces| && ParseInterval(pieces[i]).None?
  {
    if pieces == [] then Some([])
    else
      var first, rest := ParseInterval(pieces[0]), ParseIntervals(pieces[1..]);
      if first.None? || rest.None? then None
      else Some([first.value] + rest.value)
  }

  /** `read_and_parse`: one range per piece of the trimmed input split on ',', `None` when a piece does not parse. */
  function ReadAndParse(input: string): (r: Option<seq<Interval>>)
    ensures r.Some? ==> |r.value| == |Text.Split(Text.Trim(input), ',')|
    ensures r.Some? ==> forall i :: 0 <= i < |Text.Split(Text.Trim(input), ',')| ==> ParseInterval(Text.Split(Text.Trim(input), ',')[i]) == Some(r.value[i])
    ensures r.None? ==> exists i :: 0 <= i < |Text.Split(Text.Trim(input), ',')| && ParseInterval(Text.Split(Text.Trim(input), ',')[i]).None?
  {
    ParseIntervals(Text.Split(Text.Trim(input), ','))
  }

  /** `num_digits`: the number of decimal digits, one for zero. */
  function NumDigits(n: nat): (d: nat)
    ensures d >= 1 && n < Pow10(d)
    ensures d == 1 || Pow10(d - 1) <= n
  {
    if n < 10 then 1 else 1 + NumDigits(n / 10)
  }

  /** The digit count is the only `d` with 10^(d-1) <= n < 10^d (or `d` = 1 for zero). */
  lemma NumDigitsUnique(n: nat, d: nat)
    requires d >= 1 && n < Pow10(d)
    requires d == 1 || Pow10(d - 1) <= n
    ensures NumDigits(n) == d
  {
    var e := NumDigits(n);
    Pow10Order(e, d - 1);
    Pow10Order(d, e - 1);
  }

  /** Numbers between two numbers of `len` digits have `len` digits. */
  lemma NumDigitsBetween(lo: nat, n: nat, hi: nat)
    requires lo <= n <= hi && NumDigits(lo) == NumDigits(hi)
    ensures NumDigits(n) == NumDigits(lo)
  {
    var d := NumDigits(lo);
    NumDigitsUnique(n, d);
  }

  /** The divisors of `n` from `d` up, ascending. */
  function DivisorsFrom(n: nat, d: nat): (r: seq<nat>)
    requires d >= 1
    ensures forall k :: k in r <==> d <= k <= n && n % k == 0
    ensures forall i, j :: 0 <= i < j < |r| ==> r[i] < r[j]
    decreases n + 1 - d
  {
    if d > n then []
    else
      var rest := DivisorsFrom(n, d + 1);
      assert forall j :: 0 <= j < |rest| ==> rest[j] in rest;
      if n % d == 0 then [d] + rest else rest
  }

  /** `get_divisors`: every `d` in 2..=n that divides `n`, ascending. */
  function GetDivisors(n: nat): (r: seq<nat>)
    ensures forall k :: k in r <==> 2 <= k <= n && n % k == 0
    ensures forall i, j :: 0 <= i < j < |r| ==> r[i] < r[j]
  {
    DivisorsFrom(n, 2)
  }

  /**
   * The piece of `spread` for the digit count `digits`, where `sd` and `ed`
   * are the digit counts of the range's start and end.
   */
  function Piece(iv: Interval, sd: nat, ed: nat, digits: nat): Interval
    requires digits >= 1
  {
    Interval(
      if digits == sd then iv.start else Pow10(digits - 1),
      if digits == ed then iv.end else Pow10(digits) - 1)
  }

  /** Every piece has a single digit count, and is not empty when the range spans several. */
  lemma PieceDigits(iv: Interval, sd: nat, ed: nat, digits: nat)
    requires sd == NumDigits(iv.start) && ed == NumDigits(iv.end)
    requires sd <= digits <= ed
    ensures NumDigits(Piece(iv, sd, ed, digits).start) == digits
    ensures NumDigits(Piece(iv, sd, ed, digits).end) == digits
    ensures sd < ed ==> Piece(iv, sd, ed, digits).start <= Piece(iv, sd, ed, digits).end
  {
    if digits != sd {
      Pow10Mono(digits - 1, digits);
      NumDigitsUnique(Pow10(digits - 1), digits);
    }
    if digits != ed {
      if digits >= 2 {
        Pow10Mono(digits - 1, digits);
      }
      NumDigitsUnique(Pow10(digits) - 1, digits);
    }
  }

  /**
   * `spread`: one piece per digit count from the start's to the end's. The
   * piece lemmas below say what the pieces are: uniform in digit count,
   * each following the one before without gap, the first beginning at the
   * start and the last finishing at the end.
   */
  method Spread(iv: Interval) returns (pieces: seq<Interval>)
    ensures var sd, ed := NumDigits(iv.start), NumDigits(iv.end);
      (sd > ed ==> pieces == []) && (sd <= ed ==> |pieces| == ed - sd + 1) &&
      forall k :: 0 <= k < |pieces| ==> pieces[k] == Piece(iv, sd, ed, sd + k)
  {
    var startDigits, endDigits := NumDigits(iv.start), NumDigits(iv.end);
    pieces := [];
    var digits := startDigits;
    while digits <= endDigits
      invariant startDigits <= digits
      invariant startDigits <= endDigits ==> digits <= endDigits + 1
      invariant startDigits > endDigits ==> digits == startDigits
      invariant |pieces| == digits - startDigits
      invariant forall k :: 0 <= k < |pieces| ==> pieces[k] == Piece(iv, startDigits, endDigits, startDigits + k)
    {
      var lowerBound := if digits == startDigits then iv.start else Pow10(digits - 1);
      var upperBound := if digits == endDigits then iv.end else Pow10(digits) - 1;
      pieces := pieces + [Interval(lowerBound, upperBound)];
      digits := digits + 1;
    }
  }

  /** The end reached after the first `i` pieces; just before the start for none. */
  function ReachedAfter(iv: Interval, sd: nat, ed: nat, i: nat): int
    requires 1 <= sd
  {
    if i == 0 then iv.start - 1 else Piece(iv, sd, ed, sd + i - 1).end
  }

  /**
   * The pieces follow each other without gap: each begins just after the
   * previous one ends (the first just at the start), never before the start,
   * and the last finishes at the end.
   */
  lemma SpreadStep(iv: Interval, sd: nat, ed: nat, i: nat)
    requires sd == NumDigits(iv.start) && ed == NumDigits(iv.end)
    requires sd < ed && sd + i <= ed
    ensures var p := Piece(iv, sd, ed, sd + i);
      iv.start - 1 <= ReachedAfter(iv, sd, ed, i) && p.start == ReachedAfter(iv, sd, ed, i) + 1
      && p.start <= p.end && ReachedAfter(iv, sd, ed, i + 1) == p.end
    ensures sd + i == ed ==> ReachedAfter(iv, sd, ed, i + 1) == iv.end
  {
    var p := Piece(iv, sd, ed, sd + i);
    assert ReachedAfter(iv, sd, ed, i + 1) == p.end;
    PieceDigits(iv, sd, ed, sd + i);
    if i > 0 {
      var k := sd + i - 1;
      assert p.start == Pow10(k);
      assert ReachedAfter(iv, sd, ed, i) == Pow10(k) - 1;
      Pow10Order(sd, k);
    }
  }

  /** The number of digits never decreases as the number grows. */
  lemma NumDigitsMono(m: nat, n: nat)
    requires m <= n
    ensures NumDigits(m) <= NumDigits(n)
  {
    var dm, dn := NumDigits(m), NumDigits(n);
    Pow10Order(dn, dm - 1);
  }

  /** `1 + 10^p + 10^(2p) + ...` with `k` terms: the number whose text repeats a `p`-digit block `0..01` `k` times. */
  function RepUnit(p: nat, k: nat): (r: nat)
    ensures k >= 1 ==> r >= 1
  {
    if k == 0 then 0 else RepUnit(p, k - 1) * Pow10(p) + 1
  }

  lemma RepUnitStep(big: int, r: int, q: int)
    requires (big - 1) * r == q - 1
    ensures (big - 1) * (r * big + 1) == q * big - 1
  {
    assert (big - 1) * (r * big + 1) == ((big - 1) * r) * big + (big - 1);
  }

  /** (10^p - 1) times the repunit of `k` blocks is 10^(p*k) - 1. */
  lemma {:induction false} RepUnitTimes(p: nat, k: nat)
    ensures (Pow10(p) - 1) * RepUnit(p, k) == Pow10(p * k) - 1
  {
    if k > 0 {
      RepUnitTimes(p, k - 1);
      var big, r := Pow10(p), RepUnit(p, k - 1);
      var q := Pow10(p * (k - 1));
      assert p * k == p * (k - 1) + p;
      Pow10Add(p * (k - 1), p);
      assert Pow10(p * k) == q * big;
      assert RepUnit(p, k) == r * big + 1;
      RepUnitStep(big, r, q);
    }
  }

  lemma ExactQuotient(a: nat, w: nat, q: nat)
    requires w > 0 && w * q == a
    ensures a / w == q
  {
    DivModUnique(a, w, q, 0);
  }

  /**
   * The `factor` of `get_incorrect_numbers`, `(10^len - 1) / (10^part - 1)`
   * for `len = part * k`, is exactly the repunit of `k` blocks of `part` digits.
   */
  lemma FactorIsRepUnit(part: nat, k: nat)
    requires part >= 1
    ensures (Pow10(part * k) - 1) / (Pow10(part) - 1) == RepUnit(part, k)
  {
    var big, all, r := Pow10(part), Pow10(part * k), RepUnit(part, k);
    Pow10Order(1, part);
    RepUnitTimes(part, k);
    ExactQuotient(all - 1, big - 1, r);
  }

  /** `n`, a number of `len` digits, splits into `d` equal blocks of digits, all alike. */
  predicate RepeatsWith(n: nat, len: nat, d: nat) {
    d >= 1 && len % d == 0 && n % RepUnit(len / d, d) == 0
  }

  /** An incorrect id for `maxDiv`: its digits are one block repeated `d` times, 2 <= d <= maxDiv. */
  predicate IsRepetition(n: nat, maxDiv: nat) {
    exists d :: 2 <= d <= maxDiv && RepeatsWith(n, NumDigits(n), d)
  }

  /** The incorrect ids between `lo` and `hi`, both included. */
  ghost function InvalidIds(lo: int, hi: int, maxDiv: nat): set<nat> {
    set n: nat | lo <= n <= hi && IsRepetition(n, maxDiv)
  }

  /** `n` splits into `d` alike blocks for some `d` in `ds`. */
  predicate RepeatsAmong(n: nat, len: nat, ds: seq<nat>) {
    exists d :: d in ds && RepeatsWith(n, len, d)
  }

  /** The numbers between `lo` and `hi` that split into alike blocks for some count in `ds`. */
  ghost function RepetitionsAmong(lo: int, hi: int, len: nat, ds: seq<nat>): set<nat> {
    set n: nat | lo <= n <= hi && RepeatsAmong(n, len, ds)
  }

  /** The multiples of `f` between `lo` and `hi`, both included. */
  ghost function Multiples(lo: int, hi: int, f: nat): set<nat>
    requires f > 0
  {
    set n: nat | lo <= n <= hi && n % f == 0
  }

  lemma InvalidIdsSplit(lo: int, a: int, b: int, maxDiv: nat)
    requires lo <= a + 1 <= b + 1
    ensures InvalidIds(lo, a, maxDiv) + InvalidIds(a + 1, b, maxDiv) == InvalidIds(lo, b, maxDiv)
  {
  }

  lemma RepetitionsAmongSnoc(lo: int, hi: int, len: nat, ds: seq<nat>, d: nat)
    requires d >= 1 && len % d == 0
    ensures RepetitionsAmong(lo, hi, len, ds + [d])
      == RepetitionsAmong(lo, hi, len, ds) + Multiples(lo, hi, RepUnit(len / d, d))
  {
    var f := RepUnit(len / d, d);
    forall n: nat | lo <= n <= hi
      ensures n in RepetitionsAmong(lo, hi, len, ds + [d]) <==>
        n in RepetitionsAmong(lo, hi, len, ds) || n % f == 0
    {
      if n % f == 0 {
        assert d in ds + [d] && RepeatsWith(n, len, d);
      }
      if RepeatsAmong(n, len, ds + [d]) {
        var e :| e in ds + [d] && RepeatsWith(n, len, e);
        if e != d {
          assert e in ds;
        }
      }
      if RepeatsAmong(n, len, ds) {
        var e :| e in ds && RepeatsWith(n, len, e);
        assert e in ds + [d];
      }
    }
  }

  /** Adding the multiples for the `i`-th divisor extends the repetitions found to the first `i + 1` divisors. */
  lemma RepetitionsStep(lo: int, hi: int, len: nat, ds: seq<nat>, i: nat,
                        results: set<nat>, before: set<nat>, after: set<nat>)
    requires i < |ds| && ds[i] >= 1 && len % ds[i] == 0
    requires before == results + RepetitionsAmong(lo, hi, len, ds[..i])
    requires after == before + Multiples(lo, hi, RepUnit(len / ds[i], ds[i]))
    ensures after == results + RepetitionsAmong(lo, hi, len, ds[..i + 1])
  {
    RepetitionsAmongSnoc(lo, hi, len, ds[..i], ds[i]);
    assert ds[..i + 1] == ds[..i] + [ds[i]];
  }

  /** A divisor of a positive number is at most that number. */
  lemma DivisorBound(len: nat, d: nat)
    requires len >= 1 && d >= 1 && len % d == 0
    ensures d <= len
  {
    if d > len {
      DivModUnique(len, d, 0, len);
    }
  }

  /** Dividing a positive number by one of its divisors leaves a positive exact quotient. */
  lemma DivisorQuotient(len: nat, d: nat)
    requires len >= 1 && d >= 1 && len % d == 0
    ensures len / d >= 1 && len == (len / d) * d
  {
    var q := len / d;
    assert len == q * d + len % d;
  }

  /**
   * Within one digit count `len`, trying exactly the divisors of `len` from
   * 2 to `maxDiv` finds exactly the incorrect ids.
   */
  lemma RepetitionsAmongAll(lo: nat, hi: nat, len: nat, ds: seq<nat>, maxDiv: nat)
    requires NumDigits(lo) == len == NumDigits(hi)
    requires forall d :: d in ds <==> 2 <= d <= maxDiv && d <= len && len % d == 0
    ensures RepetitionsAmong(lo, hi, len, ds) == InvalidIds(lo, hi, maxDiv)
  {
    forall n: nat | lo <= n <= hi
      ensures n in RepetitionsAmong(lo, hi, len, ds) <==> IsRepetition(n, maxDiv)
    {
      NumDigitsBetween(lo, n, hi);
      if d :| 2 <= d <= maxDiv && RepeatsWith(n, len, d) {
        DivisorBound(len, d);
        assert d in ds;
      }
    }
  }

  /** Multiples of `f` from `lo` below `x * f`, extended by one block of `f`, gain only `x * f`. */
  lemma MultiplesStep(lo: int, f: nat, x: nat)
    requires f > 0 && lo <= x * f
    ensures Multiples(lo, (x + 1) * f - 1, f) == Multiples(lo, x * f - 1, f) + {x * f}
  {
    MulSucc(x, f);
    DividesMultiple(f, x);
    forall n: nat | x * f <= n < (x + 1) * f && n % f == 0
      ensures n == x * f
    {
      var q := n / f;
      DivModUnique(n, f, q, 0);
      MulOrder(q, x, f);
      MulOrder(x, q, f);
    }
  }

  /** Inserting the multiple `x * f`, with `x` at least the rounded-up quotient, extends the multiples found by one block. */
  lemma InsertMultiple(lo: nat, f: nat, x: nat, results: set<nat>, found: set<nat>)
    requires f > 0 && lo / f + (if lo % f != 0 then 1 else 0) <= x
    requires found == results + Multiples(lo, x * f - 1, f)
    ensures found + {x * f} == results + Multiples(lo, (x + 1) * f - 1, f)
  {
    CeilQuotient(lo, f, x);
    MultiplesStep(lo, f, x);
  }

  /** The rounded-up quotient is the least multiplier of `f` reaching `lo`. */
  lemma CeilQuotient(lo: nat, f: nat, q: nat)
    requires f > 0
    ensures var minX := lo / f + (if lo % f != 0 then 1 else 0);
      lo <= q * f <==> minX <= q
  {
    var minX := lo / f + (if lo % f != 0 then 1 else 0);
    assert minX * f >= lo by {
      if lo % f != 0 {
        MulSucc(lo / f, f);
      }
    }
    if minX <= q {
      MulMono(minX, q, f);
    } else {
      if lo % f == 0 {
        MulMono(q, lo / f - 1, f);
        MulSucc(lo / f - 1, f);
      } else {
        MulMono(q, lo / f, f);
      }
    }
  }

  /** The rounded-down quotient is the greatest multiplier of `f` not past `hi`. */
  lemma FloorQuotient(hi: nat, f: nat, q: nat)
    requires f > 0
    ensures q * f <= hi <==> q <= hi / f
  {
    var maxX := hi / f;
    if q <= maxX {
      MulMono(q, maxX, f);
    } else {
      MulSucc(maxX, f);
      MulMono(maxX + 1, q, f);
    }
  }

  lemma MulStrict(q: nat, x: nat, f: nat)
    requires f > 0
    ensures q * f < x * f <==> q < x
  {
    if q < x {
      MulSucc(q, f);
      MulMono(q + 1, x, f);
    } else {
      MulMono(x, q, f);
    }
  }

  /** No multiple of `f` lies from `lo` to below the rounded-up quotient's multiple. */
  lemma MultiplesBelowCeil(lo: nat, f: nat)
    requires f > 0
    ensures var minX := lo / f + (if lo % f != 0 then 1 else 0);
      Multiples(lo, minX * f - 1, f) == {}
  {
    var minX := lo / f + (if lo % f != 0 then 1 else 0);
    forall n: nat | lo <= n <= minX * f - 1 && n % f == 0
      ensures false
    {
      DivModUnique(n, f, n / f, 0);
      CeilQuotient(lo, f, n / f);
      MulStrict(n / f, minX, f);
    }
  }

  /**
   * With `minX` the least and `maxX` the greatest multiplier of `f` in
   * `[lo, hi]` (as `get_incorrect_numbers` computes them), the multiples
   * below `x * f` for the `x` the loop ends on are exactly those in `[lo, hi]`.
   */
  lemma MultiplesWindow(lo: nat, hi: nat, f: nat, x: nat)
    requires f > 0
    requires var minX := lo / f + (if lo % f != 0 then 1 else 0);
      x == (if minX <= hi / f then hi / f + 1 else minX)
    ensures Multiples(lo, x * f - 1, f) == Multiples(lo, hi, f)
  {
    forall n: nat | n % f == 0
      ensures (lo <= n <= x * f - 1) <==> (lo <= n <= hi)
    {
      var q := n / f;
      DivModUnique(n, f, q, 0);
      CeilQuotient(lo, f, q);
      FloorQuotient(hi, f, q);
      MulStrict(q, x, f);
    }
  }

  /**
   * The innermost loop of `get_incorrect_numbers`: inserts `x * factor` for
   * every `x` from `lo / factor` rounded up to `hi / factor`, that is, every
   * multiple of `factor` in `[lo, hi]`.
   */
  method AddMultiples(lo: nat, hi: nat, factor: nat, results: set<nat>) returns (r: set<nat>)
    requires factor > 0
    ensures r == results + Multiples(lo, hi, factor)
  {
    r := results;
    var minX := lo / factor;
    if lo % factor != 0 {
      minX := minX + 1;
    }
    var maxX := hi / factor;
    var x := minX;
    MultiplesBelowCeil(lo, factor);
    while x <= maxX
      invariant minX <= x && (x <= maxX + 1 || x == minX)
      invariant r == results + Multiples(lo, x * factor - 1, factor)
    {
      InsertMultiple(lo, factor, x, results, r);
      r := r + {x * factor};
      x := x + 1;
    }
    MultiplesWindow(lo, hi, factor, x);
  }

  /**
   * Going through the ascending divisors of `len`, when the `i`-th is past
   * `maxDiv` or there is none left and none so far was, the ones before
   * it are exactly the divisors from 2 to `maxDiv`.
   */
  lemma DivisorsCutoff(len: nat, divisors: seq<nat>, i: nat, maxDiv: nat)
    requires divisors == GetDivisors(len) && i <= |divisors|
    requires forall j :: 0 <= j < i ==> divisors[j] <= maxDiv
    requires i < |divisors| ==> divisors[i] > maxDiv
    ensures forall d :: d in divisors[..i] <==> 2 <= d <= maxDiv && d <= len && len % d == 0
  {
    forall d
      ensures d in divisors[..i] <==> 2 <= d <= maxDiv && d <= len && len % d == 0
    {
      if d in divisors[..i] {
        var j :| 0 <= j < i && divisors[j] == d;
        assert d in divisors;
      }
      if d in divisors && d <= maxDiv {
        var j :| 0 <= j < |divisors| && divisors[j] == d;
        assert j < i;
      }
    }
  }

  /** For a divisor `d` of `len` from `get_divisors`, the source's factor is defined and is the repunit. */
  lemma DivisorFactor(len: nat, d: nat)
    requires d in GetDivisors(len)
    ensures len / d >= 1 && Pow10(len / d) - 1 > 0
    ensures (Pow10(len) - 1) / (Pow10(len / d) - 1) == RepUnit(len / d, d) > 0
    ensures len % d == 0 && d >= 1
  {
    DivisorQuotient(len, d);
    Pow10Mono(1, len / d);
    FactorIsRepUnit(len / d, d);
  }

  /**
   * The branch of `get_incorrect_numbers` for a range whose ends have the
   * same digit count `len`: for each divisor `d` of `len` up to `maxDiv`
   * (stopping at the first larger one), every multiple of the repunit of
   * `d` blocks in the range is inserted.
   */
  method AddRepetitions(iv: Interval, maxDiv: nat, results: set<nat>) returns (r: set<nat>)
    requires NumDigits(iv.start) == NumDigits(iv.end)
    ensures r == results + InvalidIds(iv.start, iv.end, maxDiv)
  {
    var startLen := NumDigits(iv.start);
    r := results;
    var divisors := GetDivisors(startLen);
    ghost var stopped := false;
    assert RepetitionsAmong(iv.start, iv.end, startLen, []) == {};
    assert divisors[..0] == [];
    for i := 0 to |divisors|
      invariant forall j :: 0 <= j < i ==> divisors[j] <= maxDiv
      invariant r == results + RepetitionsAmong(iv.start, iv.end, startLen, divisors[..i])
    {
      var div := divisors[i];
      if div > maxDiv {
        DivisorsCutoff(startLen, divisors, i, maxDiv);
        RepetitionsAmongAll(iv.start, iv.end, startLen, divisors[..i], maxDiv);
        stopped := true;
        break;
      }
      DivisorFactor(startLen, div);
      var partLen := startLen / div;
      var factor := (Pow10(startLen) - 1) / (Pow10(partLen) - 1);
      ghost var before := r;
      r := AddMultiples(iv.start, iv.end, factor, r);
      RepetitionsStep(iv.start, iv.end, startLen, divisors, i, results, before, r);
    }
    if !stopped {
      DivisorsCutoff(startLen, divisors, |divisors|, maxDiv);
      assert divisors[..|divisors|] == divisors;
      RepetitionsAmongAll(iv.start, iv.end, startLen, divisors, maxDiv);
    }
  }

  /**
   * `get_incorrect_numbers`: adds to `results` every incorrect id of the
   * range (both ends included). A range whose ends differ in digit count is
   * spread into pieces of one digit count each; within one digit count
   * `len`, an id made of `d` alike blocks is a multiple of the repunit of
   * `d` blocks, so every such multiple in the range is added.
   */
  method GetIncorrectNumbers(iv: Interval, maxDiv: nat, results: set<nat>) returns (r: set<nat>)
    ensures r == results + InvalidIds(iv.start, iv.end, maxDiv)
    decreases if NumDigits(iv.start) == NumDigits(iv.end) then 0 else 1
  {
    var startLen := NumDigits(iv.start);
    r := results;
    if startLen != NumDigits(iv.end) {
      var pieces := Spread(iv);
      if startLen > NumDigits(iv.end) {
        if iv.start <= iv.end {
          NumDigitsMono(iv.start, iv.end);
        }
        assert InvalidIds(iv.start, iv.end, maxDiv) == {};
      } else {
        var endLen := NumDigits(iv.end);
        for i := 0 to |pieces|
          invariant r == results + InvalidIds(iv.start, ReachedAfter(iv, startLen, endLen, i), maxDiv)
        {
          var piece := pieces[i];
          assert piece == Piece(iv, startLen, endLen, startLen + i);
          PieceDigits(iv, startLen, endLen, startLen + i);
          ghost var before := r;
          r := GetIncorrectNumbers(piece, maxDiv, r);
          SpreadPieceStep(iv, startLen, endLen, i, maxDiv, results, before, r);
        }
        SpreadStep(iv, startLen, endLen, |pieces| - 1);
      }
    } else {
      r := AddRepetitions(iv, maxDiv, results);
    }
  }

  /** Adding the incorrect ids of the next piece extends those found up to the end of that piece. */
  lemma SpreadPieceStep(iv: Interval, sd: nat, ed: nat, i: nat, maxDiv: nat,
                        results: set<nat>, before: set<nat>, after: set<nat>)
    requires sd == NumDigits(iv.start) && ed == NumDigits(iv.end)
    requires sd < ed && sd + i <= ed
    requires before == results + InvalidIds(iv.start, ReachedAfter(iv, sd, ed, i), maxDiv)
    requires var p := Piece(iv, sd, ed, sd + i); after == before + InvalidIds(p.start, p.end, maxDiv)
    ensures after == results + InvalidIds(iv.start, ReachedAfter(iv, sd, ed, i + 1), maxDiv)
  {
    var p := Piece(iv, sd, ed, sd + i);
    var a := ReachedAfter(iv, sd, ed, i);
    SpreadStep(iv, sd, ed, i);
    InvalidIdsSplit(iv.start, a, p.end, maxDiv);
  }

  /** The sum of a finite set of numbers. */
  ghost function SetSum(s: set<nat>): nat {
    if s == {} then 0 else var x :| x in s; x + SetSum(s - {x})
  }

  /** The sum does not depend on which element is taken out first. */
  lemma {:induction false} SetSumRemove(s: set<nat>, y: nat)
    requires y in s
    ensures SetSum(s) == y + SetSum(s - {y})
    decreases |s|
  {
    var x :| x in s && SetSum(s) == x + SetSum(s - {x});
    if x != y {
      SetSumRemove(s - {x}, y);
      SetSumRemove(s - {y}, x);
      assert s - {x} - {y} == s - {y} - {x};
    }
  }

  /** A bigger set of numbers has a sum at least as big. */
  lemma {:induction false} SetSumMono(a: set<nat>, b: set<nat>)
    requires a <= b
    ensures SetSum(a) <= SetSum(b)
    decreases |b|
  {
    if a != b {
      var y :| y in b && y !in a;
      SetSumRemove(b, y);
      SetSumMono(a, b - {y});
    }
  }

  /** `iter().sum()` over a set: its elements added up in some order. */
  method Sum(s: set<nat>) returns (total: nat)
    ensures total == SetSum(s)
  {
    total := 0;
    var rest := s;
    while rest != {}
      invariant total + SetSum(rest) == SetSum(s)
      decreases |rest|
    {
      var x :| x in rest;
      SetSumRemove(rest, x);
      total := total + x;
      rest := rest - {x};
    }
  }

  /** The incorrect ids of all the ranges, each counted once. */
  ghost function AllInvalid(ivs: seq<Interval>, maxDiv: nat): set<nat> {
    if ivs == [] then {}
    else AllInvalid(ivs[..|ivs| - 1], maxDiv) + InvalidIds(ivs[|ivs| - 1].start, ivs[|ivs| - 1].end, maxDiv)
  }

  /** An id is in the union exactly when some range holds it as an incorrect id. */
  lemma {:induction false} AllInvalidMembers(ivs: seq<Interval>, maxDiv: nat, n: nat)
    ensures n in AllInvalid(ivs, maxDiv) <==>
      IsRepetition(n, maxDiv) && exists i :: 0 <= i < |ivs| && ivs[i].start <= n <= ivs[i].end
  {
    if ivs != [] {
      var init := ivs[..|ivs| - 1];
      AllInvalidMembers(init, maxDiv, n);
      if exists i :: 0 <= i < |ivs| && ivs[i].start <= n <= ivs[i].end {
        var i :| 0 <= i < |ivs| && ivs[i].start <= n <= ivs[i].end;
        if i < |init| {
          assert init[i] == ivs[i];
        }
      }
      if exists i :: 0 <= i < |init| && init[i].start <= n <= init[i].end {
        var i :| 0 <= i < |init| && init[i].start <= n <= init[i].end;
        assert ivs[i] == init[i];
      }
    }
  }

  /** The incorrect ids of all ranges for `maxDiv`, gathered into one set as the parts do. */
  method CollectIncorrect(intervals: seq<Interval>, maxDiv: nat) returns (ids: set<nat>)
    ensures ids == AllInvalid(intervals, maxDiv)
  {
    ids := {};
    for i := 0 to |intervals|
      invariant ids == AllInvalid(intervals[..i], maxDiv)
    {
      assert intervals[..i + 1][..i] == intervals[..i];
      ids := GetIncorrectNumbers(intervals[i], maxDiv, ids);
    }
    assert intervals[..|intervals|] == intervals;
  }

  /** `part1`: the sum of the distinct ids made of one block repeated twice. */
  method Part1(intervals: seq<Interval>) returns (sum: nat)
    ensures sum == SetSum(AllInvalid(intervals, 2))
  {
    var ids := CollectIncorrect(intervals, 2);
    sum := Sum(ids);
  }

  /** `part2`: the sum of the distinct ids made of one block repeated two to ten times. */
  method Part2(intervals: seq<Interval>) returns (sum: nat)
    ensures sum == SetSum(AllInvalid(intervals, 10))
  {
    var ids := CollectIncorrect(intervals, 10);
    sum := Sum(ids);
  }

  /** Allowing more repetitions only adds incorrect ids, so part 2's answer is at least part 1's. */
  lemma {:induction false} Part1AtMostPart2(ivs: seq<Interval>)
    ensures AllInvalid(ivs, 2) <= AllInvalid(ivs, 10)
    ensures SetSum(AllInvalid(ivs, 2)) <= SetSum(AllInvalid(ivs, 10))
  {
    forall n | n in AllInvalid(ivs, 2) ensures n in AllInvalid(ivs, 10) {
      AllInvalidMembers(ivs, 2, n);
      AllInvalidMembers(ivs, 10, n);
    }
    SetSumMono(AllInvalid(ivs, 2), AllInvalid(ivs, 10));
  }

  /** `t` written `k` times in a row. */
  function Repeat(t: string, k: nat): (r: string)
    ensures |r| == |t| * k
  {
    if k == 0 then [] else Repeat(t, k - 1) + t
  }

  /** The text of `n` is one block repeated `d` times. */
  predicate RepeatsText(s: string, d: nat) {
    d >= 1 && |s| % d == 0 && s == Repeat(s[..|s| / d], d)
  }

  lemma Distribute(v: int, r: int, big: int, pv: int, total: int, next: int)
    requires pv == v * r && total == pv * big + v && next == r * big + 1
    ensures total == v * next
  {
    assert v * (r * big + 1) == (v * r) * big + v;
  }

  /** The value of a block repeated `k` times is the block's value times the repunit. */
  lemma {:induction false} DigitsValueRepeat(t: string, k: nat)
    requires Text.AllDigits(t)
    ensures Text.AllDigits(Repeat(t, k))
    ensures Text.DigitsValue(Repeat(t, k)) == Text.DigitsValue(t) * RepUnit(|t|, k)
  {
    if k > 0 {
      var prev := Repeat(t, k - 1);
      DigitsValueRepeat(t, k - 1);
      Text.DigitsValueAppend(prev, t);
      assert Repeat(t, k) == prev + t;
      Distribute(Text.DigitsValue(t), RepUnit(|t|, k - 1), Pow10(|t|),
        Text.DigitsValue(prev), Text.DigitsValue(prev + t), RepUnit(|t|, k));
    }
  }

  lemma {:induction false} NatToStringLength(n: nat)
    ensures |Text.NatToString(n)| == NumDigits(n)
  {
    if n >= 10 {
      NatToStringLength(n / 10);
    }
  }

  /** `x` written with exactly `p` digits, leading zeros included. */
  function ZeroPad(x: nat, p: nat): (t: string)
    requires x < Pow10(p)
    ensures |t| == p && Text.AllDigits(t) && Text.DigitsValue(t) == x
  {
    if p == 0 then []
    else
      var t := ZeroPad(x / 10, p - 1) + [Text.DigitChar(x % 10)];
      assert t[..|t| - 1] == ZeroPad(x / 10, p - 1);
      t
  }

  /** Digit texts of the same length and value are the same text. */
  lemma {:induction false} DigitsValueInjective(a: string, b: string)
    requires Text.AllDigits(a) && Text.AllDigits(b) && |a| == |b|
    requires Text.DigitsValue(a) == Text.DigitsValue(b)
    ensures a == b
    decreases |a|
  {
    if a != [] {
      var a', b' := a[..|a| - 1], b[..|b| - 1];
      var ca, cb := Text.DigitValue(a[|a| - 1]), Text.DigitValue(b[|b| - 1]);
      DivModUnique(Text.DigitsValue(a), 10, Text.DigitsValue(a'), ca);
      DivModUnique(Text.DigitsValue(b), 10, Text.DigitsValue(b'), cb);
      DigitsValueInjective(a', b');
      assert a[|a| - 1] == b[|b| - 1];
      assert a == a' + [a[|a| - 1]] && b == b' + [b[|b| - 1]];
    }
  }

  lemma ProductBound(x: nat, big: nat, f: nat, all: nat)
    requires big >= 1 && f >= 1 && (big - 1) * f == all - 1 && x * f < all
    ensures x < big
  {
    MulOrder(big, x, f);
  }

  /** A multiple of the repunit of `d` blocks of `p` digits below 10^(p*d) has a multiplier below 10^p. */
  lemma MultiplierBound(x: nat, p: nat, d: nat)
    requires d >= 1 && x * RepUnit(p, d) < Pow10(p * d)
    ensures x < Pow10(p)
  {
    RepUnitTimes(p, d);
    ProductBound(x, Pow10(p), RepUnit(p, d), Pow10(p * d));
  }

  /**
   * The arithmetic test is the textual one: an id counts as incorrect for
   * `maxDiv` exactly when its decimal text is one block written `d` times
   * for some `d` from 2 to `maxDiv`.
   */
  lemma IncorrectIdsAreRepeatedBlocks(n: nat, maxDiv: nat)
    ensures IsRepetition(n, maxDiv) <==>
      exists d :: 2 <= d <= maxDiv && RepeatsText(Text.NatToString(n), d)
  {
    var s, len := Text.NatToString(n), NumDigits(n);
    NatToStringLength(n);
    Text.DigitsValueOfNatToString(n);
    if IsRepetition(n, maxDiv) {
      var d :| 2 <= d <= maxDiv && RepeatsWith(n, len, d);
      RepeatsWithText(n, d);
    }
    if d :| 2 <= d <= maxDiv && RepeatsText(s, d) {
      TextRepeatsWith(n, d);
    }
  }

  /** An id that passes the arithmetic test for `d` blocks is `d` copies of its first block. */
  lemma RepeatsWithText(n: nat, d: nat)
    requires d >= 2 && RepeatsWith(n, NumDigits(n), d)
    ensures RepeatsText(Text.NatToString(n), d)
  {
    var s, len := Text.NatToString(n), NumDigits(n);
    NatToStringLength(n);
    Text.DigitsValueOfNatToString(n);
    DivisorQuotient(len, d);
    var p := len / d;
    var f := RepUnit(p, d);
    var x := n / f;
    DivExact(n, f);
    assert len == p * d && x * f == n && n < Pow10(len);
    MultiplierBound(x, p, d);
    var t := ZeroPad(x, p);
    DigitsValueRepeat(t, d);
    assert |Repeat(t, d)| == |s| && Text.DigitsValue(Repeat(t, d)) == n;
    DigitsValueInjective(s, Repeat(t, d));
    assert s[..p] == t by {
      RepeatPrefix(t, d);
    }
  }

  lemma RepeatPrefix(t: string, d: nat)
    requires d >= 1
    ensures Repeat(t, d)[..|t|] == t
  {
    if d > 1 {
      RepeatPrefix(t, d - 1);
      assert Repeat(t, d)[..|t|] == Repeat(t, d - 1)[..|t|];
    }
  }

  /** An id whose text is `d` copies of a block passes the arithmetic test for `d`. */
  lemma TextRepeatsWith(n: nat, d: nat)
    requires RepeatsText(Text.NatToString(n), d)
    ensures RepeatsWith(n, NumDigits(n), d)
  {
    var s, len := Text.NatToString(n), NumDigits(n);
    var q := |s| / d;
    DivAtMost(|s|, d);
    var t := s[..q];
    NatToStringLength(n);
    Text.DigitsValueOfNatToString(n);
    assert Text.AllDigits(t) by {
      assert forall i :: 0 <= i < |t| ==> t[i] == s[i];
    }
    DigitsValueRepeat(t, d);
    DividesMultiple(RepUnit(|t|, d), Text.DigitsValue(t));
  }
}

=== FILE: day03.dfy ===
/**
 * Day 3: battery banks, one joltage digit per battery. From each bank the
 * largest number of `numLen` digits is formed by switching on batteries
 * in their order (part 1: two digits, part 2: twelve), and the answers are
 * summed. `get_biggest_number` finds it with a monotonic stack that may
 * throw away at most `len - numLen` digits.
 */
module Day03 {
  import opened Wrappers
  import Text
  import opened NumUtils

  /** Every entry is a decimal digit. */
  predicate IsDigits(b: seq<nat>) {
    forall i :: 0 <= i < |b| ==> b[i] < 10
  }

  /** `char::to_digit(10)` on every character; nothing when one is not a digit. */
  function ParseDigits(s: string): (r: Option<seq<nat>>)
    ensures r.Some? <==> Text.AllDigits(s)
    ensures r.Some? ==> |r.value| == |s| && IsDigits(r.value)
    ensures r.Some? ==> forall i :: 0 <= i < |s| ==> r.value[i] == Text.DigitValue(s[i])
  {
    if s == [] then Some([])
    else if !Text.IsDigit(s[0]) then None
    else
      match ParseDigits(s[1..])
      case None => None
      case Some(rest) => Some([Text.DigitValue(s[0])] + rest)
  }

  /** `BatteryBank::from_str`: the digits of the trimmed line, `None` when one is not a digit. */
  function ParseBank(line: string): (r: Option<seq<nat>>)
    ensures r.Some? <==> Text.AllDigits(Text.Trim(line))
    ensures r.Some? ==> |r.value| == |Text.Trim(line)|
    ensures r.Some? ==> forall i :: 0 <= i < |r.value| ==> r.value[i] == Text.DigitValue(Text.Trim(line)[i])
  {
    ParseDigits(Text.Trim(line))
  }

  /** Every line parsed as a bank; nothing when some line does not parse. */
  function ParseBanks(lines: seq<string>): (r: Option<seq<seq<nat>>>)
    ensures r.Some? ==> |r.value| == |lines|
    ensures r.Some? ==> forall i :: 0 <= i < |lines| ==> ParseBank(lines[i]) == Some(r.value[i])
    ensures r.None? ==> exists i :: 0 <= i < |lines| && ParseBank(lines[i]).None?
  {
    if lines == [] then Some([])
    else
      match ParseBank(lines[0])
      case None => None
      case Some(bank) =>
        match ParseBanks(lines[1..])
        case None => None
        case Some(rest) => Some([bank] + rest)
  }

  /** `read_and_parse` over the text of the input: one bank per line, `None` when a line does not parse. */
  function ReadAndParse(input: string): (r: Option<seq<seq<nat>>>)
    ensures r.Some? ==> |r.value| == |Text.Lines(input)|
    ensures r.Some? ==> forall i :: 0 <= i < |Text.Lines(input)| ==> ParseBank(Text.Lines(input)[i]) == Some(r.value[i])
    ensures r.None? ==> exists i :: 0 <= i < |Text.Lines(input)| && ParseBank(Text.Lines(input)[i]).None?
  {
    ParseBanks(Text.Lines(input))
  }

  /** The number written by the digits `ds`, as `fold(0, |acc, d| acc * 10 + d)` computes it. */
  function Value(ds: seq<nat>): nat {
    if ds == [] then 0 else Value(ds[..|ds| - 1]) * 10 + ds[|ds| - 1]
  }

  /** `k` digits write a number below 10^k. */
  lemma {:induction false} ValueBound(ds: seq<nat>)
    requires IsDigits(ds)
    ensures Value(ds) < Pow10(|ds|)
  {
    if ds != [] {
      ValueBound(ds[..|ds| - 1]);
    }
  }

  /** Writing `a` and then `c` is `a` shifted by the length of `c`, plus `c`. */
  lemma {:induction false} ValueAppend(a: seq<nat>, c: seq<nat>)
    ensures Value(a + c) == Value(a) * Pow10(|c|) + Value(c)
    decreases |c|
  {
    if c == [] {
      assert a + c == a;
    } else {
      var c' := c[..|c| - 1];
      assert (a + c)[..|a + c| - 1] == a + c';
      ValueAppend(a, c');
      var big := Pow10(|c'|);
      assert Value(a + c) == (Value(a) * big + Value(c')) * 10 + c[|c| - 1];
      assert (Value(a) * big + Value(c')) * 10 == Value(a) * (big * 10) + Value(c') * 10;
    }
  }

  /** `a` is at least `t` in dictionary order (both of one length). */
  predicate LexGe(a: seq<nat>, t: seq<nat>)
    requires |a| == |t|
  {
    a == t || exists u :: 0 <= u < |a| && a[..u] == t[..u] && a[u] > t[u]
  }

  /** A larger head, shifted past a tail shorter than the shift, stays larger. */
  lemma ShiftedAhead(ha: nat, ra: nat, ht: nat, rt: nat, big: nat)
    requires ha > ht && rt < big
    ensures ha * big + ra >= ht * big + rt
  {
    MulMono(ht + 1, ha, big);
    MulSucc(ht, big);
  }

  /** Digits that agree before `u` and are ahead at `u` write a larger number up to `u`. */
  lemma HeadAhead(a: seq<nat>, t: seq<nat>, u: nat)
    requires u < |a| && u < |t| && a[..u] == t[..u] && a[u] > t[u]
    ensures Value(a[..u + 1]) > Value(t[..u + 1])
  {
    assert a[..u + 1][..u] == a[..u];
    assert t[..u + 1][..u] == t[..u];
  }

  /** Digit texts of one length that first differ at `u`, ahead there, are ahead in value. */
  lemma AheadAt(a: seq<nat>, t: seq<nat>, u: nat)
    requires |a| == |t| && IsDigits(t)
    requires u < |a| && a[..u] == t[..u] && a[u] > t[u]
    ensures Value(a) >= Value(t)
  {
    var ha, ht, ra, rt := a[..u + 1], t[..u + 1], a[u + 1..], t[u + 1..];
    assert a == ha + ra && t == ht + rt;
    ValueAppend(ha, ra);
    ValueAppend(ht, rt);
    HeadAhead(a, t, u);
    assert IsDigits(rt) by {
      assert forall i :: 0 <= i < |rt| ==> rt[i] == t[u + 1 + i];
    }
    ValueBound(rt);
    ShiftedAhead(Value(ha), Value(ra), Value(ht), Value(rt), Pow10(|ra|));
  }

  /** For digit texts of one length, dictionary order is numeric order. */
  lemma LexGeValue(a: seq<nat>, t: seq<nat>)
    requires |a| == |t| && IsDigits(a) && IsDigits(t) && LexGe(a, t)
    ensures Value(a) >= Value(t)
  {
    if a != t {
      var u :| 0 <= u < |a| && a[..u] == t[..u] && a[u] > t[u];
      AheadAt(a, t, u);
    }
  }

  /** `idx` picks positions below `n`, in increasing order. */
  predicate IsIndexSeq(idx: seq<nat>, n: nat) {
    (forall t :: 0 <= t < |idx| ==> idx[t] < n) &&
    (forall s, t :: 0 <= s < t < |idx| ==> idx[s] < idx[t])
  }

  /** The entries of `b` at the positions `idx`: a subsequence of `b`. */
  function Pick(b: seq<nat>, idx: seq<nat>): (r: seq<nat>)
    requires forall t :: 0 <= t < |idx| ==> idx[t] < |b|
    ensures |r| == |idx| && forall t :: 0 <= t < |idx| ==> r[t] == b[idx[t]]
  {
    seq(|idx|, t requires 0 <= t < |idx| => b[idx[t]])
  }

  lemma PickDigits(b: seq<nat>, idx: seq<nat>)
    requires IsDigits(b) && forall t :: 0 <= t < |idx| ==> idx[t] < |b|
    ensures IsDigits(Pick(b, idx))
  {
  }

  /**
   * The largest number that `k` of the digits of `b`, kept in their order,
   * can write: the last digit is either left out or written last.
   */
  function Best(b: seq<nat>, k: nat): nat
    requires k <= |b|
    decreases |b|
  {
    if k == 0 then 0
    else if k == |b| then Value(b)
    else
      var n := |b| - 1;
      var skip, take := Best(b[..n], k), Best(b[..n], k - 1) * 10 + b[n];
      if skip < take then take else skip
  }

  /** Increasing positions below `n`, `n` of them, are all of `0..n`. */
  lemma FullIndex(idx: seq<nat>, n: nat)
    requires IsIndexSeq(idx, n) && |idx| == n
    ensures forall t :: 0 <= t < n ==> idx[t] == t
  {
    forall t | 0 <= t < n ensures idx[t] == t {
      IndexAtLeast(idx, n, t);
      IndexAtMost(idx, n, t);
    }
  }

  lemma {:induction false} IndexAtLeast(idx: seq<nat>, n: nat, t: nat)
    requires IsIndexSeq(idx, n) && t < |idx|
    ensures idx[t] >= t
  {
    if t > 0 {
      IndexAtLeast(idx, n, t - 1);
    }
  }

  lemma {:induction false} IndexAtMost(idx: seq<nat>, n: nat, t: nat)
    requires IsIndexSeq(idx, n) && t < |idx|
    ensures idx[t] + |idx| - t <= n
    decreases |idx| - t
  {
    if t + 1 < |idx| {
      IndexAtMost(idx, n, t + 1);
    }
  }

  /** There are no more increasing positions below `n` than `n`. */
  lemma IndexSeqLength(idx: seq<nat>, n: nat)
    requires IsIndexSeq(idx, n)
    ensures |idx| <= n
  {
    if idx != [] {
      IndexAtMost(idx, n, 0);
    }
  }

  /** Leaving out the last position of an index sequence. */
  lemma IndexInit(idx: seq<nat>, n: nat)
    requires IsIndexSeq(idx, n) && idx != []
    ensures IsIndexSeq(idx[..|idx| - 1], idx[|idx| - 1])
  {
  }

  /** The positions `0..n` in order. */
  function Positions(n: nat): (idx: seq<nat>)
    ensures |idx| == n && forall t :: 0 <= t < n ==> idx[t] == t
  {
    if n == 0 then [] else Positions(n - 1) + [n - 1]
  }

  /** Picking from all of `b` what lies before its last entry, then the last entry. */
  lemma PickSnoc(b: seq<nat>, init: seq<nat>)
    requires b != [] && forall t :: 0 <= t < |init| ==> init[t] < |b| - 1
    ensures Pick(b, init + [|b| - 1]) == Pick(b[..|b| - 1], init) + [b[|b| - 1]]
  {
  }

  /** Positions below `n` pick the same from `b` as from its first `n` entries. */
  lemma PickPrefix(b: seq<nat>, n: nat, idx: seq<nat>)
    requires n <= |b| && forall t :: 0 <= t < |idx| ==> idx[t] < n
    ensures Pick(b, idx) == Pick(b[..n], idx)
  {
  }

  /** The digits at `init` then the last digit of `b` write the digits at `init` shifted, plus the last digit. */
  lemma PickLastValue(b: seq<nat>, init: seq<nat>)
    requires b != [] && forall t :: 0 <= t < |init| ==> init[t] < |b| - 1
    ensures Value(Pick(b, init + [|b| - 1])) == Value(Pick(b[..|b| - 1], init)) * 10 + b[|b| - 1]
  {
    var ps := Pick(b, init + [|b| - 1]);
    PickSnoc(b, init);
    assert ps[..|ps| - 1] == Pick(b[..|b| - 1], init);
  }

  /** A choice that takes the last digit writes at most `Best` when its first `k - 1` picks do. */
  lemma UpperBoundTake(b: seq<nat>, k: nat, idx: seq<nat>)
    requires 0 < k < |b| && |idx| == k && IsIndexSeq(idx, |b|) && idx[k - 1] == |b| - 1
    requires IsIndexSeq(idx[..k - 1], |b| - 1)
    requires Value(Pick(b[..|b| - 1], idx[..k - 1])) <= Best(b[..|b| - 1], k - 1)
    ensures Value(Pick(b, idx)) <= Best(b, k)
  {
    var init := idx[..k - 1];
    PickLastValue(b, init);
    assert idx == init + [|b| - 1];
  }

  /** A choice that leaves out the last digit writes at most `Best` when it does without that digit. */
  lemma UpperBoundSkip(b: seq<nat>, k: nat, idx: seq<nat>)
    requires 0 < k < |b| && |idx| == k && IsIndexSeq(idx, |b| - 1)
    requires Value(Pick(b[..|b| - 1], idx)) <= Best(b[..|b| - 1], k)
    ensures Value(Pick(b, idx)) <= Best(b, k)
  {
    PickPrefix(b, |b| - 1, idx);
  }

  /** No choice of `k` digits of `b` writes a number above `Best(b, k)`. */
  lemma {:induction false} BestIsUpperBound(b: seq<nat>, k: nat, idx: seq<nat>)
    requires IsIndexSeq(idx, |b|) && |idx| == k
    ensures k <= |b|
    ensures Value(Pick(b, idx)) <= Best(b, k)
    decreases |b|
  {
    IndexSeqLength(idx, |b|);
    if k == 0 {
      assert Pick(b, idx) == [];
    } else if k == |b| {
      FullIndex(idx, |b|);
      assert Pick(b, idx) == b;
      assert Best(b, k) == Value(b);
    } else {
      var n := |b| - 1;
      var init := idx[..k - 1];
      IndexInit(idx, |b|);
      if idx[k - 1] == n {
        BestIsUpperBound(b[..n], k - 1, init);
        UpperBoundTake(b, k, idx);
      } else {
        assert IsIndexSeq(idx, n);
        BestIsUpperBound(b[..n], k, idx);
        UpperBoundSkip(b, k, idx);
      }
    }
  }

  /** Positions of `k` digits of `b` that write `Best(b, k)`. */
  ghost function BestWitness(b: seq<nat>, k: nat): (idx: seq<nat>)
    requires k <= |b|
    ensures IsIndexSeq(idx, |b|) && |idx| == k && Value(Pick(b, idx)) == Best(b, k)
    decreases |b|
  {
    if k == 0 then []
    else if k == |b| then
      var idx := Positions(|b|);
      assert Pick(b, idx) == b;
      idx
    else
      var n := |b| - 1;
      if Best(b[..n], k) < Best(b[..n], k - 1) * 10 + b[n] then
        var init := BestWitness(b[..n], k - 1);
        WitnessTake(b, k, init);
        init + [n]
      else
        var idx := BestWitness(b[..n], k);
        WitnessSkip(b, k, idx);
        idx
  }

  /** When taking the last digit is better, a best choice before it, then the last digit, is a best choice. */
  lemma WitnessTake(b: seq<nat>, k: nat, init: seq<nat>)
    requires 0 < k < |b| && |init| == k - 1 && IsIndexSeq(init, |b| - 1)
    requires Value(Pick(b[..|b| - 1], init)) == Best(b[..|b| - 1], k - 1)
    requires Best(b[..|b| - 1], k) < Best(b[..|b| - 1], k - 1) * 10 + b[|b| - 1]
    ensures IsIndexSeq(init + [|b| - 1], |b|)
    ensures Value(Pick(b, init + [|b| - 1])) == Best(b, k)
  {
    PickLastValue(b, init);
  }

  /** When leaving out the last digit is no worse, a best choice without it is a best choice. */
  lemma WitnessSkip(b: seq<nat>, k: nat, idx: seq<nat>)
    requires 0 < k < |b| && |idx| == k && IsIndexSeq(idx, |b| - 1)
    requires Value(Pick(b[..|b| - 1], idx)) == Best(b[..|b| - 1], k)
    requires Best(b[..|b| - 1], k) >= Best(b[..|b| - 1], k - 1) * 10 + b[|b| - 1]
    ensures IsIndexSeq(idx, |b|)
    ensures Value(Pick(b, idx)) == Best(b, k)
  {
    PickPrefix(b, |b| - 1, idx);
  }

  /** `Best(b, k)` is the greatest number `k` digits of `b` write, and some `k` digits write it. */
  lemma BestIsMaximum(b: seq<nat>, k: nat)
    requires k <= |b|
    ensures forall idx :: IsIndexSeq(idx, |b|) && |idx| == k ==> Value(Pick(b, idx)) <= Best(b, k)
    ensures exists idx :: IsIndexSeq(idx, |b|) && |idx| == k && Value(Pick(b, idx)) == Best(b, k)
  {
    forall idx | IsIndexSeq(idx, |b|) && |idx| == k ensures Value(Pick(b, idx)) <= Best(b, k) {
      BestIsUpperBound(b, k, idx);
    }
    var w := BestWitness(b, k);
  }

  predicate NonIncreasing(s: seq<nat>) {
    forall a, c :: 0 <= a < c < |s| ==> s[a] >= s[c]
  }

  /**
   * The stack `st` beats the competitor `t` when, compared position by
   * position, `st` is ahead at the first difference within both, or `t`
   * is no longer than `st` and is a prefix of it.
   */
  predicate Beats(st: seq<nat>, t: seq<nat>) {
    (|t| <= |st| && st[..|t|] == t) ||
    exists u :: 0 <= u < |st| && u < |t| && st[..u] == t[..u] && st[u] > t[u]
  }

  /**
   * Popping the entries from `j` on, all smaller than `x`, and pushing `x`
   * keeps the stack ahead of a competitor that does not use `x`.
   */
  lemma StepKeep(st: seq<nat>, j: nat, x: nat, t: seq<nat>)
    requires j <= |st| && forall q :: j <= q < |st| ==> st[q] < x
    requires Beats(st, t)
    ensures Beats(st[..j] + [x], t)
  {
    var st' := st[..j] + [x];
    if |t| <= |st| && st[..|t|] == t {
      if j < |t| {
        assert st'[..j] == t[..j] && st'[j] > t[j];
      } else {
        assert st'[..|t|] == t;
      }
    } else {
      var u :| 0 <= u < |st| && u < |t| && st[..u] == t[..u] && st[u] > t[u];
      if u < j {
        assert st'[..u] == t[..u] && st'[u] > t[u];
      } else {
        assert st[..j] == t[..j] && st[j] >= t[j];
        assert st'[..j] == t[..j] && st'[j] > t[j];
      }
    }
  }

  /**
   * Popping the entries from `j` on, all smaller than `x`, and pushing `x`
   * keeps the stack ahead of a competitor that ends with `x`. When the
   * competitor before `x` is shorter than what is kept, the kept part is
   * non-increasing and ends at least at `x`.
   */
  lemma StepPush(st: seq<nat>, j: nat, x: nat, t: seq<nat>)
    requires j <= |st| && forall q :: j <= q < |st| ==> st[q] < x
    requires Beats(st, t)
    requires |t| < j ==> x <= st[j - 1] && NonIncreasing(st[..j])
    ensures Beats(st[..j] + [x], t + [x])
  {
    if |t| <= |st| && st[..|t|] == t {
      StepPushPrefix(st, j, x, t);
    } else {
      var u :| 0 <= u < |st| && u < |t| && st[..u] == t[..u] && st[u] > t[u];
      StepPushAhead(st, j, x, t, u);
    }
  }

  /** `StepPush` for a competitor that is a prefix of the stack. */
  lemma StepPushPrefix(st: seq<nat>, j: nat, x: nat, t: seq<nat>)
    requires j <= |st| && forall q :: j <= q < |st| ==> st[q] < x
    requires |t| <= |st| && st[..|t|] == t
    requires |t| < j ==> x <= st[j - 1] && NonIncreasing(st[..j])
    ensures Beats(st[..j] + [x], t + [x])
  {
    var st', t' := st[..j] + [x], t + [x];
    if |t| < j {
      assert st'[..|t|] == t'[..|t|];
      assert st[..j][|t|] >= st[..j][j - 1];
      if st[|t|] == x {
        assert st'[..|t'|] == t';
      } else {
        assert st'[|t|] > t'[|t|];
      }
    } else if |t| == j {
      assert st' == t';
    } else {
      assert st'[..j] == t'[..j] && st'[j] > t'[j];
    }
  }

  /** `StepPush` for a competitor that the stack is ahead of at `u`. */
  lemma StepPushAhead(st: seq<nat>, j: nat, x: nat, t: seq<nat>, u: nat)
    requires j <= |st| && forall q :: j <= q < |st| ==> st[q] < x
    requires u < |st| && u < |t| && st[..u] == t[..u] && st[u] > t[u]
    ensures Beats(st[..j] + [x], t + [x])
  {
    var st', t' := st[..j] + [x], t + [x];
    if u < j {
      assert st'[..u] == st[..u] && t'[..u] == t[..u];
      assert st'[u] > t'[u];
    } else {
      assert st[..j] == t[..j] && st[j] >= t[j];
      assert st'[..j] == t'[..j] && st'[j] > t'[j];
    }
  }

  /**
   * After the first `i` digits, the stack beats every subsequence of them
   * that leaves out at most `drop` digits: every subsequence that could
   * still grow into `|b| - drop` digits.
   */
  ghost predicate Dominates(b: seq<nat>, st: seq<nat>, i: nat, drop: nat)
    requires i <= |b|
  {
    forall idx :: IsIndexSeq(idx, i) && |idx| + drop >= i ==> Beats(st, Pick(b, idx))
  }

  /** A competitor ending with the `i`-th digit is, before that digit, a competitor the stack already beats. */
  lemma CompetitorBefore(b: seq<nat>, st: seq<nat>, i: nat, drop: nat, idx: seq<nat>)
    requires i < |b| && Dominates(b, st, i, drop)
    requires IsIndexSeq(idx, i + 1) && |idx| + drop >= i + 1 && idx != [] && idx[|idx| - 1] == i
    ensures Pick(b, idx) == Pick(b, idx[..|idx| - 1]) + [b[i]]
    ensures Beats(st, Pick(b, idx[..|idx| - 1]))
  {
    var init := idx[..|idx| - 1];
    IndexInit(idx, i + 1);
    assert idx == init + [i];
  }

  /**
   * A competitor of `m` digits before the new one, shorter than what is
   * kept, can only occur where the kept part is non-increasing and ends at
   * least at the new digit `x`.
   */
  lemma StackOrder(st: seq<nat>, j: nat, i: nat, drop: nat, popped: nat, x: nat, m: nat)
    requires j <= |st| && |st| + popped == i && popped + |st| - j <= drop
    requires j == 0 || x <= st[j - 1] || popped + |st| - j == drop
    requires popped < drop ==> NonIncreasing(st)
    requires m + 1 + drop >= i + 1
    ensures m < j ==> x <= st[j - 1] && NonIncreasing(st[..j])
  {
    if m < j {
      assert popped < drop;
      assert NonIncreasing(st[..j]) by {
        forall a, c | 0 <= a < c < j ensures st[..j][a] >= st[..j][c] {
          assert st[a] >= st[c];
        }
      }
    }
  }

  /** A competitor that ends with the new digit stays behind the new stack. */
  lemma TakeStep(b: seq<nat>, st: seq<nat>, j: nat, i: nat, drop: nat, popped: nat, idx: seq<nat>)
    requires i < |b| && j <= |st| && |st| + popped == i && popped + |st| - j <= drop
    requires forall q :: j <= q < |st| ==> st[q] < b[i]
    requires j == 0 || b[i] <= st[j - 1] || popped + |st| - j == drop
    requires popped < drop ==> NonIncreasing(st)
    requires Dominates(b, st, i, drop)
    requires IsIndexSeq(idx, i + 1) && |idx| + drop >= i + 1 && idx != [] && idx[|idx| - 1] == i
    ensures Beats(st[..j] + [b[i]], Pick(b, idx))
  {
    var init := idx[..|idx| - 1];
    var t := Pick(b, init);
    CompetitorBefore(b, st, i, drop, idx);
    StackOrder(st, j, i, drop, popped, b[i], |t|);
    StepPush(st, j, b[i], t);
  }

  /** One step of the outer loop keeps the stack ahead of every competitor. */
  lemma DominanceStep(b: seq<nat>, st: seq<nat>, j: nat, i: nat, drop: nat, popped: nat)
    requires i < |b| && j <= |st| && |st| + popped == i && popped + |st| - j <= drop
    requires forall q :: j <= q < |st| ==> st[q] < b[i]
    requires j == 0 || b[i] <= st[j - 1] || popped + |st| - j == drop
    requires popped < drop ==> NonIncreasing(st)
    requires Dominates(b, st, i, drop)
    ensures Dominates(b, st[..j] + [b[i]], i + 1, drop)
  {
    var st' := st[..j] + [b[i]];
    forall idx | IsIndexSeq(idx, i + 1) && |idx| + drop >= i + 1
      ensures Beats(st', Pick(b, idx))
    {
      if idx == [] {
        assert st'[..0] == Pick(b, idx);
      } else if idx[|idx| - 1] < i {
        assert IsIndexSeq(idx, i);
        StepKeep(st, j, b[i], Pick(b, idx));
      } else {
        TakeStep(b, st, j, i, drop, popped, idx);
      }
    }
  }

  /** Before any digit, only the empty competitor exists, and the empty stack beats it. */
  lemma DominatesStart(b: seq<nat>, drop: nat)
    ensures Dominates(b, [], 0, drop)
  {
    forall idx | IsIndexSeq(idx, 0) && |idx| + drop >= 0 ensures Beats([], Pick(b, idx)) {
      IndexSeqLength(idx, 0);
    }
  }

  /** Pushing a digit no larger than the kept top keeps the stack non-increasing. */
  lemma PushKeepsOrder(st: seq<nat>, j: nat, x: nat)
    requires NonIncreasing(st) && j <= |st| && (j == 0 || x <= st[j - 1])
    ensures NonIncreasing(st[..j] + [x])
  {
  }

  /** Keeping the first `j` positions and adding position `i`. */
  lemma PushIndex(b: seq<nat>, ix: seq<nat>, j: nat, i: nat)
    requires IsIndexSeq(ix, i) && j <= |ix| && i < |b|
    ensures IsIndexSeq(ix[..j] + [i], i + 1)
    ensures Pick(b, ix[..j] + [i]) == Pick(b, ix)[..j] + [b[i]]
  {
  }

  /**
   * The inner loop of `get_biggest_number`: pops the entries on top of the
   * stack that are smaller than `x` while pops remain. What is left is a
   * prefix of the stack whose top, if any, is not smaller than `x`, unless
   * the pops ran out.
   */
  method PopSmaller(stack: seq<nat>, remove: nat, x: nat) returns (kept: seq<nat>, left: nat)
    ensures |kept| <= |stack| && kept == stack[..|kept|]
    ensures left + (|stack| - |kept|) == remove
    ensures forall q :: |kept| <= q < |stack| ==> stack[q] < x
    ensures kept == [] || left == 0 || x <= kept[|kept| - 1]
  {
    kept, left := stack, remove;
    while kept != [] && left > 0 && x > kept[|kept| - 1]
      invariant |kept| <= |stack| && kept == stack[..|kept|]
      invariant left + (|stack| - |kept|) == remove
      invariant forall q :: |kept| <= q < |stack| ==> stack[q] < x
      decreases |kept|
    {
      kept := kept[..|kept| - 1];
      left := left - 1;
    }
  }

  /**
   * The invariant of the outer loop after `i` digits, with `remove` pops
   * left of `drop`: the stack is the subsequence at positions `ix`, it is
   * non-increasing while pops remain, and it beats every competitor.
   */
  ghost predicate StackInvariant(b: seq<nat>, stack: seq<nat>, ix: seq<nat>, i: nat, drop: nat, remove: nat)
    requires i <= |b|
  {
    remove <= drop && |stack| + (drop - remove) == i &&
    |ix| == |stack| && IsIndexSeq(ix, i) && stack == Pick(b, ix) &&
    (remove > 0 ==> NonIncreasing(stack)) &&
    Dominates(b, stack, i, drop)
  }

  /** One step of the outer loop keeps the invariant of `get_biggest_number`. */
  lemma PushStep(b: seq<nat>, st: seq<nat>, ix: seq<nat>, kept: seq<nat>, i: nat, drop: nat, remove0: nat, remove: nat)
    requires i < |b| && StackInvariant(b, st, ix, i, drop, remove0)
    requires |kept| <= |st| && kept == st[..|kept|] && remove + (|st| - |kept|) == remove0
    requires forall q :: |kept| <= q < |st| ==> st[q] < b[i]
    requires kept == [] || remove == 0 || b[i] <= kept[|kept| - 1]
    ensures StackInvariant(b, kept + [b[i]], ix[..|kept|] + [i], i + 1, drop, remove)
  {
    var j := |kept|;
    DominanceStep(b, st, j, i, drop, drop - remove0);
    if remove > 0 {
      PushKeepsOrder(st, j, b[i]);
    }
    PushIndex(b, ix, j, i);
  }

  /** At the end, the first `numLen` entries of the stack write the best number. */
  lemma FinalStack(b: seq<nat>, stack: seq<nat>, ix: seq<nat>, numLen: nat, drop: nat, remove: nat)
    requires IsDigits(b) && numLen <= |b| && drop == |b| - numLen
    requires StackInvariant(b, stack, ix, |b|, drop, remove)
    ensures numLen <= |stack| && Value(stack[..numLen]) == Best(b, numLen) < Pow10(numLen)
  {
    var w := BestWitness(b, numLen);
    PickDigits(b, w);
    PickDigits(b, ix);
    var top := ix[..numLen];
    assert stack[..numLen] == Pick(b, top);
    assert IsIndexSeq(top, |b|);
    assert Beats(stack, Pick(b, w));
    assert LexGe(stack[..numLen], Pick(b, w));
    LexGeValue(stack[..numLen], Pick(b, w));
    BestIsUpperBound(b, numLen, top);
    ValueBound(stack[..numLen]);
  }

  /**
   * `get_biggest_number`: the largest number that `numLen` of the bank's
   * digits write in their order. Each digit pops the smaller digits on top
   * of the stack while pops remain (`len - numLen` in all), then is pushed;
   * the first `numLen` entries of the stack are the answer. The source
   * computes `len` as a `u8`, so banks are shorter than 256.
   */
  method GetBiggestNumber(b: seq<nat>, numLen: nat) returns (v: nat)
    requires IsDigits(b) && numLen <= |b| < 256
    ensures v == Best(b, numLen)
    ensures v < Pow10(numLen)
  {
    var stack: seq<nat> := [];
    ghost var ix: seq<nat> := [];
    ghost var drop: nat := |b| - numLen;
    var remove: nat := |b| - numLen;
    DominatesStart(b, drop);
    for i := 0 to |b|
      invariant StackInvariant(b, stack, ix, i, drop, remove)
    {
      var x := b[i];
      ghost var st0, remove0 := stack, remove;
      stack, remove := PopSmaller(stack, remove, x);
      PushStep(b, st0, ix, stack, i, drop, remove0, remove);
      ix := ix[..|stack|] + [i];
      stack := stack + [x];
    }
    FinalStack(b, stack, ix, numLen, drop, remove);
    v := Value(stack[..numLen]);
  }

  /** The sum over the banks of the largest `k`-digit numbers they write. */
  function SumBest(banks: seq<seq<nat>>, k: nat): nat
    requires forall i :: 0 <= i < |banks| ==> k <= |banks[i]|
  {
    if banks == [] then 0
    else SumBest(banks[..|banks| - 1], k) + Best(banks[|banks| - 1], k)
  }

  /** Sums the largest numbers of `k` digits of every bank. */
  method SumBiggest(banks: seq<seq<nat>>, k: nat) returns (total: nat)
    requires forall i :: 0 <= i < |banks| ==> IsDigits(banks[i]) && k <= |banks[i]| < 256
    ensures total == SumBest(banks, k)
  {
    total := 0;
    for i := 0 to |banks|
      invariant total == SumBest(banks[..i], k)
    {
      assert banks[..i + 1][..i] == banks[..i];
      var v := GetBiggestNumber(banks[i], k);
      total := total + v;
    }
    assert banks[..|banks|] == banks;
  }

  /** `part1`: the sum of the largest two-digit numbers. */
  method Part1(banks: seq<seq<nat>>) returns (total: nat)
    requires forall i :: 0 <= i < |banks| ==> IsDigits(banks[i]) && 2 <= |banks[i]| < 256
    ensures total == SumBest(banks, 2)
  {
    total := SumBiggest(banks, 2);
  }

  /** `part2`: the sum of the largest twelve-digit numbers. */
  method Part2(banks: seq<seq<nat>>) returns (total: nat)
    requires forall i :: 0 <= i < |banks| ==> IsDigits(banks[i]) && 12 <= |banks[i]| < 256
    ensures total == SumBest(banks, 12)
  {
    total := SumBiggest(banks, 12);
  }
}

=== FILE: day04.dfy ===
/**
 * Day 4: a grid of paper rolls. `fill_rolls` writes into every roll the
 * number of rolls among its eight neighbours; part 1 counts the rolls with
 * fewer than four such neighbours, and part 2 keeps removing those rolls,
 * updating the neighbours' counts through a queue, until none is left to
 * remove, and reports how many were removed.
 */
module Day04 {
  import opened Wrappers
  import opened Points
  import opened Grids
  import Seqs

  /** A cell: empty, or a roll with a count of neighbouring rolls (a `u8`). */
  datatype Cell = Empty | Roll(n: nat)

  /** `Cell::from_char`: '.' is empty, '@' a roll with count 0; anything else panics. */
  function FromChar(c: char): (r: Option<Cell>)
    ensures r.Some? <==> c == '.' || c == '@'
    ensures r.Some? ==> (r.value == Roll(0) <==> c == '@')
  {
    match c
    case '.' => Some(Empty)
    case '@' => Some(Roll(0))
    case _ => None
  }

  /** `from_char` on the characters it accepts. */
  function Decode(c: char): Cell {
    if c == '@' then Roll(0) else Empty
  }

  /** `read_and_parse`: nothing where `map_from_str` or `from_char` panics. */
  method ReadAndParse(s: string) returns (r: Option<Grid<Cell>>)
    ensures r.Some? <==> Dimensions(s).Some? && forall c | c in Cells(s) :: FromChar(c).Some?
    ensures r.Some? ==> fresh(r.value) && r.value.Valid()
    ensures r.Some? ==> (r.value.width, r.value.height) == Dimensions(s).value
    ensures r.Some? ==> |r.value.data| == |Cells(s)|
    ensures r.Some? ==> forall i :: 0 <= i < |Cells(s)| ==> FromChar(Cells(s)[i]) == Some(r.value.data[i])
  {
    var cells := Cells(s);
    if exists i :: 0 <= i < |cells| && FromChar(cells[i]).None? {
      r := None;
    } else {
      r := MapFromStr(s, Decode);
      if r.Some? {
        forall i | 0 <= i < |cells| ensures FromChar(cells[i]) == Some(r.value.data[i]) {
          DecodeAgrees(cells[i]);
        }
      }
    }
  }

  /** `Decode` agrees with `FromChar` wherever it does not panic. */
  lemma DecodeAgrees(c: char)
    requires FromChar(c).Some?
    ensures FromChar(c) == Some(Decode(c))
  {
  }

  // ---------------------------------------------------------------------
  // Counting rolls

  /** The cell of `data` (laid out as `g`'s cells) at `p`. */
  function CellAt(g: Grid<Cell>, data: seq<Cell>, p: Point): Cell
    requires |data| == g.width * g.height && g.IsInBounds(p)
  {
    data[g.Index(p.x, p.y)]
  }

  /** `p` is inside the grid and holds a roll. */
  predicate RollAt(g: Grid<Cell>, data: seq<Cell>, p: Point)
    requires |data| == g.width * g.height
  {
    g.IsInBounds(p) && CellAt(g, data, p).Roll?
  }

  /** How many of the points `qs` are rolls inside the grid. */
  function RollsAmong(g: Grid<Cell>, data: seq<Cell>, qs: seq<Point>): (k: nat)
    requires |data| == g.width * g.height
    ensures k <= |qs|
  {
    if qs == [] then 0 else (if RollAt(g, data, qs[0]) then 1 else 0) + RollsAmong(g, data, qs[1..])
  }

  lemma {:induction false} RollsAmongAppend(g: Grid<Cell>, data: seq<Cell>, a: seq<Point>, b: seq<Point>)
    requires |data| == g.width * g.height
    ensures RollsAmong(g, data, a + b) == RollsAmong(g, data, a) + RollsAmong(g, data, b)
  {
    if a == [] {
      assert a + b == b;
    } else {
      assert (a + b)[1..] == a[1..] + b;
      RollsAmongAppend(g, data, a[1..], b);
    }
  }

  /** Points outside the grid never count, so leaving them out changes nothing. */
  lemma {:induction false} RollsAmongInBounds(g: Grid<Cell>, data: seq<Cell>, qs: seq<Point>)
    requires |data| == g.width * g.height
    ensures RollsAmong(g, data, Seqs.Filter(qs, g.IsInBounds)) == RollsAmong(g, data, qs)
  {
    if qs != [] {
      RollsAmongInBounds(g, data, qs[1..]);
      var head: seq<Point> := if g.IsInBounds(qs[0]) then [qs[0]] else [];
      RollsAmongAppend(g, data, head, Seqs.Filter(qs[1..], g.IsInBounds));
      if head != [] {
        assert head[1..] == [];
      }
    }
  }

  /** How many times `p` occurs in `s`. */
  function Occurrences(s: seq<Point>, p: Point): (k: nat)
    ensures k <= |s|
  {
    if s == [] then 0 else (if s[0] == p then 1 else 0) + Occurrences(s[1..], p)
  }

  predicate Distinct(s: seq<Point>) {
    forall a, b :: 0 <= a < b < |s| ==> s[a] != s[b]
  }

  /** In a sequence without repetitions a point occurs once or not at all. */
  lemma {:induction false} OccurrencesDistinct(s: seq<Point>, p: Point)
    requires Distinct(s)
    ensures Occurrences(s, p) == if p in s then 1 else 0
  {
    if s != [] {
      OccurrencesDistinct(s[1..], p);
      if s[0] == p {
        assert p !in s[1..] by {
          forall b | 0 <= b < |s[1..]| ensures s[1..][b] != p {
            assert s[1..][b] == s[b + 1];
          }
        }
      } else {
        assert p in s <==> p in s[1..] by {
          assert s == [s[0]] + s[1..];
        }
      }
    }
  }

  /** Changing the cell at `q` changes the count by the occurrences of `q`, when it turns from or into a roll. */
  lemma {:induction false} RollsAmongUpdate(g: Grid<Cell>, data: seq<Cell>, qs: seq<Point>, q: Point, c: Cell)
    requires |data| == g.width * g.height && g.IsInBounds(q)
    ensures
      var data' := data[g.Index(q.x, q.y) := c];
      RollsAmong(g, data', qs) + (if CellAt(g, data, q).Roll? then Occurrences(qs, q) else 0)
      == RollsAmong(g, data, qs) + (if c.Roll? then Occurrences(qs, q) else 0)
  {
    if qs != [] {
      RollsAmongUpdate(g, data, qs[1..], q, c);
      var h := qs[0];
      if h != q && g.IsInBounds(h) {
        g.IndexCoords(h);
        g.IndexCoords(q);
      }
    }
  }

  /** `p` and `q` are among each other's eight neighbours. */
  predicate Adjacent(p: Point, q: Point) {
    ChebyshevDistance(p, q) == 1
  }

  /** The number of rolls among the eight neighbours of `p`. */
  function RollNeighbors(g: Grid<Cell>, data: seq<Cell>, p: Point): (k: nat)
    requires |data| == g.width * g.height
    ensures k <= 8
  {
    RollsAmong(g, data, NeighborsDiagonal(p))
  }

  /** A point occurs among the neighbours of `p` once if it is adjacent to `p`, else not at all. */
  lemma NeighborOccurrences(p: Point, q: Point)
    ensures Occurrences(NeighborsDiagonal(p), q) == if Adjacent(p, q) then 1 else 0
  {
    NeighborsDiagonalComplete(p, q);
    OccurrencesDistinct(NeighborsDiagonal(p), q);
  }

  /**
   * Turning the roll at `q` into something else lowers the neighbour count
   * of exactly the points adjacent to `q`, by one.
   */
  lemma RollNeighborsUpdate(g: Grid<Cell>, data: seq<Cell>, p: Point, q: Point, c: Cell)
    requires |data| == g.width * g.height && g.IsInBounds(q) && CellAt(g, data, q).Roll?
    ensures
      var data' := data[g.Index(q.x, q.y) := c];
      RollNeighbors(g, data', p) == RollNeighbors(g, data, p) - (if !c.Roll? && Adjacent(p, q) then 1 else 0)
  {
    RollsAmongUpdate(g, data, NeighborsDiagonal(p), q, c);
    NeighborOccurrences(p, q);
  }

  /** The neighbour count is the size of the set of adjacent rolls. */
  lemma RollNeighborsAreAdjacentRolls(g: Grid<Cell>, data: seq<Cell>, p: Point)
    requires |data| == g.width * g.height
    ensures RollNeighbors(g, data, p) == |set q | q in NeighborsDiagonal(p) && RollAt(g, data, q)|
    ensures forall q :: q in NeighborsDiagonal(p) <==> Adjacent(p, q)
  {
    forall q ensures q in NeighborsDiagonal(p) <==> Adjacent(p, q) {
      NeighborsDiagonalComplete(p, q);
    }
    NeighborsDiagonalComplete(p, p);
    RollsAmongSet(g, data, NeighborsDiagonal(p));
  }

  lemma {:induction false} RollsAmongSet(g: Grid<Cell>, data: seq<Cell>, qs: seq<Point>)
    requires |data| == g.width * g.height && Distinct(qs)
    ensures RollsAmong(g, data, qs) == |set q | q in qs && RollAt(g, data, q)|
  {
    if qs != [] {
      var rest := qs[1..];
      assert Distinct(rest) by {
        forall a, b | 0 <= a < b < |rest| ensures rest[a] != rest[b] {
          assert rest[a] == qs[a + 1] && rest[b] == qs[b + 1];
        }
      }
      RollsAmongSet(g, data, rest);
      assert qs[0] !in rest by {
        forall b | 0 <= b < |rest| ensures rest[b] != qs[0] {
          assert rest[b] == qs[b + 1];
        }
      }
      var all := set q | q in qs && RollAt(g, data, q);
      var tail := set q | q in rest && RollAt(g, data, q);
      assert qs == [qs[0]] + rest;
      if RollAt(g, data, qs[0]) {
        assert all == tail + {qs[0]};
      } else {
        assert all == tail;
      }
    }
  }

  /** Counts depend on the grid only through its dimensions. */
  lemma {:induction false} RollsAmongSameSize(g: Grid<Cell>, h: Grid<Cell>, data: seq<Cell>, qs: seq<Point>)
    requires g.width == h.width && g.height == h.height && |data| == g.width * g.height
    ensures RollsAmong(g, data, qs) == RollsAmong(h, data, qs)
  {
    if qs != [] {
      RollsAmongSameSize(g, h, data, qs[1..]);
    }
  }

  /** Only whether each cell holds a roll matters to the counts. */
  lemma {:induction false} RollsAmongSameShape(g: Grid<Cell>, d: seq<Cell>, e: seq<Cell>, qs: seq<Point>)
    requires |d| == |e| == g.width * g.height
    requires forall p | g.IsInBounds(p) :: CellAt(g, d, p).Roll? == CellAt(g, e, p).Roll?
    ensures RollsAmong(g, d, qs) == RollsAmong(g, e, qs)
  {
    if qs != [] {
      RollsAmongSameShape(g, d, e, qs[1..]);
    }
  }

  /** Every roll holds the number of rolls among its neighbours. */
  ghost predicate Counted(g: Grid<Cell>, data: seq<Cell>)
    requires |data| == g.width * g.height
  {
    forall p | g.IsInBounds(p) && CellAt(g, data, p).Roll? :: CellAt(g, data, p).n == RollNeighbors(g, data, p)
  }

  // ---------------------------------------------------------------------
  // fill_rolls

  /** The cell `fill_rolls` writes at `p`: a roll with count 0 gets its neighbour count. */
  function FilledCell(g: Grid<Cell>, data: seq<Cell>, p: Point): Cell
    requires |data| == g.width * g.height && g.IsInBounds(p)
  {
    if CellAt(g, data, p) == Roll(0) then Roll(RollNeighbors(g, data, p)) else CellAt(g, data, p)
  }

  /**
   * `fill_rolls`: every roll with count 0 gets the number of rolls among its
   * in-bounds neighbours in the grid as it was; the counts come from a
   * clone, so the order of the visits does not matter.
   */
  method FillRolls(g: Grid<Cell>)
    requires g.Valid()
    modifies g
    ensures g.Valid()
    ensures forall p | g.IsInBounds(p) :: CellAt(g, g.data, p) == FilledCell(g, old(g.data), p)
  {
    var clone := g.Clone();
    var cells := clone.Enumerate();
    for i := 0 to |cells|
      invariant g.Valid() && clone.data == old(g.data)
      invariant forall j :: 0 <= j < i ==> g.data[j] == FilledCell(g, clone.data, g.Coords(j))
      invariant forall j :: i <= j < |g.data| ==> g.data[j] == clone.data[j]
    {
      var (pos, cell) := cells[i];
      assert pos == g.Coords(i);
      FillCell(g, clone, i, pos, cell);
    }
    forall p | g.IsInBounds(p) ensures CellAt(g, g.data, p) == FilledCell(g, old(g.data), p) {
      g.IndexCoords(p);
    }
  }

  /** One visit of `fill_rolls`: the cell at `pos`, position `i`, gets its filled value from the clone. */
  method FillCell(g: Grid<Cell>, clone: Grid<Cell>, i: nat, pos: Point, cell: Cell)
    requires g.Valid() && clone.Valid() && g != clone
    requires clone.width == g.width && clone.height == g.height
    requires i < |g.data| && pos == g.Coords(i) && cell == clone.data[i] && g.data[i] == cell
    modifies g
    ensures g.Valid()
    ensures g.data == old(g.data)[i := FilledCell(g, clone.data, pos)]
  {
    if cell == Roll(0) {
      var count := CountRollNeighbors(clone, pos);
      RollsAmongSameSize(clone, g, clone.data, NeighborsDiagonal(pos));
      g.Set(pos, Roll(count));
    } else {
      assert g.data == g.data[i := cell];
    }
  }

  /** The inner loop of `fill_rolls`: counts the rolls among the in-bounds neighbours of `pos`. */
  method CountRollNeighbors(g: Grid<Cell>, pos: Point) returns (count: nat)
    requires g.Valid()
    ensures count == RollNeighbors(g, g.data, pos)
  {
    var ns := NeighborsDiagonalInBounds(g, pos);
    count := 0;
    for k := 0 to |ns|
      invariant count == RollsAmong(g, g.data, ns[..k])
    {
      var n := ns[k];
      assert n in ns;
      RollsAmongSnoc(g, g.data, ns, k);
      if g.At(n).Roll? {
        count := count + 1;
      }
    }
    assert ns[..|ns|] == ns;
    RollsAmongInBounds(g, g.data, NeighborsDiagonal(pos));
  }

  /** Counting one more point of `qs` adds one exactly when it is a roll inside the grid. */
  lemma RollsAmongSnoc(g: Grid<Cell>, data: seq<Cell>, qs: seq<Point>, k: nat)
    requires |data| == g.width * g.height && k < |qs|
    ensures RollsAmong(g, data, qs[..k + 1]) == RollsAmong(g, data, qs[..k]) + (if RollAt(g, data, qs[k]) then 1 else 0)
  {
    RollsAmongAppend(g, data, qs[..k], [qs[k]]);
    assert qs[..k + 1] == qs[..k] + [qs[k]];
  }

  /** Filling a freshly read grid leaves every roll holding its neighbour count. */
  lemma FilledIsCounted(g: Grid<Cell>, d0: seq<Cell>, d1: seq<Cell>)
    requires |d0| == |d1| == g.width * g.height
    requires forall p | g.IsInBounds(p) && CellAt(g, d0, p).Roll? :: CellAt(g, d0, p).n == 0
    requires forall p | g.IsInBounds(p) :: CellAt(g, d1, p) == FilledCell(g, d0, p)
    ensures Counted(g, d1)
  {
    forall p | g.IsInBounds(p) && CellAt(g, d1, p).Roll?
      ensures CellAt(g, d1, p).n == RollNeighbors(g, d1, p)
    {
      RollsAmongSameShape(g, d0, d1, NeighborsDiagonal(p));
    }
  }

  // ---------------------------------------------------------------------
  // part1

  /** A roll that a forklift can reach: fewer than four neighbouring rolls. */
  predicate Accessible(c: Cell) {
    c.Roll? && c.n < 4
  }

  /** `part1`: the number of cells holding a roll with count below 4. */
  function Part1(g: Grid<Cell>): (k: nat)
    reads g
    requires g.Valid()
  {
    |Seqs.Filter(g.data, Accessible)|
  }

  /** On a counted grid, part 1 is the number of rolls with fewer than four neighbouring rolls. */
  lemma Part1CountsAccessibleRolls(g: Grid<Cell>)
    requires g.Valid() && Counted(g, g.data)
    ensures Part1(g) == |set i: nat | i < |g.data| && g.data[i].Roll? && RollNeighbors(g, g.data, g.Coords(i)) < 4|
  {
    Seqs.FilterCount(g.data, Accessible);
    var a := Seqs.IndexSet(g.data, Accessible);
    var b := set i: nat | i < |g.data| && g.data[i].Roll? && RollNeighbors(g, g.data, g.Coords(i)) < 4;
    forall i: nat | i < |g.data| ensures i in a <==> i in b {
      var p := g.Coords(i);
      assert CellAt(g, g.data, p) == g.data[i];
    }
    assert a == b;
  }

  // ---------------------------------------------------------------------
  // part2

  /** How many of the points `qs` are adjacent to `p`. */
  function AdjacentAmong(qs: seq<Point>, p: Point): (k: nat)
    ensures k <= |qs|
  {
    if qs == [] then 0 else (if Adjacent(p, qs[0]) then 1 else 0) + AdjacentAmong(qs[1..], p)
  }

  lemma {:induction false} AdjacentAmongAppend(a: seq<Point>, b: seq<Point>, p: Point)
    ensures AdjacentAmong(a + b, p) == AdjacentAmong(a, p) + AdjacentAmong(b, p)
  {
    if a == [] {
      assert a + b == b;
    } else {
      assert (a + b)[1..] == a[1..] + b;
      AdjacentAmongAppend(a[1..], b, p);
    }
  }

  /** The positions of the cells of `data` that are accessible rolls, in reading order, below position `i`. */
  ghost predicate Collected(g: Grid<Cell>, d0: seq<Cell>, toEmpty: seq<Point>, i: nat)
    requires |d0| == g.width * g.height && i <= |d0|
  {
    && (forall t :: 0 <= t < |toEmpty| ==> g.IsInBounds(toEmpty[t]) && Accessible(CellAt(g, d0, toEmpty[t])))
    && (forall t :: 0 <= t < |toEmpty| ==> g.Index(toEmpty[t].x, toEmpty[t].y) < i)
    && (forall s, t :: 0 <= s < t < |toEmpty| ==>
          g.Index(toEmpty[s].x, toEmpty[s].y) < g.Index(toEmpty[t].x, toEmpty[t].y))
    && (forall j :: 0 <= j < i && Accessible(d0[j]) ==> g.Coords(j) in toEmpty)
  }

  /**
   * While the first `k` collected rolls are being emptied: the grid is the
   * original with those emptied, and every roll's count is its neighbour
   * count plus the emptied neighbours still to be processed.
   */
  ghost predicate Emptying(g: Grid<Cell>, d0: seq<Cell>, data: seq<Cell>, toEmpty: seq<Point>, k: nat)
    requires |d0| == |data| == g.width * g.height && k <= |toEmpty|
  {
    && Collected(g, d0, toEmpty, |d0|)
    && (forall p | g.IsInBounds(p) :: CellAt(g, data, p) == if p in toEmpty[..k] then Empty else CellAt(g, d0, p))
    && (Counted(g, d0) ==> Tracked(g, data, toEmpty[..k], []))
  }

  /**
   * The state of the queue loop of `part2`. `removed` lists the cells
   * emptied so far, each once; `queue` is the tail of it whose neighbours
   * have not been updated, and `pending` the neighbours of the cell being
   * processed that have not been visited yet. Empty cells stay empty, every
   * remaining roll has a count of at least 4, and on a counted grid every
   * count is the roll's neighbour count plus its removed neighbours not yet
   * accounted for.
   */
  ghost predicate Eroding(g: Grid<Cell>, d0: seq<Cell>, data: seq<Cell>, removed: seq<Point>,
                          queue: seq<Point>, pending: seq<Point>)
    requires |d0| == |data| == g.width * g.height
  {
    && |queue| <= |removed| && queue == removed[|removed| - |queue|..]
    && Distinct(removed)
    && (forall q | q in removed :: g.IsInBounds(q) && CellAt(g, d0, q).Roll? && CellAt(g, data, q).Empty?)
    && (forall p | g.IsInBounds(p) :: CellAt(g, d0, p).Empty? ==> CellAt(g, data, p).Empty?)
    && (forall p | g.IsInBounds(p) && CellAt(g, d0, p).Roll? && CellAt(g, data, p).Empty? :: p in removed)
    && (forall p | g.IsInBounds(p) && CellAt(g, data, p).Roll? :: CellAt(g, data, p).n >= 4)
    && (Counted(g, d0) ==> Tracked(g, data, queue, pending))
    && (Counted(g, d0) ==> Justified(g, d0, removed))
  }

  /**
   * Every roll's count is its neighbour count plus its removed neighbours
   * still in `queue` and its occurrences among the `pending` neighbours.
   */
  ghost predicate Tracked(g: Grid<Cell>, data: seq<Cell>, queue: seq<Point>, pending: seq<Point>)
    requires |data| == g.width * g.height
  {
    forall p | g.IsInBounds(p) && CellAt(g, data, p).Roll? ::
      CellAt(g, data, p).n == RollNeighbors(g, data, p) + AdjacentAmong(queue, p) + Occurrences(pending, p)
  }

  /** How many of the points `qs` are rolls of `d0` inside the grid that are not among `gone`. */
  ghost function RollsLeft(g: Grid<Cell>, d0: seq<Cell>, gone: seq<Point>, qs: seq<Point>): (k: nat)
    requires |d0| == g.width * g.height
    ensures k <= RollsAmong(g, d0, qs)
  {
    if qs == [] then 0 else (if RollAt(g, d0, qs[0]) && qs[0] !in gone then 1 else 0) + RollsLeft(g, d0, gone, qs[1..])
  }

  /**
   * Each removed roll had fewer than four neighbouring rolls left when it
   * was removed: rolls of the original grid not removed before it.
   */
  ghost predicate Justified(g: Grid<Cell>, d0: seq<Cell>, removed: seq<Point>)
    requires |d0| == g.width * g.height
  {
    forall t :: 0 <= t < |removed| ==> RollsLeft(g, d0, removed[..t], NeighborsDiagonal(removed[t])) < 4
  }

  /** When the rolls of `data` are the rolls of `d0` outside `gone`, the two counts agree. */
  lemma {:induction false} RollsAmongLeft(g: Grid<Cell>, d0: seq<Cell>, data: seq<Cell>, gone: seq<Point>, qs: seq<Point>)
    requires |d0| == |data| == g.width * g.height
    requires forall p | g.IsInBounds(p) :: CellAt(g, data, p).Roll? == (CellAt(g, d0, p).Roll? && p !in gone)
    ensures RollsAmong(g, data, qs) == RollsLeft(g, d0, gone, qs)
  {
    if qs != [] {
      RollsAmongLeft(g, d0, data, gone, qs[1..]);
    }
  }

  /** Removing one more roll with fewer than four neighbouring rolls left keeps every removal justified. */
  lemma JustifiedSnoc(g: Grid<Cell>, d0: seq<Cell>, removed: seq<Point>, q: Point)
    requires |d0| == g.width * g.height
    requires Justified(g, d0, removed) && RollsLeft(g, d0, removed, NeighborsDiagonal(q)) < 4
    ensures Justified(g, d0, removed + [q])
  {
    var removed' := removed + [q];
    forall t | 0 <= t < |removed'| ensures RollsLeft(g, d0, removed'[..t], NeighborsDiagonal(removed'[t])) < 4 {
      if t < |removed| {
        assert removed'[..t] == removed[..t] && removed'[t] == removed[t];
      } else {
        assert removed'[..t] == removed;
      }
    }
  }

  /** The number of rolls in `data`. */
  function Rolls(data: seq<Cell>): (k: nat)
    ensures k <= |data|
  {
    if data == [] then 0 else (if data[0].Roll? then 1 else 0) + Rolls(data[1..])
  }

  /** Replacing one cell changes the number of rolls only if it turns from or into a roll. */
  lemma {:induction false} RollsUpdate(data: seq<Cell>, i: nat, c: Cell)
    requires i < |data|
    ensures Rolls(data[i := c]) + (if data[i].Roll? then 1 else 0) == Rolls(data) + (if c.Roll? then 1 else 0)
  {
    if i > 0 {
      RollsUpdate(data[1..], i - 1, c);
      assert data[i := c][1..] == data[1..][i - 1 := c];
    } else {
      assert data[i := c][1..] == data[1..];
    }
  }

  /** The first loop of `part2` collects one more cell. */
  lemma CollectStep(g: Grid<Cell>, d0: seq<Cell>, toEmpty: seq<Point>, i: nat)
    requires |d0| == g.width * g.height && i < |d0| && Collected(g, d0, toEmpty, i)
    ensures Accessible(d0[i]) ==> Collected(g, d0, toEmpty + [g.Coords(i)], i + 1)
    ensures !Accessible(d0[i]) ==> Collected(g, d0, toEmpty, i + 1)
  {
    var pos := g.Coords(i);
    assert CellAt(g, d0, pos) == d0[i];
    if Accessible(d0[i]) {
      var t' := toEmpty + [pos];
      forall j | 0 <= j < i + 1 && Accessible(d0[j]) ensures g.Coords(j) in t' {
        if j < i {
          assert g.Coords(j) in toEmpty;
        }
      }
    }
  }

  /** Emptying the next collected cell. */
  lemma EmptyStep(g: Grid<Cell>, d0: seq<Cell>, data: seq<Cell>, data': seq<Cell>, toEmpty: seq<Point>, k: nat)
    requires |d0| == |data| == g.width * g.height && k < |toEmpty|
    requires Emptying(g, d0, data, toEmpty, k) && g.IsInBounds(toEmpty[k])
    requires data' == data[g.Index(toEmpty[k].x, toEmpty[k].y) := Empty]
    ensures |data'| == |data| && Emptying(g, d0, data', toEmpty, k + 1)
  {
    var q := toEmpty[k];
    assert q !in toEmpty[..k] by {
      forall t | 0 <= t < k ensures toEmpty[t] != q {
        assert g.Index(toEmpty[t].x, toEmpty[t].y) < g.Index(q.x, q.y);
      }
    }
    assert CellAt(g, data, q).Roll?;
    assert toEmpty[..k + 1] == toEmpty[..k] + [q];
    forall p | g.IsInBounds(p)
      ensures CellAt(g, data', p) == if p in toEmpty[..k + 1] then Empty else CellAt(g, d0, p)
    {
      if p != q {
        g.IndexCoords(p);
        g.IndexCoords(q);
      }
    }
    if Counted(g, d0) {
      TrackedEmpty(g, data, data', toEmpty[..k], q);
    }
  }

  /** Emptying the roll `q` and adding it to the emptied cells keeps the counts tracked. */
  lemma TrackedEmpty(g: Grid<Cell>, data: seq<Cell>, data': seq<Cell>, emptied: seq<Point>, q: Point)
    requires |data| == g.width * g.height && RollAt(g, data, q)
    requires data' == data[g.Index(q.x, q.y) := Empty]
    requires Tracked(g, data, emptied, [])
    ensures Tracked(g, data', emptied + [q], [])
  {
    forall p | g.IsInBounds(p) && CellAt(g, data', p).Roll?
      ensures CellAt(g, data', p).n == RollNeighbors(g, data', p) + AdjacentAmong(emptied + [q], p) + Occurrences([], p)
    {
      g.IndexCoords(p);
      g.IndexCoords(q);
      RollNeighborsUpdate(g, data, p, q, Empty);
      AdjacentAmongAppend(emptied, [q], p);
    }
  }

  /** Once every collected cell is empty, the queue loop can start. */
  lemma EmptyingDone(g: Grid<Cell>, d0: seq<Cell>, data: seq<Cell>, toEmpty: seq<Point>)
    requires |d0| == |data| == g.width * g.height
    requires Emptying(g, d0, data, toEmpty, |toEmpty|)
    ensures Eroding(g, d0, data, toEmpty, toEmpty, [])
  {
    assert toEmpty[..|toEmpty|] == toEmpty;
    CollectedDistinct(g, d0, toEmpty);
    forall p | g.IsInBounds(p) && CellAt(g, data, p).Roll? ensures CellAt(g, data, p).n >= 4 {
      var i := g.Index(p.x, p.y);
      g.IndexCoords(p);
      assert d0[i] == CellAt(g, d0, p);
    }
    var removed, queue, pending := toEmpty, toEmpty, [];
    assert |queue| <= |removed| && queue == removed[|removed| - |queue|..];
    assert (forall q | q in removed :: g.IsInBounds(q) && CellAt(g, d0, q).Roll? && CellAt(g, data, q).Empty?);
    assert (forall p | g.IsInBounds(p) :: CellAt(g, d0, p).Empty? ==> CellAt(g, data, p).Empty?);
    assert (forall p | g.IsInBounds(p) && CellAt(g, d0, p).Roll? && CellAt(g, data, p).Empty? :: p in removed);
    assert (Counted(g, d0) ==> forall p | g.IsInBounds(p) && CellAt(g, data, p).Roll? ::
          CellAt(g, data, p).n == RollNeighbors(g, data, p) + AdjacentAmong(queue, p) + Occurrences(pending, p));
    if Counted(g, d0) {
      forall t | 0 <= t < |toEmpty| ensures RollsLeft(g, d0, toEmpty[..t], NeighborsDiagonal(toEmpty[t])) < 4 {
        assert Accessible(CellAt(g, d0, toEmpty[t]));
      }
    }
  }

  /** The collected positions come in increasing reading order, so none repeats. */
  lemma CollectedDistinct(g: Grid<Cell>, d0: seq<Cell>, toEmpty: seq<Point>)
    requires |d0| == g.width * g.height && Collected(g, d0, toEmpty, |d0|)
    ensures Distinct(toEmpty)
  {
    forall a, b | 0 <= a < b < |toEmpty| ensures toEmpty[a] != toEmpty[b] {
      assert g.Index(toEmpty[a].x, toEmpty[a].y) < g.Index(toEmpty[b].x, toEmpty[b].y);
    }
  }

  /** Taking `pos` off the queue: its neighbours are now the pending ones. */
  lemma PopStep(g: Grid<Cell>, d0: seq<Cell>, data: seq<Cell>, removed: seq<Point>, pos: Point, rest: seq<Point>)
    requires |d0| == |data| == g.width * g.height
    requires Eroding(g, d0, data, removed, [pos] + rest, [])
    ensures Eroding(g, d0, data, removed, rest, NeighborsDiagonal(pos))
  {
    assert ([pos] + rest)[1..] == rest;
    if Counted(g, d0) {
      forall p | g.IsInBounds(p) && CellAt(g, data, p).Roll?
        ensures CellAt(g, data, p).n == RollNeighbors(g, data, p) + AdjacentAmong(rest, p) + Occurrences(NeighborsDiagonal(pos), p)
      {
        NeighborOccurrences(pos, p);
        assert Adjacent(p, pos) == Adjacent(pos, p);
      }
    }
  }

  /** A pending neighbour that is not a roll inside the grid is skipped. */
  lemma SkipStep(g: Grid<Cell>, d0: seq<Cell>, data: seq<Cell>, removed: seq<Point>, queue: seq<Point>, q: Point, rest: seq<Point>)
    requires |d0| == |data| == g.width * g.height
    requires !RollAt(g, data, q)
    requires Eroding(g, d0, data, removed, queue, [q] + rest)
    ensures Eroding(g, d0, data, removed, queue, rest)
  {
    assert ([q] + rest)[1..] == rest;
  }

  /** A pending neighbour left with a count of at least 4 keeps its roll. */
  lemma DecrementStep(g: Grid<Cell>, d0: seq<Cell>, data: seq<Cell>, data': seq<Cell>,
                       removed: seq<Point>, queue: seq<Point>, q: Point, rest: seq<Point>)
    requires |d0| == |data| == g.width * g.height
    requires RollAt(g, data, q) && CellAt(g, data, q).n - 1 >= 4
    requires data' == data[g.Index(q.x, q.y) := Roll(CellAt(g, data, q).n - 1)]
    requires Eroding(g, d0, data, removed, queue, [q] + rest)
    ensures |data'| == |data|
    ensures Eroding(g, d0, data', removed, queue, rest) && Rolls(data') == Rolls(data)
  {
    var pending := [q] + rest;
    assert pending[1..] == rest;
    var i := g.Index(q.x, q.y);
    RollsUpdate(data, i, Roll(CellAt(g, data, q).n - 1));
    forall p | g.IsInBounds(p) && p != q ensures CellAt(g, data', p) == CellAt(g, data, p) {
      g.IndexCoords(p);
      g.IndexCoords(q);
    }
    if Counted(g, d0) {
      TrackedDecrement(g, data, data', queue, q, rest);
    }
  }

  /** Lowering the count of the pending roll `q` by one keeps the counts tracked. */
  lemma TrackedDecrement(g: Grid<Cell>, data: seq<Cell>, data': seq<Cell>, queue: seq<Point>, q: Point, rest: seq<Point>)
    requires |data| == g.width * g.height && RollAt(g, data, q) && CellAt(g, data, q).n >= 1
    requires data' == data[g.Index(q.x, q.y) := Roll(CellAt(g, data, q).n - 1)]
    requires Tracked(g, data, queue, [q] + rest)
    ensures Tracked(g, data', queue, rest)
  {
    assert ([q] + rest)[1..] == rest;
    forall p | g.IsInBounds(p) && CellAt(g, data', p).Roll?
      ensures CellAt(g, data', p).n == RollNeighbors(g, data', p) + AdjacentAmong(queue, p) + Occurrences(rest, p)
    {
      g.IndexCoords(p);
      g.IndexCoords(q);
      RollNeighborsUpdate(g, data, p, q, Roll(CellAt(g, data, q).n - 1));
    }
  }

  /** A pending neighbour whose count drops below 4 is emptied and queued. */
  lemma RemoveStep(g: Grid<Cell>, d0: seq<Cell>, data: seq<Cell>, data': seq<Cell>,
                    removed: seq<Point>, queue: seq<Point>, q: Point, rest: seq<Point>)
    requires |d0| == |data| == g.width * g.height
    requires RollAt(g, data, q) && CellAt(g, data, q).n - 1 < 4
    requires data' == data[g.Index(q.x, q.y) := Empty]
    requires Eroding(g, d0, data, removed, queue, [q] + rest)
    ensures |data'| == |data|
    ensures Eroding(g, d0, data', removed + [q], queue + [q], rest) && Rolls(data') + 1 == Rolls(data)
  {
    var pending := [q] + rest;
    assert pending[1..] == rest;
    var i := g.Index(q.x, q.y);
    RollsUpdate(data, i, Empty);
    forall p | g.IsInBounds(p) && p != q ensures CellAt(g, data', p) == CellAt(g, data, p) {
      g.IndexCoords(p);
      g.IndexCoords(q);
    }
    assert q !in removed;
    var removed' := removed + [q];
    assert (queue + [q]) == removed'[|removed'| - |queue| - 1..];
    if Counted(g, d0) {
      TrackedRemove(g, data, data', queue, q, rest);
      forall p | g.IsInBounds(p) ensures CellAt(g, data, p).Roll? == (CellAt(g, d0, p).Roll? && p !in removed) {
        if p in removed {
          assert CellAt(g, data, p).Empty?;
        }
      }
      RollsAmongLeft(g, d0, data, removed, NeighborsDiagonal(q));
      assert Occurrences(pending, q) >= 1;
      JustifiedSnoc(g, d0, removed, q);
    }
  }

  /** Emptying the pending roll `q` and queueing it keeps the counts tracked. */
  lemma TrackedRemove(g: Grid<Cell>, data: seq<Cell>, data': seq<Cell>, queue: seq<Point>, q: Point, rest: seq<Point>)
    requires |data| == g.width * g.height && RollAt(g, data, q)
    requires data' == data[g.Index(q.x, q.y) := Empty]
    requires Tracked(g, data, queue, [q] + rest)
    ensures Tracked(g, data', queue + [q], rest)
  {
    assert ([q] + rest)[1..] == rest;
    forall p | g.IsInBounds(p) && CellAt(g, data', p).Roll?
      ensures CellAt(g, data', p).n == RollNeighbors(g, data', p) + AdjacentAmong(queue + [q], p) + Occurrences(rest, p)
    {
      g.IndexCoords(p);
      g.IndexCoords(q);
      RollNeighborsUpdate(g, data, p, q, Empty);
      AdjacentAmongAppend(queue, [q], p);
    }
  }

  /** With the queue and the pending neighbours exhausted, every count is exact. */
  lemma ErodingDone(g: Grid<Cell>, d0: seq<Cell>, data: seq<Cell>, removed: seq<Point>)
    requires |d0| == |data| == g.width * g.height
    requires Eroding(g, d0, data, removed, [], [])
    ensures Counted(g, d0) ==> Counted(g, data)
  {
  }

  /**
   * The first half of `part2`: queues and counts every roll with count
   * below 4, in reading order, then empties them all.
   */
  method EmptyAccessible(g: Grid<Cell>) returns (queue: seq<Point>, count: nat)
    requires g.Valid()
    modifies g
    ensures g.Valid() && count == |queue|
    ensures Eroding(g, old(g.data), g.data, queue, queue, [])
  {
    ghost var d0 := g.data;
    queue := [];
    count := 0;
    var toEmpty: seq<Point> := [];
    var cells := g.Enumerate();
    for i := 0 to |cells|
      invariant queue == toEmpty && count == |toEmpty| && g.data == d0
      invariant Collected(g, d0, toEmpty, i)
    {
      var (pos, cell) := cells[i];
      CollectStep(g, d0, toEmpty, i);
      if Accessible(cell) {
        queue := queue + [pos];
        count := count + 1;
        toEmpty := toEmpty + [pos];
      }
    }
    assert toEmpty[..0] == [];
    for k := 0 to |toEmpty|
      invariant g.Valid() && Emptying(g, d0, g.data, toEmpty, k)
    {
      ghost var data := g.data;
      g.Set(toEmpty[k], Empty);
      EmptyStep(g, d0, data, g.data, toEmpty, k);
    }
    EmptyingDone(g, d0, g.data, toEmpty);
  }

  /**
   * The queue loop of `part2`: takes cells off the front of the queue and
   * lowers the counts of their neighbouring rolls, emptying, queueing and
   * counting each roll whose count drops below 4.
   */
  method Drain(g: Grid<Cell>, queue0: seq<Point>, count0: nat, ghost d0: seq<Cell>, ghost removed0: seq<Point>)
    returns (count: nat, ghost removed: seq<Point>)
    requires g.Valid() && |d0| == |g.data| && count0 == |removed0|
    requires Eroding(g, d0, g.data, removed0, queue0, [])
    modifies g
    ensures g.Valid() && count == |removed|
    ensures Eroding(g, d0, g.data, removed, [], [])
  {
    var queue := queue0;
    count, removed := count0, removed0;
    while queue != []
      invariant g.Valid() && count == |removed|
      invariant Eroding(g, d0, g.data, removed, queue, [])
      decreases Rolls(g.data), |queue|
    {
      var pos := queue[0];
      queue := queue[1..];
      PopStep(g, d0, g.data, removed, pos, queue);
      queue, count, removed := VisitNeighbors(g, pos, queue, count, d0, removed);
    }
  }

  /**
   * The body of the queue loop of `part2` for the cell `pos`: each
   * neighbouring roll's count goes down by one, and the rolls it takes
   * below 4 are emptied, queued and counted.
   */
  method VisitNeighbors(g: Grid<Cell>, pos: Point, queue0: seq<Point>, count0: nat, ghost d0: seq<Cell>, ghost removed0: seq<Point>)
    returns (queue: seq<Point>, count: nat, ghost removed: seq<Point>)
    requires g.Valid() && |d0| == |g.data| && count0 == |removed0|
    requires Eroding(g, d0, g.data, removed0, queue0, NeighborsDiagonal(pos))
    modifies g
    ensures g.Valid() && count == |removed|
    ensures Eroding(g, d0, g.data, removed, queue, [])
    ensures |queue| >= |queue0| && Rolls(g.data) + (|queue| - |queue0|) == old(Rolls(g.data))
  {
    queue, count, removed := queue0, count0, removed0;
    var ns := NeighborsDiagonal(pos);
    for k := 0 to |ns|
      invariant g.Valid() && count == |removed|
      invariant Eroding(g, d0, g.data, removed, queue, ns[k..])
      invariant |queue| >= |queue0| && Rolls(g.data) + (|queue| - |queue0|) == old(Rolls(g.data))
    {
      assert ns[k..] == [ns[k]] + ns[k + 1..];
      queue, count, removed := VisitNeighbor(g, ns[k], ns[k + 1..], queue, count, d0, removed);
    }
    assert ns[|ns|..] == [];
  }

  /**
   * One neighbour in the queue loop of `part2`: a roll inside the grid has
   * its count lowered by one, and is emptied, queued and counted when the
   * count drops below 4.
   */
  method VisitNeighbor(g: Grid<Cell>, neighbor: Point, ghost rest: seq<Point>, queue0: seq<Point>, count0: nat,
                       ghost d0: seq<Cell>, ghost removed0: seq<Point>)
    returns (queue: seq<Point>, count: nat, ghost removed: seq<Point>)
    requires g.Valid() && |d0| == |g.data| && count0 == |removed0|
    requires Eroding(g, d0, g.data, removed0, queue0, [neighbor] + rest)
    modifies g
    ensures g.Valid() && count == |removed|
    ensures Eroding(g, d0, g.data, removed, queue, rest)
    ensures |queue| >= |queue0| && Rolls(g.data) + (|queue| - |queue0|) == old(Rolls(g.data))
  {
    queue, count, removed := queue0, count0, removed0;
    if g.IsInBounds(neighbor) && g.At(neighbor).Roll? {
      // The source decrements the count in place and then overwrites the
      // cell with `Empty` when it drops below 4; only the final value is written here.
      var n := g.At(neighbor).n;
      ghost var data := g.data;
      if n - 1 < 4 {
        g.Set(neighbor, Empty);
        RemoveStep(g, d0, data, g.data, removed, queue, neighbor, rest);
        queue := queue + [neighbor];
        count := count + 1;
        removed := removed + [neighbor];
      } else {
        g.Set(neighbor, Roll(n - 1));
        DecrementStep(g, d0, data, g.data, removed, queue, neighbor, rest);
      }
    } else {
      SkipStep(g, d0, g.data, removed, queue, neighbor, rest);
    }
  }

  /**
   * `part2`: empties every roll with count below 4 and queues it; for each
   * queued cell, lowers the count of every neighbouring roll and empties
   * and queues the ones that drop below 4. Returns how many rolls were
   * emptied; `removed` lists them, each once. Counts never drop below zero,
   * and the remaining rolls all have counts of at least 4; on a grid where
   * every roll holds its neighbour count, they still do at the end.
   */
  method Part2(g: Grid<Cell>) returns (count: nat, ghost removed: seq<Point>)
    requires g.Valid()
    modifies g
    ensures g.Valid()
    ensures count == |removed| && Distinct(removed)
    ensures forall p :: p in removed <==>
      g.IsInBounds(p) && CellAt(g, old(g.data), p).Roll? && CellAt(g, g.data, p).Empty?
    ensures forall p | g.IsInBounds(p) :: CellAt(g, old(g.data), p).Empty? ==> CellAt(g, g.data, p).Empty?
    ensures forall p | g.IsInBounds(p) && CellAt(g, g.data, p).Roll? :: CellAt(g, g.data, p).n >= 4
    ensures Counted(g, old(g.data)) ==> Counted(g, g.data)
    ensures Counted(g, old(g.data)) ==> Justified(g, old(g.data), removed)
  {
    ghost var d0 := g.data;
    var queue, count0 := EmptyAccessible(g);
    count, removed := Drain(g, queue, count0, d0, queue);
    ErodingDone(g, d0, g.data, removed);
  }
}

=== FILE: day05.dfy ===
/**
 * Day 5: closed ranges of fresh ingredient ids, then a list of ids. The
 * ranges are sorted and overlapping ones merged; part 1 counts the listed
 * ids that fall in some range (by binary search), part 2 counts the ids the
 * ranges cover. The source's `u64` values are unbounded here.
 */
module Day05 {
  import opened Wrappers
  import Text
  import Seqs

  /** A closed range `start..=end`; nothing checks `start <= end` when it is built. */
  datatype Interval = Interval(start: nat, end: nat)

  predicate Contains(iv: Interval, x: nat) {
    iv.start <= x <= iv.end
  }

  /** The ids a range covers. */
  ghost function Range(iv: Interval): set<nat> {
    set x: nat | x <= iv.end && Contains(iv, x)
  }

  predicate NonEmpty(iv: Interval) {
    iv.start <= iv.end
  }

  predicate AllNonEmpty(ivs: seq<Interval>) {
    forall i :: 0 <= i < |ivs| ==> NonEmpty(ivs[i])
  }

  /** `Interval::from_str`: two unsigned numbers around the first '-'. */
  function ParseInterval(line: string): (r: Option<Interval>)
    ensures r.Some? <==>
      && Text.SplitOnce(line, "-").Some?
      && Text.ParseNat(Text.SplitOnce(line, "-").value.0).Some?
      && Text.ParseNat(Text.SplitOnce(line, "-").value.1).Some?
  {
    match Text.SplitOnce(line, "-")
    case None => None
    case Some((a, b)) =>
      match (Text.ParseNat(a), Text.ParseNat(b))
      case (Some(start), Some(end)) => Some(Interval(start, end))
      case _ => None
  }

  /** Parsing the text `start-end` of a range gives the range back. */
  lemma ParseIntervalRoundTrip(iv: Interval)
    ensures ParseInterval(Text.NatToString(iv.start) + "-" + Text.NatToString(iv.end)) == Some(iv)
  {
    var a, b := Text.NatToString(iv.start), Text.NatToString(iv.end);
    assert '-' !in a by {
      assert forall i :: 0 <= i < |a| ==> Text.IsDigit(a[i]);
    }
    Text.SplitOnceJoin(a, '-', b);
    assert a + "-" + b == a + ['-'] + b;
    Text.ParseNatRoundTrip(iv.start);
    Text.ParseNatRoundTrip(iv.end);
  }

  function ParseIntervals(lines: seq<string>): (r: Option<seq<Interval>>)
    ensures r.Some? ==> |r.value| == |lines|
    ensures r.Some? ==> forall i :: 0 <= i < |lines| ==> ParseInterval(lines[i]) == Some(r.value[i])
    ensures r.None? ==> exists i :: 0 <= i < |lines| && ParseInterval(lines[i]).None?
  {
    if lines == [] then Some([])
    else
      match (ParseInterval(lines[0]), ParseIntervals(lines[1..]))
      case (Some(iv), Some(rest)) => Some([iv] + rest)
      case _ => None
  }

  function ParseValues(lines: seq<string>): (r: Option<seq<nat>>)
    ensures r.Some? ==> |r.value| == |lines|
    ensures r.Some? ==> forall i :: 0 <= i < |lines| ==> Text.ParseNat(lines[i]) == Some(r.value[i])
    ensures r.None? ==> exists i :: 0 <= i < |lines| && Text.ParseNat(lines[i]).None?
  {
    if lines == [] then Some([])
    else
      match (Text.ParseNat(lines[0]), ParseValues(lines[1..]))
      case (Some(v), Some(rest)) => Some([v] + rest)
      case _ => None
  }

  /**
   * `read_and_parse` over the text of the input: the ranges, one per line,
   * before the first blank line, and the ids, one per line, after it.
   */
  function ReadAndParse(input: string): (r: Option<(seq<Interval>, seq<nat>)>)
    ensures r.Some? <==>
      && Text.SplitOnce(input, "\n\n").Some?
      && ParseIntervals(Text.Lines(Text.SplitOnce(input, "\n\n").value.0)).Some?
      && ParseValues(Text.Lines(Text.SplitOnce(input, "\n\n").value.1)).Some?
    ensures r.Some? ==>
      var (first, second) := Text.SplitOnce(input, "\n\n").value;
      && |r.value.0| == |Text.Lines(first)|
      && |r.value.1| == |Text.Lines(second)|
      && (forall i :: 0 <= i < |r.value.0| ==> ParseInterval(Text.Lines(first)[i]) == Some(r.value.0[i]))
      && (forall i :: 0 <= i < |r.value.1| ==> Text.ParseNat(Text.Lines(second)[i]) == Some(r.value.1[i]))
  {
    match Text.SplitOnce(input, "\n\n")
    case None => None
    case Some((first, second)) =>
      match (ParseIntervals(Text.Lines(first)), ParseValues(Text.Lines(second)))
      case (Some(ivs), Some(values)) => Some((ivs, values))
      case _ => None
  }

  /** `overlaps`: neither range ends before the other starts. */
  function Overlaps(a: Interval, b: Interval): bool {
    !(a.end < b.start || b.end < a.start)
  }

  /** Overlapping is symmetric, and for non-empty ranges it means sharing an id. */
  lemma OverlapsMeansSharing(a: Interval, b: Interval)
    ensures Overlaps(a, b) == Overlaps(b, a)
    ensures NonEmpty(a) && NonEmpty(b) ==> (Overlaps(a, b) <==> Range(a) * Range(b) != {})
  {
    if NonEmpty(a) && NonEmpty(b) && Overlaps(a, b) {
      var x := if a.start < b.start then b.start else a.start;
      assert x in Range(a) * Range(b);
    }
    if Range(a) * Range(b) != {} {
      var x :| x in Range(a) * Range(b);
      assert Contains(a, x) && Contains(b, x);
    }
  }

  /** `merge`: the hull of the two ranges, starting where the first starts and ending where the last ends. */
  function Merge(a: Interval, b: Interval): (r: Interval)
    ensures r.start <= a.start && r.start <= b.start && (r.start == a.start || r.start == b.start)
    ensures r.end >= a.end && r.end >= b.end && (r.end == a.end || r.end == b.end)
  {
    Interval(if a.start <= b.start then a.start else b.start, if a.end >= b.end then a.end else b.end)
  }

  /** Merging overlapping ranges covers exactly the ids of the two, nothing more. */
  lemma MergeCoversBoth(a: Interval, b: Interval)
    requires Overlaps(a, b)
    ensures Range(Merge(a, b)) == Range(a) + Range(b)
  {
    var m := Merge(a, b);
    forall x: nat ensures x in Range(m) <==> x in Range(a) || x in Range(b) {
      assert Contains(m, x) <==> Contains(a, x) || Contains(b, x);
    }
  }

  /** `len`: the number of ids in a range; `end - start` must not underflow. */
  function Len(iv: Interval): (n: nat)
    requires NonEmpty(iv)
    ensures n >= 1
  {
    iv.end - iv.start + 1
  }

  lemma {:induction false} LenCountsRange(iv: Interval)
    requires NonEmpty(iv)
    ensures |Range(iv)| == Len(iv)
    decreases iv.end - iv.start
  {
    if iv.start == iv.end {
      assert Range(iv) == {iv.start};
    } else {
      var shorter := Interval(iv.start, iv.end - 1);
      LenCountsRange(shorter);
      assert Range(iv) == Range(shorter) + {iv.end};
    }
  }

  /** The ids covered by some range of `ivs`. */
  ghost function Covered(ivs: seq<Interval>): set<nat> {
    if ivs == [] then {} else Covered(ivs[..|ivs| - 1]) + Range(ivs[|ivs| - 1])
  }

  /** Some range of `ivs` contains `x`. */
  predicate InAny(ivs: seq<Interval>, x: nat) {
    exists i :: 0 <= i < |ivs| && Contains(ivs[i], x)
  }

  lemma {:induction false} CoveredMembers(ivs: seq<Interval>, x: nat)
    ensures x in Covered(ivs) <==> InAny(ivs, x)
  {
    if ivs != [] {
      var init := ivs[..|ivs| - 1];
      CoveredMembers(init, x);
      if InAny(init, x) {
        var i :| 0 <= i < |init| && Contains(init[i], x);
        assert ivs[i] == init[i];
      }
      if InAny(ivs, x) && x !in Range(ivs[|ivs| - 1]) {
        var i :| 0 <= i < |ivs| && Contains(ivs[i], x);
        assert init[i] == ivs[i];
      }
    }
  }

  lemma CoveredSnoc(ivs: seq<Interval>, iv: Interval)
    ensures Covered(ivs + [iv]) == Covered(ivs) + Range(iv)
  {
    assert (ivs + [iv])[..|ivs|] == ivs;
  }

  /** Reordering the ranges does not change what they cover. */
  lemma CoveredPermutation(a: seq<Interval>, b: seq<Interval>)
    requires multiset(a) == multiset(b)
    ensures Covered(a) == Covered(b)
  {
    forall x: nat ensures x in Covered(a) <==> x in Covered(b) {
      CoveredMembers(a, x);
      CoveredMembers(b, x);
      if InAny(a, x) {
        var i :| 0 <= i < |a| && Contains(a[i], x);
        assert a[i] in multiset(b);
        var j :| 0 <= j < |b| && b[j] == a[i];
      }
      if InAny(b, x) {
        var i :| 0 <= i < |b| && Contains(b[i], x);
        assert b[i] in multiset(a);
        var j :| 0 <= j < |a| && a[j] == b[i];
      }
    }
  }

  /** The derived ordering of `Interval`: by start, then by end. */
  predicate IntervalLe(a: Interval, b: Interval) {
    a.start < b.start || (a.start == b.start && a.end <= b.end)
  }

  lemma IntervalLeTotal()
    ensures Seqs.TotalPreorder(IntervalLe)
  {
  }

  /** `sort` on the ranges: ordered by the derived ordering, and a permutation. */
  function Sort(intervals: seq<Interval>): (sorted: seq<Interval>)
    ensures Seqs.SortedBy(sorted, IntervalLe)
    ensures multiset(sorted) == multiset(intervals) && |sorted| == |intervals|
  {
    IntervalLeTotal();
    Seqs.SortBy(intervals, IntervalLe)
  }

  /** Every range ends before each later one starts. */
  predicate Separated(ivs: seq<Interval>) {
    forall j, k :: 0 <= j < k < |ivs| ==> ivs[j].end < ivs[k].start
  }

  /** What `merge_intervals` produces from well-formed ranges, and what part 1's search relies on. */
  predicate Ordered(ivs: seq<Interval>) {
    AllNonEmpty(ivs) && Separated(ivs)
  }

  predicate StartsAscending(ivs: seq<Interval>) {
    forall j, k :: 0 <= j < k < |ivs| ==> ivs[j].start <= ivs[k].start
  }

  /** The loop state of `merge_intervals` after the first `i` sorted ranges. */
  ghost predicate MergedSoFar(sorted: seq<Interval>, i: nat, merged: seq<Interval>) {
    && i <= |sorted|
    && |merged| <= i
    && (merged == [] <==> i == 0)
    && Covered(merged) == Covered(sorted[..i])
    && StartsAscending(merged)
    && (i > 0 ==> merged[|merged| - 1].start <= sorted[i - 1].start)
    && (AllNonEmpty(sorted) ==> Ordered(merged))
    && (AllNonEmpty(merged) ==> Separated(merged))
  }

  /** An overlapping range widens the last merged one. */
  lemma MergeStep(sorted: seq<Interval>, i: nat, merged: seq<Interval>, merged': seq<Interval>)
    requires Seqs.SortedBy(sorted, IntervalLe) && i < |sorted|
    requires MergedSoFar(sorted, i, merged)
    requires merged != [] && Overlaps(merged[|merged| - 1], sorted[i])
    requires merged' == merged[|merged| - 1 := Merge(merged[|merged| - 1], sorted[i])]
    ensures MergedSoFar(sorted, i + 1, merged')
  {
    var n := |merged|;
    var last, iv := merged[n - 1], sorted[i];
    assert merged == merged[..n - 1] + [last];
    assert merged' == merged[..n - 1] + [Merge(last, iv)];
    CoveredSnoc(merged[..n - 1], last);
    CoveredSnoc(merged[..n - 1], Merge(last, iv));
    MergeCoversBoth(last, iv);
    assert sorted[..i + 1] == sorted[..i] + [iv];
    CoveredSnoc(sorted[..i], iv);
    assert IntervalLe(sorted[i - 1], iv);
    assert merged'[n - 1].start == last.start;
    assert StartsAscending(merged') by {
      forall j, k | 0 <= j < k < n ensures merged'[j].start <= merged'[k].start {
        assert merged'[j].start == merged[j].start && merged'[k].start == merged[k].start;
      }
    }
    if AllNonEmpty(sorted) || AllNonEmpty(merged') {
      // An empty last range ends before every later start, so it overlaps nothing.
      assert NonEmpty(last);
      assert AllNonEmpty(merged) by {
        forall j | 0 <= j < n ensures NonEmpty(merged[j]) {
          if j < n - 1 && !AllNonEmpty(sorted) {
            assert merged'[j] == merged[j];
          }
        }
      }
      forall j, k | 0 <= j < k < n ensures merged'[j].end < merged'[k].start {
        assert merged'[j] == merged[j] && merged'[k].start == merged[k].start;
      }
      assert NonEmpty(merged'[n - 1]);
    }
  }

  /** A range that does not overlap the last merged one starts a new one. */
  lemma PushStep(sorted: seq<Interval>, i: nat, merged: seq<Interval>, merged': seq<Interval>)
    requires Seqs.SortedBy(sorted, IntervalLe) && i < |sorted|
    requires MergedSoFar(sorted, i, merged)
    requires merged == [] || !Overlaps(merged[|merged| - 1], sorted[i])
    requires merged' == merged + [sorted[i]]
    ensures MergedSoFar(sorted, i + 1, merged')
  {
    var iv := sorted[i];
    assert sorted[..i + 1] == sorted[..i] + [iv];
    CoveredSnoc(sorted[..i], iv);
    CoveredSnoc(merged, iv);
    if i > 0 {
      var n := |merged|;
      var last := merged[n - 1];
      assert IntervalLe(sorted[i - 1], iv);
      assert last.start <= iv.start;
      assert StartsAscending(merged') by {
        forall j, k | 0 <= j < k < n + 1 ensures merged'[j].start <= merged'[k].start {
          if k == n {
            assert merged'[j].start <= last.start;
          }
        }
      }
      if AllNonEmpty(sorted) || AllNonEmpty(merged') {
        assert NonEmpty(iv) by {
          if !AllNonEmpty(sorted) {
            assert merged'[n] == iv;
          }
        }
        assert AllNonEmpty(merged) by {
          forall j | 0 <= j < n ensures NonEmpty(merged[j]) {
            if !AllNonEmpty(sorted) {
              assert merged'[j] == merged[j];
            }
          }
        }
        assert last.end < iv.start;
        forall j, k | 0 <= j < k < n + 1 ensures merged'[j].end < merged'[k].start {
          if k == n && j < n - 1 {
            assert merged[j].end < last.start;
          }
        }
      }
    }
  }

  /**
   * `merge_intervals`: sorts the ranges, then walks them, widening the last
   * merged range with every range that overlaps it and starting a new one
   * otherwise. The result covers the same ids, its starts ascend, and from
   * well-formed ranges each result range ends before the next one starts.
   */
  method MergeIntervals(intervals: seq<Interval>) returns (merged: seq<Interval>)
    ensures Covered(merged) == Covered(intervals)
    ensures |merged| <= |intervals|
    ensures StartsAscending(merged)
    ensures AllNonEmpty(intervals) ==> Ordered(merged)
    ensures AllNonEmpty(merged) ==> Ordered(merged)
  {
    var sorted := Sort(intervals);
    merged := [];
    for i := 0 to |sorted|
      invariant MergedSoFar(sorted, i, merged)
    {
      if merged != [] && Overlaps(merged[|merged| - 1], sorted[i]) {
        var last := merged[|merged| - 1];
        ghost var before := merged;
        merged := merged[|merged| - 1 := Merge(last, sorted[i])];
        MergeStep(sorted, i, before, merged);
      } else {
        ghost var before := merged;
        merged := merged + [sorted[i]];
        PushStep(sorted, i, before, merged);
      }
    }
    MergeDone(intervals, sorted, merged);
  }

  /** The walk over all the sorted ranges answers for the unsorted ones. */
  lemma MergeDone(intervals: seq<Interval>, sorted: seq<Interval>, merged: seq<Interval>)
    requires multiset(sorted) == multiset(intervals) && |sorted| == |intervals|
    requires MergedSoFar(sorted, |sorted|, merged)
    ensures Covered(merged) == Covered(intervals)
    ensures |merged| <= |intervals|
    ensures StartsAscending(merged)
    ensures AllNonEmpty(intervals) ==> Ordered(merged)
    ensures AllNonEmpty(merged) ==> Ordered(merged)
  {
    assert sorted[..|sorted|] == sorted;
    CoveredPermutation(sorted, intervals);
    if AllNonEmpty(intervals) {
      forall i | 0 <= i < |sorted| ensures NonEmpty(sorted[i]) {
        assert sorted[i] in multiset(intervals);
      }
    }
  }

  datatype Ordering = Less | Equal | Greater

  /** The comparison `part1` hands to the search: the range lies below, above, or around the id. */
  function Compare(iv: Interval, x: nat): (o: Ordering)
    ensures o == Equal <==> Contains(iv, x)
    ensures o == Less <==> iv.end < x
  {
    if iv.end < x then Less else if iv.start > x then Greater else Equal
  }

  /**
   * The standard library's `binary_search_by(..).is_ok()` (the loop that
   * halves `size` and moves `base` up unless the middle compares Greater,
   * then compares at `base`). A hit always lies in a range; on ordered
   * ranges the search finds every id some range contains.
   */
  method BinarySearch(ivs: seq<Interval>, x: nat) returns (found: bool)
    ensures found ==> InAny(ivs, x)
    ensures Ordered(ivs) ==> (found <==> InAny(ivs, x))
  {
    var size := |ivs|;
    if size == 0 {
      return false;
    }
    var base := 0;
    while size > 1
      invariant 1 <= size && base + size <= |ivs|
      invariant Ordered(ivs) ==> forall j :: 0 <= j < base ==> ivs[j].end < x
      invariant Ordered(ivs) ==> forall j :: base + size <= j < |ivs| ==> ivs[j].start > x
      decreases size
    {
      var half := size / 2;
      var mid := base + half;
      var cmp := Compare(ivs[mid], x);
      base := if cmp == Greater then base else mid;
      size := size - half;
    }
    found := Compare(ivs[base], x) == Equal;
    if Ordered(ivs) && InAny(ivs, x) {
      var j :| 0 <= j < |ivs| && Contains(ivs[j], x);
      assert j == base;
    }
  }

  /** How many of `values` some range of `ivs` contains. */
  function CountCovered(ivs: seq<Interval>, values: seq<nat>): (n: nat)
    ensures n <= |values|
  {
    if values == [] then 0
    else CountCovered(ivs, values[..|values| - 1]) + (if InAny(ivs, values[|values| - 1]) then 1 else 0)
  }

  /** `part1`: the ids the search finds in the ranges. */
  method Part1(intervals: seq<Interval>, values: seq<nat>) returns (count: nat)
    ensures count <= |values|
    ensures Ordered(intervals) ==> count == CountCovered(intervals, values)
  {
    count := 0;
    for i := 0 to |values|
      invariant count <= i
      invariant Ordered(intervals) ==> count == CountCovered(intervals, values[..i])
    {
      assert values[..i + 1][..i] == values[..i];
      var found := BinarySearch(intervals, values[i]);
      if found {
        count := count + 1;
      }
    }
    assert values[..|values|] == values;
  }

  /** `part2`: the total length of the ranges. */
  function Part2(intervals: seq<Interval>): (total: nat)
    requires AllNonEmpty(intervals)
    ensures total >= |intervals|
  {
    if intervals == [] then 0
    else Part2(intervals[..|intervals| - 1]) + Len(intervals[|intervals| - 1])
  }

  /** On ordered ranges the total length is the number of distinct ids covered. */
  lemma {:induction false} Part2CountsCovered(intervals: seq<Interval>)
    requires Ordered(intervals)
    ensures Part2(intervals) == |Covered(intervals)|
  {
    if intervals != [] {
      var init, last := intervals[..|intervals| - 1], intervals[|intervals| - 1];
      Part2CountsCovered(init);
      LenCountsRange(last);
      forall x | x in Covered(init) ensures x !in Range(last) {
        CoveredMembers(init, x);
        var j :| 0 <= j < |init| && Contains(init[j], x);
        assert intervals[j].end < last.start;
      }
      assert Covered(init) * Range(last) == {};
    }
  }

  /** The same covered ids give the same count. */
  lemma {:induction false} CountCoveredSame(a: seq<Interval>, b: seq<Interval>, values: seq<nat>)
    requires Covered(a) == Covered(b)
    ensures CountCovered(a, values) == CountCovered(b, values)
  {
    if values != [] {
      var x := values[|values| - 1];
      CountCoveredSame(a, b, values[..|values| - 1]);
      CoveredMembers(a, x);
      CoveredMembers(b, x);
    }
  }

  /** Merging an empty range into the last merged range changes nothing. */
  lemma EmptyAbsorbed(last: Interval, iv: Interval)
    requires !NonEmpty(iv) && last.start <= iv.start && Overlaps(last, iv)
    ensures Merge(last, iv) == last
  {
  }

  /**
   * `solve` over the text of the input: parse, merge, then both parts.
   * Part 1 is the number of listed ids some range contains and part 2 the
   * number of ids the ranges cover. An empty range (end below start) that
   * merging absorbs changes nothing; one that survives the merge makes
   * `len` underflow, and the answer is `None`. Without empty ranges there
   * is always an answer.
   */
  method Solve(input: string) returns (r: Option<(nat, nat)>)
    ensures ReadAndParse(input).None? ==> r.None?
    ensures ReadAndParse(input).Some? && AllNonEmpty(ReadAndParse(input).value.0) ==> r.Some?
    ensures r.Some? ==>
      var (intervals, values) := ReadAndParse(input).value;
      r.value == (CountCovered(intervals, values), |Covered(intervals)|)
  {
    var parsed := ReadAndParse(input);
    if parsed.None? {
      return None;
    }
    var (intervals, values) := parsed.value;
    var merged := MergeIntervals(intervals);
    if !AllNonEmpty(merged) {
      return None;
    }
    var sol1 := Part1(merged, values);
    var sol2 := Part2(merged);
    CountCoveredSame(merged, intervals, values);
    Part2CountsCovered(merged);
    r := Some((sol1, sol2));
  }
}

=== FILE: day06.dfy ===
/**
 * Day 6: a worksheet of numbers in columns with a row of operators ('+' or
 * '*') at the bottom. Part 1 reads each row as whitespace-separated numbers
 * and combines every column with its operator; part 2 reads the numbers
 * vertically, one per character column, in blocks separated by all-space
 * columns. Both answers are sums of the column (or block) results. The
 * source's `u64` arithmetic is unbounded here and its bytes are characters.
 */
module Day06 {
  import opened Wrappers
  import Text
  import Seqs

  datatype Operation = Add | Multiply

  /** An operator token; anything but "+" or "*" is a panic. */
  function ParseOperation(token: string): (r: Option<Operation>)
    ensures r == Some(Add) <==> token == "+"
    ensures r == Some(Multiply) <==> token == "*"
    ensures r.None? <==> token != "+" && token != "*"
  {
    if token == "+" then Some(Add) else if token == "*" then Some(Multiply) else None
  }

  function ParseOperations(tokens: seq<string>): (r: Option<seq<Operation>>)
    ensures r.Some? <==> forall i :: 0 <= i < |tokens| ==> ParseOperation(tokens[i]).Some?
    ensures r.Some? ==> |r.value| == |tokens|
    ensures r.Some? ==> forall i :: 0 <= i < |tokens| ==> ParseOperation(tokens[i]) == Some(r.value[i])
  {
    if tokens == [] then Some([])
    else
      match (ParseOperation(tokens[0]), ParseOperations(tokens[1..]))
      case (Some(op), Some(rest)) =>
        assert forall i :: 1 <= i < |tokens| ==> tokens[i] == tokens[1..][i - 1];
        Some([op] + rest)
      case (None, _) => None
      case (_, None) =>
        assert forall i :: 1 <= i < |tokens| ==> tokens[i] == tokens[1..][i - 1];
        None
  }

  function ParseNats(words: seq<string>): (r: Option<seq<nat>>)
    ensures r.Some? <==> forall k :: 0 <= k < |words| ==> Text.ParseNat(words[k]).Some?
    ensures r.Some? ==> |r.value| == |words|
    ensures r.Some? ==> forall k :: 0 <= k < |words| ==> Text.ParseNat(words[k]) == Some(r.value[k])
  {
    if words == [] then Some([])
    else
      match (Text.ParseNat(words[0]), ParseNats(words[1..]))
      case (Some(n), Some(rest)) =>
        assert forall k :: 1 <= k < |words| ==> words[k] == words[1..][k - 1];
        Some([n] + rest)
      case (None, _) => None
      case (_, None) =>
        assert forall k :: 1 <= k < |words| ==> words[k] == words[1..][k - 1];
        None
  }

  /** The rows of part 1: each line's whitespace-separated words, each an unsigned number. */
  function ParseRows(lines: seq<string>): (r: Option<seq<seq<nat>>>)
    ensures r.Some? <==> forall i :: 0 <= i < |lines| ==> ParseNats(Text.SplitWhitespace(lines[i])).Some?
    ensures r.Some? ==> |r.value| == |lines|
    ensures r.Some? ==> forall i :: 0 <= i < |lines| ==> ParseNats(Text.SplitWhitespace(lines[i])) == Some(r.value[i])
  {
    if lines == [] then Some([])
    else
      match (ParseNats(Text.SplitWhitespace(lines[0])), ParseRows(lines[1..]))
      case (Some(row), Some(rest)) =>
        assert forall i :: 1 <= i < |lines| ==> lines[i] == lines[1..][i - 1];
        Some([row] + rest)
      case (None, _) => None
      case (_, None) =>
        assert forall i :: 1 <= i < |lines| ==> lines[i] == lines[1..][i - 1];
        None
  }

  /**
   * The table of part 1: the numbers of every line but the last, and the
   * operators of the last line; nothing when a word does not parse.
   */
  function ParseTable(data: string): (r: Option<(seq<seq<nat>>, seq<Operation>)>)
    requires Text.Lines(data) != []
    ensures
      var lines := Text.Lines(data);
      r.Some? <==>
        && ParseRows(lines[..|lines| - 1]).Some?
        && ParseOperations(Text.SplitWhitespace(lines[|lines| - 1])).Some?
    ensures r.Some? ==> |r.value.0| == |Text.Lines(data)| - 1
  {
    var lines := Text.Lines(data);
    match (ParseRows(lines[..|lines| - 1]), ParseOperations(Text.SplitWhitespace(lines[|lines| - 1])))
    case (Some(values), Some(ops)) => Some((values, ops))
    case _ => None
  }

  /** An operator folded over numbers: their sum or their product. */
  function Apply(op: Operation, nums: seq<nat>): nat {
    match op
    case Add => Seqs.Sum(nums)
    case Multiply => Seqs.Product(nums)
  }

  /** One more number added to, or multiplied into, the result so far. */
  lemma ApplySnoc(op: Operation, nums: seq<nat>, x: nat)
    ensures Apply(op, nums + [x]) == (if op == Add then Apply(op, nums) + x else Apply(op, nums) * x)
  {
    Seqs.SumAppend(nums, [x]);
    Seqs.ProductAppend(nums, [x]);
    assert [x][1..] == [];
  }

  lemma ApplySingle(op: Operation, x: nat)
    ensures Apply(op, [x]) == x
  {
    assert [x][1..] == [];
    assert Seqs.Sum([x]) == x + Seqs.Sum([]);
    assert Seqs.Product([x]) == x * Seqs.Product([]);
  }

  /** Every row has at least `n` entries. */
  predicate Wide<T>(rows: seq<seq<T>>, n: nat) {
    forall r :: 0 <= r < |rows| ==> n <= |rows[r]|
  }

  /** Column `i` of the number rows, top to bottom. */
  function Column(values: seq<seq<nat>>, i: nat): (col: seq<nat>)
    requires Wide(values, i + 1)
    ensures |col| == |values| && forall r :: 0 <= r < |values| ==> col[r] == values[r][i]
  {
    seq(|values|, r requires 0 <= r < |values| => values[r][i])
  }

  /** The sum, over the first `|ops|` columns, of each column combined by its operator. */
  function ColumnsTotal(values: seq<seq<nat>>, ops: seq<Operation>): nat
    requires Wide(values, |ops|)
  {
    if ops == [] then 0
    else ColumnsTotal(values, ops[..|ops| - 1]) + Apply(ops[|ops| - 1], Column(values, |ops| - 1))
  }

  /** The `for row in &values[1..]` loop: column `i` folded from `values[0][i]` with `op`. */
  method ColumnResult(values: seq<seq<nat>>, i: nat, op: Operation) returns (v: nat)
    requires values != [] && Wide(values, i + 1)
    ensures v == Apply(op, Column(values, i))
  {
    v := values[0][i];
    assert Column(values[..1], i) == [v];
    ApplySingle(op, v);
    for r := 1 to |values|
      invariant v == Apply(op, Column(values[..r], i))
    {
      assert Column(values[..r + 1], i) == Column(values[..r], i) + [values[r][i]];
      ApplySnoc(op, Column(values[..r], i), values[r][i]);
      match op
      case Add => v := v + values[r][i];
      case Multiply => v := v * values[r][i];
    }
    assert values[..|values|] == values;
  }

  /**
   * `part1`: the sum of the column results. Reading `values[0][i]` or
   * `row[i]` needs a first row and every row as long as the operator row.
   */
  method Part1(data: string) returns (r: Option<nat>)
    requires Text.Lines(data) != []
    requires ParseTable(data).Some? ==>
      var (values, ops) := ParseTable(data).value;
      ops == [] || (values != [] && Wide(values, |ops|))
    ensures r.Some? <==> ParseTable(data).Some?
    ensures r.Some? ==> r.value == ColumnsTotal(ParseTable(data).value.0, ParseTable(data).value.1)
  {
    var table := ParseTable(data);
    if table.None? {
      return None;
    }
    var (values, ops) := table.value;
    var total := SumColumns(values, ops);
    r := Some(total);
  }

  /** The `operations.iter().enumerate().map(..).sum()` loop over the columns. */
  method SumColumns(values: seq<seq<nat>>, ops: seq<Operation>) returns (total: nat)
    requires ops == [] || (values != [] && Wide(values, |ops|))
    ensures total == ColumnsTotal(values, ops)
  {
    total := 0;
    for i := 0 to |ops|
      invariant total == ColumnsTotal(values, ops[..i])
    {
      assert ops[..i + 1][..i] == ops[..i];
      var v := ColumnResult(values, i, ops[i]);
      total := total + v;
    }
    assert ops[..|ops|] == ops;
  }

  /** A character of a number row that `row[j] - b'0'` can read without underflow. */
  predicate DigitOrSpace(c: char) {
    c == ' ' || c >= '0'
  }

  /** Every character in the first `w` columns of the number rows is a space or at least '0'. */
  predicate Readable(rows: seq<string>, w: nat) {
    forall r, j :: 0 <= r < |rows| && 0 <= j < w && j < |rows[r]| ==> DigitOrSpace(rows[r][j])
  }

  /** The number of column `j`: its non-space characters, top to bottom, as decimal digits. */
  function NumberOf(rows: seq<string>, j: nat): nat
    requires Wide(rows, j + 1) && Readable(rows, j + 1)
  {
    if rows == [] then 0
    else
      var c := rows[|rows| - 1][j];
      var n := NumberOf(rows[..|rows| - 1], j);
      if c == ' ' then n else n * 10 + ((c as int) - ('0' as int))
  }

  /** The non-space characters of column `j`, top to bottom. */
  function ColumnText(rows: seq<string>, j: nat): string
    requires Wide(rows, j + 1)
  {
    if rows == [] then []
    else
      var c := rows[|rows| - 1][j];
      ColumnText(rows[..|rows| - 1], j) + (if c == ' ' then [] else [c])
  }

  /** The rows above the last keep the column readable. */
  lemma ReadableInit(rows: seq<string>, j: nat)
    requires rows != [] && Wide(rows, j + 1) && Readable(rows, j + 1)
    ensures Wide(rows[..|rows| - 1], j + 1) && Readable(rows[..|rows| - 1], j + 1)
  {
  }

  /** One more row adds its character, unless it is a space, as the last digit. */
  lemma NumberOfSnoc(rows: seq<string>, j: nat)
    requires rows != [] && Wide(rows, j + 1) && Readable(rows, j + 1)
    requires Text.AllDigits(ColumnText(rows, j))
    ensures Wide(rows[..|rows| - 1], j + 1) && Readable(rows[..|rows| - 1], j + 1)
    ensures Text.AllDigits(ColumnText(rows[..|rows| - 1], j))
    ensures Text.DigitsValue(ColumnText(rows[..|rows| - 1], j)) == NumberOf(rows[..|rows| - 1], j)
      ==> Text.DigitsValue(ColumnText(rows, j)) == NumberOf(rows, j)
  {
    ReadableInit(rows, j);
    var init, c := rows[..|rows| - 1], rows[|rows| - 1][j];
    var t, all := ColumnText(init, j), ColumnText(rows, j);
    assert all == t + (if c == ' ' then [] else [c]);
    assert Text.AllDigits(t) by {
      assert forall k :: 0 <= k < |t| ==> t[k] == all[k];
    }
    var n := NumberOf(init, j);
    if c == ' ' {
      assert all == t && NumberOf(rows, j) == n;
    } else {
      assert Text.IsDigit(all[|t|]);
      Text.DigitsValueSnoc(t, c);
      assert NumberOf(rows, j) == n * 10 + Text.DigitValue(c);
    }
  }

  /** With digits only, a column's number is the decimal value of its non-space text. */
  lemma {:induction false} NumberOfIsDecimal(rows: seq<string>, j: nat)
    requires Wide(rows, j + 1) && Readable(rows, j + 1)
    requires Text.AllDigits(ColumnText(rows, j))
    ensures NumberOf(rows, j) == Text.DigitsValue(ColumnText(rows, j))
    ensures ColumnText(rows, j) != [] ==> Text.ParseNat(ColumnText(rows, j)) == Some(NumberOf(rows, j))
  {
    if rows != [] {
      NumberOfSnoc(rows, j);
      NumberOfIsDecimal(rows[..|rows| - 1], j);
    }
    if ColumnText(rows, j) != [] {
      Text.ParseDigits(ColumnText(rows, j));
    }
  }

  /** The `for row in &table[0..len - 1]` loop: the number of column `j`. */
  method ColumnNumber(rows: seq<string>, j: nat) returns (num: nat)
    requires Wide(rows, j + 1) && Readable(rows, j + 1)
    ensures num == NumberOf(rows, j)
  {
    num := 0;
    for r := 0 to |rows|
      invariant num == NumberOf(rows[..r], j)
    {
      assert rows[..r + 1][..r] == rows[..r];
      if rows[r][j] != ' ' {
        num := num * 10 + ((rows[r][j] as int) - ('0' as int));
      }
    }
    assert rows[..|rows|] == rows;
  }

  /** Every row of the table has a space at column `i`. */
  predicate IsSeparator(table: seq<string>, i: nat)
    requires Wide(table, i + 1)
  {
    forall r :: 0 <= r < |table| ==> table[r][i] == ' '
  }

  /** The all-space columns below `n`, in ascending order. */
  function SpaceColumns(table: seq<string>, n: nat): (cols: seq<nat>)
    requires Wide(table, n)
    ensures forall k, l :: 0 <= k < l < |cols| ==> cols[k] < cols[l]
    ensures forall k :: 0 <= k < |cols| ==> cols[k] < n && IsSeparator(table, cols[k])
    ensures forall i :: 0 <= i < n && IsSeparator(table, i) ==> i in cols
  {
    if n == 0 then [] else SpaceColumns(table, n - 1) + (if IsSeparator(table, n - 1) then [n - 1] else [])
  }

  /** The separators of part 2: the all-space columns, then the row length of the first row. */
  function Separators(table: seq<string>): (seps: seq<nat>)
    requires table != [] && Wide(table, |table[0]|)
    ensures seps != [] && seps[|seps| - 1] == |table[0]|
    ensures forall k, l :: 0 <= k < l < |seps| ==> seps[k] < seps[l]
    ensures forall i :: 0 <= i < |table[0]| ==> (i in seps <==> IsSeparator(table, i))
  {
    SpaceColumns(table, |table[0]|) + [|table[0]|]
  }

  /** The operators of part 2: the non-empty pieces of the last row split on ' '. */
  function OperatorTokens(line: string): (tokens: seq<string>)
    ensures forall k :: 0 <= k < |tokens| ==> tokens[k] != [] && ' ' !in tokens[k]
  {
    Seqs.Filter(Text.Split(line, ' '), (piece: string) => piece != [])
  }

  /** The first column of block `k`: zero, or one past the previous separator. */
  function BlockStart(seps: seq<nat>, k: nat): nat
    requires k <= |seps|
  {
    if k == 0 then 0 else seps[k - 1] + 1
  }

  /** The numbers of columns `start` up to `end`, left to right. */
  function Numbers(rows: seq<string>, start: nat, end: nat): (nums: seq<nat>)
    requires Wide(rows, end) && Readable(rows, end)
    ensures |nums| == if start <= end then end - start else 0
    ensures forall k :: 0 <= k < |nums| ==> nums[k] == NumberOf(rows, start + k)
    decreases end
  {
    if end <= start then [] else Numbers(rows, start, end - 1) + [NumberOf(rows, end - 1)]
  }

  /** A block's result: zero when it has no column, else its numbers combined by the operator. */
  function BlockValue(op: Operation, nums: seq<nat>): nat {
    if nums == [] then 0 else Apply(op, nums)
  }

  /** The first number starts a block's result; each later one is added or multiplied in. */
  lemma BlockSnoc(op: Operation, nums: seq<nat>, x: nat)
    ensures BlockValue(op, nums + [x]) ==
      if nums == [] then x
      else if op == Add then BlockValue(op, nums) + x
      else BlockValue(op, nums) * x
  {
    if nums == [] {
      assert nums + [x] == [x];
      ApplySingle(op, x);
    } else {
      ApplySnoc(op, nums, x);
    }
  }

  /** Block `k`'s operator; one past the last is never read, because such blocks hold at most one number. */
  function OpAt(ops: seq<Operation>, k: nat): Operation {
    if k < |ops| then ops[k] else Add
  }

  /** The operator row names an operator for every block of two or more columns. */
  predicate OperatorsSuffice(seps: seq<nat>, ops: seq<Operation>) {
    forall k :: 0 <= k < |seps| && BlockStart(seps, k) + 2 <= seps[k] ==> k < |ops|
  }

  /** The sum of the results of the blocks ending at the separators `seps`. */
  function BlocksTotal(rows: seq<string>, w: nat, seps: seq<nat>, ops: seq<Operation>): nat
    requires Wide(rows, w) && Readable(rows, w)
    requires forall k :: 0 <= k < |seps| ==> seps[k] <= w
  {
    if seps == [] then 0
    else
      var k := |seps| - 1;
      BlocksTotal(rows, w, seps[..k], ops)
        + BlockValue(OpAt(ops, k), Numbers(rows, BlockStart(seps, k), seps[k]))
  }

  lemma WidePrefix<T>(rows: seq<seq<T>>, w: nat, k: nat)
    requires Wide(rows, w) && k <= |rows|
    ensures Wide(rows[..k], w)
  {
  }

  /**
   * A table part 2 can read: a first row, no row shorter than it, and no
   * character below '0' among the numbers.
   */
  predicate Worksheet(table: seq<string>) {
    table != [] && Wide(table, |table[0]|) && Readable(table[..|table| - 1], |table[0]|)
  }

  /** Part 2's answer for a table and its operators: the block results over the number rows, summed. */
  function Part2Total(table: seq<string>, ops: seq<Operation>): nat
    requires Worksheet(table)
  {
    WidePrefix(table, |table[0]|, |table| - 1);
    BlocksTotal(table[..|table| - 1], |table[0]|, Separators(table), ops)
  }

  /** Readable characters up to a column stay readable up to an earlier one. */
  lemma ReadableUpTo(rows: seq<string>, w: nat, j: nat)
    requires Wide(rows, w) && Readable(rows, w) && j <= w
    ensures Wide(rows, j) && Readable(rows, j)
  {
  }

  /** The `for j in start..end` loop: the block's result. */
  method BlockResult(rows: seq<string>, w: nat, start: nat, end: nat, ops: seq<Operation>, i: nat) returns (v: nat)
    requires Wide(rows, w) && Readable(rows, w)
    requires start <= end <= w
    requires start + 2 <= end ==> i < |ops|
    ensures v == BlockValue(OpAt(ops, i), Numbers(rows, start, end))
  {
    v := 0;
    for j := start to end
      invariant v == BlockValue(OpAt(ops, i), Numbers(rows, start, j))
    {
      ReadableUpTo(rows, w, j + 1);
      var num := ColumnNumber(rows, j);
      ghost var before := Numbers(rows, start, j);
      assert Numbers(rows, start, j + 1) == before + [num];
      BlockSnoc(OpAt(ops, i), before, num);
      if j == start {
        v := num;
      } else {
        assert OpAt(ops, i) == ops[i];
        match ops[i]
        case Add => v := v + num;
        case Multiply => v := v * num;
      }
    }
  }

  /**
   * `part2`: the sum of the block results. Indexing `row[i]` and `row[j]`
   * needs every row as long as the first, `row[j] - b'0'` needs no
   * character below '0' among the numbers, and `operations[i]` needs an
   * operator for every block of two or more columns.
   */
  method Part2(data: string) returns (r: Option<nat>)
    requires Worksheet(Text.Lines(data))
    requires
      var table := Text.Lines(data);
      var ops := ParseOperations(OperatorTokens(table[|table| - 1]));
      ops.Some? ==> OperatorsSuffice(Separators(table), ops.value)
    ensures
      var table := Text.Lines(data);
      var ops := ParseOperations(OperatorTokens(table[|table| - 1]));
      && (r.Some? <==> ops.Some?)
      && (r.Some? ==> r.value == Part2Total(table, ops.value))
  {
    var table := Text.Lines(data);
    var w := |table[0]|;
    var rows := table[..|table| - 1];
    var indexes := Separators(table);
    var parsed := ParseOperations(OperatorTokens(table[|table| - 1]));
    if parsed.None? {
      return None;
    }
    WidePrefix(table, w, |table| - 1);
    var result := SumBlocks(rows, w, indexes, parsed.value);
    r := Some(result);
  }

  /** The `for (i, &end) in indexes` loop: the block results, summed. */
  method SumBlocks(rows: seq<string>, w: nat, indexes: seq<nat>, ops: seq<Operation>) returns (result: nat)
    requires Wide(rows, w) && Readable(rows, w)
    requires forall k, l :: 0 <= k < l < |indexes| ==> indexes[k] < indexes[l]
    requires forall k :: 0 <= k < |indexes| ==> indexes[k] <= w
    requires OperatorsSuffice(indexes, ops)
    ensures result == BlocksTotal(rows, w, indexes, ops)
  {
    result := 0;
    var start := 0;
    for i := 0 to |indexes|
      invariant start == BlockStart(indexes, i)
      invariant result == BlocksTotal(rows, w, indexes[..i], ops)
    {
      var end := indexes[i];
      assert indexes[..i + 1][..i] == indexes[..i];
      assert BlockStart(indexes[..i + 1], i) == start;
      var v := BlockResult(rows, w, start, end, ops, i);
      result := result + v;
      start := end + 1;
    }
    assert indexes[..|indexes|] == indexes;
  }
}

=== FILE: day07.dfy ===
/**
 * Day 7: a tachyon beam enters a manifold at `S` and travels downwards; a
 * splitter `^` stops it and sends two beams on from the cells to its left and
 * right. Part 1 follows the beams breadth first, turning every empty cell
 * they cross into a beam, and counts the splitters they reach. Part 2 walks
 * back up from the bottom row with a priority queue, adding into each cell
 * the number of timelines that continue below it, and reports the count that
 * arrives at the start.
 */
module Day07 {
  import opened Wrappers
  import opened Points
  import opened Grids

  /** A cell of the manifold; every kind but `Empty` carries a timeline count. */
  datatype Cell = Empty | Start(value: nat) | Split(value: nat) | Beam(value: nat)

  /** `Cell::from_char`: '.', 'S' and '^'; anything else panics. */
  function FromChar(c: char): (r: Option<Cell>)
    ensures r.Some? <==> c == '.' || c == 'S' || c == '^'
    ensures r == Some(Empty) <==> c == '.'
    ensures r == Some(Start(0)) <==> c == 'S'
    ensures r == Some(Split(0)) <==> c == '^'
  {
    match c
    case '.' => Some(Empty)
    case 'S' => Some(Start(0))
    case '^' => Some(Split(0))
    case _ => None
  }

  /** `from_char` on the characters it accepts. */
  function Decode(c: char): Cell {
    if c == 'S' then Start(0) else if c == '^' then Split(0) else Empty
  }

  /** `Decode` agrees with `FromChar` wherever it does not panic. */
  lemma DecodeAgrees(c: char)
    requires FromChar(c).Some?
    ensures FromChar(c) == Some(Decode(c))
  {
  }

  /**
   * `read_and_parse`: the grid and its first start cell in reading order;
   * nothing where `map_from_str` or `from_char` panics or there is no start.
   */
  method ReadAndParse(s: string) returns (r: Option<(Grid<Cell>, Point)>)
    ensures r.Some? <==>
      Dimensions(s).Some? && (forall c | c in Cells(s) :: FromChar(c).Some?) && 'S' in Cells(s)
    ensures r.Some? ==> fresh(r.value.0) && r.value.0.Valid()
    ensures r.Some? ==> (r.value.0.width, r.value.0.height) == Dimensions(s).value
    ensures r.Some? ==> forall i :: 0 <= i < |Cells(s)| ==> FromChar(Cells(s)[i]) == Some(r.value.0.data[i])
    ensures r.Some? ==> r.value.0.IsInBounds(r.value.1) && r.value.0.At(r.value.1) == Start(0)
    ensures r.Some? ==> forall p :: r.value.0.IsInBounds(p) && RowMajorBefore(p, r.value.1) ==> !r.value.0.At(p).Start?
  {
    var cells := Cells(s);
    if exists i :: 0 <= i < |cells| && FromChar(cells[i]).None? {
      r := None;
      return;
    }
    var parsed := MapFromStr(s, Decode);
    if parsed.None? {
      r := None;
      return;
    }
    var g := parsed.value;
    forall i | 0 <= i < |cells| ensures FromChar(cells[i]) == Some(g.data[i]) {
      DecodeAgrees(cells[i]);
    }
    var found := Find(g, Start(0));
    if found.None? {
      forall i | 0 <= i < |cells| ensures cells[i] != 'S' {
        assert g.At(g.Coords(i)) == g.data[i];
      }
      r := None;
    } else {
      var start := found.value;
      assert cells[g.Index(start.x, start.y)] == 'S';
      forall p | g.IsInBounds(p) && RowMajorBefore(p, start) ensures !g.At(p).Start? {
        assert g.At(p) == Decode(cells[g.Index(p.x, p.y)]);
      }
      r := Some((g, start));
    }
  }

  /** `get_value`: the count a cell carries, 0 for an empty cell. */
  function GetValue(c: Cell): nat {
    if c.Empty? then 0 else c.value
  }

  /** The two cells are of the same kind, whatever their counts. */
  predicate SameKind(a: Cell, b: Cell) {
    a.Empty? == b.Empty? && a.Start? == b.Start? && a.Split? == b.Split? && a.Beam? == b.Beam?
  }

  /** `add_value`: the kind stays and the count grows by `v`; an empty cell stays empty. */
  function AddValue(c: Cell, v: nat): (r: Cell)
    ensures SameKind(r, c)
    ensures GetValue(r) == GetValue(c) + (if c.Empty? then 0 else v)
  {
    match c
    case Empty => Empty
    case Start(n) => Start(n + v)
    case Split(n) => Split(n + v)
    case Beam(n) => Beam(n + v)
  }

  // ---------------------------------------------------------------------
  // Part 1: following the beams

  /** The cell of `data` (laid out as `g`'s cells) at `p`. */
  function CellAt(g: Grid<Cell>, data: seq<Cell>, p: Point): Cell
    requires |data| == g.width * g.height && g.IsInBounds(p)
  {
    data[g.Index(p.x, p.y)]
  }

  /** Rewriting the cell at `p` changes the cell at `p` and no other. */
  lemma CellAtUpdate(g: Grid<Cell>, data: seq<Cell>, p: Point, c: Cell, q: Point)
    requires |data| == g.width * g.height && g.IsInBounds(p) && g.IsInBounds(q)
    ensures CellAt(g, data[g.Index(p.x, p.y) := c], q) == if q == p then c else CellAt(g, data, q)
  {
    if q != p {
      g.IndexCoords(p);
      g.IndexCoords(q);
    }
  }

  /** Where a beam that reaches `p` goes on: sideways from a splitter, down otherwise. */
  function Succs(g: Grid<Cell>, d0: seq<Cell>, p: Point): (r: seq<Point>)
    requires |d0| == g.width * g.height && g.IsInBounds(p)
    ensures r == [Down(p)] || (r == [Left(p), Right(p)] && CellAt(g, d0, p).Split?)
  {
    if CellAt(g, d0, p).Split? then [Left(p), Right(p)] else [Down(p)]
  }

  /** A cell a beam can enter: inside the grid, and empty or a splitter in `d0`. */
  predicate Relevant(g: Grid<Cell>, d0: seq<Cell>, p: Point)
    requires |d0| == g.width * g.height
  {
    g.IsInBounds(p) && (CellAt(g, d0, p).Empty? || CellAt(g, d0, p).Split?)
  }

  /**
   * No two splitters side by side. Part 1 needs it to stop: a splitter next
   * to a splitter sends the beam back to it, and splitters are never marked.
   */
  ghost predicate NoAdjacentSplitters(g: Grid<Cell>, d0: seq<Cell>)
    requires |d0| == g.width * g.height
  {
    forall p | g.IsInBounds(p) && g.IsInBounds(Right(p)) ::
      !(CellAt(g, d0, p).Split? && CellAt(g, d0, Right(p)).Split?)
  }

  /** The cell at `p` once the cells in `order` are lit: empty cells among them become beams. */
  function Lit(g: Grid<Cell>, d0: seq<Cell>, order: seq<Point>, p: Point): Cell
    requires |d0| == g.width * g.height && g.IsInBounds(p)
  {
    if p in order && CellAt(g, d0, p).Empty? then Beam(0) else CellAt(g, d0, p)
  }

  ghost predicate GridLit(g: Grid<Cell>, d0: seq<Cell>, data: seq<Cell>, order: seq<Point>)
    requires |d0| == g.width * g.height && |data| == |d0|
  {
    forall p | g.IsInBounds(p) :: CellAt(g, data, p) == Lit(g, d0, order, p)
  }

  predicate InGrid(g: Grid<Cell>, ps: seq<Point>) {
    forall k | 0 <= k < |ps| :: g.IsInBounds(ps[k])
  }

  predicate Distinct(s: seq<Point>) {
    forall a, b | 0 <= a < b < |s| :: s[a] != s[b]
  }

  /** How many of the cells `ps` are splitters in `d0`. */
  function SplitsAmong(g: Grid<Cell>, d0: seq<Cell>, ps: seq<Point>): (n: nat)
    requires |d0| == g.width * g.height && InGrid(g, ps)
    ensures n <= |ps|
  {
    if ps == [] then 0
    else SplitsAmong(g, d0, ps[..|ps| - 1]) + (if CellAt(g, d0, ps[|ps| - 1]).Split? then 1 else 0)
  }

  /** The splitters among the cells `ps`, as a set. */
  ghost function SplittersIn(g: Grid<Cell>, d0: seq<Cell>, ps: seq<Point>): set<Point>
    requires |d0| == g.width * g.height
  {
    set p | p in ps && g.IsInBounds(p) && CellAt(g, d0, p).Split?
  }

  lemma SplittersSnoc(g: Grid<Cell>, d0: seq<Cell>, init: seq<Point>, x: Point)
    requires |d0| == g.width * g.height && g.IsInBounds(x)
    ensures CellAt(g, d0, x).Split? ==> SplittersIn(g, d0, init + [x]) == SplittersIn(g, d0, init) + {x}
    ensures !CellAt(g, d0, x).Split? ==> SplittersIn(g, d0, init + [x]) == SplittersIn(g, d0, init)
  {
    assert forall p :: p in init + [x] <==> p in init || p == x;
  }

  /** Counted along a list without repetitions, the splitters are the distinct splitter cells. */
  lemma {:induction false} SplitsAmongDistinct(g: Grid<Cell>, d0: seq<Cell>, ps: seq<Point>)
    requires |d0| == g.width * g.height && InGrid(g, ps) && Distinct(ps)
    ensures SplitsAmong(g, d0, ps) == |SplittersIn(g, d0, ps)|
  {
    if ps != [] {
      var init := ps[..|ps| - 1];
      var x := ps[|ps| - 1];
      assert ps == init + [x];
      SplitsAmongDistinct(g, d0, init);
      assert x !in init by {
        forall k | 0 <= k < |init| ensures init[k] != x {
          assert init[k] == ps[k];
        }
      }
      SplittersSnoc(g, d0, init, x);
    }
  }

  /**
   * `order` lists, without repetition and starting at `start`, exactly the
   * cells the beam from `start` reaches: each later cell is a successor of
   * an earlier one, and every enterable successor of a listed cell is listed.
   */
  ghost predicate Reached(g: Grid<Cell>, d0: seq<Cell>, start: Point, order: seq<Point>)
    requires |d0| == g.width * g.height
  {
    && order != [] && order[0] == start && Distinct(order) && InGrid(g, order)
    && (forall k | 1 <= k < |order| :: Entered(g, d0, order, k))
    && (forall m | 0 <= m < |order| :: ClosedAt(g, d0, order, m, |order|, []))
  }

  /** The `k`th listed cell can be entered and is a successor of an earlier one. */
  ghost predicate Entered(g: Grid<Cell>, d0: seq<Cell>, order: seq<Point>, k: nat)
    requires |d0| == g.width * g.height && InGrid(g, order) && k < |order|
  {
    Relevant(g, d0, order[k]) && exists m | 0 <= m < k :: order[k] in Succs(g, d0, order[m])
  }

  /**
   * The `k`th listed cell can be entered and was queued by a cell already
   * taken off the queue; by the cell being processed, only through a
   * successor it has already handled (not one still `pending`).
   */
  ghost predicate QueuedBy(g: Grid<Cell>, d0: seq<Cell>, order: seq<Point>, head: nat, pending: seq<Point>, k: nat)
    requires |d0| == g.width * g.height && InGrid(g, order) && k < |order|
  {
    Relevant(g, d0, order[k]) &&
    exists m | 0 <= m < head && m < k ::
      order[k] in Succs(g, d0, order[m]) && (m == head - 1 ==> order[k] !in pending)
  }

  ghost predicate Justified(g: Grid<Cell>, d0: seq<Cell>, order: seq<Point>, head: nat, pending: seq<Point>)
    requires |d0| == g.width * g.height && InGrid(g, order)
  {
    forall k | 1 <= k < |order| :: QueuedBy(g, d0, order, head, pending, k)
  }

  /**
   * The enterable successors of the `m`th listed cell are listed, or, when
   * it is the cell being processed, still `pending`.
   */
  ghost predicate ClosedAt(g: Grid<Cell>, d0: seq<Cell>, order: seq<Point>, m: nat, head: nat, pending: seq<Point>)
    requires |d0| == g.width * g.height && InGrid(g, order) && m < |order|
  {
    forall s | s in Succs(g, d0, order[m]) && Relevant(g, d0, s) :: s in order || (m + 1 == head && s in pending)
  }

  /** The enterable successors of the cells taken off the queue are listed, or still pending. */
  ghost predicate ClosedUpTo(g: Grid<Cell>, d0: seq<Cell>, order: seq<Point>, head: nat, pending: seq<Point>)
    requires |d0| == g.width * g.height && InGrid(g, order) && head <= |order|
  {
    forall m | 0 <= m < head :: ClosedAt(g, d0, order, m, head, pending)
  }

  /** `pending` is what is left to handle of `p`'s successors. */
  predicate PendingOf(g: Grid<Cell>, d0: seq<Cell>, p: Point, pending: seq<Point>)
    requires |d0| == g.width * g.height && g.IsInBounds(p)
  {
    pending == [] || pending == Succs(g, d0, p) || (CellAt(g, d0, p).Split? && pending == [Right(p)])
  }

  /**
   * The state of part 1's loop: `order` is every cell ever queued, the first
   * `head` of them taken off; `data` is `d0` with the queued empty cells lit;
   * `count` is the number of splitters taken off so far.
   */
  ghost predicate Beaming(g: Grid<Cell>, d0: seq<Cell>, data: seq<Cell>, start: Point,
                          order: seq<Point>, head: nat, count: nat, pending: seq<Point>)
  {
    && |d0| == g.width * g.height && |data| == |d0|
    && order != [] && order[0] == start && head <= |order|
    && Distinct(order) && InGrid(g, order)
    && CellAt(g, d0, start).Start?
    && GridLit(g, d0, data, order)
    && Justified(g, d0, order, head, pending)
    && ClosedUpTo(g, d0, order, head, pending)
    && count == SplitsAmong(g, d0, order[..head])
    && (head == 0 ==> pending == [])
    && (head > 0 ==> PendingOf(g, d0, order[head - 1], pending))
  }

  lemma BeamingInit(g: Grid<Cell>, d0: seq<Cell>, start: Point)
    requires |d0| == g.width * g.height && g.IsInBounds(start) && CellAt(g, d0, start).Start?
    ensures Beaming(g, d0, d0, start, [start], 0, 0, [])
  {
    assert [start][..0] == [];
  }

  /** Taking the next cell off the queue: its successors become pending. */
  lemma PopStep(g: Grid<Cell>, d0: seq<Cell>, data: seq<Cell>, start: Point,
                order: seq<Point>, head: nat, count: nat)
    requires Beaming(g, d0, data, start, order, head, count, []) && head < |order|
    ensures CellAt(g, data, order[head]).Split? == CellAt(g, d0, order[head]).Split?
    ensures Beaming(g, d0, data, start, order, head + 1,
                    count + (if CellAt(g, d0, order[head]).Split? then 1 else 0), Succs(g, d0, order[head]))
  {
    var cur := order[head];
    var pending := Succs(g, d0, cur);
    var head' := head + 1;
    assert CellAt(g, data, cur) == Lit(g, d0, order, cur);
    forall k | 1 <= k < |order| ensures QueuedBy(g, d0, order, head', pending, k) {
      assert QueuedBy(g, d0, order, head, [], k);
      var m :| 0 <= m < head && m < k && order[k] in Succs(g, d0, order[m]);
    }
    forall m | 0 <= m < head' ensures ClosedAt(g, d0, order, m, head', pending) {
      if m < head {
        assert ClosedAt(g, d0, order, m, head, []);
      }
    }
    assert order[..head + 1][..head] == order[..head];
  }

  /** What is left of the pending successors after handling the first one. */
  lemma PendingTail(g: Grid<Cell>, d0: seq<Cell>, p: Point, next: Point, rest: seq<Point>)
    requires |d0| == g.width * g.height && g.IsInBounds(p)
    requires PendingOf(g, d0, p, [next] + rest)
    ensures PendingOf(g, d0, p, rest)
    ensures next in Succs(g, d0, p) && next !in rest
  {
    var pending := [next] + rest;
    assert pending[0] == next && pending[1..] == rest;
    if CellAt(g, d0, p).Split? {
      if pending == [Left(p), Right(p)] {
        assert rest == [Right(p)];
      } else {
        assert pending == [Right(p)];
      }
    } else {
      assert pending == [Down(p)];
    }
  }

  /** Handling a successor that queues nothing. */
  lemma SkipStep(g: Grid<Cell>, d0: seq<Cell>, data: seq<Cell>, start: Point,
                 order: seq<Point>, head: nat, count: nat, next: Point, rest: seq<Point>)
    requires Beaming(g, d0, data, start, order, head, count, [next] + rest)
    requires g.IsInBounds(next) ==> !CellAt(g, data, next).Empty? && !CellAt(g, data, next).Split?
    ensures Beaming(g, d0, data, start, order, head, count, rest)
  {
    PendingTail(g, d0, order[head - 1], next, rest);
    if Relevant(g, d0, next) {
      assert CellAt(g, data, next) == Lit(g, d0, order, next);
    }
    forall m | 0 <= m < head ensures ClosedAt(g, d0, order, m, head, rest) {
      assert ClosedAt(g, d0, order, m, head, [next] + rest);
    }
    forall k | 1 <= k < |order| ensures QueuedBy(g, d0, order, head, rest, k) {
      assert QueuedBy(g, d0, order, head, [next] + rest, k);
      var m :| 0 <= m < head && m < k && order[k] in Succs(g, d0, order[m]) &&
        (m == head - 1 ==> order[k] !in [next] + rest);
    }
  }

  /** Handling a successor that is queued for the first time. */
  lemma AppendStep(g: Grid<Cell>, d0: seq<Cell>, data: seq<Cell>, data': seq<Cell>, start: Point,
                   order: seq<Point>, head: nat, count: nat, next: Point, rest: seq<Point>)
    requires Beaming(g, d0, data, start, order, head, count, [next] + rest)
    requires Relevant(g, d0, next) && next !in order
    requires |data'| == |data| && GridLit(g, d0, data', order + [next])
    ensures Beaming(g, d0, data', start, order + [next], head, count, rest)
  {
    PendingTail(g, d0, order[head - 1], next, rest);
    var order' := order + [next];
    forall a, b | 0 <= a < b < |order'| ensures order'[a] != order'[b] {
      if b == |order| {
        assert order'[a] in order;
      }
    }
    AppendJustified(g, d0, order, head, next, rest);
    AppendClosed(g, d0, order, head, next, rest);
    assert order'[..head] == order[..head];
  }

  lemma AppendJustified(g: Grid<Cell>, d0: seq<Cell>, order: seq<Point>, head: nat, next: Point, rest: seq<Point>)
    requires |d0| == g.width * g.height && InGrid(g, order) && 0 < head <= |order|
    requires Justified(g, d0, order, head, [next] + rest)
    requires Relevant(g, d0, next) && next in Succs(g, d0, order[head - 1]) && next !in rest
    ensures InGrid(g, order + [next]) && Justified(g, d0, order + [next], head, rest)
  {
    var order' := order + [next];
    forall k | 1 <= k < |order'| ensures QueuedBy(g, d0, order', head, rest, k) {
      if k == |order| {
        assert order'[head - 1] == order[head - 1];
      } else {
        assert QueuedBy(g, d0, order, head, [next] + rest, k);
        var m :| 0 <= m < head && m < k && order[k] in Succs(g, d0, order[m]) &&
          (m == head - 1 ==> order[k] !in [next] + rest);
        assert order'[m] == order[m];
      }
    }
  }

  lemma AppendClosed(g: Grid<Cell>, d0: seq<Cell>, order: seq<Point>, head: nat, next: Point, rest: seq<Point>)
    requires |d0| == g.width * g.height && InGrid(g, order) && head <= |order| && g.IsInBounds(next)
    requires ClosedUpTo(g, d0, order, head, [next] + rest)
    ensures InGrid(g, order + [next]) && ClosedUpTo(g, d0, order + [next], head, rest)
  {
    var order' := order + [next];
    forall m | 0 <= m < head ensures ClosedAt(g, d0, order', m, head, rest) {
      assert ClosedAt(g, d0, order, m, head, [next] + rest);
      assert order'[m] == order[m];
    }
  }

  /** An empty successor is lit and queued. */
  lemma PushEmptyStep(g: Grid<Cell>, d0: seq<Cell>, data: seq<Cell>, data': seq<Cell>, start: Point,
                      order: seq<Point>, head: nat, count: nat, next: Point, rest: seq<Point>)
    requires Beaming(g, d0, data, start, order, head, count, [next] + rest)
    requires g.IsInBounds(next) && CellAt(g, data, next).Empty?
    requires data' == data[g.Index(next.x, next.y) := Beam(0)]
    ensures next !in order
    ensures Beaming(g, d0, data', start, order + [next], head, count, rest)
  {
    assert CellAt(g, data, next) == Lit(g, d0, order, next);
    forall p | g.IsInBounds(p) ensures CellAt(g, data', p) == Lit(g, d0, order + [next], p) {
      CellAtUpdate(g, data, next, Beam(0), p);
      assert p in order + [next] <==> p in order || p == next;
    }
    AppendStep(g, d0, data, data', start, order, head, count, next, rest);
  }

  /** A splitter successor is queued; with no adjacent splitters it cannot be listed already. */
  lemma PushSplitStep(g: Grid<Cell>, d0: seq<Cell>, data: seq<Cell>, start: Point,
                      order: seq<Point>, head: nat, count: nat, next: Point, rest: seq<Point>)
    requires Beaming(g, d0, data, start, order, head, count, [next] + rest)
    requires NoAdjacentSplitters(g, d0)
    requires g.IsInBounds(next) && CellAt(g, data, next).Split?
    ensures next !in order
    ensures Beaming(g, d0, data, start, order + [next], head, count, rest)
  {
    PendingTail(g, d0, order[head - 1], next, rest);
    assert CellAt(g, data, next) == Lit(g, d0, order, next);
    assert CellAt(g, d0, next).Split?;
    NotListedTwice(g, d0, data, start, order, head, count, next, rest);
    forall p | g.IsInBounds(p) ensures CellAt(g, data, p) == Lit(g, d0, order + [next], p) {
      assert p in order + [next] <==> p in order || p == next;
    }
    AppendStep(g, d0, data, data, start, order, head, count, next, rest);
  }

  /** A splitter just reached cannot have been queued before. */
  lemma NotListedTwice(g: Grid<Cell>, d0: seq<Cell>, data: seq<Cell>, start: Point,
                       order: seq<Point>, head: nat, count: nat, next: Point, rest: seq<Point>)
    requires Beaming(g, d0, data, start, order, head, count, [next] + rest)
    requires NoAdjacentSplitters(g, d0)
    requires head > 0 && next in Succs(g, d0, order[head - 1])
    requires g.IsInBounds(next) && CellAt(g, d0, next).Split?
    ensures next !in order
  {
    var cur := order[head - 1];
    SplitNotBeside(g, d0, cur, next);
    forall k | 0 <= k < |order| ensures order[k] != next {
      if k > 0 && CellAt(g, d0, order[k]).Split? {
        assert QueuedBy(g, d0, order, head, [next] + rest, k);
        var m :| 0 <= m < head && m < k && order[k] in Succs(g, d0, order[m]) &&
          (m == head - 1 ==> order[k] !in [next] + rest);
        SplitNotBeside(g, d0, order[m], order[k]);
        if m != head - 1 {
          assert order[m] != cur;
        }
      }
    }
  }

  /** A splitter is never beside another: reaching one comes from straight above. */
  lemma SplitNotBeside(g: Grid<Cell>, d0: seq<Cell>, p: Point, q: Point)
    requires |d0| == g.width * g.height && NoAdjacentSplitters(g, d0)
    requires g.IsInBounds(p) && g.IsInBounds(q) && CellAt(g, d0, q).Split?
    requires q in Succs(g, d0, p)
    ensures q == Down(p) && !CellAt(g, d0, p).Split?
  {
    assert Right(Left(p)) == p;
  }

  /** The loop's state once the queue is empty is the specification of part 1. */
  lemma BeamingDone(g: Grid<Cell>, d0: seq<Cell>, data: seq<Cell>, start: Point, order: seq<Point>, count: nat)
    requires Beaming(g, d0, data, start, order, |order|, count, [])
    ensures Reached(g, d0, start, order)
    ensures count == SplitsAmong(g, d0, order)
  {
    assert order[..|order|] == order;
    forall k | 1 <= k < |order| ensures Entered(g, d0, order, k) {
      assert QueuedBy(g, d0, order, |order|, [], k);
      var m :| 0 <= m < |order| && m < k && order[k] in Succs(g, d0, order[m]);
    }
  }

  /** `process_cell` out of bounds changes nothing; the four cases below are its match. */
  method ProcessCell(g: Grid<Cell>, next: Point, queue: seq<Point>) returns (queue': seq<Point>)
    requires g.Valid()
    modifies g
    ensures g.Valid()
    ensures !g.IsInBounds(next) ==> g.data == old(g.data) && queue' == queue
    ensures g.IsInBounds(next) && old(g.At(next)).Empty? ==>
      g.data == old(g.data)[g.Index(next.x, next.y) := Beam(0)] && queue' == queue + [next]
    ensures g.IsInBounds(next) && old(g.At(next)).Split? ==>
      g.data == old(g.data) && queue' == queue + [next]
    ensures g.IsInBounds(next) && !old(g.At(next)).Empty? && !old(g.At(next)).Split? ==>
      g.data == old(g.data) && queue' == queue
  {
    queue' := queue;
    if !g.IsInBounds(next) {
      return;
    }
    match g.At(next)
    case Empty =>
      g.Set(next, Beam(0));
      queue' := queue + [next];
    case Split(_) =>
      queue' := queue + [next];
    case _ =>
  }

  /** The grid's cells as a set of points. */
  ghost function AllPoints(g: Grid<Cell>): set<Point> {
    set x: int, y: int | 0 <= x < g.width && 0 <= y < g.height :: Point(x, y)
  }

  /** The cells not queued yet: part 1's loop shrinks this or its queue. */
  ghost function Unvisited(g: Grid<Cell>, order: seq<Point>): set<Point> {
    AllPoints(g) - set p | p in order
  }

  /** One `process_cell` call of part 1, with the ghost bookkeeping that goes with it. */
  method Visit(g: Grid<Cell>, next: Point, queue: seq<Point>, ghost d0: seq<Cell>, ghost start: Point,
               ghost order: seq<Point>, ghost head: nat, ghost count: nat,
               ghost pending: seq<Point>, ghost rest: seq<Point>)
    returns (queue': seq<Point>, ghost order': seq<Point>)
    requires g.Valid() && Beaming(g, d0, g.data, start, order, head, count, pending)
    requires pending == [next] + rest
    requires NoAdjacentSplitters(g, d0) && queue == order[head..]
    modifies g
    ensures g.Valid() && Beaming(g, d0, g.data, start, order', head, count, rest) && queue' == order'[head..]
    ensures order' == order || Unvisited(g, order') < Unvisited(g, order)
  {
    ghost var data := g.data;
    ghost var cell := if g.IsInBounds(next) then Some(g.At(next)) else None;
    queue' := ProcessCell(g, next, queue);
    if cell.Some? && cell.value.Empty? {
      PushEmptyStep(g, d0, data, g.data, start, order, head, count, next, rest);
      order' := order + [next];
      assert next in Unvisited(g, order) - Unvisited(g, order');
    } else if cell.Some? && cell.value.Split? {
      PushSplitStep(g, d0, data, start, order, head, count, next, rest);
      order' := order + [next];
      assert next in Unvisited(g, order) - Unvisited(g, order');
    } else {
      SkipStep(g, d0, data, start, order, head, count, next, rest);
      order' := order;
    }
  }

  /** Visit the successors of `current`, the cell just taken off the queue. */
  method VisitSuccessors(g: Grid<Cell>, current: Point, queue: seq<Point>, ghost d0: seq<Cell>,
                         ghost start: Point, ghost order: seq<Point>, ghost head: nat, ghost count: nat)
    returns (queue': seq<Point>, ghost order': seq<Point>)
    requires g.Valid() && |d0| == g.width * g.height && g.IsInBounds(current)
    requires Beaming(g, d0, g.data, start, order, head, count, Succs(g, d0, current))
    requires NoAdjacentSplitters(g, d0) && queue == order[head..]
    requires g.At(current).Split? == CellAt(g, d0, current).Split?
    modifies g
    ensures g.Valid() && Beaming(g, d0, g.data, start, order', head, count, [])
    ensures queue' == order'[head..]
    ensures order' == order || Unvisited(g, order') < Unvisited(g, order)
  {
    ghost var succs := Succs(g, d0, current);
    if g.At(current).Split? {
      queue', order' := Visit(g, Left(current), queue, d0, start, order, head, count, succs, [Right(current)]);
      ghost var order1 := order';
      queue', order' := Visit(g, Right(current), queue', d0, start, order1, head, count, [Right(current)], []);
    } else {
      queue', order' := Visit(g, Down(current), queue, d0, start, order, head, count, succs, []);
    }
  }

  /** One turn of part 1's loop: take the next cell off the queue and handle its successors. */
  method Step(g: Grid<Cell>, queue: seq<Point>, ghost d0: seq<Cell>, ghost start: Point,
              ghost order: seq<Point>, ghost head: nat, count: nat)
    returns (queue': seq<Point>, ghost order': seq<Point>, count': nat)
    requires g.Valid() && Beaming(g, d0, g.data, start, order, head, count, [])
    requires NoAdjacentSplitters(g, d0) && queue == order[head..] && queue != []
    modifies g
    ensures g.Valid() && Beaming(g, d0, g.data, start, order', head + 1, count', [])
    ensures queue' == order'[head + 1..]
    ensures order' == order || Unvisited(g, order') < Unvisited(g, order)
  {
    var current := queue[0];
    ghost var head' := head + 1;
    PopStep(g, d0, g.data, start, order, head, count);
    assert g.At(current) == CellAt(g, g.data, current);
    count' := if g.At(current).Split? then count + 1 else count;
    queue', order' := VisitSuccessors(g, current, queue[1..], d0, start, order, head', count');
  }

  /**
   * `part1`: the beam from `start` lights exactly the empty cells it
   * reaches (listed in `order`, the order the queue takes them), nothing
   * else changes, and the result is the number of splitters it reaches.
   * It needs no two adjacent splitters, without which the source's loop
   * does not end.
   */
  method Part1(g: Grid<Cell>, start: Point) returns (splitCount: nat, ghost order: seq<Point>)
    requires g.Valid() && g.IsInBounds(start) && g.At(start).Start?
    requires NoAdjacentSplitters(g, g.data)
    modifies g
    ensures g.Valid()
    ensures Reached(g, old(g.data), start, order)
    ensures forall p | g.IsInBounds(p) :: g.At(p) == Lit(g, old(g.data), order, p)
    ensures splitCount == SplitsAmong(g, old(g.data), order)
    ensures splitCount == |SplittersIn(g, old(g.data), order)|
  {
    ghost var d0 := g.data;
    var queue := [start];
    order := [start];
    ghost var head := 0;
    splitCount := 0;
    BeamingInit(g, d0, start);
    while queue != []
      invariant g.Valid() && Beaming(g, d0, g.data, start, order, head, splitCount, [])
      invariant queue == order[head..]
      decreases Unvisited(g, order), |queue|
    {
      queue, order, splitCount := Step(g, queue, d0, start, order, head, splitCount);
      head := head + 1;
    }
    BeamingDone(g, d0, g.data, start, order, splitCount);
    SplitsAmongDistinct(g, d0, order);
  }

  // ---------------------------------------------------------------------
  // Part 2: counting timelines from the bottom up

  /** `HeapWrapper`: a queued cell, and whether it goes before the other cells of its row. */
  datatype Entry = Entry(p: Point, priority: bool)

  /** `HeapWrapper::cmp` is at most `Equal`: compared by row, then by priority (`false` first). */
  predicate EntryLe(a: Entry, b: Entry) {
    a.p.y < b.p.y || (a.p.y == b.p.y && (!a.priority || b.priority))
  }

  /** The entry order is a total preorder; entries tie exactly when row and priority agree. */
  lemma EntryLeTotal(a: Entry, b: Entry, c: Entry)
    ensures EntryLe(a, a)
    ensures EntryLe(a, b) || EntryLe(b, a)
    ensures EntryLe(a, b) && EntryLe(b, c) ==> EntryLe(a, c)
    ensures EntryLe(a, b) && EntryLe(b, a) <==> a.p.y == b.p.y && a.priority == b.priority
  {
  }

  /**
   * `Heap`: a max-priority queue of entries (a `BinaryHeap`). The order of
   * `data` carries no meaning; `Pop` takes out a greatest entry.
   */
  class Heap {
    var data: seq<Entry>

    constructor ()
      ensures data == []
    {
      data := [];
    }

    method Push(p: Point, havePriority: bool)
      modifies this
      ensures data == old(data) + [Entry(p, havePriority)]
    {
      data := data + [Entry(p, havePriority)];
    }

    /** `pop`: the cell of a greatest entry, which leaves the queue; nothing once it is empty. */
    method Pop() returns (r: Option<Point>, ghost k: nat)
      modifies this
      ensures r.None? <==> old(data) == []
      ensures r.None? ==> data == old(data)
      ensures r.Some? ==> k < |old(data)| && r.value == old(data)[k].p
      ensures r.Some? ==> data == old(data)[..k] + old(data)[k + 1..]
      ensures r.Some? ==> forall e | e in old(data) :: EntryLe(e, old(data)[k])
      ensures r.Some? ==> forall e | e in data :: e in old(data)
    {
      if data == [] {
        return None, 0;
      }
      var best := 0;
      var i := 1;
      while i < |data|
        invariant 0 <= best < i <= |data|
        invariant forall j | 0 <= j < i :: EntryLe(data[j], data[best])
      {
        if !EntryLe(data[i], data[best]) {
          best := i;
        }
        i := i + 1;
      }
      r := Some(data[best].p);
      k := best;
      ghost var all := data;
      data := data[..best] + data[best + 1..];
      forall e | e in data ensures e in all {
        var j :| 0 <= j < |data| && data[j] == e;
        if j < best {
          assert e == all[j];
        } else {
          assert e == all[j + 1];
        }
      }
    }
  }

  function Pow2(n: nat): (r: nat)
    ensures r >= 1
  {
    if n == 0 then 1 else 2 * Pow2(n - 1)
  }

  /** `Pow2` grows with its exponent. */
  lemma {:induction false} Pow2Mono(a: nat, b: nat)
    requires a <= b
    ensures Pow2(a) <= Pow2(b)
  {
    if a < b {
      Pow2Mono(a, b - 1);
    }
  }

  /** An entry's place in the queue's order as a number: twice the row, plus the priority. */
  function Rank(e: Entry): nat {
    if e.p.y < 0 then 0 else 2 * e.p.y + (if e.priority then 1 else 0)
  }

  /** The termination measure of part 2: each queued entry weighs `2^Rank`. */
  function Weight(s: seq<Entry>): nat {
    if s == [] then 0 else Weight(s[..|s| - 1]) + Pow2(Rank(s[|s| - 1]))
  }

  lemma WeightPush(s: seq<Entry>, e: Entry)
    ensures Weight(s + [e]) == Weight(s) + Pow2(Rank(e))
  {
    assert (s + [e])[..|s|] == s;
  }

  lemma {:induction false} WeightAppend(a: seq<Entry>, b: seq<Entry>)
    ensures Weight(a + b) == Weight(a) + Weight(b)
  {
    if b == [] {
      assert a + b == a;
    } else {
      var b' := b[..|b| - 1];
      assert a + b == (a + b') + [b[|b| - 1]];
      WeightPush(a + b', b[|b| - 1]);
      WeightAppend(a, b');
      WeightPush(b', b[|b| - 1]);
      assert b' + [b[|b| - 1]] == b;
    }
  }

  /** Taking an entry out lightens the queue by that entry's weight. */
  lemma WeightRemove(s: seq<Entry>, k: nat)
    requires k < |s|
    ensures Weight(s) == Weight(s[..k] + s[k + 1..]) + Pow2(Rank(s[k]))
  {
    var a, e, b := s[..k], [s[k]], s[k + 1..];
    assert e + b == s[k..];
    assert s == a + s[k..];
    WeightAppend(a, e + b);
    WeightAppend(e, b);
    WeightAppend(a, b);
    assert [] + e == e;
    WeightPush([], s[k]);
  }

  /** A beam on row `y` queues at most its upper cell and its left splitter, both lighter in total. */
  lemma BeamLightens(y: nat)
    requires y >= 1
    ensures Pow2(2 * y - 1) + Pow2(2 * y) < Pow2(2 * y + 1)
  {
    assert Pow2(2 * y) == 2 * Pow2(2 * y - 1);
  }

  /** The cells keep their kinds; only counts change. */
  ghost predicate KindsKept(d0: seq<Cell>, data: seq<Cell>) {
    |data| == |d0| && forall i | 0 <= i < |d0| :: SameKind(data[i], d0[i])
  }

  /** Every queued entry is inside the grid; one without priority is a splitter. */
  ghost predicate Queued(g: Grid<Cell>, d0: seq<Cell>, entries: seq<Entry>)
    requires |d0| == g.width * g.height
  {
    forall e | e in entries :: g.IsInBounds(e.p) && (!e.priority ==> CellAt(g, d0, e.p).Split?)
  }

  /** Every beam on the bottom row holds the count 1. */
  ghost predicate BottomOnes(g: Grid<Cell>, d0: seq<Cell>, data: seq<Cell>)
    requires |d0| == g.width * g.height && |data| == |d0|
  {
    forall q | g.IsInBounds(q) && q.y == g.height - 1 && CellAt(g, d0, q).Beam? :: CellAt(g, data, q) == Beam(1)
  }

  /** Entries come off the queue in non-increasing order. */
  ghost predicate Descending(popped: seq<Entry>) {
    forall i, j | 0 <= i < j < |popped| :: EntryLe(popped[j], popped[i])
  }

  ghost predicate AllBelow(entries: seq<Entry>, top: Entry) {
    forall e | e in entries :: EntryLe(e, top)
  }

  /** Adding to a cell keeps every kind, and the bottom row's beams when it is not one of them. */
  lemma AddKeeps(g: Grid<Cell>, d0: seq<Cell>, data: seq<Cell>, data': seq<Cell>, p: Point, v: nat)
    requires |d0| == g.width * g.height && KindsKept(d0, data) && BottomOnes(g, d0, data)
    requires g.IsInBounds(p) && data' == data[g.Index(p.x, p.y) := AddValue(CellAt(g, data, p), v)]
    requires p.y < g.height - 1 || !CellAt(g, data, p).Beam?
    ensures KindsKept(d0, data') && BottomOnes(g, d0, data')
  {
    var i := g.Index(p.x, p.y);
    assert SameKind(data[i], d0[i]);
    forall q | g.IsInBounds(q) && q.y == g.height - 1 && CellAt(g, d0, q).Beam?
      ensures CellAt(g, data', q) == Beam(1)
    {
      CellAtUpdate(g, data, p, AddValue(CellAt(g, data, p), v), q);
    }
  }

  /**
   * Whether a beam's count goes to the cell `p`: the cell above (`up`)
   * takes it when it is a beam or the start, a cell beside it when it is a
   * splitter inside the grid.
   */
  predicate Fed(g: Grid<Cell>, data: seq<Cell>, p: Point, up: bool)
    requires |data| == g.width * g.height
  {
    g.IsInBounds(p) && (if up then CellAt(g, data, p).Beam? || CellAt(g, data, p).Start? else CellAt(g, data, p).Split?)
  }

  /** `grid[p].add_value(v)` where the cell is `Fed`; every other cell is unchanged. */
  function Feed(g: Grid<Cell>, data: seq<Cell>, p: Point, v: nat, up: bool): (d: seq<Cell>)
    requires |data| == g.width * g.height
    ensures |d| == |data|
  {
    if Fed(g, data, p, up) then data[g.Index(p.x, p.y) := AddValue(CellAt(g, data, p), v)] else data
  }

  /** Feeding changes the fed cell by `add_value` and no other cell. */
  lemma FeedCells(g: Grid<Cell>, data: seq<Cell>, p: Point, v: nat, up: bool, q: Point)
    requires |data| == g.width * g.height && g.IsInBounds(q)
    ensures CellAt(g, Feed(g, data, p, v, up), q) ==
      if q == p && Fed(g, data, p, up) then AddValue(CellAt(g, data, p), v) else CellAt(g, data, q)
  {
    if Fed(g, data, p, up) {
      CellAtUpdate(g, data, p, AddValue(CellAt(g, data, p), v), q);
    }
  }

  /** The cells after the `Beam` arm passes the count `v` at `current` up, then left, then right. */
  function BeamCells(g: Grid<Cell>, data: seq<Cell>, current: Point, v: nat): seq<Cell>
    requires |data| == g.width * g.height
  {
    var d1 := Feed(g, data, Up(current), v, true);
    var d2 := Feed(g, d1, Left(current), v, false);
    Feed(g, d2, Right(current), v, false)
  }

  /** The entries the `Beam` arm queues: the cell above with priority, then the left splitter without. */
  function BeamQueued(g: Grid<Cell>, data: seq<Cell>, current: Point, v: nat): seq<Entry>
    requires |data| == g.width * g.height
  {
    var d1 := Feed(g, data, Up(current), v, true);
    (if Fed(g, data, Up(current), true) then [Entry(Up(current), true)] else [])
      + (if Fed(g, d1, Left(current), false) then [Entry(Left(current), false)] else [])
  }

  /** The beams of the bottom row left of column `x`, as queued entries with priority, left to right. */
  function BottomBeams(g: Grid<Cell>, data: seq<Cell>, x: nat): (es: seq<Entry>)
    requires |data| == g.width * g.height && x <= g.width
  {
    if x == 0 || g.height == 0 then []
    else
      var q := Point(x - 1, g.height - 1);
      BottomBeams(g, data, x - 1) + if CellAt(g, data, q).Beam? then [Entry(q, true)] else []
  }

  /** The seeded entries are bottom-row beams, with priority. */
  lemma {:induction false} BottomBeamsQueued(g: Grid<Cell>, data: seq<Cell>, x: nat)
    requires |data| == g.width * g.height && x <= g.width
    ensures forall e | e in BottomBeams(g, data, x) ::
      e.priority && g.IsInBounds(e.p) && e.p.y == g.height - 1 && e.p.x < x && CellAt(g, data, e.p).Beam?
  {
    if x > 0 && g.height > 0 {
      BottomBeamsQueued(g, data, x - 1);
    }
  }

  /** The first loop of `part2`: every beam on the bottom row gets the count 1 and is queued. */
  method SeedBottomRow(g: Grid<Cell>, queue: Heap)
    requires g.Valid() && queue.data == []
    modifies g, queue
    ensures g.Valid() && KindsKept(old(g.data), g.data) && BottomOnes(g, old(g.data), g.data)
    ensures forall q | g.IsInBounds(q) ::
      CellAt(g, g.data, q) == if q.y == g.height - 1 && CellAt(g, old(g.data), q).Beam? then Beam(1) else CellAt(g, old(g.data), q)
    ensures queue.data == BottomBeams(g, old(g.data), g.width)
  {
    ghost var d0 := g.data;
    var current := Point(0, g.height - 1);
    while g.IsInBounds(current)
      invariant g.Valid() && KindsKept(d0, g.data)
      invariant current.y == g.height - 1 && 0 <= current.x <= g.width
      invariant Seeded(g, d0, g.data, current.x)
      invariant queue.data == BottomBeams(g, d0, current.x)
      decreases g.width - current.x
    {
      ghost var data := g.data;
      assert g.At(current) == CellAt(g, d0, current);
      if g.At(current).Beam? {
        g.Set(current, Beam(1));
        SeedStep(g, d0, data, g.data, current);
        queue.Push(current, true);
      }
      current := Right(current);
    }
  }

  /** The beams of the bottom row left of column `x` hold 1; every other cell is as in `d0`. */
  ghost predicate Seeded(g: Grid<Cell>, d0: seq<Cell>, data: seq<Cell>, x: int)
    requires |d0| == |data| == g.width * g.height
  {
    forall q | g.IsInBounds(q) ::
      CellAt(g, data, q) == if q.y == g.height - 1 && q.x < x && CellAt(g, d0, q).Beam? then Beam(1) else CellAt(g, d0, q)
  }

  /** Setting the bottom-row beam at `current` to 1 extends the seeded part of the row by one column. */
  lemma SeedStep(g: Grid<Cell>, d0: seq<Cell>, data: seq<Cell>, data': seq<Cell>, current: Point)
    requires |d0| == |data| == g.width * g.height && KindsKept(d0, data)
    requires g.IsInBounds(current) && current.y == g.height - 1 && CellAt(g, d0, current).Beam?
    requires Seeded(g, d0, data, current.x)
    requires data' == data[g.Index(current.x, current.y) := Beam(1)]
    ensures KindsKept(d0, data') && Seeded(g, d0, data', current.x + 1)
  {
    var i := g.Index(current.x, current.y);
    assert SameKind(data[i], d0[i]);
    forall q | g.IsInBounds(q)
      ensures CellAt(g, data', q) ==
        if q.y == g.height - 1 && q.x < current.x + 1 && CellAt(g, d0, q).Beam? then Beam(1) else CellAt(g, d0, q)
    {
      CellAtUpdate(g, data, current, Beam(1), q);
    }
  }

  /** Queueing an entry no greater than `top` keeps the queue's invariants. */
  lemma PushKeeps(g: Grid<Cell>, d0: seq<Cell>, entries: seq<Entry>, e: Entry, top: Entry)
    requires |d0| == g.width * g.height && Queued(g, d0, entries) && AllBelow(entries, top)
    requires g.IsInBounds(e.p) && (!e.priority ==> CellAt(g, d0, e.p).Split?) && EntryLe(e, top)
    ensures Queued(g, d0, entries + [e]) && AllBelow(entries + [e], top)
  {
  }

  /** What is left after a pop still satisfies the queue's invariant. */
  lemma QueuedSubset(g: Grid<Cell>, d0: seq<Cell>, before: seq<Entry>, after: seq<Entry>)
    requires |d0| == g.width * g.height && Queued(g, d0, before) && forall e | e in after :: e in before
    ensures Queued(g, d0, after)
  {
  }

  /** `grid[p].add_value(v)`, keeping the cells' kinds and the bottom row's beams. */
  method AddTo(g: Grid<Cell>, p: Point, v: nat, ghost d0: seq<Cell>)
    requires g.Valid() && |d0| == |g.data| && KindsKept(d0, g.data) && BottomOnes(g, d0, g.data)
    requires g.IsInBounds(p) && (p.y < g.height - 1 || !g.At(p).Beam?)
    modifies g
    ensures g.Valid() && KindsKept(d0, g.data) && BottomOnes(g, d0, g.data)
    ensures g.data == old(g.data)[g.Index(p.x, p.y) := AddValue(old(g.At(p)), v)]
  {
    ghost var data := g.data;
    g.Set(p, AddValue(g.At(p), v));
    AddKeeps(g, d0, data, g.data, p, v);
  }

  /** `grid[p].add_value(v)` followed by `queue.push(p, priority)`, for an entry no greater than `top`. */
  method AddAndQueue(g: Grid<Cell>, queue: Heap, p: Point, v: nat, priority: bool, ghost d0: seq<Cell>, ghost top: Entry)
    requires g.Valid() && |d0| == |g.data| && KindsKept(d0, g.data) && BottomOnes(g, d0, g.data)
    requires Queued(g, d0, queue.data) && AllBelow(queue.data, top)
    requires g.IsInBounds(p) && (p.y < g.height - 1 || !g.At(p).Beam?)
    requires (!priority ==> g.At(p).Split?) && EntryLe(Entry(p, priority), top)
    modifies g, queue
    ensures g.Valid() && KindsKept(d0, g.data) && BottomOnes(g, d0, g.data)
    ensures g.data == old(g.data)[g.Index(p.x, p.y) := AddValue(old(g.At(p)), v)]
    ensures queue.data == old(queue.data) + [Entry(p, priority)]
    ensures Queued(g, d0, queue.data) && AllBelow(queue.data, top)
    ensures Weight(queue.data) == Weight(old(queue.data)) + Pow2(Rank(Entry(p, priority)))
  {
    var j := g.Index(p.x, p.y);
    assert SameKind(g.data[j], d0[j]);
    AddTo(g, p, v, d0);
    WeightPush(queue.data, Entry(p, priority));
    PushKeeps(g, d0, queue.data, Entry(p, priority), top);
    queue.Push(p, priority);
  }

  /** The beam's count goes to the beam or start above it, which is queued with priority. */
  method FeedUp(g: Grid<Cell>, queue: Heap, up: Point, v: nat, ghost d0: seq<Cell>, ghost top: Entry)
    requires g.Valid() && |d0| == |g.data| && KindsKept(d0, g.data) && BottomOnes(g, d0, g.data)
    requires Queued(g, d0, queue.data) && AllBelow(queue.data, top)
    requires g.IsInBounds(up) && up.y < g.height - 1 && EntryLe(Entry(up, true), top)
    modifies g, queue
    ensures g.Valid() && KindsKept(d0, g.data) && BottomOnes(g, d0, g.data)
    ensures Queued(g, d0, queue.data) && AllBelow(queue.data, top)
    ensures Weight(queue.data) <= Weight(old(queue.data)) + Pow2(Rank(Entry(up, true)))
    ensures g.data == Feed(g, old(g.data), up, v, true)
    ensures queue.data == old(queue.data) + if Fed(g, old(g.data), up, true) then [Entry(up, true)] else []
  {
    if g.At(up).Beam? || g.At(up).Start? {
      AddAndQueue(g, queue, up, v, true, d0, top);
    }
  }

  /** The beam's count goes to a splitter on its left, which is queued without priority. */
  method FeedLeft(g: Grid<Cell>, queue: Heap, left: Point, v: nat, ghost d0: seq<Cell>, ghost top: Entry)
    requires g.Valid() && |d0| == |g.data| && KindsKept(d0, g.data) && BottomOnes(g, d0, g.data)
    requires Queued(g, d0, queue.data) && AllBelow(queue.data, top)
    requires EntryLe(Entry(left, false), top)
    modifies g, queue
    ensures g.Valid() && KindsKept(d0, g.data) && BottomOnes(g, d0, g.data)
    ensures Queued(g, d0, queue.data) && AllBelow(queue.data, top)
    ensures Weight(queue.data) <= Weight(old(queue.data)) + Pow2(Rank(Entry(left, false)))
    ensures g.data == Feed(g, old(g.data), left, v, false)
    ensures queue.data == old(queue.data) + if Fed(g, old(g.data), left, false) then [Entry(left, false)] else []
  {
    if g.IsInBounds(left) && g.At(left).Split? {
      AddAndQueue(g, queue, left, v, false, d0, top);
    }
  }

  /** The beam's count goes to a splitter on its right, which is not queued. */
  method FeedRight(g: Grid<Cell>, right: Point, v: nat, ghost d0: seq<Cell>)
    requires g.Valid() && |d0| == |g.data| && KindsKept(d0, g.data) && BottomOnes(g, d0, g.data)
    modifies g
    ensures g.Valid() && KindsKept(d0, g.data) && BottomOnes(g, d0, g.data)
    ensures g.data == Feed(g, old(g.data), right, v, false)
  {
    if g.IsInBounds(right) && g.At(right).Split? {
      AddTo(g, right, v, d0);
    }
  }

  /**
   * The `Beam` arm of `part2`'s second loop: the count `v` of the beam at
   * `current` goes to the beam or start above it (queued with priority) and
   * to the splitters on either side (the left one queued without). Not `ok`
   * where the source panics: a beam on the top row.
   */
  method FromBeam(g: Grid<Cell>, queue: Heap, current: Point, v: nat, ghost d0: seq<Cell>, ghost top: Entry)
    returns (ok: bool)
    requires g.Valid() && |d0| == |g.data| && KindsKept(d0, g.data) && BottomOnes(g, d0, g.data)
    requires Queued(g, d0, queue.data) && AllBelow(queue.data, top)
    requires top == Entry(current, true) && g.IsInBounds(current)
    modifies g, queue
    ensures g.Valid() && KindsKept(d0, g.data) && BottomOnes(g, d0, g.data)
    ensures Queued(g, d0, queue.data) && AllBelow(queue.data, top)
    ensures ok ==> Weight(queue.data) < Weight(old(queue.data)) + Pow2(Rank(top))
    ensures ok == g.IsInBounds(Up(current))
    ensures ok ==> g.data == BeamCells(g, old(g.data), current, v)
    ensures ok ==> queue.data == old(queue.data) + BeamQueued(g, old(g.data), current, v)
    ensures !ok ==> g.data == old(g.data) && queue.data == old(queue.data)
  {
    var up := Up(current);
    if !g.IsInBounds(up) {
      return false;
    }
    ok := true;
    ghost var data0, queue0 := g.data, queue.data;
    assert Rank(top) == 2 * current.y + 1;
    assert Rank(Entry(up, true)) == 2 * current.y - 1;
    FeedUp(g, queue, up, v, d0, top);
    ghost var data1, queue1 := g.data, queue.data;
    var left := Left(current);
    assert Rank(Entry(left, false)) == 2 * current.y;
    FeedLeft(g, queue, left, v, d0, top);
    ghost var queue2 := queue.data;
    FeedRight(g, Right(current), v, d0);
    BeamLightens(current.y);
    assert g.data == BeamCells(g, data0, current, v);
    assert queue2 == queue0 + BeamQueued(g, data0, current, v) by {
      assert data1 == Feed(g, data0, up, v, true);
      var a := if Fed(g, data0, up, true) then [Entry(up, true)] else [];
      var b := if Fed(g, data1, left, false) then [Entry(left, false)] else [];
      assert queue2 == (queue0 + a) + b;
      assert (queue0 + a) + b == queue0 + (a + b);
    }
  }

  /**
   * The `Split` arm of `part2`'s second loop: the splitter's count `v` goes
   * to the cell above, which is queued with priority. Not `ok` where the
   * source panics: a splitter on the top row.
   */
  method FromSplit(g: Grid<Cell>, queue: Heap, current: Point, v: nat, ghost d0: seq<Cell>, ghost top: Entry)
    returns (ok: bool)
    requires g.Valid() && |d0| == |g.data| && KindsKept(d0, g.data) && BottomOnes(g, d0, g.data)
    requires Queued(g, d0, queue.data) && AllBelow(queue.data, top)
    requires top.p == current && g.IsInBounds(current)
    modifies g, queue
    ensures g.Valid() && KindsKept(d0, g.data) && BottomOnes(g, d0, g.data)
    ensures Queued(g, d0, queue.data) && AllBelow(queue.data, top)
    ensures ok ==> Weight(queue.data) < Weight(old(queue.data)) + Pow2(Rank(top))
    ensures ok == g.IsInBounds(Up(current))
    ensures ok ==> g.data == old(g.data)[g.Index(current.x, current.y - 1) := AddValue(old(g.At(Up(current))), v)]
    ensures ok ==> queue.data == old(queue.data) + [Entry(Up(current), true)]
    ensures !ok ==> g.data == old(g.data) && queue.data == old(queue.data)
  {
    var up := Up(current);
    if !g.IsInBounds(up) {
      return false;
    }
    ok := true;
    ghost var w0 := Weight(queue.data);
    var y: nat := current.y - 1;
    assert Rank(Entry(up, true)) == 2 * y + 1 < Rank(top);
    AddAndQueue(g, queue, up, v, true, d0, top);
    Pow2Mono(2 * y + 1, Rank(top));
    assert Weight(queue.data) == w0 + Pow2(2 * y + 1);
  }

  /**
   * One turn of `part2`'s second loop, for the entry `top` just taken off at
   * `current`: a beam adds its count to the beam or start above it and to
   * the splitters on either side, queueing the cell above and the left
   * splitter; a splitter adds its count to the cell above and queues it; at
   * the start the loop is `done` with the start's count. Also `done`, with
   * nothing, where the source panics on a cell above the top row.
   */
  method Backtrack(g: Grid<Cell>, queue: Heap, current: Point, ghost d0: seq<Cell>, ghost top: Entry)
    returns (done: bool, r: Option<nat>)
    requires g.Valid() && |d0| == |g.data| && KindsKept(d0, g.data) && BottomOnes(g, d0, g.data)
    requires Queued(g, d0, queue.data) && AllBelow(queue.data, top)
    requires top.p == current && g.IsInBounds(current) && (!top.priority ==> CellAt(g, d0, current).Split?)
    modifies g, queue
    ensures g.Valid() && KindsKept(d0, g.data) && BottomOnes(g, d0, g.data)
    ensures Queued(g, d0, queue.data) && AllBelow(queue.data, top)
    ensures !done ==> Weight(queue.data) < Weight(old(queue.data)) + Pow2(Rank(top))
    ensures done && r.Some? ==> g.At(current) == Start(r.value)
    ensures
      var c, up := old(g.At(current)), Up(current);
      match c
      case Start(n) => done && r == Some(n) && g.data == old(g.data) && queue.data == old(queue.data)
      case Split(n) =>
        && done == !g.IsInBounds(up) && r.None?
        && (done ==> g.data == old(g.data) && queue.data == old(queue.data))
        && (!done ==> g.data == old(g.data)[g.Index(up.x, up.y) := AddValue(old(g.At(up)), n)]
                      && queue.data == old(queue.data) + [Entry(up, true)])
      case Beam(n) =>
        && done == !g.IsInBounds(up) && r.None?
        && (done ==> g.data == old(g.data) && queue.data == old(queue.data))
        && (!done ==> g.data == BeamCells(g, old(g.data), current, n)
                      && queue.data == old(queue.data) + BeamQueued(g, old(g.data), current, n))
      case Empty => !done && r.None? && g.data == old(g.data) && queue.data == old(queue.data)
  {
    var i := g.Index(current.x, current.y);
    assert SameKind(g.data[i], d0[i]);
    var cell := g.At(current);
    var value := GetValue(cell);
    done, r := false, None;
    match cell
    case Beam(_) =>
      assert top.priority;
      var ok := FromBeam(g, queue, current, value, d0, top);
      done := !ok;
    case Split(_) =>
      var ok := FromSplit(g, queue, current, value, d0, top);
      done := !ok;
    case Start(_) =>
      return true, Some(value);
    case Empty =>
  }

  /**
   * The second loop of `part2`: drains the queue, greatest entry first;
   * nothing where the source panics, including an empty queue
   * (`unreachable!()`).
   */
  method Drain(g: Grid<Cell>, queue: Heap, ghost d0: seq<Cell>) returns (r: Option<nat>, ghost popped: seq<Entry>)
    requires g.Valid() && |d0| == |g.data| && KindsKept(d0, g.data) && BottomOnes(g, d0, g.data)
    requires Queued(g, d0, queue.data)
    modifies g, queue
    ensures g.Valid() && KindsKept(d0, g.data) && BottomOnes(g, d0, g.data)
    ensures Descending(popped) && forall e | e in popped :: g.IsInBounds(e.p)
    ensures r.Some? ==> popped != [] && g.At(popped[|popped| - 1].p) == Start(r.value)
  {
    popped := [];
    while true
      invariant g.Valid() && KindsKept(d0, g.data) && BottomOnes(g, d0, g.data)
      invariant Queued(g, d0, queue.data)
      invariant Descending(popped) && forall e | e in popped :: g.IsInBounds(e.p)
      invariant popped != [] ==> AllBelow(queue.data, popped[|popped| - 1])
      decreases Weight(queue.data)
    {
      ghost var before := queue.data;
      var next, k := queue.Pop();
      if next.None? {
        return None, popped;
      }
      ghost var top := before[k];
      assert top in before;
      WeightRemove(before, k);
      PoppedStep(popped, before, queue.data, top);
      QueuedSubset(g, d0, before, queue.data);
      popped := popped + [top];
      var done;
      done, r := Backtrack(g, queue, next.value, d0, top);
      if done {
        return;
      }
    }
  }

  /** Taking out a greatest entry keeps the popped entries in non-increasing order. */
  lemma PoppedStep(popped: seq<Entry>, before: seq<Entry>, after: seq<Entry>, top: Entry)
    requires Descending(popped) && (popped != [] ==> AllBelow(before, popped[|popped| - 1]))
    requires top in before && AllBelow(before, top) && forall e | e in after :: e in before
    ensures Descending(popped + [top]) && AllBelow(after, top)
  {
    if popped != [] {
      var last := popped[|popped| - 1];
      forall i | 0 <= i < |popped| ensures EntryLe(top, popped[i]) {
        EntryLeTotal(top, last, popped[i]);
      }
    }
  }

  /**
   * `part2`: seeds the bottom row's beams with 1, then drains the queue from
   * the bottom up. Cells keep their kinds, the bottom row's beams end at 1,
   * entries leave the queue row by row from the bottom (within a row, those
   * with priority first), and an answer is the count of the start cell
   * reached last.
   */
  method Part2(g: Grid<Cell>) returns (r: Option<nat>, ghost popped: seq<Entry>)
    requires g.Valid()
    modifies g
    ensures g.Valid() && KindsKept(old(g.data), g.data) && BottomOnes(g, old(g.data), g.data)
    ensures Descending(popped) && forall e | e in popped :: g.IsInBounds(e.p)
    ensures r.Some? ==> popped != [] && g.At(popped[|popped| - 1].p) == Start(r.value)
  {
    ghost var d0 := g.data;
    var queue := new Heap();
    SeedBottomRow(g, queue);
    BottomBeamsQueued(g, d0, g.width);
    r, popped := Drain(g, queue, d0);
  }
}

=== FILE: day08.dfy ===
/**
 * Day 8: junction boxes in space. Every pair of boxes is an edge weighted
 * by the squared distance between them; edges are taken shortest first
 * and joined in a disjoint-set forest. Part 1 multiplies the sizes of the
 * three largest circuits after a fixed number of edges; part 2 finds the
 * edge that first joins every box into one circuit.
 */
module Day08 {
  import opened Wrappers
  import Text
  import Seqs

  /** A box at whole-number coordinates. */
  datatype Box = Box(x: nat, y: nat, z: nat)

  /** A pair of boxes `a < b`, by index, and the distance between them. */
  datatype Edge = Edge(dist: nat, a: nat, b: nat)

  // ---------------------------------------------------------------------
  // Parsing
  // ---------------------------------------------------------------------

  /**
   * The box whose coordinates are the first three pieces: every piece must
   * parse, and there must be three (otherwise the source panics).
   */
  function BoxOf(parts: seq<string>): (r: Option<Box>)
    ensures r.Some? <==> Text.ParseAll(parts, Text.ParseNat).Some? && |parts| >= 3
    ensures r.Some? ==>
      && Text.ParseNat(parts[0]) == Some(r.value.x)
      && Text.ParseNat(parts[1]) == Some(r.value.y)
      && Text.ParseNat(parts[2]) == Some(r.value.z)
  {
    match Text.ParseAll(parts, Text.ParseNat)
    case Some(dims) => if |dims| >= 3 then Some(Box(dims[0], dims[1], dims[2])) else None
    case None => None
  }

  /**
   * `Box::from_str`: every comma-separated piece must be a number, and the
   * first three are x, y and z; fewer than three pieces panic.
   */
  function ParseBox(s: string): (r: Option<Box>)
    ensures r.Some? <==> Text.ParseAll(Text.Split(s, ','), Text.ParseNat).Some? && |Text.Split(s, ',')| >= 3
    ensures r.Some? ==>
      && Text.ParseNat(Text.Split(s, ',')[0]) == Some(r.value.x)
      && Text.ParseNat(Text.Split(s, ',')[1]) == Some(r.value.y)
      && Text.ParseNat(Text.Split(s, ',')[2]) == Some(r.value.z)
  {
    BoxOf(Text.Split(s, ','))
  }

  function BoxToString(b: Box): string {
    Text.NatToString(b.x) + "," + Text.NatToString(b.y) + "," + Text.NatToString(b.z)
  }

  /** Decimal digits contain no comma. */
  lemma NoComma(n: nat)
    ensures ',' !in Text.NatToString(n)
  {
    var s := Text.NatToString(n);
    assert forall i :: 0 <= i < |s| ==> Text.IsDigit(s[i]);
  }

  /** The text of a box splits at its commas into the texts of its coordinates. */
  lemma SplitBoxText(b: Box)
    ensures Text.Split(BoxToString(b), ',') ==
      [Text.NatToString(b.x), Text.NatToString(b.y), Text.NatToString(b.z)]
  {
    var sx, sy, sz := Text.NatToString(b.x), Text.NatToString(b.y), Text.NatToString(b.z);
    NoComma(b.x);
    NoComma(b.y);
    NoComma(b.z);
    var tail := sy + [','] + sz;
    assert BoxToString(b) == sx + [','] + tail;
    Text.SplitCons(sx, ',', tail);
    Text.SplitCons(sy, ',', sz);
    Text.SplitSingle(sz, ',');
  }

  /** Parsing the text `x,y,z` of a box gives the box back. */
  lemma ParseBoxRoundTrip(b: Box)
    ensures ParseBox(BoxToString(b)) == Some(b)
  {
    var sx, sy, sz := Text.NatToString(b.x), Text.NatToString(b.y), Text.NatToString(b.z);
    SplitBoxText(b);
    Text.ParseNatRoundTrip(b.x);
    Text.ParseNatRoundTrip(b.y);
    Text.ParseNatRoundTrip(b.z);
    Text.ParseAllCons(sz, [], Text.ParseNat);
    Text.ParseAllCons(sy, [sz], Text.ParseNat);
    Text.ParseAllCons(sx, [sy, sz], Text.ParseNat);
    assert [sz] == [sz] + [] && [sy, sz] == [sy] + [sz] && [sx, sy, sz] == [sx] + [sy, sz];
  }

  /** `read_and_parse` on the text of the input: one box per line, `None` when a line does not parse. */
  function ReadAndParse(input: string): (r: Option<seq<Box>>)
    ensures r.Some? ==> |r.value| == |Text.Lines(input)|
    ensures r.Some? ==> forall i :: 0 <= i < |Text.Lines(input)| ==> ParseBox(Text.Lines(input)[i]) == Some(r.value[i])
    ensures r.None? ==> exists i :: 0 <= i < |Text.Lines(input)| && ParseBox(Text.Lines(input)[i]).None?
  {
    Text.ParseAll(Text.Lines(input), ParseBox)
  }

  // ---------------------------------------------------------------------
  // Distance
  // ---------------------------------------------------------------------

  function Square(d: int): (r: nat)
    ensures r == 0 <==> d == 0
  {
    d * d
  }

  /** `Box::distance`: the squared Euclidean distance, zero exactly between equal boxes. */
  function Distance(a: Box, b: Box): (d: nat)
    ensures d == 0 <==> a == b
  {
    Square(a.x - b.x) + Square(a.y - b.y) + Square(a.z - b.z)
  }

  lemma SquareNeg(d: int)
    ensures Square(-d) == Square(d)
  {
  }

  /** The distance does not depend on which box is measured from. */
  lemma DistanceSymmetric(a: Box, b: Box)
    ensures Distance(a, b) == Distance(b, a)
  {
    SquareNeg(a.x - b.x);
    SquareNeg(a.y - b.y);
    SquareNeg(a.z - b.z);
  }

  // ---------------------------------------------------------------------
  // The disjoint-set forest
  // ---------------------------------------------------------------------

  /** The elements whose representative is `r`. */
  ghost function Members(root: seq<nat>, r: nat): set<nat> {
    set i: nat | i < |root| && root[i] == r
  }

  /**
   * Element `i` of the forest is well placed: its parent and its
   * representative are elements, the representative is a root, a root is
   * its own representative, and a non-root's parent has the same
   * representative and a smaller depth (so following parents ends).
   */
  ghost predicate NodeOk(parent: seq<nat>, root: seq<nat>, depth: seq<nat>, i: nat)
    requires i < |parent| == |root| == |depth|
  {
    && parent[i] < |parent| && root[i] < |parent|
    && parent[root[i]] == root[i]
    && (parent[i] == i ==> root[i] == i && depth[i] == 0)
    && (parent[i] != i ==> root[parent[i]] == root[i] && depth[parent[i]] < depth[i])
  }

  /** A root's size is the number of elements it represents. */
  ghost predicate SizeOk(parent: seq<nat>, size: seq<nat>, root: seq<nat>, r: nat)
    requires r < |parent| == |size| == |root|
  {
    parent[r] == r ==> size[r] == |Members(root, r)|
  }

  ghost predicate Forest(parent: seq<nat>, size: seq<nat>, root: seq<nat>, depth: seq<nat>) {
    && |parent| == |size| == |root| == |depth|
    && (forall i: nat | i < |parent| :: NodeOk(parent, root, depth, i))
    && (forall r: nat | r < |parent| :: SizeOk(parent, size, root, r))
  }

  /** `root` with every element represented by `from` represented by `to` instead. */
  function Relabel(root: seq<nat>, from: nat, to: nat): (r: seq<nat>)
    ensures |r| == |root|
    ensures forall i :: 0 <= i < |root| ==> r[i] == (if root[i] == from then to else root[i])
  {
    seq(|root|, i requires 0 <= i < |root| => if root[i] == from then to else root[i])
  }

  /** After relabelling, two elements share a representative iff they did, or their representatives were `from` and `to`. */
  lemma RelabelJoins(root: seq<nat>, from: nat, to: nat, i: nat, j: nat)
    requires i < |root| && j < |root|
    ensures Relabel(root, from, to)[i] == Relabel(root, from, to)[j] <==>
      root[i] == root[j] || ({root[i], root[j]} == {from, to})
  {
    var r := Relabel(root, from, to);
    if root[i] != root[j] && r[i] == r[j] {
      assert {root[i], root[j]} == {from, to};
    }
    if {root[i], root[j]} == {from, to} && root[i] != root[j] {
      assert root[i] == from || root[i] == to;
      assert root[j] == from || root[j] == to;
    }
  }

  /** Moving `from`'s elements to `to` adds them to `to`'s and leaves other roots' alone. */
  lemma RelabelMembers(root: seq<nat>, from: nat, to: nat, r: nat)
    requires from != to
    ensures r == to ==> Members(Relabel(root, from, to), r) == Members(root, to) + Members(root, from)
    ensures r == to ==> Members(root, to) !! Members(root, from)
    ensures r != to && r != from ==> Members(Relabel(root, from, to), r) == Members(root, r)
  {
  }

  /** Pointing a non-root straight at its representative keeps the forest. */
  lemma CompressKeeps(parent: seq<nat>, size: seq<nat>, root: seq<nat>, depth: seq<nat>, a: nat)
    requires Forest(parent, size, root, depth) && a < |parent| && parent[a] != a
    ensures Forest(parent[a := root[a]], size, root, depth)
  {
    var parent' := parent[a := root[a]];
    assert NodeOk(parent, root, depth, a);
    assert NodeOk(parent, root, depth, root[a]);
    forall i: nat | i < |parent| ensures NodeOk(parent', root, depth, i) {
      assert NodeOk(parent, root, depth, i);
      assert NodeOk(parent, root, depth, root[i]);
    }
    forall r: nat | r < |parent| ensures SizeOk(parent', size, root, r) {
      assert SizeOk(parent, size, root, r);
    }
  }

  /** Hanging root `loser` under root `winner` keeps the forest, with `winner` counting both. */
  lemma LinkKeeps(parent: seq<nat>, size: seq<nat>, root: seq<nat>, depth: seq<nat>, winner: nat, loser: nat)
    requires Forest(parent, size, root, depth)
    requires winner < |parent| && loser < |parent| && winner != loser
    requires parent[winner] == winner && parent[loser] == loser
    ensures Forest(parent[loser := winner], size[winner := size[winner] + size[loser]],
                   Relabel(root, loser, winner), Deepen(root, depth, loser))
    ensures forall i :: 0 <= i < |root| ==> Relabel(root, loser, winner)[i] < |root|
  {
    forall i | 0 <= i < |root| ensures Relabel(root, loser, winner)[i] < |root| {
      assert NodeOk(parent, root, depth, i);
    }
    var parent' := parent[loser := winner];
    var size' := size[winner := size[winner] + size[loser]];
    var root' := Relabel(root, loser, winner);
    var depth' := Deepen(root, depth, loser);
    assert NodeOk(parent, root, depth, winner) && NodeOk(parent, root, depth, loser);
    forall i: nat | i < |parent| ensures NodeOk(parent', root', depth', i) {
      assert NodeOk(parent, root, depth, i);
      assert NodeOk(parent, root, depth, root[i]);
      if parent[i] != i {
        assert NodeOk(parent, root, depth, parent[i]);
      }
    }
    forall r: nat | r < |parent| ensures SizeOk(parent', size', root', r) {
      assert SizeOk(parent, size, root, r);
      RelabelMembers(root, loser, winner, r);
      if r == winner {
        assert SizeOk(parent, size, root, loser);
      }
    }
  }

  /** The depths after `loser`'s tree is hung one level lower. */
  function Deepen(root: seq<nat>, depth: seq<nat>, loser: nat): (r: seq<nat>)
    requires |depth| == |root|
    ensures |r| == |depth|
    ensures forall i :: 0 <= i < |depth| ==> r[i] == (if root[i] == loser then depth[i] + 1 else depth[i])
  {
    seq(|depth|, i requires 0 <= i < |depth| => if root[i] == loser then depth[i] + 1 else depth[i])
  }

  /**
   * The representatives after joining the circuits of `a` and `b`: the
   * circuit with fewer members (that of `b` on a tie) takes the other's
   * representative. Sizes come from `root` itself, as in a valid forest.
   */
  ghost function Joined(root: seq<nat>, a: nat, b: nat): (r: seq<nat>)
    requires a < |root| && b < |root|
    ensures |r| == |root|
  {
    var (ra, rb) := (root[a], root[b]);
    if ra == rb then root
    else if |Members(root, ra)| < |Members(root, rb)| then Relabel(root, ra, rb)
    else Relabel(root, rb, ra)
  }

  /** After joining, two elements share a circuit iff they did, or one was in `a`'s and the other in `b`'s. */
  lemma JoinedCircuits(root: seq<nat>, a: nat, b: nat, i: nat, j: nat)
    requires a < |root| && b < |root| && i < |root| && j < |root|
    ensures Joined(root, a, b)[i] == Joined(root, a, b)[j] <==>
      || root[i] == root[j]
      || (root[i] == root[a] && root[j] == root[b])
      || (root[i] == root[b] && root[j] == root[a])
  {
    var (ra, rb) := (root[a], root[b]);
    if ra != rb {
      if |Members(root, ra)| < |Members(root, rb)| {
        RelabelJoins(root, ra, rb, i, j);
      } else {
        RelabelJoins(root, rb, ra, i, j);
      }
    }
  }

  ghost predicate EdgesWithin(edges: seq<Edge>, n: nat) {
    forall k :: 0 <= k < |edges| ==> edges[k].a < n && edges[k].b < n
  }

  /** The representatives after joining along the edges `lo .. hi-1`, in turn. */
  ghost function JoinRange(root: seq<nat>, edges: seq<Edge>, lo: nat, hi: nat): (r: seq<nat>)
    requires lo <= hi <= |edges|
    ensures |r| == |root|
    decreases hi
  {
    if hi == lo then root
    else
      var before := JoinRange(root, edges, lo, hi - 1);
      var e := edges[hi - 1];
      if e.a < |root| && e.b < |root| then Joined(before, e.a, e.b) else before
  }

  /** One more edge, between elements, joins its two circuits. */
  lemma JoinRangeStep(root: seq<nat>, edges: seq<Edge>, lo: nat, m: nat)
    requires lo <= m < |edges| && edges[m].a < |root| && edges[m].b < |root|
    ensures JoinRange(root, edges, lo, m + 1) == Joined(JoinRange(root, edges, lo, m), edges[m].a, edges[m].b)
  {
  }

  /** Each element its own representative: `n` circuits of one. */
  ghost function Singletons(n: nat): (r: seq<nat>)
    ensures |r| == n
  {
    seq(n, i => i)
  }

  /**
   * `Dsu`: a disjoint-set forest over the elements `0 .. n-1` with path
   * compression and union by size. `root` and `depth` are the proof's view:
   * each element's representative and a bound on its distance to it.
   */
  class Dsu {
    var parent: seq<nat>
    var size: seq<nat>
    ghost var root: seq<nat>
    ghost var depth: seq<nat>

    ghost predicate Valid()
      reads this
    {
      && |parent| == |size| == |root| == |depth|
      && (forall i :: 0 <= i < |root| ==> root[i] < |root|)
      && Forest(parent, size, root, depth)
    }

    /** The size of the circuit that `a` belongs to. */
    ghost function CircuitSize(a: nat): nat
      reads this
      requires Valid() && a < |parent|
    {
      |Members(root, root[a])|
    }

    /** `Dsu::new`: `n` elements, each its own parent, each a circuit of size 1. */
    constructor (n: nat)
      ensures Valid() && |parent| == n
      ensures forall i :: 0 <= i < n ==> parent[i] == i && size[i] == 1 && root[i] == i
    {
      parent := seq(n, i => i);
      size := seq(n, i => 1);
      root := seq(n, i => i);
      depth := seq(n, i => 0);
      new;
      forall r: nat | r < n ensures SizeOk(parent, size, root, r) {
        assert Members(root, r) == {r};
      }
    }

    /**
     * `find`: the representative of `a`. Every element on the way is
     * pointed straight at it; no element changes representative.
     */
    method Find(a: nat) returns (r: nat)
      requires Valid() && a < |parent|
      modifies this
      ensures Valid() && |parent| == old(|parent|)
      ensures r < |parent| && r == root[a] && parent[r] == r
      ensures root == old(root) && depth == old(depth) && size == old(size)
      ensures forall i :: 0 <= i < |parent| && old(parent)[i] == i ==> parent[i] == i
      ensures forall i :: 0 <= i < |parent| && parent[i] != old(parent)[i] ==> parent[i] == root[i]
      decreases depth[a]
    {
      assert NodeOk(parent, root, depth, a);
      if parent[a] != a {
        var p := Find(parent[a]);
        assert NodeOk(parent, root, depth, a);
        CompressKeeps(parent, size, root, depth, a);
        parent := parent[a := p];
      }
      r := parent[a];
      assert NodeOk(parent, root, depth, a);
    }

    /**
     * `union`: after it, `a` and `b` are in one circuit. When they were
     * already, nothing but compression happens; otherwise the root of the
     * larger circuit (that of `a` on a tie) takes in the other, and its
     * size becomes the sum.
     */
    method Union(a: nat, b: nat)
      requires Valid() && a < |parent| && b < |parent|
      modifies this
      ensures Valid() && |parent| == old(|parent|)
      ensures root[a] == root[b]
      ensures old(root)[a] == old(root)[b] ==> size == old(size)
      ensures root == Joined(old(root), a, b)
      ensures old(root)[a] != old(root)[b] ==>
        size == old(size)[root[a] := old(size)[old(root)[a]] + old(size)[old(root)[b]]]
    {
      var ra := Find(a);
      var rb := Find(b);
      if ra == rb {
        return;
      }
      assert SizeOk(parent, size, root, ra) && SizeOk(parent, size, root, rb);
      if size[ra] < size[rb] {
        Link(rb, ra);
      } else {
        Link(ra, rb);
      }
    }

    /** Hangs root `loser` under root `winner`, whose circuit takes in the other. */
    method Link(winner: nat, loser: nat)
      requires Valid() && winner < |parent| && loser < |parent| && winner != loser
      requires parent[winner] == winner && parent[loser] == loser
      modifies this
      ensures Valid() && |parent| == old(|parent|)
      ensures root == Relabel(old(root), loser, winner)
      ensures size == old(size)[winner := old(size)[winner] + old(size)[loser]]
    {
      LinkKeeps(parent, size, root, depth, winner, loser);
      depth := Deepen(root, depth, loser);
      root := Relabel(root, loser, winner);
      parent := parent[loser := winner];
      size := size[winner := size[winner] + size[loser]];
    }

    /** `network_count`: the size of `a`'s circuit. */
    method NetworkCount(a: nat) returns (n: nat)
      requires Valid() && a < |parent|
      modifies this
      ensures Valid() && |parent| == old(|parent|) && root == old(root)
      ensures n == CircuitSize(a)
    {
      var p := Find(a);
      assert SizeOk(parent, size, root, p);
      n := size[p];
    }
  }

  // ---------------------------------------------------------------------
  // Edges
  // ---------------------------------------------------------------------

  /** The edges from box `i` to each later box, in index order. */
  function RowEdges(boxes: seq<Box>, i: nat): (r: seq<Edge>)
    requires i < |boxes|
    ensures |r| == |boxes| - 1 - i
  {
    seq(|boxes| - 1 - i, k requires 0 <= k < |boxes| - 1 - i =>
      Edge(Distance(boxes[i], boxes[i + 1 + k]), i, i + 1 + k))
  }

  /** The edges from the first `m` boxes to each later box, row by row. */
  function PairEdges(boxes: seq<Box>, m: nat): (r: seq<Edge>)
    requires m <= |boxes|
  {
    if m == 0 then [] else PairEdges(boxes, m - 1) + RowEdges(boxes, m - 1)
  }

  /** An edge of row `i` joins box `i` to a later box, at their distance. */
  lemma RowEdgesMembers(boxes: seq<Box>, i: nat, e: Edge)
    requires i < |boxes|
    ensures e in RowEdges(boxes, i) <==>
      e.a == i && e.a < e.b < |boxes| && e.dist == Distance(boxes[e.a], boxes[e.b])
  {
    var row := RowEdges(boxes, i);
    if e.a == i && e.a < e.b < |boxes| && e.dist == Distance(boxes[e.a], boxes[e.b]) {
      assert row[e.b - i - 1] == e;
    }
  }

  /** An edge is listed iff it joins a box among the first `m` to a later box, at their distance. */
  lemma {:induction false} PairEdgesMembers(boxes: seq<Box>, m: nat, e: Edge)
    requires m <= |boxes|
    ensures e in PairEdges(boxes, m) <==>
      e.a < m && e.a < e.b < |boxes| && e.dist == Distance(boxes[e.a], boxes[e.b])
  {
    if m > 0 {
      PairEdgesMembers(boxes, m - 1, e);
      RowEdgesMembers(boxes, m - 1, e);
      assert e in PairEdges(boxes, m) <==> e in PairEdges(boxes, m - 1) || e in RowEdges(boxes, m - 1);
    }
  }

  /** There are `m * (2n - m - 1) / 2` of them: `n * (n - 1) / 2` for all the boxes. */
  lemma {:induction false} PairEdgesCount(boxes: seq<Box>, m: nat)
    requires m <= |boxes|
    ensures 2 * |PairEdges(boxes, m)| == m * (2 * |boxes| - m - 1)
  {
    if m > 0 {
      PairEdgesCount(boxes, m - 1);
      var n := |boxes|;
      assert (m - 1) * (2 * n - m) + 2 * (n - m) == m * (2 * n - m - 1);
    }
  }

  lemma PairEdgesWithin(boxes: seq<Box>, m: nat)
    requires m <= |boxes|
    ensures EdgesWithin(PairEdges(boxes, m), |boxes|)
  {
    var edges := PairEdges(boxes, m);
    forall k | 0 <= k < |edges| ensures edges[k].a < |boxes| && edges[k].b < |boxes| {
      PairEdgesMembers(boxes, m, edges[k]);
    }
  }

  /** The nested loops of `processing` that list every pair `i < j` with its distance. */
  method BuildEdges(boxes: seq<Box>) returns (edges: seq<Edge>)
    requires |boxes| >= 1
    ensures edges == PairEdges(boxes, |boxes|)
  {
    var n := |boxes|;
    edges := [];
    for i := 0 to n - 1
      invariant edges == PairEdges(boxes, i)
    {
      ghost var row := RowEdges(boxes, i);
      for j := i + 1 to n
        invariant edges == PairEdges(boxes, i) + row[..j - i - 1]
      {
        var dist := Distance(boxes[i], boxes[j]);
        assert row[..j - i] == row[..j - i - 1] + [Edge(dist, i, j)];
        edges := edges + [Edge(dist, i, j)];
      }
      assert row[..n - i - 1] == row;
    }
    assert RowEdges(boxes, n - 1) == [];
  }

  predicate EdgeLe(e: Edge, f: Edge) {
    e.dist <= f.dist
  }

  lemma EdgeLeTotal()
    ensures Seqs.TotalPreorder(EdgeLe)
  {
  }

  /** The edges of length `d`. */
  function AtDistance(d: nat): Edge -> bool {
    (e: Edge) => e.dist == d
  }

  /** `sort_by` on the distance: stable, so equal distances keep the pair order. */
  function SortEdges(edges: seq<Edge>): (sorted: seq<Edge>)
    ensures Seqs.SortedBy(sorted, EdgeLe)
    ensures multiset(sorted) == multiset(edges) && |sorted| == |edges|
    ensures forall d: nat :: Seqs.Filter(sorted, AtDistance(d)) == Seqs.Filter(edges, AtDistance(d))
  {
    EdgeLeTotal();
    var sorted := Seqs.SortBy(edges, EdgeLe);
    assert forall d: nat :: Seqs.Filter(sorted, AtDistance(d)) == Seqs.Filter(edges, AtDistance(d)) by {
      forall d: nat ensures Seqs.Filter(sorted, AtDistance(d)) == Seqs.Filter(edges, AtDistance(d)) {
        var k := Edge(d, 0, 0);
        Seqs.SortByStable(edges, EdgeLe, k);
        Seqs.FilterExt(sorted, Seqs.SameKey(EdgeLe, k), AtDistance(d));
        Seqs.FilterExt(edges, Seqs.SameKey(EdgeLe, k), AtDistance(d));
      }
    }
    sorted
  }

  /** Sorting keeps the edges within the boxes. */
  lemma SortedWithin(edges: seq<Edge>, n: nat)
    requires EdgesWithin(edges, n)
    ensures EdgesWithin(SortEdges(edges), n)
  {
    var sorted := SortEdges(edges);
    forall k | 0 <= k < |sorted| ensures sorted[k].a < n && sorted[k].b < n {
      assert sorted[k] in multiset(edges);
    }
  }

  /**
   * `processing`: all pairs, shortest first, and a forest in which the
   * first `pairCount` of them (or all, if fewer) have been joined.
   * The source computes `n - 1` and so needs at least one box.
   */
  method Processing(boxes: seq<Box>, pairCount: nat) returns (edges: seq<Edge>, dsu: Dsu)
    requires |boxes| >= 1
    ensures edges == SortEdges(PairEdges(boxes, |boxes|)) && EdgesWithin(edges, |boxes|)
    ensures fresh(dsu) && dsu.Valid() && |dsu.parent| == |boxes|
    ensures dsu.root == CircuitsAfter(|boxes|, edges, pairCount)
  {
    var n := |boxes|;
    edges := BuildEdges(boxes);
    PairEdgesWithin(boxes, n);
    SortedWithin(edges, n);
    edges := SortEdges(edges);
    dsu := new Dsu(n);
    assert dsu.root == Singletons(n);
    var take := if pairCount < |edges| then pairCount else |edges|;
    JoinEdges(dsu, edges, take);
  }

  /** The `for` loop of `processing`: a union along each of the first `take` edges. */
  method JoinEdges(dsu: Dsu, edges: seq<Edge>, take: nat)
    requires dsu.Valid() && EdgesWithin(edges, |dsu.parent|) && take <= |edges|
    modifies dsu
    ensures dsu.Valid() && |dsu.parent| == old(|dsu.parent|)
    ensures dsu.root == JoinRange(old(dsu.root), edges, 0, take)
  {
    for k := 0 to take
      invariant dsu.Valid() && |dsu.parent| == old(|dsu.parent|)
      invariant dsu.root == JoinRange(old(dsu.root), edges, 0, k)
    {
      JoinRangeStep(old(dsu.root), edges, 0, k);
      dsu.Union(edges[k].a, edges[k].b);
    }
  }

  // ---------------------------------------------------------------------
  // Part 1
  // ---------------------------------------------------------------------

  /** The size of every circuit, indexed by its representative (0 for a non-representative). */
  ghost function CircuitSizes(root: seq<nat>): (r: seq<nat>)
    ensures |r| == |root|
  {
    seq(|root|, i requires 0 <= i < |root| => |Members(root, i)|)
  }

  /** One more element counted towards its representative. */
  lemma MembersSnoc(root: seq<nat>, i: nat, r: nat)
    requires i < |root|
    ensures |Members(root[..i + 1], r)| == |Members(root[..i], r)| + (if root[i] == r then 1 else 0)
  {
    if root[i] == r {
      assert Members(root[..i + 1], r) == Members(root[..i], r) + {i};
    } else {
      assert Members(root[..i + 1], r) == Members(root[..i], r);
    }
  }

  predicate SizeGe(a: nat, b: nat) {
    a >= b
  }

  lemma SizeGeTotal()
    ensures Seqs.TotalPreorder(SizeGe)
  {
  }

  /** In a list sorted largest first, nothing in a prefix is smaller than anything after it. */
  lemma PrefixDominates(sorted: seq<nat>, m: nat)
    requires Seqs.SortedBy(sorted, SizeGe) && m <= |sorted|
    ensures forall x, y | x in sorted[..m] && y in multiset(sorted[m..]) :: x >= y
  {
    forall x, y | x in sorted[..m] && y in multiset(sorted[m..]) ensures x >= y {
      var i :| 0 <= i < m && sorted[..m][i] == x;
      var j :| 0 <= j < |sorted| - m && sorted[m..][j] == y;
      assert SizeGe(sorted[i], sorted[m + j]);
    }
  }

  lemma PrefixRest(s: seq<nat>, m: nat)
    requires m <= |s|
    ensures multiset(s[..m]) <= multiset(s)
    ensures multiset(s) - multiset(s[..m]) == multiset(s[m..])
  {
    assert s == s[..m] + s[m..];
  }

  /**
   * The `k` largest of `sizes` (all of them when there are fewer): taken
   * from `sizes`, and none smaller than any that is left.
   */
  function Largest(sizes: seq<nat>, k: nat): (r: seq<nat>)
    ensures |r| == if k < |sizes| then k else |sizes|
    ensures multiset(r) <= multiset(sizes)
    ensures forall x, y | x in r && y in multiset(sizes) - multiset(r) :: x >= y
  {
    SizeGeTotal();
    var sorted := Seqs.SortBy(sizes, SizeGe);
    var m := if k < |sizes| then k else |sizes|;
    PrefixRest(sorted, m);
    PrefixDominates(sorted, m);
    sorted[..m]
  }

  /**
   * `part1`: the product of the sizes of the three largest circuits, from
   * a count of each circuit's members. The forest's circuits do not change.
   */
  method Part1(dsu: Dsu) returns (product: nat)
    requires dsu.Valid()
    modifies dsu
    ensures dsu.Valid() && |dsu.parent| == old(|dsu.parent|) && dsu.root == old(dsu.root)
    ensures product == Seqs.Product(Largest(CircuitSizes(dsu.root), 3))
  {
    var n := |dsu.parent|;
    var sizes: seq<nat> := seq(n, _ => 0);
    for i := 0 to n
      invariant dsu.Valid() && |dsu.parent| == n && dsu.root == old(dsu.root)
      invariant |sizes| == n
      invariant forall r :: 0 <= r < n ==> sizes[r] == |Members(dsu.root[..i], r)|
    {
      var p := dsu.Find(i);
      forall r | 0 <= r < n {
        MembersSnoc(dsu.root, i, r);
      }
      sizes := sizes[p := sizes[p] + 1];
    }
    assert dsu.root[..n] == dsu.root;
    assert sizes == CircuitSizes(dsu.root);
    product := Seqs.Product(Largest(sizes, 3));
  }

  // ---------------------------------------------------------------------
  // Part 2
  // ---------------------------------------------------------------------

  /** `a`'s circuit holds every element. */
  ghost predicate Spans(root: seq<nat>, a: nat)
    requires a < |root|
  {
    |Members(root, root[a])| == |root|
  }

  /** The elements `0 .. n-1`. */
  ghost function Upto(n: nat): (r: set<nat>)
    ensures forall i: nat :: i in r <==> i < n
    ensures |r| == n
  {
    if n == 0 then {}
    else
      assert n - 1 !in Upto(n - 1);
      Upto(n - 1) + {n - 1}
  }

  /** A circuit spans the forest iff every element shares its representative. */
  lemma SpansAll(root: seq<nat>, a: nat)
    requires a < |root|
    ensures Spans(root, a) <==> forall i :: 0 <= i < |root| ==> root[i] == root[a]
  {
    var m := Members(root, root[a]);
    var all := Upto(|root|);
    assert m <= all;
    if Spans(root, a) {
      assert |all - m| == |all| - |m| == 0;
      forall i | 0 <= i < |root| ensures root[i] == root[a] {
        assert i in all && i !in all - m;
      }
    }
    if forall i :: 0 <= i < |root| ==> root[i] == root[a] {
      assert all == m;
    }
  }

  /** After the edges `from .. k` (inclusive), the circuit of edge `k`'s first box spans every box. */
  ghost predicate SpansAfter(root0: seq<nat>, edges: seq<Edge>, from: nat, k: nat)
    requires from <= k < |edges|
  {
    edges[k].a < |root0| && Spans(JoinRange(root0, edges, from, k + 1), edges[k].a)
  }

  /** What `part2` checks after edge `m` decides `SpansAfter`. */
  lemma SpansAfterCount(root0: seq<nat>, edges: seq<Edge>, from: nat, m: nat, root: seq<nat>)
    requires from <= m < |edges| && EdgesWithin(edges, |root0|)
    requires root == JoinRange(root0, edges, from, m + 1)
    ensures SpansAfter(root0, edges, from, m) <==> |Members(root, root[edges[m].a])| == |root0|
  {
  }

  /** No edge `from .. m-1` made a circuit span every box. */
  ghost predicate NoSpanBefore(root0: seq<nat>, edges: seq<Edge>, from: nat, m: nat)
    requires from <= m <= |edges|
  {
    forall j | from <= j < m :: !SpansAfter(root0, edges, from, j)
  }

  lemma NoSpanStep(root0: seq<nat>, edges: seq<Edge>, from: nat, m: nat)
    requires from <= m < |edges|
    requires NoSpanBefore(root0, edges, from, m) && !SpansAfter(root0, edges, from, m)
    ensures NoSpanBefore(root0, edges, from, m + 1)
  {
  }

  /** Edge `k` is the first from `from` on after which one circuit holds every box. */
  ghost predicate FirstSpanning(root0: seq<nat>, edges: seq<Edge>, from: nat, k: nat)
    requires from <= k < |edges|
  {
    SpansAfter(root0, edges, from, k) && NoSpanBefore(root0, edges, from, k)
  }

  /** The product of the `x` coordinates of two boxes, `part2`'s answer. */
  function XProduct(p: Box, q: Box): nat {
    p.x * q.x
  }

  /**
   * `part2`: join the edges after the first `pairCount` in order; at the
   * first one after which a single circuit holds every box, the product of
   * its two boxes' `x`. `None` where the source reaches `unreachable!`.
   */
  method Part2(boxes: seq<Box>, pairCount: nat, edges: seq<Edge>, dsu: Dsu) returns (r: Option<nat>, ghost k: nat)
    requires dsu.Valid() && |dsu.parent| == |boxes| && EdgesWithin(edges, |boxes|)
    modifies dsu
    ensures dsu.Valid() && |dsu.parent| == |boxes|
    ensures r.Some? ==> pairCount <= k < |edges| && FirstSpanning(old(dsu.root), edges, pairCount, k)
    ensures r.Some? ==> r.value == XProduct(boxes[edges[k].a], boxes[edges[k].b])
    ensures r.None? ==> pairCount >= |edges| || NoSpanBefore(old(dsu.root), edges, pairCount, |edges|)
  {
    var n := |boxes|;
    ghost var root0 := dsu.root;
    if pairCount >= |edges| {
      return None, 0;
    }
    for m := pairCount to |edges|
      invariant dsu.Valid() && |dsu.parent| == n
      invariant dsu.root == JoinRange(root0, edges, pairCount, m)
      invariant NoSpanBefore(root0, edges, pairCount, m)
    {
      var a, b := edges[m].a, edges[m].b;
      JoinRangeStep(root0, edges, pairCount, m);
      dsu.Union(a, b);
      var count := dsu.NetworkCount(a);
      SpansAfterCount(root0, edges, pairCount, m, dsu.root);
      if count == n {
        return Some(XProduct(boxes[a], boxes[b])), m;
      }
      NoSpanStep(root0, edges, pairCount, m);
    }
    return None, 0;
  }

  /** The circuits after joining the shortest `pairCount` edges (all, if fewer). */
  ghost function CircuitsAfter(n: nat, edges: seq<Edge>, pairCount: nat): (r: seq<nat>)
    ensures |r| == n
  {
    JoinRange(Singletons(n), edges, 0, if pairCount < |edges| then pairCount else |edges|)
  }

  /**
   * The two answers for `boxes`: the product of the three largest circuit
   * sizes after 1000 edges, and the `x` product of the first later edge
   * after which one circuit holds every box.
   */
  ghost predicate Answers(boxes: seq<Box>, sol1: nat, sol2: nat) {
    var edges := SortEdges(PairEdges(boxes, |boxes|));
    var root := CircuitsAfter(|boxes|, edges, 1000);
    && sol1 == Seqs.Product(Largest(CircuitSizes(root), 3))
    && exists k :: 1000 <= k < |edges| && edges[k].a < |boxes| && edges[k].b < |boxes|
         && FirstSpanning(root, edges, 1000, k) && sol2 == XProduct(boxes[edges[k].a], boxes[edges[k].b])
  }

  /** No edge after the first 1000 joins every box into one circuit: `part2` reaches `unreachable!`. */
  ghost predicate NoAnswer(boxes: seq<Box>) {
    var edges := SortEdges(PairEdges(boxes, |boxes|));
    var root := CircuitsAfter(|boxes|, edges, 1000);
    1000 >= |edges| || NoSpanBefore(root, edges, 1000, |edges|)
  }

  /** When no edge joins everything there are no answers, so `Solve` is `None` exactly then. */
  lemma NoAnswerExcludes(boxes: seq<Box>, sol1: nat, sol2: nat)
    requires NoAnswer(boxes)
    ensures !Answers(boxes, sol1, sol2)
  {
  }

  lemma AnswersFrom(boxes: seq<Box>, edges: seq<Edge>, root: seq<nat>, sol1: nat, sol2: nat, k: nat)
    requires edges == SortEdges(PairEdges(boxes, |boxes|)) && root == CircuitsAfter(|boxes|, edges, 1000)
    requires sol1 == Seqs.Product(Largest(CircuitSizes(root), 3))
    requires 1000 <= k < |edges| && edges[k].a < |boxes| && edges[k].b < |boxes|
    requires FirstSpanning(root, edges, 1000, k) && sol2 == XProduct(boxes[edges[k].a], boxes[edges[k].b])
    ensures Answers(boxes, sol1, sol2)
  {
  }

  /**
   * `solve`: the boxes of the input, 1000 edges joined for part 1, the
   * rest for part 2. `None` where the source panics: a line that is not a
   * box, no boxes at all, or no edge that joins everything.
   */
  method Solve(input: string) returns (r: Option<(nat, nat)>)
    ensures ReadAndParse(input).None? ==> r.None?
    ensures r.None? ==>
      || ReadAndParse(input).None? || ReadAndParse(input).value == []
      || NoAnswer(ReadAndParse(input).value)
    ensures r.Some? ==>
      && ReadAndParse(input).Some? && ReadAndParse(input).value != []
      && Answers(ReadAndParse(input).value, r.value.0, r.value.1)
  {
    var parsed := ReadAndParse(input);
    if parsed.None? || parsed.value == [] {
      return None;
    }
    var boxes := parsed.value;
    var edges, dsu := Processing(boxes, 1000);
    ghost var root := dsu.root;
    var sol1 := Part1(dsu);
    var sol2, k := Part2(boxes, 1000, edges, dsu);
    if sol2.None? {
      return None;
    }
    AnswersFrom(boxes, edges, root, sol1, sol2.value, k);
    r := Some((sol1, sol2.value));
  }
}

=== FILE: day09.dfy ===
/**
 * Day 9: red tiles at integer points. Part 1 is the largest rectangle
 * with two red tiles as opposite corners; part 2 keeps only the rectangles
 * that cut into none of the rectangles spanned by consecutive red tiles
 * (the boundary, closed from the last tile back to the first).
 */
module Day09 {
  import opened Wrappers
  import opened Points
  import Text
  import Seqs
  import NumUtils

  /** A closed axis-aligned rectangle of tiles. */
  datatype Rectangle = Rectangle(minX: int, maxX: int, minY: int, maxY: int)

  /** The bounds are in order on both axes. */
  predicate Normal(r: Rectangle) {
    r.minX <= r.maxX && r.minY <= r.maxY
  }

  predicate Covers(r: Rectangle, p: Point) {
    r.minX <= p.x <= r.maxX && r.minY <= p.y <= r.maxY
  }

  // ---------------------------------------------------------------------
  // Parsing
  // ---------------------------------------------------------------------

  /**
   * One line of the input: the first two comma-separated pieces as signed
   * numbers; further pieces are never looked at. A missing or unparsable
   * piece is where the source panics.
   */
  function ParsePoint(line: string): (r: Option<Point>)
    ensures r.Some? <==>
      var parts := Text.Split(line, ',');
      |parts| >= 2 && Text.ParseInt(parts[0]).Some? && Text.ParseInt(parts[1]).Some?
  {
    var parts := Text.Split(line, ',');
    if |parts| < 2 then None
    else
      match (Text.ParseInt(parts[0]), Text.ParseInt(parts[1]))
      case (Some(x), Some(y)) => Some(Point(x, y))
      case _ => None
  }

  function PointToString(p: Point): string {
    Text.IntToString(p.x) + "," + Text.IntToString(p.y)
  }

  lemma NoComma(i: int)
    ensures ',' !in Text.IntToString(i)
  {
    var s := Text.NatToString(if i < 0 then -i else i);
    assert forall k :: 0 <= k < |s| ==> Text.IsDigit(s[k]);
  }

  /** Parsing the text `x,y` of a point gives the point back. */
  lemma ParsePointRoundTrip(p: Point)
    ensures ParsePoint(PointToString(p)) == Some(p)
  {
    var sx, sy := Text.IntToString(p.x), Text.IntToString(p.y);
    NoComma(p.x);
    NoComma(p.y);
    assert PointToString(p) == sx + [','] + sy;
    Text.SplitCons(sx, ',', sy);
    Text.SplitSingle(sy, ',');
    Text.ParseIntRoundTrip(p.x);
    Text.ParseIntRoundTrip(p.y);
  }

  /** `read_and_parse` on the text of the input: one point per line, `None` when a line does not parse. */
  function ReadAndParse(input: string): (r: Option<seq<Point>>)
    ensures r.Some? ==> |r.value| == |Text.Lines(input)|
    ensures r.Some? ==> forall i :: 0 <= i < |Text.Lines(input)| ==> ParsePoint(Text.Lines(input)[i]) == Some(r.value[i])
    ensures r.None? ==> exists i :: 0 <= i < |Text.Lines(input)| && ParsePoint(Text.Lines(input)[i]).None?
  {
    Text.ParseAll(Text.Lines(input), ParsePoint)
  }

  // ---------------------------------------------------------------------
  // Rectangles
  // ---------------------------------------------------------------------

  /**
   * `Rectangle::new`: the rectangle with opposite corners `a` and `b`. Its
   * bounds are the corners' coordinates, in order, so it is the smallest
   * rectangle covering both.
   */
  function NewRect(a: Point, b: Point): (r: Rectangle)
    ensures Normal(r) && Covers(r, a) && Covers(r, b)
    ensures {r.minX, r.maxX} == {a.x, b.x} && {r.minY, r.maxY} == {a.y, b.y}
  {
    Rectangle(if a.x <= b.x then a.x else b.x, if a.x <= b.x then b.x else a.x,
              if a.y <= b.y then a.y else b.y, if a.y <= b.y then b.y else a.y)
  }

  /** The corners' order does not matter. */
  lemma NewRectSymmetric(a: Point, b: Point)
    ensures NewRect(a, b) == NewRect(b, a)
  {
    var r, s := NewRect(a, b), NewRect(b, a);
    assert r.minX == s.minX && r.maxX == s.maxX;
    assert r.minY == s.minY && r.maxY == s.maxY;
  }

  /** `area`: the number of tiles the rectangle covers, at least one. */
  function Area(r: Rectangle): (n: nat)
    requires Normal(r)
    ensures n >= 1
  {
    NumUtils.MulMono(1, r.maxY - r.minY + 1, r.maxX - r.minX + 1);
    (r.maxX - r.minX + 1) * (r.maxY - r.minY + 1)
  }

  /** A rectangle between two corners has the corners' distances plus one as sides. */
  lemma AreaOfCorners(a: Point, b: Point)
    ensures Area(NewRect(a, b)) == (NumUtils.Abs(a.x - b.x) + 1) * (NumUtils.Abs(a.y - b.y) + 1)
  {
  }

  /** `exceeds_rect`: the two rectangles overlap by more than their edges. */
  predicate Exceeds(r: Rectangle, o: Rectangle) {
    && r.minX < o.maxX && r.maxX > o.minX
    && r.minY < o.maxY && r.maxY > o.minY
  }

  /**
   * On one axis, the closed ranges `[a, b]` and `[c, d]` share a point
   * (on the half-tile grid, so `t` counts halves) lying strictly inside at
   * least one of them.
   */
  ghost predicate MeetInside(a: int, b: int, c: int, d: int) {
    exists t: int :: MeetsAt(a, b, c, d, t)
  }

  predicate MeetsAt(a: int, b: int, c: int, d: int, t: int) {
    2 * a <= t <= 2 * b && 2 * c <= t <= 2 * d && (2 * a < t < 2 * b || 2 * c < t < 2 * d)
  }

  lemma MeetInsideIff(a: int, b: int, c: int, d: int)
    requires a <= b && c <= d
    ensures (a < d && b > c) <==> MeetInside(a, b, c, d)
  {
    if a < d && b > c {
      var t := if a < b && c < d then 2 * (if a <= c then c else a) + 1 else if a == b then 2 * a else 2 * c;
      assert MeetsAt(a, b, c, d, t);
    }
  }

  /**
   * Two rectangles exceed one another iff on each axis they share a point
   * strictly inside one of them: rectangles that only touch along an edge
   * or at a corner do not, and the relation is symmetric.
   */
  lemma ExceedsIffMeetInside(r: Rectangle, o: Rectangle)
    requires Normal(r) && Normal(o)
    ensures Exceeds(r, o) <==> MeetInside(r.minX, r.maxX, o.minX, o.maxX) && MeetInside(r.minY, r.maxY, o.minY, o.maxY)
    ensures Exceeds(r, o) <==> Exceeds(o, r)
  {
    MeetInsideIff(r.minX, r.maxX, o.minX, o.maxX);
    MeetInsideIff(r.minY, r.maxY, o.minY, o.maxY);
  }

  /** The unit square with lower corner `(x, y)` lies within `r`. */
  predicate HasCell(r: Rectangle, x: int, y: int) {
    r.minX <= x < r.maxX && r.minY <= y < r.maxY
  }

  /** Between rectangles of positive width and height, exceeding is sharing a unit square. */
  lemma ExceedsIffSharedCell(r: Rectangle, o: Rectangle)
    requires r.minX < r.maxX && r.minY < r.maxY && o.minX < o.maxX && o.minY < o.maxY
    ensures Exceeds(r, o) <==> exists x, y :: HasCell(r, x, y) && HasCell(o, x, y)
  {
    if Exceeds(r, o) {
      var x := if r.minX <= o.minX then o.minX else r.minX;
      var y := if r.minY <= o.minY then o.minY else r.minY;
      assert HasCell(r, x, y) && HasCell(o, x, y);
    }
  }

  // ---------------------------------------------------------------------
  // All pairs
  // ---------------------------------------------------------------------

  /**
   * The index pairs `(i, j)` with `i < m` and `i < j < n`, row by row, in
   * the order the nested ranges of the `flat_map` visit them.
   */
  function Pairs(n: nat, m: nat): (r: seq<(nat, nat)>)
    requires m <= n
    ensures forall k :: 0 <= k < |r| ==> r[k].0 < m && r[k].0 < r[k].1 < n
  {
    if m == 0 then []
    else Pairs(n, m - 1) + seq(n - m, k requires 0 <= k < n - m => (m - 1, m + k))
  }

  /** A pair is listed iff its first index is below `m` and below the second. */
  lemma {:induction false} PairsMembers(n: nat, m: nat, p: (nat, nat))
    requires m <= n
    ensures p in Pairs(n, m) <==> p.0 < m && p.0 < p.1 < n
  {
    if m > 0 {
      PairsMembers(n, m - 1, p);
      var row := seq(n - m, k requires 0 <= k < n - m => (m - 1, m + k));
      assert Pairs(n, m) == Pairs(n, m - 1) + row;
      if p.0 == m - 1 && p.0 < p.1 < n {
        assert row[p.1 - m] == p;
      }
    }
  }

  /** Every pair `i < j` of the points, each once. */
  function AllPairs(points: seq<Point>): (r: seq<(nat, nat)>)
    requires |points| >= 1
    ensures forall k :: 0 <= k < |r| ==> r[k].0 < r[k].1 < |points|
  {
    Pairs(|points|, |points| - 1)
  }

  lemma AllPairsComplete(points: seq<Point>, i: nat, j: nat)
    requires i < j < |points|
    ensures (i, j) in AllPairs(points)
  {
    PairsMembers(|points|, |points| - 1, (i, j));
  }

  /** The rectangles of all the pairs, in the same order. */
  function PairRects(points: seq<Point>): (r: seq<Rectangle>)
    requires |points| >= 1
    ensures |r| == |AllPairs(points)| && AllNormal(r)
  {
    var pairs := AllPairs(points);
    seq(|pairs|, k requires 0 <= k < |pairs| => NewRect(points[pairs[k].0], points[pairs[k].1]))
  }

  predicate AllNormal(rs: seq<Rectangle>) {
    forall k :: 0 <= k < |rs| ==> Normal(rs[k])
  }

  /** `.map(|rect| rect.area())`. */
  function Areas(rs: seq<Rectangle>): (r: seq<nat>)
    requires AllNormal(rs)
    ensures |r| == |rs| && forall k :: 0 <= k < |rs| ==> r[k] == Area(rs[k])
  {
    seq(|rs|, k requires 0 <= k < |rs| => Area(rs[k]))
  }

  // ---------------------------------------------------------------------
  // Part 1
  // ---------------------------------------------------------------------

  /** The area of the rectangle between the `i`-th and `j`-th points. */
  function PairArea(points: seq<Point>, i: nat, j: nat): nat
    requires i < |points| && j < |points|
  {
    Area(NewRect(points[i], points[j]))
  }

  /**
   * `part1`: the largest area of a rectangle with two of the points as
   * corners; `None` for a single point, where the source's `unwrap` panics.
   */
  function Part1(points: seq<Point>): (r: Option<nat>)
    requires |points| >= 1
    ensures r.Some? <==> |points| >= 2
    ensures r.Some? ==> exists i, j :: 0 <= i < j < |points| && r.value == PairArea(points, i, j)
    ensures r.Some? ==> forall i, j :: 0 <= i < j < |points| ==> PairArea(points, i, j) <= r.value
  {
    if |points| < 2 then None
    else
      var pairs := AllPairs(points);
      var areas := Areas(PairRects(points));
      AllPairsComplete(points, 0, 1);
      var best := Seqs.Max(areas);
      var k :| 0 <= k < |areas| && areas[k] == best;
      assert best == PairArea(points, pairs[k].0, pairs[k].1);
      forall i, j | 0 <= i < j < |points| ensures PairArea(points, i, j) <= best {
        AllPairsComplete(points, i, j);
        var q :| 0 <= q < |pairs| && pairs[q] == (i, j);
        assert areas[q] == PairArea(points, i, j);
      }
      Some(best)
  }

  // ---------------------------------------------------------------------
  // Part 2
  // ---------------------------------------------------------------------

  /**
   * `greens`: the rectangle of each consecutive pair of points (`windows(2)`),
   * then that of the first and the last point.
   */
  function Boundary(points: seq<Point>): (greens: seq<Rectangle>)
    requires |points| >= 1
    ensures |greens| == |points|
  {
    seq(|points| - 1, k requires 0 <= k < |points| - 1 => NewRect(points[k], points[k + 1]))
      + [NewRect(points[0], points[|points| - 1])]
  }

  /**
   * Going round the points, the `k`-th boundary rectangle joins point `k`
   * to the next one, the last joining back to the first.
   */
  lemma BoundaryClosed(points: seq<Point>, k: nat)
    requires k < |points|
    ensures k + 1 < |points| ==> Boundary(points)[k] == NewRect(points[k], points[k + 1])
    ensures k + 1 == |points| ==> Boundary(points)[k] == NewRect(points[k], points[0])
  {
    if k + 1 == |points| {
      NewRectSymmetric(points[0], points[k]);
    }
  }

  /** `greens.iter().all(|g| !rect.exceeds_rect(g))`. */
  predicate ExceedsNone(greens: seq<Rectangle>, r: Rectangle) {
    forall k :: 0 <= k < |greens| ==> !Exceeds(r, greens[k])
  }

  /** The rectangle between the `i`-th and `j`-th points cuts into no boundary rectangle. */
  predicate Allowed(points: seq<Point>, i: nat, j: nat)
    requires 1 <= |points| && i < |points| && j < |points|
  {
    ExceedsNone(Boundary(points), NewRect(points[i], points[j]))
  }

  /** `.filter(..)`: the pair rectangles that cut into no boundary rectangle, in order. */
  function Kept(points: seq<Point>): (kept: seq<Rectangle>)
    requires |points| >= 1
    ensures AllNormal(kept)
    ensures forall k :: 0 <= k < |kept| ==>
      kept[k] in PairRects(points) && ExceedsNone(Boundary(points), kept[k])
    ensures forall i, j :: 0 <= i < j < |points| && Allowed(points, i, j) ==> NewRect(points[i], points[j]) in kept
  {
    var greens := Boundary(points);
    var rects := PairRects(points);
    var kept := Seqs.Filter(rects, r => ExceedsNone(greens, r));
    forall i, j | 0 <= i < j < |points| && Allowed(points, i, j)
      ensures NewRect(points[i], points[j]) in kept
    {
      AllPairsComplete(points, i, j);
      var pairs := AllPairs(points);
      var q :| 0 <= q < |pairs| && pairs[q] == (i, j);
      assert rects[q] == NewRect(points[i], points[j]);
    }
    kept
  }

  /**
   * `part2`: the largest area among the pair rectangles that cut into no
   * boundary rectangle; `None` when there is none, where the source's
   * `unwrap` panics.
   */
  function Part2(points: seq<Point>): (r: Option<nat>)
    requires |points| >= 1
    ensures r.Some? ==> exists i, j :: 0 <= i < j < |points| && Allowed(points, i, j) && r.value == PairArea(points, i, j)
    ensures r.Some? ==> forall i, j :: 0 <= i < j < |points| && Allowed(points, i, j) ==> PairArea(points, i, j) <= r.value
    ensures r.None? <==> forall i, j :: 0 <= i < j < |points| ==> !Allowed(points, i, j)
  {
    var kept := Kept(points);
    if kept == [] then None
    else
      var areas := Areas(kept);
      var best := Seqs.Max(areas);
      KeptMaxIsAllowed(points, kept, areas, best);
      forall i, j | 0 <= i < j < |points| && Allowed(points, i, j) ensures PairArea(points, i, j) <= best {
        var k :| 0 <= k < |kept| && kept[k] == NewRect(points[i], points[j]);
        assert areas[k] == PairArea(points, i, j);
      }
      Some(best)
  }

  lemma KeptMaxIsAllowed(points: seq<Point>, kept: seq<Rectangle>, areas: seq<nat>, best: nat)
    requires |points| >= 1 && kept == Kept(points)
    requires areas == Areas(kept) && best in areas
    ensures exists i, j :: 0 <= i < j < |points| && Allowed(points, i, j) && best == PairArea(points, i, j)
  {
    var k :| 0 <= k < |areas| && areas[k] == best;
    var rects, pairs := PairRects(points), AllPairs(points);
    var q :| 0 <= q < |rects| && rects[q] == kept[k];
    assert Allowed(points, pairs[q].0, pairs[q].1);
  }
}

=== FILE: day10.dfy ===
/**
 * Day 10: each machine has indicator lights, a target pattern of them, and
 * buttons that each toggle a set of lights. Lights and buttons are 16-bit
 * masks, pressing a button XORs its mask into the state, and part 1 is the
 * fewest presses that turn the all-off state into the target, found by a
 * breadth-first search over the 2^16 states.
 */
module Day10 {
  import opened Wrappers
  import Text
  import Seqs

  /** `Machine`: the target light pattern and one mask per button. */
  datatype Machine = Machine(controls: bv16, buttons: seq<bv16>)

  // ---------------------------------------------------------------------
  // Bits
  // ---------------------------------------------------------------------

  /** Bit `k` of `m` is set. */
  predicate Bit(m: bv16, k: bv16)
    requires k < 16
  {
    (m >> k) & 1 == 1
  }

  lemma ShiftInBit(c: bv16, b: bv16, k: bv16)
    requires b <= 1 && k < 16
    ensures k == 0 ==> (Bit((c << 1) | b, k) <==> b == 1)
    ensures k > 0 ==> (Bit((c << 1) | b, k) <==> Bit(c, k - 1))
  {
  }

  lemma OrBit(acc: bv16, s: bv16, k: bv16)
    requires s < 16 && k < 16
    ensures Bit(acc | (1 << s), k) <==> Bit(acc, k) || k == s
  {
  }

  lemma Predecessor(k: bv16)
    requires 0 < k < 16
    ensures (k - 1) as int == k as int - 1
  {
  }

  // ---------------------------------------------------------------------
  // Parsing
  // ---------------------------------------------------------------------

  /**
   * The fold over the bytes between the brackets: shift left, then set the
   * low bit for a '#'. The first character ends up most significant, and
   * characters pushed out past bit 15 are lost, as with `u16`.
   */
  function Controls(s: string): bv16 {
    if s == [] then 0
    else (Controls(s[..|s| - 1]) << 1) | (if s[|s| - 1] == '#' then 1 else 0)
  }

  lemma ControlsSnoc(s: string, k: bv16)
    requires s != [] && k < 16
    ensures k == 0 ==> (Bit(Controls(s), k) <==> s[|s| - 1] == '#')
    ensures k > 0 ==> (Bit(Controls(s), k) <==> Bit(Controls(s[..|s| - 1]), k - 1))
  {
    var b: bv16 := if s[|s| - 1] == '#' then 1 else 0;
    assert Controls(s) == (Controls(s[..|s| - 1]) << 1) | b;
    ShiftInBit(Controls(s[..|s| - 1]), b, k);
  }

  /** Bit `k` of the controls is set iff the `k`-th character from the right is '#'. */
  lemma {:induction false} ControlsBits(s: string, k: bv16)
    requires k < 16
    ensures Bit(Controls(s), k) <==> (k as int) < |s| && s[|s| - 1 - k as int] == '#'
  {
    if s != [] {
      ControlsSnoc(s, k);
      if k > 0 {
        ControlsBits(s[..|s| - 1], k - 1);
        Predecessor(k);
      }
    }
  }

  /**
   * `bit_len - 1 - b` in `u16`, as the shift of `1 << ..`: `None` where the
   * subtraction underflows or the shift is 16 or more, where the source
   * panics.
   */
  function Shift(bitLen: bv16, b: bv16): (r: Option<bv16>)
    ensures r.Some? ==> r.value < 16
  {
    if 0 < bitLen && b <= bitLen - 1 && bitLen - 1 - b < 16 then Some(bitLen - 1 - b) else None
  }

  /** The fold over a button's indices: set bit `bit_len - 1 - b` for each index `b`. */
  function ButtonMask(bitLen: bv16, idx: seq<bv16>): (r: Option<bv16>)
    ensures r.Some? <==> forall i :: 0 <= i < |idx| ==> Shift(bitLen, idx[i]).Some?
  {
    if idx == [] then Some(0)
    else
      match (ButtonMask(bitLen, idx[..|idx| - 1]), Shift(bitLen, idx[|idx| - 1]))
      case (Some(acc), Some(s)) => Some(acc | (1 << s))
      case _ => None
  }

  lemma ButtonMaskSnoc(bitLen: bv16, idx: seq<bv16>, k: bv16)
    requires idx != [] && ButtonMask(bitLen, idx).Some? && k < 16
    ensures ButtonMask(bitLen, idx[..|idx| - 1]).Some?
    ensures Bit(ButtonMask(bitLen, idx).value, k) <==>
      Bit(ButtonMask(bitLen, idx[..|idx| - 1]).value, k) || Shift(bitLen, idx[|idx| - 1]) == Some(k)
  {
    var acc := ButtonMask(bitLen, idx[..|idx| - 1]).value;
    var s := Shift(bitLen, idx[|idx| - 1]).value;
    assert ButtonMask(bitLen, idx).value == acc | (1 << s);
    OrBit(acc, s, k);
  }

  /** A button toggles light bit `k` iff one of its indices `b` has `bit_len - 1 - b == k`. */
  lemma {:induction false} ButtonBits(bitLen: bv16, idx: seq<bv16>, k: bv16)
    requires ButtonMask(bitLen, idx).Some? && k < 16
    ensures Bit(ButtonMask(bitLen, idx).value, k) <==>
      exists i :: 0 <= i < |idx| && Shift(bitLen, idx[i]) == Some(k)
  {
    if idx != [] {
      var init := idx[..|idx| - 1];
      ButtonMaskSnoc(bitLen, idx, k);
      ButtonBits(bitLen, init, k);
      if exists i :: 0 <= i < |idx| && Shift(bitLen, idx[i]) == Some(k) {
        var i :| 0 <= i < |idx| && Shift(bitLen, idx[i]) == Some(k);
        if i < |init| {
          assert init[i] == idx[i];
        }
      }
      if exists i :: 0 <= i < |init| && Shift(bitLen, init[i]) == Some(k) {
        var i :| 0 <= i < |init| && Shift(bitLen, init[i]) == Some(k);
        assert init[i] == idx[i];
      }
    }
  }

  /** `str::parse::<u16>`: an unsigned number below 2^16. */
  function ParseU16(s: string): (r: Option<bv16>)
    ensures r.Some? <==> Text.ParseNat(s).Some? && Text.ParseNat(s).value < 0x1_0000
  {
    match Text.ParseNat(s)
    case Some(n) => if n < 0x1_0000 then Some(n as bv16) else None
    case None => None
  }

  /** A piece without its first and last character (the brackets). */
  function Inner(p: string): string
    requires |p| >= 2
  {
    p[1..|p| - 1]
  }

  /** The comma-separated numbers between a piece's brackets. */
  function Numbers(p: string): Option<seq<bv16>> {
    if |p| < 2 then None else Text.ParseAll(Text.Split(Inner(p), ','), ParseU16)
  }

  /**
   * One `(a,b,..)` piece as a button mask: `None` when the piece is not a
   * list of numbers or a number has no bit; otherwise bit `k` is set
   * exactly when one of the numbers `b` has `bit_len - 1 - b == k`.
   */
  function ParseButton(bitLen: bv16, p: string): (r: Option<bv16>)
    ensures r.Some? <==> Numbers(p).Some? && forall i :: 0 <= i < |Numbers(p).value| ==> Shift(bitLen, Numbers(p).value[i]).Some?
    ensures r.Some? ==> forall k: bv16 :: k < 16 ==>
      (Bit(r.value, k) <==> exists i :: 0 <= i < |Numbers(p).value| && Shift(bitLen, Numbers(p).value[i]) == Some(k))
  {
    match Numbers(p)
    case Some(idx) =>
      var r := ButtonMask(bitLen, idx);
      assert r.Some? ==> forall k: bv16 :: k < 16 ==>
        (Bit(r.value, k) <==> exists i :: 0 <= i < |idx| && Shift(bitLen, idx[i]) == Some(k)) by {
        if r.Some? {
          forall k: bv16 | k < 16
            ensures Bit(r.value, k) <==> exists i :: 0 <= i < |idx| && Shift(bitLen, idx[i]) == Some(k)
          {
            ButtonBits(bitLen, idx, k);
          }
        }
      }
      r
    case None => None
  }

  /** The pieces between the first and the last: `take(len - 1).skip(1)`. */
  function ButtonPieces(parts: seq<string>): (r: seq<string>)
    ensures |r| == if |parts| >= 2 then |parts| - 2 else 0
  {
    if |parts| >= 2 then parts[1..|parts| - 1] else []
  }

  /** `len as u16 - 2`: the length wraps to 16 bits and the subtraction must not underflow. */
  function BitLen(len: nat): (r: Option<bv16>)
    ensures r.Some? <==> len % 0x1_0000 >= 2
  {
    if len % 0x1_0000 < 2 then None else Some((len % 0x1_0000 - 2) as bv16)
  }

  /** Light bit `k` of `controls` is on iff the `k`-th character before the closing bracket of `piece` is `#`. */
  ghost predicate Lights(controls: bv16, piece: string) {
    forall k: bv16 :: k < 16 ==>
      (Bit(controls, k) <==> (k as int) < |piece| - 2 && piece[|piece| - 2 - k as int] == '#')
  }

  lemma ControlsLights(piece: string)
    requires |piece| >= 2
    ensures Lights(Controls(Inner(piece)), piece)
  {
    forall k: bv16 | k < 16
      ensures Bit(Controls(Inner(piece)), k) <==> (k as int) < |piece| - 2 && piece[|piece| - 2 - k as int] == '#'
    {
      ControlsBits(Inner(piece), k);
    }
  }

  /**
   * `Machine::from_str` on a line `[.##.] (3) (1,3) .. {3,5,4,7}`: the lights
   * between the first piece's brackets, the first character most
   * significant, and one mask per button piece, computed with `BitLen`.
   * The last piece must be a list of `u16` numbers as well; its values are
   * not kept. Every way in which the source panics gives `None`: no piece,
   * a first piece too short for its brackets or for `bit_len`, a last piece
   * that is not a list of numbers, or a button that does not parse.
   */
  function ParseMachine(line: string): (r: Option<Machine>)
    ensures r.Some? ==> var parts := Text.SplitWhitespace(line);
      && |parts| >= 1 && |parts[0]| >= 2 && BitLen(|parts[0]|).Some?
      && Numbers(parts[|parts| - 1]).Some?
      && |r.value.buttons| == |ButtonPieces(parts)|
      && (forall i :: 0 <= i < |r.value.buttons| ==>
            ParseButton(BitLen(|parts[0]|).value, ButtonPieces(parts)[i]) == Some(r.value.buttons[i]))
      && Lights(r.value.controls, parts[0])
    ensures r.None? ==> var parts := Text.SplitWhitespace(line);
      || parts == [] || |parts[0]| < 2 || BitLen(|parts[0]|).None?
      || Numbers(parts[|parts| - 1]).None?
      || exists i :: 0 <= i < |ButtonPieces(parts)| && ParseButton(BitLen(|parts[0]|).value, ButtonPieces(parts)[i]).None?
  {
    var parts := Text.SplitWhitespace(line);
    if parts == [] || |parts[0]| < 2 then None
    else
      match BitLen(|parts[0]|)
      case None => None
      case Some(bitLen) =>
        if Numbers(parts[|parts| - 1]).None? then None
        else
          match Text.ParseAll(ButtonPieces(parts), p => ParseButton(bitLen, p))
          case None => None
          case Some(buttons) =>
            ControlsLights(parts[0]);
            Some(Machine(Controls(Inner(parts[0])), buttons))
  }

  /** `read_and_parse` on the text of the input: one machine per line, `None` when a line does not parse. */
  function ReadAndParse(input: string): (r: Option<seq<Machine>>)
    ensures r.Some? ==> |r.value| == |Text.Lines(input)|
    ensures r.Some? ==> forall i :: 0 <= i < |Text.Lines(input)| ==> ParseMachine(Text.Lines(input)[i]) == Some(r.value[i])
    ensures r.None? ==> exists i :: 0 <= i < |Text.Lines(input)| && ParseMachine(Text.Lines(input)[i]).None?
  {
    Text.ParseAll(Text.Lines(input), ParseMachine)
  }

  // ---------------------------------------------------------------------
  // Reference: states reachable by pressing buttons
  // ---------------------------------------------------------------------

  /** Pressing a button toggles the lights of its mask. */
  function Press(state: bv16, button: bv16): bv16 {
    state ^ button
  }

  lemma PressTwice(state: bv16, button: bv16)
    ensures Press(Press(state, button), button) == state
  {
  }

  predicate ValidPresses(buttons: seq<bv16>, presses: seq<nat>) {
    forall k :: 0 <= k < |presses| ==> presses[k] < |buttons|
  }

  /** The state after pressing the listed buttons in order, from all lights off. */
  function PressAll(buttons: seq<bv16>, presses: seq<nat>): bv16
    requires ValidPresses(buttons, presses)
  {
    if presses == [] then 0
    else Press(PressAll(buttons, presses[..|presses| - 1]), buttons[presses[|presses| - 1]])
  }

  /** Some `n` presses lead from all lights off to `state`. */
  ghost predicate ReachIn(buttons: seq<bv16>, state: bv16, n: nat) {
    exists presses: seq<nat> :: |presses| == n && ValidPresses(buttons, presses) && PressAll(buttons, presses) == state
  }

  /** `n` presses reach `state` and fewer do not. */
  ghost predicate Minimal(buttons: seq<bv16>, state: bv16, n: nat) {
    ReachIn(buttons, state, n) && forall m: nat :: m < n ==> !ReachIn(buttons, state, m)
  }

  /** No number of presses reaches `state`. */
  ghost predicate Unreachable(buttons: seq<bv16>, state: bv16) {
    forall n: nat :: !ReachIn(buttons, state, n)
  }

  lemma ReachZero(buttons: seq<bv16>, state: bv16)
    ensures ReachIn(buttons, state, 0) <==> state == 0
  {
    if state == 0 {
      assert PressAll(buttons, []) == 0;
    }
  }

  /** One more press of any button. */
  lemma ReachStep(buttons: seq<bv16>, state: bv16, n: nat, i: nat)
    requires ReachIn(buttons, state, n) && i < |buttons|
    ensures ReachIn(buttons, Press(state, buttons[i]), n + 1)
  {
    var p :| |p| == n && ValidPresses(buttons, p) && PressAll(buttons, p) == state;
    var q := p + [i];
    assert q[..|q| - 1] == p;
    assert PressAll(buttons, q) == Press(state, buttons[i]);
  }

  /** The last of `n + 1` presses undoes to a state reached in `n`. */
  lemma ReachBack(buttons: seq<bv16>, state: bv16, n: nat)
    requires ReachIn(buttons, state, n + 1)
    ensures exists i :: 0 <= i < |buttons| && ReachIn(buttons, Press(state, buttons[i]), n)
  {
    var p :| |p| == n + 1 && ValidPresses(buttons, p) && PressAll(buttons, p) == state;
    var q, i := p[..n], p[n];
    PressTwice(PressAll(buttons, q), buttons[i]);
    assert PressAll(buttons, q) == Press(state, buttons[i]);
    assert ReachIn(buttons, Press(state, buttons[i]), n);
  }

  /** The fewest presses are unique. */
  lemma MinimalUnique(buttons: seq<bv16>, state: bv16, a: nat, b: nat)
    requires Minimal(buttons, state, a) && Minimal(buttons, state, b)
    ensures a == b
  {
  }

  // ---------------------------------------------------------------------
  // The search
  // ---------------------------------------------------------------------

  /** The index of a state in the `visited` array. */
  function Slot(s: bv16): (r: nat)
    ensures r < 0x1_0000
  {
    s as int
  }

  /** Different states have different slots. */
  lemma SlotInjective(s: bv16, t: bv16)
    requires Slot(s) == Slot(t)
    ensures s == t
  {
    assert (s as int) as bv16 == s && (t as int) as bv16 == t;
  }

  /** The number of unvisited states. */
  function Unvisited(v: seq<bool>): nat {
    if v == [] then 0 else Unvisited(v[..|v| - 1]) + (if v[|v| - 1] then 0 else 1)
  }

  lemma {:induction false} UnvisitedNone(v: seq<bool>)
    requires forall i :: 0 <= i < |v| ==> !v[i]
    ensures Unvisited(v) == |v|
  {
    if v != [] {
      UnvisitedNone(v[..|v| - 1]);
    }
  }

  lemma {:induction false} UnvisitedMark(v: seq<bool>, i: nat)
    requires i < |v| && !v[i]
    ensures Unvisited(v[i := true]) + 1 == Unvisited(v)
  {
    var w := v[i := true];
    if i == |v| - 1 {
      assert w[..|w| - 1] == v[..|v| - 1];
    } else {
      assert w[..|w| - 1] == v[..|v| - 1][i := true];
      UnvisitedMark(v[..|v| - 1], i);
    }
  }

  /*
   * The proof follows the search with two ghost companions: `order`, every
   * pair ever pushed in push order (the queue is its suffix from `head`),
   * and `index`, the position in `order` of each pushed state. The loop
   * invariants are bundled into the predicates `Expanding` and `Searching`,
   * stated as `== true` so that each is checked as one fact rather than
   * conjunct by conjunct.
   */

  /** `index` locates each pushed state, and `visited` marks exactly those. */
  ghost predicate Indexed(visited: seq<bool>, order: seq<(bv16, nat)>, index: map<nat, nat>) {
    && |visited| == 0x1_0000
    && Marks(visited, index)
    && Located(order, index)
    && Positions(order, index)
  }

  /** A slot is marked in `visited` exactly when it is a key of `index`. */
  ghost predicate Marks(visited: seq<bool>, index: map<nat, nat>) {
    forall j :: 0 <= j < |visited| ==> (visited[j] <==> j in index)
  }

  /** `index` gives each pushed state's own position. */
  ghost predicate Positions(order: seq<(bv16, nat)>, index: map<nat, nat>) {
    forall k :: 0 <= k < |order| ==> Slot(order[k].0) in index && index[Slot(order[k].0)] == k
  }

  /** Each key of `index` is the slot of the state pushed at its position. */
  ghost predicate Located(order: seq<(bv16, nat)>, index: map<nat, nat>) {
    forall j :: j in index ==> 0 <= index[j] < |order| && Slot(order[index[j]].0) == j
  }

  /** Each pushed pair is a state and a number of presses that reaches it. */
  ghost predicate Sound(buttons: seq<bv16>, order: seq<(bv16, nat)>) {
    forall k :: 0 <= k < |order| ==> ReachIn(buttons, order[k].0, order[k].1)
  }

  predicate Nondecreasing(order: seq<(bv16, nat)>) {
    forall i, j :: 0 <= i <= j < |order| ==> order[i].1 <= order[j].1
  }

  /** No pair was pushed with more than `d + 1` presses. */
  predicate Within(order: seq<(bv16, nat)>, d: nat) {
    forall k :: 0 <= k < |order| ==> order[k].1 <= d + 1
  }

  /** Every button press from each of the first `upto` pushed states leads to a pushed state. */
  ghost predicate Closed(buttons: seq<bv16>, order: seq<(bv16, nat)>, index: map<nat, nat>, upto: nat) {
    forall k, i {:trigger Press(order[k].0, buttons[i])} ::
      0 <= k < upto && k < |order| && 0 <= i < |buttons| ==> Slot(Press(order[k].0, buttons[i])) in index
  }

  /** Every state reached in `n <= d` presses was pushed with at most `n` presses. */
  ghost predicate Complete(buttons: seq<bv16>, order: seq<(bv16, nat)>, index: map<nat, nat>, d: nat) {
    forall s: bv16, n: nat :: n <= d && ReachIn(buttons, s, n) ==>
      Slot(s) in index && 0 <= index[Slot(s)] < |order| && order[index[Slot(s)]].1 <= n
  }

  /** None of the first `upto` popped states is the target. */
  predicate NotFound(order: seq<(bv16, nat)>, upto: nat, target: bv16) {
    forall k :: 0 <= k < upto && k < |order| ==> order[k].0 != target
  }

  /** The facts about `visited` and the pushed pairs that each push keeps. */
  ghost predicate Core(buttons: seq<bv16>, visited: seq<bool>, order: seq<(bv16, nat)>, index: map<nat, nat>) {
    && |order| >= 1 && order[0] == (0, 0)
    && Indexed(visited, order, index)
    && Unvisited(visited) + |order| == 0x1_0000
    && Sound(buttons, order)
    && Nondecreasing(order)
  }

  /** `order'` continues `order`, and `index'` keeps what `index` says. */
  ghost predicate Extends(order': seq<(bv16, nat)>, index': map<nat, nat>, order: seq<(bv16, nat)>, index: map<nat, nat>) {
    && |order| <= |order'| && (forall k :: 0 <= k < |order| ==> order'[k] == order[k])
    && (forall j :: j in index ==> j in index' && index'[j] == index[j])
  }

  lemma Initial(buttons: seq<bv16>, visited: seq<bool>)
    requires |visited| == 0x1_0000 && visited[0]
    requires forall i :: 0 < i < |visited| ==> !visited[i]
    ensures Core(buttons, visited, [(0, 0)], map[0 := 0])
    ensures Complete(buttons, [(0, 0)], map[0 := 0], 0)
  {
    var none := visited[0 := false];
    UnvisitedNone(none);
    UnvisitedMark(none, 0);
    assert none[0 := true] == visited;
    assert Slot(0) == 0;
    ReachZero(buttons, 0);
    forall s: bv16, n: nat | n <= 0 && ReachIn(buttons, s, n) ensures s == 0 {
      ReachZero(buttons, s);
    }
  }

  /** Marking a new state visited and pushing it one press after the popped one. */
  lemma Push(buttons: seq<bv16>, visited: seq<bool>, order: seq<(bv16, nat)>, index: map<nat, nat>,
             d: nat, entry: (bv16, nat))
    requires Core(buttons, visited, order, index) && Within(order, d)
    requires entry.1 == d + 1 && ReachIn(buttons, entry.0, entry.1) && !visited[Slot(entry.0)]
    ensures Core(buttons, visited[Slot(entry.0) := true], order + [entry], index[Slot(entry.0) := |order|])
    ensures Within(order + [entry], d) && Extends(order + [entry], index[Slot(entry.0) := |order|], order, index)
  {
    PushMarks(visited, index, Slot(entry.0), |order|);
    PushLocated(order, index, entry);
    PushPositions(order, index, entry);
    UnvisitedMark(visited, Slot(entry.0));
    PushSound(buttons, order, entry);
    PushOrdered(order, d, entry);
  }

  lemma PushMarks(visited: seq<bool>, index: map<nat, nat>, j: nat, k: nat)
    requires |visited| == 0x1_0000 && j < 0x1_0000 && Marks(visited, index)
    ensures Marks(visited[j := true], index[j := k])
  {
  }

  lemma PushLocated(order: seq<(bv16, nat)>, index: map<nat, nat>, entry: (bv16, nat))
    requires Located(order, index)
    ensures Located(order + [entry], index[Slot(entry.0) := |order|])
  {
    var o', x' := order + [entry], index[Slot(entry.0) := |order|];
    forall j | j in x' ensures 0 <= x'[j] < |o'| && Slot(o'[x'[j]].0) == j {
      if j != Slot(entry.0) {
        assert o'[x'[j]] == order[index[j]];
      }
    }
  }

  lemma PushPositions(order: seq<(bv16, nat)>, index: map<nat, nat>, entry: (bv16, nat))
    requires Positions(order, index) && Slot(entry.0) !in index
    ensures Positions(order + [entry], index[Slot(entry.0) := |order|])
    ensures forall j :: j in index ==> j in index[Slot(entry.0) := |order|] && index[Slot(entry.0) := |order|][j] == index[j]
  {
    var o', x' := order + [entry], index[Slot(entry.0) := |order|];
    forall k | 0 <= k < |o'| ensures Slot(o'[k].0) in x' && x'[Slot(o'[k].0)] == k {
      if k < |order| {
        assert o'[k] == order[k];
      }
    }
  }

  lemma PushSound(buttons: seq<bv16>, order: seq<(bv16, nat)>, entry: (bv16, nat))
    requires Sound(buttons, order) && ReachIn(buttons, entry.0, entry.1)
    ensures Sound(buttons, order + [entry])
  {
    var o' := order + [entry];
    forall k | 0 <= k < |o'| ensures ReachIn(buttons, o'[k].0, o'[k].1) {
      if k < |order| {
        assert o'[k] == order[k];
      }
    }
  }

  lemma PushOrdered(order: seq<(bv16, nat)>, d: nat, entry: (bv16, nat))
    requires Nondecreasing(order) && Within(order, d) && entry.1 == d + 1
    ensures Nondecreasing(order + [entry]) && Within(order + [entry], d)
    ensures forall k :: 0 <= k < |order| ==> (order + [entry])[k] == order[k]
  {
  }

  /** After the pops up to `head`, the queue's front level keeps the levels complete. */
  lemma Advance(buttons: seq<bv16>, order: seq<(bv16, nat)>, index: map<nat, nat>, head: nat, d: nat)
    requires 0 < head < |order| && order[head - 1].1 == d
    requires Nondecreasing(order) && Closed(buttons, order, index, head)
    requires Located(order, index)
    requires Within(order, d) && Complete(buttons, order, index, d)
    ensures Within(order, order[head].1) && Complete(buttons, order, index, order[head].1)
  {
    var d' := order[head].1;
    if d' == d + 1 {
      forall s: bv16, n: nat | n <= d' && ReachIn(buttons, s, n)
        ensures Slot(s) in index && 0 <= index[Slot(s)] < |order| && order[index[Slot(s)]].1 <= n
      {
        if n == d + 1 {
          NextLevel(buttons, order, index, head, d, s);
        }
      }
    }
  }

  /** A state reached in `d + 1` presses is one press from a state of level `d`, which was expanded. */
  lemma NextLevel(buttons: seq<bv16>, order: seq<(bv16, nat)>, index: map<nat, nat>, head: nat, d: nat, s: bv16)
    requires 0 < head < |order| && order[head - 1].1 == d && order[head].1 == d + 1
    requires Nondecreasing(order) && Closed(buttons, order, index, head)
    requires Located(order, index)
    requires Complete(buttons, order, index, d) && ReachIn(buttons, s, d + 1)
    ensures Slot(s) in index
  {
    ReachBack(buttons, s, d);
    var i :| 0 <= i < |buttons| && ReachIn(buttons, Press(s, buttons[i]), d);
    var k := index[Slot(Press(s, buttons[i]))];
    SlotInjective(order[k].0, Press(s, buttons[i]));
    assert order[k].1 < order[head].1;
    assert Slot(Press(order[k].0, buttons[i])) in index;
    PressTwice(s, buttons[i]);
  }

  /** Popping the non-target pair at `head` and expanding it moves every loop fact on to `head + 1`. */
  lemma Popped(buttons: seq<bv16>, order0: seq<(bv16, nat)>, index0: map<nat, nat>,
               order: seq<(bv16, nat)>, index: map<nat, nat>, head: nat, target: bv16)
    requires head < |order0| && Extends(order, index, order0, index0)
    requires Located(order, index) && Nondecreasing(order)
    requires Closed(buttons, order0, index0, head) && NotFound(order0, head, target) && order0[head].0 != target
    requires Expanded(buttons, order0[head].0, index, |buttons|)
    requires Within(order, order0[head].1) && Complete(buttons, order0, index0, order0[head].1)
    ensures Closed(buttons, order, index, head + 1) && NotFound(order, head + 1, target)
    ensures head + 1 < |order| ==> Within(order, order[head + 1].1) && Complete(buttons, order, index, order[head + 1].1)
  {
    forall k, i | 0 <= k < head + 1 && k < |order| && 0 <= i < |buttons|
      ensures Slot(Press(order[k].0, buttons[i])) in index
    {
      assert order[k] == order0[k];
    }
    var d := order0[head].1;
    if head + 1 < |order| {
      forall s: bv16, n: nat | n <= d && ReachIn(buttons, s, n)
        ensures Slot(s) in index && 0 <= index[Slot(s)] < |order| && order[index[Slot(s)]].1 <= n
      {
        assert order[index0[Slot(s)]] == order0[index0[Slot(s)]];
      }
      Advance(buttons, order, index, head + 1, d);
    }
  }

  /** The target popped at `head` is reached with its presses and with no fewer. */
  lemma FoundMinimal(buttons: seq<bv16>, order: seq<(bv16, nat)>, index: map<nat, nat>, head: nat, target: bv16)
    requires head < |order| && order[head].0 == target
    requires Sound(buttons, order) && Nondecreasing(order)
    requires Located(order, index)
    requires Complete(buttons, order, index, order[head].1) && NotFound(order, head, target)
    ensures Minimal(buttons, target, order[head].1)
  {
    forall m: nat | ReachIn(buttons, target, m) && m <= order[head].1 ensures order[head].1 <= m {
      var k := index[Slot(target)];
      SlotInjective(order[k].0, target);
      if k >= head {
        assert order[head].1 <= order[k].1;
      }
    }
  }

  /** Once every pushed state is expanded, every reachable state was pushed. */
  lemma {:induction false} AllListed(buttons: seq<bv16>, order: seq<(bv16, nat)>, index: map<nat, nat>, s: bv16, n: nat)
    requires |order| >= 1 && order[0].0 == 0 && Slot(order[0].0) in index
    requires Located(order, index)
    requires Closed(buttons, order, index, |order|)
    requires ReachIn(buttons, s, n)
    ensures Slot(s) in index
    decreases n
  {
    if n == 0 {
      ReachZero(buttons, s);
    } else {
      ReachBack(buttons, s, n - 1);
      var i :| 0 <= i < |buttons| && ReachIn(buttons, Press(s, buttons[i]), n - 1);
      AllListed(buttons, order, index, Press(s, buttons[i]), n - 1);
      var k := index[Slot(Press(s, buttons[i]))];
      SlotInjective(order[k].0, Press(s, buttons[i]));
      assert Slot(Press(order[k].0, buttons[i])) in index;
      PressTwice(s, buttons[i]);
    }
  }

  /** With every pushed state expanded and none of them the target, no presses reach it. */
  lemma Exhausted(buttons: seq<bv16>, order: seq<(bv16, nat)>, index: map<nat, nat>, target: bv16)
    requires |order| >= 1 && order[0].0 == 0 && Slot(order[0].0) in index
    requires Located(order, index)
    requires Closed(buttons, order, index, |order|) && NotFound(order, |order|, target)
    ensures Unreachable(buttons, target)
  {
    forall n: nat ensures !ReachIn(buttons, target, n) {
      if ReachIn(buttons, target, n) {
        AllListed(buttons, order, index, target, n);
        SlotInjective(order[index[Slot(target)]].0, target);
      }
    }
  }

  /** Every state one press of the first `upto` buttons away from `state` has a slot in `index`. */
  ghost predicate Expanded(buttons: seq<bv16>, state: bv16, index: map<nat, nat>, upto: nat) {
    forall b :: 0 <= b < upto && b < |buttons| ==> Slot(Press(state, buttons[b])) in index
  }

  lemma ExpandedStep(buttons: seq<bv16>, state: bv16, index: map<nat, nat>, index': map<nat, nat>, i: nat)
    requires Expanded(buttons, state, index, i) && index.Keys <= index'.Keys
    requires i < |buttons| && Slot(Press(state, buttons[i])) in index'
    ensures Expanded(buttons, state, index', i + 1)
  {
  }

  /** What the loop in `Expand` keeps after visiting the first `i` buttons from the popped pair at `head`. */
  ghost predicate Expanding(buttons: seq<bv16>, marks: seq<bool>, order: seq<(bv16, nat)>, index: map<nat, nat>,
                            order': seq<(bv16, nat)>, index': map<nat, nat>, queue': seq<(bv16, nat)>,
                            head: nat, state: bv16, pushes: nat, i: nat)
  {
    && head < |order| && order[head] == (state, pushes) && ReachIn(buttons, state, pushes)
    && Core(buttons, marks, order', index') && Within(order', pushes)
    && Extends(order', index', order, index) && queue' == order'[head + 1..]
    && Expanded(buttons, state, index', i)
  }

  /** Visiting button `i` when it leads to a new state: the state is marked and pushed as `entry`. */
  lemma PushNext(buttons: seq<bv16>, marks: seq<bool>, order: seq<(bv16, nat)>, index: map<nat, nat>,
                 order': seq<(bv16, nat)>, index': map<nat, nat>, queue': seq<(bv16, nat)>,
                 head: nat, state: bv16, pushes: nat, i: nat, entry: (bv16, nat))
    requires Expanding(buttons, marks, order, index, order', index', queue', head, state, pushes, i) == true
    requires i < |buttons| && entry == (Press(state, buttons[i]), pushes + 1) && !marks[Slot(entry.0)]
    ensures Expanding(buttons, marks[Slot(entry.0) := true], order, index,
                      order' + [entry], index'[Slot(entry.0) := |order'|], queue' + [entry], head, state, pushes, i + 1)
  {
    var x' := index'[Slot(entry.0) := |order'|];
    ReachStep(buttons, state, pushes, i);
    Push(buttons, marks, order', index', pushes, entry);
    ExtendsTrans(order' + [entry], x', order', index', order, index);
    SuffixSnoc(order', queue', head + 1, entry);
    ExpandedStep(buttons, state, index', x', i);
  }

  /** Visiting button `i` when it leads to a state already visited changes nothing. */
  lemma SkipNext(buttons: seq<bv16>, marks: seq<bool>, order: seq<(bv16, nat)>, index: map<nat, nat>,
                 order': seq<(bv16, nat)>, index': map<nat, nat>, queue': seq<(bv16, nat)>,
                 head: nat, state: bv16, pushes: nat, i: nat)
    requires Expanding(buttons, marks, order, index, order', index', queue', head, state, pushes, i) == true
    requires i < |buttons| && marks[Slot(Press(state, buttons[i]))]
    ensures Expanding(buttons, marks, order, index, order', index', queue', head, state, pushes, i + 1)
  {
    ExpandedStep(buttons, state, index', index', i);
  }

  lemma ExtendsTrans(o2: seq<(bv16, nat)>, x2: map<nat, nat>, o1: seq<(bv16, nat)>, x1: map<nat, nat>,
                     o0: seq<(bv16, nat)>, x0: map<nat, nat>)
    requires Extends(o2, x2, o1, x1) && Extends(o1, x1, o0, x0)
    ensures Extends(o2, x2, o0, x0)
  {
  }

  lemma SuffixSnoc<T>(s: seq<T>, suffix: seq<T>, from: nat, x: T)
    requires from <= |s| && suffix == s[from..]
    ensures suffix + [x] == (s + [x])[from..]
  {
  }

  /**
   * The body of the inner `for &button in &self.buttons` loop: the state
   * one press of button `i` away from `state` is marked and pushed with
   * `pushes + 1` unless it was visited already.
   */
  method Visit(buttons: seq<bv16>, visited: seq<bool>, state: bv16, pushes: nat, i: nat,
               queue: seq<(bv16, nat)>, ghost order: seq<(bv16, nat)>, ghost index: map<nat, nat>,
               ghost order': seq<(bv16, nat)>, ghost index': map<nat, nat>, ghost head: nat)
    returns (visited': seq<bool>, queue': seq<(bv16, nat)>, ghost order'': seq<(bv16, nat)>, ghost index'': map<nat, nat>)
    requires i < |buttons| && Expanding(buttons, visited, order, index, order', index', queue, head, state, pushes, i) == true
    ensures Expanding(buttons, visited', order, index, order'', index'', queue', head, state, pushes, i + 1) == true
  {
    var next := Press(state, buttons[i]);
    if !visited[Slot(next)] {
      var entry: (bv16, nat) := (next, pushes + 1);
      PushNext(buttons, visited, order, index, order', index', queue, head, state, pushes, i, entry);
      visited', queue' := visited[Slot(next) := true], queue + [entry];
      order'', index'' := order' + [entry], index'[Slot(next) := |order'|];
    } else {
      SkipNext(buttons, visited, order, index, order', index', queue, head, state, pushes, i);
      visited', queue', order'', index'' := visited, queue, order', index';
    }
  }

  /**
   * The inner `for &button in &self.buttons` loop for the popped pair
   * `(state, pushes)`: every state one press away that was not visited yet
   * is marked and pushed with `pushes + 1`.
   */
  method Expand(buttons: seq<bv16>, visited: seq<bool>, state: bv16, pushes: nat,
                queue: seq<(bv16, nat)>, ghost order: seq<(bv16, nat)>, ghost index: map<nat, nat>, ghost head: nat)
    returns (visited': seq<bool>, queue': seq<(bv16, nat)>, ghost order': seq<(bv16, nat)>, ghost index': map<nat, nat>)
    requires Core(buttons, visited, order, index) && Within(order, pushes)
    requires head < |order| && order[head] == (state, pushes) && queue == order[head + 1..]
    ensures Core(buttons, visited', order', index') && Within(order', pushes)
    ensures Extends(order', index', order, index)
    ensures queue' == order'[head + 1..]
    ensures Expanded(buttons, state, index', |buttons|)
  {
    visited', queue', order', index' := visited, queue, order, index;
    for i: nat := 0 to |buttons|
      invariant Expanding(buttons, visited', order, index, order', index', queue', head, state, pushes, i) == true
    {
      visited', queue', order', index' := Visit(buttons, visited', state, pushes, i, queue', order, index, order', index', head);
    }
  }

  /**
   * What the search loop keeps: `queue` is what is left of `order` after
   * the `head` pairs popped so far, none of which was the target and each
   * of which was expanded, and the levels up to the front of the queue are
   * complete.
   */
  ghost predicate Searching(buttons: seq<bv16>, target: bv16, visited: seq<bool>, queue: seq<(bv16, nat)>,
                            order: seq<(bv16, nat)>, index: map<nat, nat>, head: nat)
  {
    && Core(buttons, visited, order, index) && head <= |order| && queue == order[head..]
    && Closed(buttons, order, index, head) && NotFound(order, head, target)
    && (head < |order| ==> Within(order, order[head].1) && Complete(buttons, order, index, order[head].1))
  }

  lemma SearchStart(buttons: seq<bv16>, target: bv16, visited: seq<bool>)
    requires |visited| == 0x1_0000 && visited[0]
    requires forall i :: 0 < i < |visited| ==> !visited[i]
    ensures Searching(buttons, target, visited, [(0, 0)], [(0, 0)], map[0 := 0], 0) == true
  {
    Initial(buttons, visited);
  }

  /** Popping the front pair, which is not the target, and expanding it keeps the search invariant. */
  lemma SearchStep(buttons: seq<bv16>, target: bv16, visited: seq<bool>, queue: seq<(bv16, nat)>,
                   order: seq<(bv16, nat)>, index: map<nat, nat>, head: nat,
                   visited': seq<bool>, queue': seq<(bv16, nat)>, order': seq<(bv16, nat)>, index': map<nat, nat>)
    requires Searching(buttons, target, visited, queue, order, index, head) == true
    requires queue != [] && queue[0].0 != target
    requires Core(buttons, visited', order', index') && Within(order', queue[0].1)
    requires Extends(order', index', order, index) && queue' == order'[head + 1..]
    requires Expanded(buttons, queue[0].0, index', |buttons|)
    ensures Searching(buttons, target, visited', queue', order', index', head + 1) == true
  {
    Popped(buttons, order, index, order', index', head, target);
  }

  /**
   * `count_buttons_pressed`: a breadth-first search from all lights off,
   * each state marked in `visited` and pushed at most once, so that the
   * queue never holds more than 2^16 entries. The count returned is the
   * fewest presses that reach the target; `None` where the source reaches
   * `unreachable!()`, which happens exactly when no presses reach it.
   */
  method CountButtonsPressed(m: Machine) returns (r: Option<nat>)
    ensures r.Some? ==> Minimal(m.buttons, m.controls, r.value)
    ensures r.None? ==> Unreachable(m.buttons, m.controls)
  {
    var visited := seq(0x1_0000, _ => false)[0 := true];
    var queue: seq<(bv16, nat)> := [(0, 0)];
    ghost var order := queue;
    ghost var index: map<nat, nat> := map[0 := 0];
    ghost var head := 0;
    SearchStart(m.buttons, m.controls, visited);
    while queue != []
      invariant Searching(m.buttons, m.controls, visited, queue, order, index, head) == true
      decreases 0x1_0000 - head
    {
      var (state, pushes) := queue[0];
      if state == m.controls {
        FoundMinimal(m.buttons, order, index, head, m.controls);
        return Some(pushes);
      }
      ghost var visited0, queue0, order0, index0 := visited, queue, order, index;
      visited, queue, order, index := Expand(m.buttons, visited, state, pushes, queue[1..], order, index, head);
      SearchStep(m.buttons, m.controls, visited0, queue0, order0, index0, head, visited, queue, order, index);
      head := head + 1;
    }
    Exhausted(m.buttons, order, index, m.controls);
    return None;
  }

  /** Every machine's target is reached by `counts` presses and by no fewer. */
  ghost predicate MinimalCounts(machines: seq<Machine>, counts: seq<nat>) {
    |counts| == |machines| && forall i :: 0 <= i < |machines| ==> Minimal(machines[i].buttons, machines[i].controls, counts[i])
  }

  /**
   * `part1`: the sum over the machines of the fewest presses; `None` when
   * some machine's target cannot be reached.
   */
  method Part1(machines: seq<Machine>) returns (r: Option<nat>, ghost counts: seq<nat>)
    ensures r.Some? ==> MinimalCounts(machines, counts) && r.value == Seqs.Sum(counts)
    ensures r.None? ==> exists i :: 0 <= i < |machines| && Unreachable(machines[i].buttons, machines[i].controls)
  {
    var total := 0;
    counts := [];
    for i := 0 to |machines|
      invariant MinimalCounts(machines[..i], counts) && total == Seqs.Sum(counts)
    {
      var c := CountButtonsPressed(machines[i]);
      if c.None? {
        return None, counts;
      }
      Seqs.SumAppend(counts, [c.value]);
      assert Seqs.Sum([c.value]) == c.value;
      total := total + c.value;
      counts := counts + [c.value];
    }
    assert machines[..|machines|] == machines;
    return Some(total), counts;
  }
}

=== FILE: day11.dfy ===
/**
 * Day 11: each line names a device and the devices its outputs lead to.
 * Part 1 counts the paths from `you` to `out`; part 2 counts the paths from
 * `srv` to `out` through both `dac` and `fft` as a product of three segment
 * counts. A count is a depth-first search memoised in a cache that the
 * search reads and extends.
 */
module Day11 {
  import opened Wrappers
  import Text

  /** The `HashMap<String, Vec<String>>` from a device to its outputs. */
  type Graph = map<string, seq<string>>

  // ---------------------------------------------------------------------
  // Parsing
  // ---------------------------------------------------------------------

  /** One line `name: a b c`; `None` where `split_once(": ")` finds nothing and the source panics. */
  function ParseLine(line: string): (r: Option<(string, seq<string>)>)
    ensures r.None? ==> forall k :: 0 <= k <= |line| ==> !Text.IsAt(line, ": ", k)
    ensures r.Some? ==> Text.IsAt(line, ": ", |r.value.0|) && forall k :: 0 <= k < |r.value.0| ==> !Text.IsAt(line, ": ", k)
    ensures r.Some? ==> r.value.1 == Text.SplitWhitespace(line[|r.value.0| + 2..])
  {
    match Text.SplitOnce(line, ": ")
    case None => None
    case Some((start, rest)) =>
      assert line == start + ": " + rest;
      assert line[|start|..|start| + 2] == ": " && line[|start| + 2..] == rest;
      Some((start, Text.SplitWhitespace(rest)))
  }

  /** `collect` into a `HashMap`: each device is a key, and a later line for it replaces an earlier one. */
  function Collect(entries: seq<(string, seq<string>)>): (g: Graph)
    ensures g.Keys == set i | 0 <= i < |entries| :: entries[i].0
    ensures forall i :: 0 <= i < |entries| && (forall j :: i < j < |entries| ==> entries[j].0 != entries[i].0) ==>
      g[entries[i].0] == entries[i].1
  {
    if entries == [] then map[]
    else
      var init, last := entries[..|entries| - 1], entries[|entries| - 1];
      var g := Collect(init);
      assert forall i :: 0 <= i < |init| ==> init[i] == entries[i];
      g[last.0 := last.1]
  }

  /**
   * `read_and_parse` on the text of the input: `None` when a line has no
   * `: `, and otherwise a map from the names the lines give to their
   * outputs, where a later line for a name replaces an earlier one.
   */
  function ReadAndParse(input: string): (r: Option<Graph>)
    ensures r.Some? ==> forall i :: 0 <= i < |Text.Lines(input)| ==> ParseLine(Text.Lines(input)[i]).Some?
    ensures r.None? ==> exists i :: 0 <= i < |Text.Lines(input)| && ParseLine(Text.Lines(input)[i]).None?
    ensures r.Some? ==>
      r.value.Keys == set i | 0 <= i < |Text.Lines(input)| && ParseLine(Text.Lines(input)[i]).Some? :: ParseLine(Text.Lines(input)[i]).value.0
    ensures r.Some? ==>
      var lines := Text.Lines(input);
      forall i | 0 <= i < |lines| && forall j | i < j < |lines| :: ParseLine(lines[j]).value.0 != ParseLine(lines[i]).value.0 ::
        r.value[ParseLine(lines[i]).value.0] == ParseLine(lines[i]).value.1
  {
    var lines := Text.Lines(input);
    match Text.ParseAll(lines, ParseLine)
    case None =>
      None
    case Some(entries) =>
      ParsedNames(lines, entries);
      Some(Collect(entries))
  }

  /** The names of the parsed lines are the names the lines give. */
  lemma ParsedNames(lines: seq<string>, entries: seq<(string, seq<string>)>)
    requires |entries| == |lines|
    requires forall i :: 0 <= i < |lines| ==> ParseLine(lines[i]) == Some(entries[i])
    ensures forall i :: 0 <= i < |lines| ==> ParseLine(lines[i]).Some?
    ensures (set i | 0 <= i < |entries| :: entries[i].0) ==
      set i | 0 <= i < |lines| && ParseLine(lines[i]).Some? :: ParseLine(lines[i]).value.0
  {
  }


  // ---------------------------------------------------------------------
  // Reference: counting paths without a cache
  // ---------------------------------------------------------------------

  /**
   * The devices of `within` lead only to devices of `within`, with a lower
   * rank, except from `end`, where the search stops. A search from a device
   * of `within` meets only such devices and no cycle, and so stops, as the
   * source's recursion does exactly when no cycle that avoids `end` can be
   * reached from where it starts.
   */
  ghost predicate Ranked(graph: Graph, end: string, rank: string -> nat, within: set<string>) {
    forall u, v :: u in within && u in graph && u != end && v in graph[u] ==> v in within && rank(v) < rank(u)
  }

  /** A cycle that the search from `you` never reaches does not stand in its way. */
  lemma UnreachedCycle()
    ensures Ranked(map["you" := ["out"], "a" := ["b"], "b" := ["a"]], "out",
                   d => if d == "you" then 1 else 0, {"you", "out"})
  {
    var graph := map["you" := ["out"], "a" := ["b"], "b" := ["a"]];
    assert graph["you"] == ["out"];
  }

  /** Every output of every device has a lower rank: the map has no cycle at all. */
  ghost predicate Acyclic(graph: Graph, rank: string -> nat) {
    forall u, v :: u in graph && v in graph[u] ==> rank(v) < rank(u)
  }

  /** Every device the map names, as a key or as an output, together with `extra`. */
  ghost function Devices(graph: Graph, extra: set<string>): (ds: set<string>)
    ensures extra <= ds
    ensures forall u, v :: u in graph && v in graph[u] ==> v in ds
  {
    extra + graph.Keys + set u, i | u in graph && 0 <= i < |graph[u]| :: graph[u][i]
  }

  /** Without cycles, the search towards any end stops from any device. */
  lemma AcyclicRanked(graph: Graph, rank: string -> nat, end: string, extra: set<string>)
    requires Acyclic(graph, rank)
    ensures Ranked(graph, end, rank, Devices(graph, extra))
  {
  }

  /**
   * The number of paths from `current` to `end`, each output listed once
   * per entry: one at `end` itself, none from a device without outputs,
   * otherwise the paths from each listed output together.
   */
  ghost function Count(graph: Graph, rank: string -> nat, within: set<string>, current: string, end: string): nat
    requires Ranked(graph, end, rank, within) && current in within
    decreases rank(current), 1, 0
  {
    if current == end then 1
    else if current !in graph then 0
    else CountAll(graph, rank, within, graph[current], end, rank(current))
  }

  /** The paths from each device of `ns` to `end`, added up. */
  ghost function CountAll(graph: Graph, rank: string -> nat, within: set<string>, ns: seq<string>, end: string, bound: nat): nat
    requires Ranked(graph, end, rank, within) && forall v :: v in ns ==> v in within && rank(v) < bound
    decreases bound, 0, |ns|
  {
    if ns == [] then 0
    else CountAll(graph, rank, within, ns[..|ns| - 1], end, bound) + Count(graph, rank, within, ns[|ns| - 1], end)
  }

  /** A path from `p[0]` to `end` that follows the outputs and meets `end` only at its last step. */
  ghost predicate IsPath(graph: Graph, end: string, p: seq<string>) {
    && |p| >= 1 && p[|p| - 1] == end
    && forall i :: 0 <= i < |p| - 1 ==> p[i] != end && p[i] in graph && p[i + 1] in graph[p[i]]
  }

  /** Each listed device contributes its own paths to the sum. */
  lemma {:induction false} CountAllAtLeast(graph: Graph, rank: string -> nat, within: set<string>, ns: seq<string>,
                                           end: string, bound: nat, i: nat)
    requires Ranked(graph, end, rank, within) && forall v :: v in ns ==> v in within && rank(v) < bound
    requires i < |ns|
    ensures Count(graph, rank, within, ns[i], end) <= CountAll(graph, rank, within, ns, end, bound)
    decreases |ns|
  {
    var init := ns[..|ns| - 1];
    if i < |ns| - 1 {
      assert init[i] == ns[i];
      CountAllAtLeast(graph, rank, within, init, end, bound, i);
    }
  }

  /** A positive sum has a listed device with a path. */
  lemma {:induction false} CountAllWitness(graph: Graph, rank: string -> nat, within: set<string>, ns: seq<string>,
                                           end: string, bound: nat)
    returns (i: nat)
    requires Ranked(graph, end, rank, within) && forall v :: v in ns ==> v in within && rank(v) < bound
    requires CountAll(graph, rank, within, ns, end, bound) > 0
    ensures i < |ns| && Count(graph, rank, within, ns[i], end) > 0
    decreases |ns|
  {
    var init := ns[..|ns| - 1];
    if Count(graph, rank, within, ns[|ns| - 1], end) > 0 {
      i := |ns| - 1;
    } else {
      i := CountAllWitness(graph, rank, within, init, end, bound);
      assert init[i] == ns[i];
    }
  }

  /** Every path is counted: its start has a positive count. */
  lemma {:induction false} PathCounted(graph: Graph, rank: string -> nat, within: set<string>, end: string, p: seq<string>)
    requires Ranked(graph, end, rank, within) && IsPath(graph, end, p) && p[0] in within
    ensures Count(graph, rank, within, p[0], end) > 0
    decreases |p|
  {
    if |p| > 1 {
      var rest := p[1..];
      assert IsPath(graph, end, rest) by {
        forall i | 0 <= i < |rest| - 1 ensures rest[i] != end && rest[i] in graph && rest[i + 1] in graph[rest[i]] {
          assert rest[i] == p[i + 1] && rest[i + 1] == p[i + 2];
        }
      }
      PathCounted(graph, rank, within, end, rest);
      var ns := graph[p[0]];
      var i :| 0 <= i < |ns| && ns[i] == p[1];
      CountAllAtLeast(graph, rank, within, ns, end, rank(p[0]), i);
    }
  }

  /** A positive count comes from a path. */
  lemma {:induction false} CountedPath(graph: Graph, rank: string -> nat, within: set<string>, current: string, end: string)
    returns (p: seq<string>)
    requires Ranked(graph, end, rank, within) && current in within && Count(graph, rank, within, current, end) > 0
    ensures IsPath(graph, end, p) && p[0] == current
    decreases rank(current)
  {
    if current == end {
      p := [end];
    } else {
      var ns := graph[current];
      var i := CountAllWitness(graph, rank, within, ns, end, rank(current));
      var rest := CountedPath(graph, rank, within, ns[i], end);
      p := [current] + rest;
      forall k | 0 <= k < |p| - 1 ensures p[k] != end && p[k] in graph && p[k + 1] in graph[p[k]] {
        if k > 0 {
          assert p[k] == rest[k - 1] && p[k + 1] == rest[k];
        }
      }
    }
  }

  /** The count is positive exactly when some path leads from `current` to `end`. */
  lemma CountPositive(graph: Graph, rank: string -> nat, within: set<string>, current: string, end: string)
    requires Ranked(graph, end, rank, within) && current in within
    ensures Count(graph, rank, within, current, end) > 0 <==> exists p :: IsPath(graph, end, p) && p[0] == current
  {
    if Count(graph, rank, within, current, end) > 0 {
      var p := CountedPath(graph, rank, within, current, end);
    }
    if exists p :: IsPath(graph, end, p) && p[0] == current {
      var p :| IsPath(graph, end, p) && p[0] == current;
      PathCounted(graph, rank, within, end, p);
    }
  }

  /** The count depends on the map alone, not on the rank and the devices that show the recursion stops. */
  lemma {:induction false} CountRankFree(graph: Graph, r1: string -> nat, w1: set<string>, r2: string -> nat, w2: set<string>,
                                         current: string, end: string)
    requires Ranked(graph, end, r1, w1) && Ranked(graph, end, r2, w2) && current in w1 && current in w2
    ensures Count(graph, r1, w1, current, end) == Count(graph, r2, w2, current, end)
    decreases r1(current), 1, 0
  {
    if current != end && current in graph {
      CountAllRankFree(graph, r1, w1, r2, w2, graph[current], end, r1(current), r2(current));
    }
  }

  lemma {:induction false} CountAllRankFree(graph: Graph, r1: string -> nat, w1: set<string>, r2: string -> nat, w2: set<string>,
                                            ns: seq<string>, end: string, b1: nat, b2: nat)
    requires Ranked(graph, end, r1, w1) && Ranked(graph, end, r2, w2)
    requires forall v :: v in ns ==> v in w1 && v in w2 && r1(v) < b1 && r2(v) < b2
    ensures CountAll(graph, r1, w1, ns, end, b1) == CountAll(graph, r2, w2, ns, end, b2)
    decreases b1, 0, |ns|
  {
    if ns != [] {
      CountAllRankFree(graph, r1, w1, r2, w2, ns[..|ns| - 1], end, b1, b2);
      CountRankFree(graph, r1, w1, r2, w2, ns[|ns| - 1], end);
    }
  }

  /** Along a path every step lowers the rank, so a path between two different devices goes down. */
  lemma {:induction false} PathDescends(graph: Graph, rank: string -> nat, end: string, p: seq<string>)
    requires Acyclic(graph, rank) && IsPath(graph, end, p) && |p| >= 2
    ensures rank(end) < rank(p[0])
    decreases |p|
  {
    if |p| > 2 {
      var rest := p[1..];
      assert IsPath(graph, end, rest) by {
        forall i | 0 <= i < |rest| - 1 ensures rest[i] != end && rest[i] in graph && rest[i + 1] in graph[rest[i]] {
          assert rest[i] == p[i + 1] && rest[i + 1] == p[i + 2];
        }
      }
      PathDescends(graph, rank, end, rest);
    }
  }

  /** In a map without cycles, paths cannot lead both from `a` to `b` and from `b` to `a`. */
  lemma OneWay(graph: Graph, rank: string -> nat, within: set<string>, a: string, b: string)
    requires Acyclic(graph, rank) && a != b && a in within && b in within
    requires Ranked(graph, b, rank, within) && Ranked(graph, a, rank, within)
    ensures Count(graph, rank, within, a, b) == 0 || Count(graph, rank, within, b, a) == 0
  {
    if Count(graph, rank, within, a, b) > 0 && Count(graph, rank, within, b, a) > 0 {
      var p := CountedPath(graph, rank, within, a, b);
      var q := CountedPath(graph, rank, within, b, a);
      PathDescends(graph, rank, b, p);
      PathDescends(graph, rank, a, q);
    }
  }

  // ---------------------------------------------------------------------
  // The memoised search
  // ---------------------------------------------------------------------

  /** Every cached count is the true count. */
  ghost predicate Memo(graph: Graph, rank: string -> nat, within: set<string>, end: string, cache: map<string, nat>)
    requires Ranked(graph, end, rank, within)
  {
    forall k :: k in cache ==> k in within && cache[k] == Count(graph, rank, within, k, end)
  }

  /**
   * `dfs`: one path at `end`; a cached count as it stands; otherwise the
   * counts of the outputs added up in order, each by a recursive search
   * that shares the cache, and the total cached for `current`. The
   * `&mut HashMap` cache is passed in and handed back.
   */
  method Dfs(graph: Graph, current: string, end: string, cache: map<string, nat>,
             ghost rank: string -> nat, ghost within: set<string>)
    returns (total: nat, cache': map<string, nat>)
    requires Ranked(graph, end, rank, within) && current in within && Memo(graph, rank, within, end, cache)
    ensures total == Count(graph, rank, within, current, end)
    ensures Memo(graph, rank, within, end, cache') && cache.Keys <= cache'.Keys
    decreases rank(current), 1
  {
    if current == end {
      return 1, cache;
    }
    if current in cache {
      return cache[current], cache;
    }
    total, cache' := 0, cache;
    if current in graph {
      var neighbors := graph[current];
      for i := 0 to |neighbors|
        invariant total == CountAll(graph, rank, within, neighbors[..i], end, rank(current))
        invariant Memo(graph, rank, within, end, cache') && cache.Keys <= cache'.Keys
      {
        var paths;
        paths, cache' := Dfs(graph, neighbors[i], end, cache', rank, within);
        assert neighbors[..i + 1][..i] == neighbors[..i];
        total := total + paths;
      }
      assert neighbors[..|neighbors|] == neighbors;
    }
    cache' := cache'[current := total];
  }

  /** `paths_count`: a search with an empty cache. */
  method PathsCount(graph: Graph, start: string, end: string, ghost rank: string -> nat, ghost within: set<string>)
    returns (r: nat)
    requires Ranked(graph, end, rank, within) && start in within
    ensures r == Count(graph, rank, within, start, end)
  {
    var cache;
    r, cache := Dfs(graph, start, end, map[], rank, within);
  }

  /** `part1`: the paths from `you` to `out`. */
  method Part1(graph: Graph, ghost rank: string -> nat, ghost within: set<string>) returns (r: nat)
    requires Ranked(graph, "out", rank, within) && "you" in within
    ensures r == Count(graph, rank, within, "you", "out")
    ensures r > 0 <==> exists p :: IsPath(graph, "out", p) && p[0] == "you"
  {
    r := PathsCount(graph, "you", "out", rank, within);
    CountPositive(graph, rank, within, "you", "out");
  }

  /** The product of three segment counts. */
  function Product(a: nat, b: nat, c: nat): nat {
    a * b * c
  }

  /** The devices part 2 counts over: all the map names, and its four fixed ones. */
  ghost function Part2Devices(graph: Graph): set<string> {
    Devices(graph, {"srv", "dac", "fft", "out"})
  }

  /**
   * `part2`: with paths from `dac` to `fft`, the paths `srv` to `dac`, `dac`
   * to `fft` and `fft` to `out` multiplied; otherwise the same through
   * `fft` first. In a map without cycles at most one of the two orders has
   * paths, so the other order's product is 0.
   */
  method Part2(graph: Graph, ghost rank: string -> nat) returns (r: nat)
    requires Acyclic(graph, rank)
    ensures var w := Part2Devices(graph);
      && (Count(graph, rank, w, "dac", "fft") > 0 ==>
            r == Count(graph, rank, w, "srv", "dac") * Count(graph, rank, w, "dac", "fft") * Count(graph, rank, w, "fft", "out")
            && Count(graph, rank, w, "fft", "dac") == 0)
      && (Count(graph, rank, w, "dac", "fft") == 0 ==>
            r == Count(graph, rank, w, "srv", "fft") * Count(graph, rank, w, "fft", "dac") * Count(graph, rank, w, "dac", "out"))
  {
    ghost var w := Part2Devices(graph);
    AcyclicRanked(graph, rank, "fft", {"srv", "dac", "fft", "out"});
    AcyclicRanked(graph, rank, "dac", {"srv", "dac", "fft", "out"});
    AcyclicRanked(graph, rank, "out", {"srv", "dac", "fft", "out"});
    var dacFft := PathsCount(graph, "dac", "fft", rank, w);
    var fftDac := PathsCount(graph, "fft", "dac", rank, w);
    OneWay(graph, rank, w, "dac", "fft");
    if dacFft != 0 {
      var srvDac := PathsCount(graph, "srv", "dac", rank, w);
      var fftOut := PathsCount(graph, "fft", "out", rank, w);
      r := Product(srvDac, dacFft, fftOut);
    } else {
      var srvFft := PathsCount(graph, "srv", "fft", rank, w);
      var dacOut := PathsCount(graph, "dac", "out", rank, w);
      r := Product(srvFft, fftDac, dacOut);
    }
  }
}

=== FILE: day12.dfy ===
/**
 * Day 12: the input ends with a block of regions, one per line as
 * `WxH: n1 n2 ..`, each a width, a height and how many presents of each
 * shape the region must hold. Part 1 counts the regions that pass a size
 * test; part 2 has no puzzle and answers 0. The source's `u32` arithmetic
 * is unbounded here.
 */
module Day12 {
  import opened Wrappers
  import Text
  import Seqs

  datatype Region = Region(width: nat, height: nat, counts: seq<nat>)

  /** `gift_count`: all the presents a region must hold. */
  function Gifts(r: Region): nat {
    Seqs.Sum(r.counts)
  }

  /**
   * The size test of `part1`. Rust evaluates `x / 3 * y / 3` from left to
   * right, so the width is cut to whole thirds but the height is not.
   */
  predicate Fits(r: Region) {
    ((r.width / 3) * r.height) / 3 >= Gifts(r)
  }

  /** The test compares whole thirds of the width times the height against three times the presents. */
  lemma FitsArea(r: Region)
    ensures Fits(r) <==> (r.width / 3) * r.height >= 3 * Gifts(r)
  {
    var a := (r.width / 3) * r.height;
    assert a == 3 * (a / 3) + a % 3 && 0 <= a % 3 < 3;
  }

  /** A region with room for one 3x3 square per present passes the test. */
  lemma BlocksFit(r: Region)
    requires (r.width / 3) * (r.height / 3) >= Gifts(r)
    ensures Fits(r)
  {
    var w, h := r.width / 3, r.height / 3;
    var rem := r.height % 3;
    assert r.height == 3 * h + rem;
    Spread(w, h, rem);
    FitsArea(r);
  }

  /** w * (3h + rem) is at least three times w * h. */
  lemma Spread(w: nat, h: nat, rem: nat)
    ensures w * (3 * h + rem) >= 3 * (w * h)
  {
    calc {
      w * (3 * h + rem);
      w * (3 * h) + w * rem;
      3 * (w * h) + w * rem;
    }
  }

  /** The converse fails: a 6x5 region passes with three presents though it holds only two 3x3 squares. */
  lemma LeftToRight()
    ensures Fits(Region(6, 5, [3])) && (6 / 3) * (5 / 3) < Gifts(Region(6, 5, [3]))
  {
    assert Seqs.Sum([3]) == 3 by {
      assert [3][1..] == [];
    }
  }

  // ---------------------------------------------------------------------
  // Parsing
  // ---------------------------------------------------------------------

  /** `left.split('x')`: the first two pieces parsed; further pieces are ignored, a missing one is a panic. */
  function ParseSize(left: string): (r: Option<(nat, nat)>)
    ensures r.Some? <==>
      var pieces := Text.Split(left, 'x');
      |pieces| >= 2 && Text.ParseNat(pieces[0]).Some? && Text.ParseNat(pieces[1]).Some?
    ensures r.Some? ==>
      && Text.ParseNat(Text.Split(left, 'x')[0]) == Some(r.value.0)
      && Text.ParseNat(Text.Split(left, 'x')[1]) == Some(r.value.1)
  {
    var pieces := Text.Split(left, 'x');
    if |pieces| < 2 then None
    else
      match (Text.ParseNat(pieces[0]), Text.ParseNat(pieces[1]))
      case (Some(x), Some(y)) => Some((x, y))
      case _ => None
  }

  /**
   * One region line: the size before the first `: ` and a count per word
   * after it; `None` wherever the source unwraps a missing piece or a
   * failed parse.
   */
  function ParseRegion(line: string): (r: Option<Region>)
    ensures r.Some? ==>
      && Text.SplitOnce(line, ": ").Some?
      && var (left, right) := Text.SplitOnce(line, ": ").value;
         && ParseSize(left) == Some((r.value.width, r.value.height))
         && |r.value.counts| == |Text.SplitWhitespace(right)|
         && forall i :: 0 <= i < |r.value.counts| ==> Text.ParseNat(Text.SplitWhitespace(right)[i]) == Some(r.value.counts[i])
    ensures r.None? ==>
      || Text.SplitOnce(line, ": ").None?
      || var (left, right) := Text.SplitOnce(line, ": ").value;
         || ParseSize(left).None?
         || exists i :: 0 <= i < |Text.SplitWhitespace(right)| && Text.ParseNat(Text.SplitWhitespace(right)[i]).None?
  {
    match Text.SplitOnce(line, ": ")
    case None => None
    case Some((left, right)) =>
      match ParseSize(left)
      case None => None
      case Some((x, y)) =>
        match Text.ParseAll(Text.SplitWhitespace(right), Text.ParseNat)
        case None =>
          assert exists i :: 0 <= i < |Text.SplitWhitespace(right)| && Text.ParseNat(Text.SplitWhitespace(right)[i]).None?;
          None
        case Some(counts) => Some(Region(x, y, counts))
  }

  /** The decimal texts of the counts. */
  function Words(counts: seq<nat>): (ws: seq<string>)
    ensures |ws| == |counts|
    ensures forall i :: 0 <= i < |ws| ==> ws[i] == Text.NatToString(counts[i])
  {
    seq(|counts|, i requires 0 <= i < |counts| => Text.NatToString(counts[i]))
  }

  /** A region written as the input writes it. */
  function Format(r: Region): string {
    Text.NatToString(r.width) + "x" + Text.NatToString(r.height) + ": " + Text.Join(Words(r.counts), " ")
  }

  lemma DigitsOnly(s: string)
    requires Text.AllDigits(s)
    ensures 'x' !in s && ':' !in s
    ensures Text.NoWhitespace(s)
  {
    assert forall i :: 0 <= i < |s| ==> '0' <= s[i] <= '9';
  }

  /** Every region written as a line parses back to itself. */
  lemma ParseFormat(r: Region)
    ensures ParseRegion(Format(r)) == Some(r)
  {
    var a, b := Text.NatToString(r.width), Text.NatToString(r.height);
    var left, right := a + "x" + b, Text.Join(Words(r.counts), " ");
    DigitsOnly(a);
    DigitsOnly(b);
    assert ':' !in left by {
      assert forall i :: 0 <= i < |left| ==> left[i] == 'x' || left[i] in a || left[i] in b;
    }
    Text.SplitOnceAt(left, ": ", right);
    assert Format(r) == left + ": " + right;
    ParseSizeFormat(r.width, r.height);
    ParseCountsFormat(r.counts);
  }

  lemma ParseSizeFormat(x: nat, y: nat)
    ensures ParseSize(Text.NatToString(x) + "x" + Text.NatToString(y)) == Some((x, y))
  {
    var a, b := Text.NatToString(x), Text.NatToString(y);
    DigitsOnly(a);
    DigitsOnly(b);
    Text.SplitCons(a, 'x', b);
    Text.SplitSingle(b, 'x');
    Text.ParseNatRoundTrip(x);
    Text.ParseNatRoundTrip(y);
  }

  lemma ParseCountsFormat(counts: seq<nat>)
    ensures Text.ParseAll(Text.SplitWhitespace(Text.Join(Words(counts), " ")), Text.ParseNat) == Some(counts)
  {
    var ws := Words(counts);
    forall i | 0 <= i < |ws| ensures ws[i] != [] && Text.NoWhitespace(ws[i]) {
      DigitsOnly(ws[i]);
    }
    Text.SplitWhitespaceJoin(ws);
    forall i | 0 <= i < |ws| ensures Text.ParseNat(ws[i]) == Some(counts[i]) {
      Text.ParseNatRoundTrip(counts[i]);
    }
    var parsed := Text.ParseAll(ws, Text.ParseNat);
    assert parsed.Some?;
    assert parsed.value == counts;
  }

  // ---------------------------------------------------------------------
  // The answers
  // ---------------------------------------------------------------------

  /**
   * The last of the blocks separated by blank lines: the end of the input
   * from where `LastStart` says, with no blank-line separator in it and,
   * unless it is the whole input, one right before it.
   */
  function LastBlock(input: string): (r: string)
    ensures r == input[Text.LastStart(input, "\n\n")..]
    ensures forall i :: Text.LastStart(input, "\n\n") <= i <= |input| ==> !Text.IsAt(input, "\n\n", i)
    ensures Text.LastStart(input, "\n\n") > 0 ==> Text.EndsAt(input, "\n\n", Text.LastStart(input, "\n\n"))
  {
    var blocks := Text.SplitOn(input, "\n\n");
    Text.SplitOnLast(input, "\n\n");
    Text.LastHasNoPattern(input, "\n\n");
    Text.LastAfterPattern(input, "\n\n");
    blocks[|blocks| - 1]
  }

  /** The positions of the lines that describe a region passing the test. */
  ghost function FittingLines(lines: seq<string>): set<nat> {
    set i: nat | i < |lines| && ParseRegion(lines[i]).Some? && Fits(ParseRegion(lines[i]).value)
  }

  /**
   * `part1` on the text of the input: the lines of the last block that
   * describe a region passing the test, counted; `None` when a line of that
   * block does not parse.
   */
  function Part1(input: string): (r: Option<nat>)
    ensures r.Some? ==> forall i :: 0 <= i < |Text.Lines(LastBlock(input))| ==> ParseRegion(Text.Lines(LastBlock(input))[i]).Some?
    ensures r.None? ==> exists i :: 0 <= i < |Text.Lines(LastBlock(input))| && ParseRegion(Text.Lines(LastBlock(input))[i]).None?
    ensures r.Some? ==> r.value == |FittingLines(Text.Lines(LastBlock(input)))| <= |Text.Lines(LastBlock(input))|
  {
    var lines := Text.Lines(LastBlock(input));
    match Text.ParseAll(lines, ParseRegion)
    case None =>
      None
    case Some(regions) =>
      FittingCount(lines, regions);
      Some(|Seqs.Filter(regions, Fits)|)
  }

  /** Counting the parsed regions that pass the test counts the lines that describe one. */
  lemma FittingCount(lines: seq<string>, regions: seq<Region>)
    requires |regions| == |lines| && forall i :: 0 <= i < |lines| ==> ParseRegion(lines[i]) == Some(regions[i])
    ensures |Seqs.Filter(regions, Fits)| == |FittingLines(lines)| <= |lines|
  {
    Seqs.FilterCount(regions, Fits);
    forall i: nat
      ensures i in Seqs.IndexSet(regions, Fits) <==> i in FittingLines(lines)
    {
      if i < |lines| {
        assert ParseRegion(lines[i]) == Some(regions[i]);
      }
    }
    assert Seqs.IndexSet(regions, Fits) == FittingLines(lines);
  }

  /** `part2`: there is no second puzzle; the answer is 0 whatever the input. */
  function Part2(input: string): (r: nat)
    ensures r == 0
  {
    0
  }
}

=== FILE: grid.dfy ===
/**
 * A rectangular grid stored row by row: the cell at column `x` and row `y`
 * lives at position `y * width + x` of `data`. Width and height never change;
 * cells are overwritten in place through `Set`.
 */
module Grids {
  import opened Wrappers
  import opened Points
  import Text
  import Seqs
  import opened NumUtils

  /** A position below `w * h` lies in one of the `h` rows. */
  lemma RowBound(i: nat, w: nat, h: nat)
    requires i < w * h
    ensures w > 0 && i / w < h
    ensures (i / w) * w + i % w == i
  {
    MulOrder(h, i / w, w);
  }

  /** A cell inside the rectangle has a position inside `data`. */
  lemma IndexBound(x: nat, y: nat, w: nat, h: nat)
    requires x < w && y < h
    ensures y * w + x < w * h
  {
    MulSucc(y, w);
    MulMono(y + 1, h, w);
  }

  /** `p` comes before `q` when reading row by row, left to right. */
  predicate RowMajorBefore(p: Point, q: Point) {
    p.y < q.y || (p.y == q.y && p.x < q.x)
  }

  class Grid<T> {
    const width: nat
    const height: nat
    var data: seq<T>

    ghost predicate Valid()
      reads this
    {
      |data| == width * height
    }

    /** `from_data`: the number of cells must match the dimensions. */
    constructor FromData(width: nat, height: nat, data: seq<T>)
      requires width * height == |data|
      ensures Valid()
      ensures this.width == width && this.height == height && this.data == data
    {
      this.width := width;
      this.height := height;
      this.data := data;
    }

    /** `new`: every cell holds `default`. */
    constructor New(width: nat, height: nat, default: T)
      ensures Valid()
      ensures this.width == width && this.height == height
      ensures forall i :: 0 <= i < |data| ==> data[i] == default
    {
      this.width := width;
      this.height := height;
      this.data := seq(width * height, _ => default);
    }

    /** `clone`: a separate grid with the same dimensions and cells. */
    method Clone() returns (g: Grid<T>)
      requires Valid()
      ensures fresh(g) && g.Valid()
      ensures g.width == width && g.height == height && g.data == data
    {
      g := new Grid.FromData(width, height, data);
    }

    predicate IsInBounds(p: Point) {
      0 <= p.x < width && 0 <= p.y < height
    }

    /** The position in `data` of the cell at column `x`, row `y`. */
    function Index(x: nat, y: nat): (i: nat)
      requires x < width && y < height
      ensures i < width * height
    {
      IndexBound(x, y, width, height);
      y * width + x
    }

    /** The cell stored at position `i` of `data`. */
    function Coords(i: nat): (p: Point)
      requires i < width * height
      ensures IsInBounds(p)
      ensures Index(p.x, p.y) == i
    {
      RowBound(i, width, height);
      Point(i % width, i / width)
    }

    /** `Coords` and `Index` are inverse bijections between cells and positions. */
    lemma IndexCoords(p: Point)
      requires IsInBounds(p)
      ensures Coords(Index(p.x, p.y)) == p
    {
      DivModUnique(Index(p.x, p.y), width, p.y, p.x);
    }

    /** Position order is reading order. */
    lemma IndexOrder(p: Point, q: Point)
      requires IsInBounds(p) && IsInBounds(q)
      ensures Index(p.x, p.y) < Index(q.x, q.y) <==> RowMajorBefore(p, q)
    {
      if p.y < q.y {
        MulSucc(p.y, width);
        MulMono(p.y + 1, q.y, width);
      } else if q.y < p.y {
        MulSucc(q.y, width);
        MulMono(q.y + 1, p.y, width);
      }
    }

    /** `self[p]`: indexing panics outside the grid. */
    function At(p: Point): T
      reads this
      requires Valid() && IsInBounds(p)
    {
      data[Index(p.x, p.y)]
    }

    /** `self[p] = v`: exactly one cell changes. */
    method Set(p: Point, v: T)
      requires Valid() && IsInBounds(p)
      modifies this
      ensures Valid()
      ensures data == old(data)[Index(p.x, p.y) := v]
      ensures At(p) == v
      ensures forall q :: IsInBounds(q) && q != p ==> At(q) == old(At(q))
    {
      data := data[Index(p.x, p.y) := v];
      forall q | IsInBounds(q) && q != p
        ensures At(q) == old(At(q))
      {
        IndexCoords(p);
        IndexCoords(q);
      }
    }

    /** `get`: the cell at `p`, or nothing outside the grid. */
    function Get(p: Point): (r: Option<T>)
      reads this
      requires Valid()
      ensures r.Some? <==> 0 <= p.x < width && 0 <= p.y < height
      ensures r.Some? ==> r.value == At(p)
    {
      if IsInBounds(p) then Some(At(p)) else None
    }

    /** `get_or`: the cell at `p`, or `default` outside the grid. */
    function GetOr(p: Point, default: T): (r: T)
      reads this
      requires Valid()
      ensures IsInBounds(p) ==> r == At(p)
      ensures !IsInBounds(p) ==> r == default
    {
      match Get(p)
      case Some(v) => v
      case None => default
    }

    /** `enumerate`: every cell with its coordinates, in reading order. */
    function Enumerate(): (r: seq<(Point, T)>)
      reads this
      requires Valid()
      ensures |r| == |data|
      ensures forall i :: 0 <= i < |r| ==> r[i] == (Coords(i), data[i])
      ensures forall i :: 0 <= i < |r| ==> IsInBounds(r[i].0) && r[i].1 == At(r[i].0)
      ensures forall i, j :: 0 <= i < j < |r| ==> RowMajorBefore(r[i].0, r[j].0)
      ensures forall p :: IsInBounds(p) ==> r[Index(p.x, p.y)].0 == p
    {
      var r := seq(|data|, i reads this requires 0 <= i < |data| && Valid() => (Coords(i), data[i]));
      assert forall i, j :: 0 <= i < j < |r| ==> RowMajorBefore(r[i].0, r[j].0) by {
        forall i, j | 0 <= i < j < |r| ensures RowMajorBefore(r[i].0, r[j].0) {
          IndexOrder(r[i].0, r[j].0);
        }
      }
      assert forall p :: IsInBounds(p) ==> r[Index(p.x, p.y)].0 == p by {
        forall p | IsInBounds(p) ensures r[Index(p.x, p.y)].0 == p {
          IndexCoords(p);
        }
      }
      r
    }
  }

  /** The first cell at or after position `i` that holds `e`. */
  function FindFrom<T(==)>(g: Grid<T>, e: T, i: nat): (r: Option<Point>)
    reads g
    requires g.Valid() && i <= |g.data|
    ensures r.None? ==> forall j :: i <= j < |g.data| ==> g.data[j] != e
    ensures r.Some? ==> g.IsInBounds(r.value) && g.At(r.value) == e && i <= g.Index(r.value.x, r.value.y)
    ensures r.Some? ==> forall j :: i <= j < g.Index(r.value.x, r.value.y) ==> g.data[j] != e
    decreases |g.data| - i
  {
    if i == |g.data| then None
    else if g.data[i] == e then Some(g.Coords(i))
    else FindFrom(g, e, i + 1)
  }

  /** `find`: the first cell in reading order that holds `e`. */
  function Find<T(==)>(g: Grid<T>, e: T): (r: Option<Point>)
    reads g
    requires g.Valid()
    ensures r.None? <==> forall p :: g.IsInBounds(p) ==> g.At(p) != e
    ensures r.Some? ==> g.IsInBounds(r.value) && g.At(r.value) == e
    ensures r.Some? ==> forall p :: g.IsInBounds(p) && RowMajorBefore(p, r.value) ==> g.At(p) != e
  {
    var r := FindFrom(g, e, 0);
    assert r.None? ==> forall p :: g.IsInBounds(p) ==> g.At(p) != e by {
      if r.None? {
        forall p | g.IsInBounds(p) ensures g.At(p) != e {
          var k := g.Index(p.x, p.y);
        }
      }
    }
    assert r.Some? ==> forall p :: g.IsInBounds(p) && RowMajorBefore(p, r.value) ==> g.At(p) != e by {
      if r.Some? {
        forall p | g.IsInBounds(p) && RowMajorBefore(p, r.value) ensures g.At(p) != e {
          g.IndexOrder(p, r.value);
        }
      }
    }
    r
  }

  /** The cells at or after position `i` that hold `e`, in reading order. */
  function FindAllFrom<T(==)>(g: Grid<T>, e: T, i: nat): (r: seq<Point>)
    reads g
    requires g.Valid() && i <= |g.data|
    ensures forall k :: 0 <= k < |r| ==> g.IsInBounds(r[k]) && g.At(r[k]) == e && i <= g.Index(r[k].x, r[k].y)
    ensures forall k, l :: 0 <= k < l < |r| ==> RowMajorBefore(r[k], r[l])
    ensures forall j :: i <= j < |g.data| && g.data[j] == e ==> g.Coords(j) in r
    decreases |g.data| - i
  {
    if i == |g.data| then []
    else
      var rest := FindAllFrom(g, e, i + 1);
      if g.data[i] == e then
        var p := g.Coords(i);
        assert forall l :: 0 <= l < |rest| ==> RowMajorBefore(p, rest[l]) by {
          forall l | 0 <= l < |rest| ensures RowMajorBefore(p, rest[l]) {
            g.IndexOrder(p, rest[l]);
          }
        }
        [p] + rest
      else rest
  }

  /** `find_all`: every cell that holds `e`, each once, in reading order. */
  function FindAll<T(==)>(g: Grid<T>, e: T): (r: seq<Point>)
    reads g
    requires g.Valid()
    ensures forall k :: 0 <= k < |r| ==> g.IsInBounds(r[k]) && g.At(r[k]) == e
    ensures forall k, l :: 0 <= k < l < |r| ==> RowMajorBefore(r[k], r[l])
    ensures forall p :: g.IsInBounds(p) && g.At(p) == e ==> p in r
  {
    var r := FindAllFrom(g, e, 0);
    assert forall p :: g.IsInBounds(p) && g.At(p) == e ==> p in r by {
      forall p | g.IsInBounds(p) && g.At(p) == e ensures p in r {
        g.IndexCoords(p);
      }
    }
    r
  }

  /**
   * `neighbors_in_bounds`: the orthogonal neighbours of `p` inside the grid,
   * in the order `neighbors` lists them.
   */
  function NeighborsInBounds<T>(g: Grid<T>, p: Point): (r: seq<Point>)
    ensures |r| <= 4
    ensures forall q :: q in r <==> q in Neighbors(p) && g.IsInBounds(q)
    ensures |r| == |Seqs.KeptPositions(Neighbors(p), g.IsInBounds, 0)|
    ensures forall j :: 0 <= j < |r| ==> r[j] == Neighbors(p)[Seqs.KeptPositions(Neighbors(p), g.IsInBounds, 0)[j]]
  {
    assert Neighbors(p)[0..] == Neighbors(p);
    Seqs.FilterKeepsOrder(Neighbors(p), g.IsInBounds, 0);
    Seqs.Filter(Neighbors(p), g.IsInBounds)
  }

  /**
   * `neighbors_diagonal_in_bounds`: the up to eight neighbours of `p` inside
   * the grid, in the order `neighbors_diagonal` lists them.
   */
  function NeighborsDiagonalInBounds<T>(g: Grid<T>, p: Point): (r: seq<Point>)
    ensures |r| <= 8
    ensures forall q :: q in r <==> q in NeighborsDiagonal(p) && g.IsInBounds(q)
    ensures |r| == |Seqs.KeptPositions(NeighborsDiagonal(p), g.IsInBounds, 0)|
    ensures forall j :: 0 <= j < |r| ==>
      r[j] == NeighborsDiagonal(p)[Seqs.KeptPositions(NeighborsDiagonal(p), g.IsInBounds, 0)[j]]
  {
    assert NeighborsDiagonal(p)[0..] == NeighborsDiagonal(p);
    Seqs.FilterKeepsOrder(NeighborsDiagonal(p), g.IsInBounds, 0);
    Seqs.Filter(NeighborsDiagonal(p), g.IsInBounds)
  }

  /** The only cell of a one-cell grid has no neighbour inside it. */
  lemma LoneCellHasNoNeighbors<T>(g: Grid<T>)
    requires g.width == 1 && g.height == 1
    ensures NeighborsDiagonalInBounds(g, Point(0, 0)) == []
    ensures NeighborsInBounds(g, Point(0, 0)) == []
  {
    var all := NeighborsDiagonal(Point(0, 0));
    assert forall q | q in all :: !g.IsInBounds(q) by {
      assert all == [Point(0, -1), Point(0, 1), Point(-1, 0), Point(1, 0),
                     Point(-1, -1), Point(1, -1), Point(-1, 1), Point(1, 1)];
    }
    FilterDropsAll(all, g.IsInBounds);
    FilterDropsAll(Neighbors(Point(0, 0)), g.IsInBounds);
  }

  /** A cell away from the border has all eight neighbours inside the grid. */
  lemma InteriorHasAllNeighbors<T>(g: Grid<T>, p: Point)
    requires 0 < p.x < g.width - 1 && 0 < p.y < g.height - 1
    ensures NeighborsDiagonalInBounds(g, p) == NeighborsDiagonal(p)
    ensures NeighborsInBounds(g, p) == Neighbors(p)
  {
    var all := NeighborsDiagonal(p);
    assert forall q | q in all :: g.IsInBounds(q);
    FilterKeepsAll(all, g.IsInBounds);
    FilterKeepsAll(Neighbors(p), g.IsInBounds);
  }

  lemma {:induction false} FilterKeepsAll<T>(s: seq<T>, keep: T -> bool)
    requires forall x | x in s :: keep(x)
    ensures Seqs.Filter(s, keep) == s
  {
    if s != [] {
      assert forall x | x in s[1..] :: x in s;
      FilterKeepsAll(s[1..], keep);
    }
  }

  lemma {:induction false} FilterDropsAll<T>(s: seq<T>, keep: T -> bool)
    requires forall x | x in s :: !keep(x)
    ensures Seqs.Filter(s, keep) == []
  {
    if s != [] {
      assert forall x | x in s[1..] :: x in s;
      FilterDropsAll(s[1..], keep);
    }
  }

  /** The characters that become cells when a grid is read from text. */
  predicate IsCell(c: char) {
    !Text.IsWhitespace(c)
  }

  function Cells(s: string): string {
    Seqs.Filter(s, IsCell)
  }

  /**
   * The dimensions `map_from_str` gives the text: the width is the length of
   * the first line and the height the number of cells over the width. None
   * where it panics: no line at all, an empty first line (division by zero),
   * or a cell count that the width does not divide.
   */
  function Dimensions(s: string): (r: Option<(nat, nat)>)
    ensures r.Some? ==> r.value.0 > 0 && r.value.0 * r.value.1 == |Cells(s)|
    ensures r.Some? ==> Text.Lines(s) != [] && r.value.0 == |Text.Lines(s)[0]|
    ensures r.None? <==>
      Text.Lines(s) == [] || Text.Lines(s)[0] == [] || |Cells(s)| % |Text.Lines(s)[0]| != 0
  {
    var lines := Text.Lines(s);
    if lines == [] || lines[0] == [] then None
    else
      var width := |lines[0]|;
      var n := |Cells(s)|;
      if n % width != 0 then None
      else
        DivExact(n, width);
        Some((width, n / width))
  }

  /** `map_from_str`: the cells of the text in reading order, each mapped by `f`. */
  method MapFromStr<T>(s: string, f: char -> T) returns (r: Option<Grid<T>>)
    ensures r.Some? <==> Dimensions(s).Some?
    ensures r.Some? ==> fresh(r.value) && r.value.Valid()
    ensures r.Some? ==> (r.value.width, r.value.height) == Dimensions(s).value
    ensures r.Some? ==> r.value.data == seq(|Cells(s)|, i requires 0 <= i < |Cells(s)| => f(Cells(s)[i]))
  {
    var cells := Cells(s);
    var data := seq(|cells|, i requires 0 <= i < |cells| => f(cells[i]));
    var dims := Dimensions(s);
    if dims.None? {
      r := None;
    } else {
      var g := new Grid.FromData(dims.value.0, dims.value.1, data);
      r := Some(g);
    }
  }

  /** `from_str`: a grid of the text's own characters. */
  method FromStr(s: string) returns (r: Option<Grid<char>>)
    ensures r.Some? <==> Dimensions(s).Some?
    ensures r.Some? ==> fresh(r.value) && r.value.Valid()
    ensures r.Some? ==> (r.value.width, r.value.height) == Dimensions(s).value
    ensures r.Some? ==> r.value.data == Cells(s)
  {
    r := MapFromStr(s, c => c);
  }

  /** The text of one row: the cells' texts one after another. */
  function RowText<T>(row: seq<T>, show: T -> string): string {
    if row == [] then [] else RowText(row[..|row| - 1], show) + show(row[|row| - 1])
  }

  /** The text of the first `rows` rows, each followed by a newline. */
  function RowsText<T>(data: seq<T>, width: nat, rows: nat, show: T -> string): string
    requires rows * width <= |data|
  {
    if rows == 0 then []
    else
      MulSucc(rows - 1, width);
      RowsText(data, width, rows - 1, show) + RowText(data[(rows - 1) * width..rows * width], show) + "\n"
  }

  /** `Display`: each row's cells, then a newline, row after row. */
  method Render<T>(g: Grid<T>, show: T -> string) returns (s: string)
    requires g.Valid()
    ensures s == RowsText(g.data, g.width, g.height, show)
  {
    s := [];
    for y := 0 to g.height
      invariant s == RowsText(g.data, g.width, y, show)
    {
      MulSucc(y, g.width);
      MulMono(y + 1, g.height, g.width);
      ghost var before := s;
      var start := y * g.width;
      for x := 0 to g.width
        invariant s == before + RowText(g.data[start..start + x], show)
      {
        assert g.data[start..start + x + 1][..x] == g.data[start..start + x];
        assert g.Index(x, y) == start + x;
        s := s + show(g.At(Point(x, y)));
      }
      s := s + "\n";
    }
  }

  function ShowChar(c: char): string {
    [c]
  }

  lemma {:induction false} RowTextOfChars(row: string)
    ensures RowText(row, ShowChar) == row
  {
    if row != [] {
      RowTextOfChars(row[..|row| - 1]);
      assert row == row[..|row| - 1] + [row[|row| - 1]];
    }
  }

  /** The text of the rows holds the cells in order, each once. */
  lemma {:induction false} RowsTextCells(data: string, width: nat, rows: nat)
    requires rows * width <= |data|
    requires forall c | c in data :: IsCell(c)
    ensures Cells(RowsText(data, width, rows, ShowChar)) == data[..rows * width]
  {
    if rows > 0 {
      MulSucc(rows - 1, width);
      RowsTextCells(data, width, rows - 1);
      CellsOfNextRow(RowsText(data, width, rows - 1, ShowChar), data, (rows - 1) * width, rows * width);
    }
  }

  lemma CellsOfNextRow(prev: string, data: string, a: nat, b: nat)
    requires a <= b <= |data|
    requires forall c | c in data :: IsCell(c)
    requires Cells(prev) == data[..a]
    ensures Cells(prev + RowText(data[a..b], ShowChar) + "\n") == data[..b]
  {
    var row := data[a..b];
    RowTextOfChars(row);
    assert Cells(row) == row by {
      assert forall c | c in row :: c in data;
      FilterKeepsAll(row, IsCell);
    }
    assert Cells("\n") == [] by {
      FilterDropsAll("\n", IsCell);
    }
    calc {
      Cells(prev + row + "\n");
      { Seqs.FilterAppend(prev + row, "\n", IsCell); }
      Cells(prev + row) + Cells("\n");
      { Seqs.FilterAppend(prev, row, IsCell); }
      data[..a] + row;
      { assert data[..a] + row == data[..b]; }
      data[..b];
    }
  }

  /** The text of `rows` rows of characters is that of the rows before, the last row's characters and a newline. */
  lemma RowsTextSnoc(data: string, width: nat, rows: nat)
    requires 0 < rows && rows * width <= |data|
    ensures (rows - 1) * width + width == rows * width
    ensures RowsText(data, width, rows, ShowChar)
      == RowsText(data, width, rows - 1, ShowChar) + data[(rows - 1) * width..rows * width] + "\n"
  {
    MulSucc(rows - 1, width);
    RowTextOfChars(data[(rows - 1) * width..rows * width]);
  }

  /** The text of at least one row starts with the first row and a newline. */
  lemma {:induction false} RowsTextFirstLine(data: string, width: nat, rows: nat)
    requires 0 < rows && rows * width <= |data|
    ensures |RowsText(data, width, rows, ShowChar)| > width
    ensures RowsText(data, width, rows, ShowChar)[..width + 1] == data[..width] + "\n"
  {
    RowsTextSnoc(data, width, rows);
    var prev := RowsText(data, width, rows - 1, ShowChar);
    if rows == 1 {
      assert prev == [];
    } else {
      RowsTextFirstLine(data, width, rows - 1);
      var s := RowsText(data, width, rows, ShowChar);
      assert s[..width + 1] == prev[..width + 1];
    }
  }

  /**
   * Reading back the text of a character grid without whitespace cells gives
   * the same dimensions and cells.
   */
  lemma RenderRoundTrip(width: nat, height: nat, data: string)
    requires width > 0 && height > 0 && width * height == |data|
    requires forall c | c in data :: IsCell(c)
    ensures Dimensions(RowsText(data, width, height, ShowChar)) == Some((width, height))
    ensures Cells(RowsText(data, width, height, ShowChar)) == data
  {
    var s := RowsText(data, width, height, ShowChar);
    assert height * width == |data|;
    RowsTextCells(data, width, height);
    assert data[..height * width] == data;
    RowsTextFirstLine(data, width, height);
    MulMono(1, height, width);
    assert s[width] == '\n' by {
      assert s[width] == s[..width + 1][width];
    }
    assert forall i :: 0 <= i < width ==> s[i] == data[i] && s[i] != '\n' by {
      forall i | 0 <= i < width ensures s[i] == data[i] && s[i] != '\n' {
        assert s[i] == s[..width + 1][i];
        assert IsCell(data[i]);
      }
    }
    assert IsCell(data[width - 1]);
    FirstLine(s, width);
    assert s[..width] == data[..width];
    DivModUnique(|data|, width, height, 0);
  }

  /** A text whose first newline is at `k`, with no carriage return right before it, has that prefix as first line. */
  lemma FirstLine(s: string, k: nat)
    requires k < |s| && s[k] == '\n'
    requires forall i :: 0 <= i < k ==> s[i] != '\n'
    requires k > 0 ==> s[k - 1] != '\r'
    ensures Text.Lines(s) != [] && Text.Lines(s)[0] == s[..k]
  {
    assert Text.IndexOf(s, '\n') == k;
  }
}

=== FILE: point.dfy ===
/**
 * Points of the plane with integer coordinates; `y` grows downwards, so
 * "up" decreases it. Coordinates are unbounded here (the source's `isize`
 * overflow is not modelled).
 */
module Points {
  import opened NumUtils

  datatype Point = Point(x: int, y: int)

  const Origin := Point(0, 0)
  const UnitUp := Point(0, -1)
  const UnitDown := Point(0, 1)
  const UnitLeft := Point(-1, 0)
  const UnitRight := Point(1, 0)

  /** `p + q`, coordinate by coordinate. */
  function Add(p: Point, q: Point): Point {
    Point(p.x + q.x, p.y + q.y)
  }

  /** `p - q`, coordinate by coordinate. */
  function Sub(p: Point, q: Point): Point {
    Point(p.x - q.x, p.y - q.y)
  }

  /** `p * k` for a scalar `k`. */
  function Scale(p: Point, k: int): Point {
    Point(p.x * k, p.y * k)
  }

  /** `k * p` for a scalar `k`. */
  function ScaleLeft(k: int, p: Point): Point {
    Point(p.x * k, p.y * k)
  }

  /** `-p`. */
  function Neg(p: Point): Point {
    Point(-p.x, -p.y)
  }

  function Up(p: Point): (r: Point)
    ensures r.x == p.x && r.y == p.y - 1
  {
    Add(p, UnitUp)
  }

  function Down(p: Point): (r: Point)
    ensures r.x == p.x && r.y == p.y + 1
  {
    Add(p, UnitDown)
  }

  function Left(p: Point): (r: Point)
    ensures r.x == p.x - 1 && r.y == p.y
  {
    Add(p, UnitLeft)
  }

  function Right(p: Point): (r: Point)
    ensures r.x == p.x + 1 && r.y == p.y
  {
    Add(p, UnitRight)
  }

  /** Sum of the absolute coordinate differences. */
  function ManhattanDistance(p: Point, q: Point): nat {
    Abs(p.x - q.x) + Abs(p.y - q.y)
  }

  /** Manhattan distance is a metric: zero exactly on equal points, symmetric, triangle inequality. */
  lemma ManhattanIsMetric(p: Point, q: Point, s: Point)
    ensures ManhattanDistance(p, q) == 0 <==> p == q
    ensures ManhattanDistance(p, q) == ManhattanDistance(q, p)
    ensures ManhattanDistance(p, s) <= ManhattanDistance(p, q) + ManhattanDistance(q, s)
  {
  }

  /** Moving by a vector does not change distances. */
  lemma ManhattanTranslation(p: Point, q: Point, v: Point)
    ensures ManhattanDistance(Add(p, v), Add(q, v)) == ManhattanDistance(p, q)
  {
  }

  /** The four orthogonal neighbours, in the order up, down, left, right. */
  function Neighbors(p: Point): (r: seq<Point>)
    ensures |r| == 4
  {
    [Up(p), Down(p), Left(p), Right(p)]
  }

  /**
   * The orthogonal neighbours are four distinct points, and they are exactly
   * the points at Manhattan distance one.
   */
  lemma NeighborsComplete(p: Point, q: Point)
    ensures forall i, j :: 0 <= i < j < 4 ==> Neighbors(p)[i] != Neighbors(p)[j]
    ensures q in Neighbors(p) <==> ManhattanDistance(p, q) == 1
  {
    if ManhattanDistance(p, q) == 1 {
      if q.x == p.x {
        assert q == Up(p) || q == Down(p);
      } else {
        assert q == Left(p) || q == Right(p);
      }
    }
  }

  /** The king-move distance: the larger coordinate difference. */
  function ChebyshevDistance(p: Point, q: Point): nat {
    var dx, dy := Abs(p.x - q.x), Abs(p.y - q.y);
    if dx < dy then dy else dx
  }

  /**
   * The eight neighbours: the orthogonal ones first, then up-left,
   * up-right, down-left, down-right.
   */
  function NeighborsDiagonal(p: Point): (r: seq<Point>)
    ensures |r| == 8 && r[..4] == Neighbors(p)
  {
    [Up(p), Down(p), Left(p), Right(p),
     Left(Up(p)), Right(Up(p)), Left(Down(p)), Right(Down(p))]
  }

  /**
   * The eight neighbours are distinct, and they are exactly the points at
   * king-move distance one.
   */
  lemma NeighborsDiagonalComplete(p: Point, q: Point)
    ensures forall i, j :: 0 <= i < j < 8 ==> NeighborsDiagonal(p)[i] != NeighborsDiagonal(p)[j]
    ensures q in NeighborsDiagonal(p) <==> ChebyshevDistance(p, q) == 1
  {
    var r := NeighborsDiagonal(p);
    if ChebyshevDistance(p, q) == 1 {
      if q.y == p.y - 1 {
        assert q == r[0] || q == r[4] || q == r[5];
      } else if q.y == p.y {
        assert q == r[2] || q == r[3];
      } else {
        assert q == r[1] || q == r[6] || q == r[7];
      }
    }
  }

  /** Subtracting undoes adding, and adding undoes subtracting. */
  lemma AddSubInverse(p: Point, q: Point)
    ensures Sub(Add(p, q), q) == p
    ensures Add(Sub(p, q), q) == p
    ensures Sub(p, q) == Add(p, Neg(q))
  {
  }

  /** Points under addition form a commutative group with `Origin` and `Neg`. */
  lemma AddGroup(p: Point, q: Point, s: Point)
    ensures Add(p, q) == Add(q, p)
    ensures Add(Add(p, q), s) == Add(p, Add(q, s))
    ensures Add(p, Origin) == p
    ensures Add(p, Neg(p)) == Origin
    ensures Neg(Neg(p)) == p
  {
  }

  /** Both scalar products agree and distribute over addition. */
  lemma ScaleLaws(p: Point, q: Point, k: int, m: int)
    ensures ScaleLeft(k, p) == Scale(p, k)
    ensures Scale(Add(p, q), k) == Add(Scale(p, k), Scale(q, k))
    ensures Scale(p, k + m) == Add(Scale(p, k), Scale(p, m))
    ensures Scale(p, -1) == Neg(p)
  {
  }

  /** Each unit move is undone by the opposite one. */
  lemma MovesInverse(p: Point)
    ensures Down(Up(p)) == p && Up(Down(p)) == p
    ensures Right(Left(p)) == p && Left(Right(p)) == p
    ensures UnitDown == Neg(UnitUp) && UnitRight == Neg(UnitLeft)
  {
  }
}

=== FILE: seqs.dfy ===
/**
 * Sequence helpers standing for the iterator adaptors the solvers use
 * (`filter`, `count`, `sum`, `product`, `max`) and for the standard library's
 * stable sort.
 */
module Seqs {

  /** `iter().filter(keep)`: the elements that satisfy `keep`, in order. */
  function Filter<T>(s: seq<T>, keep: T -> bool): (r: seq<T>)
    ensures |r| <= |s|
    ensures forall i :: 0 <= i < |r| ==> r[i] in s && keep(r[i])
    ensures forall i :: 0 <= i < |s| && keep(s[i]) ==> s[i] in r
  {
    if s == [] then [] else (if keep(s[0]) then [s[0]] else []) + Filter(s[1..], keep)
  }

  lemma {:induction false} FilterAppend<T>(a: seq<T>, b: seq<T>, keep: T -> bool)
    ensures Filter(a + b, keep) == Filter(a, keep) + Filter(b, keep)
  {
    if a != [] {
      assert (a + b)[1..] == a[1..] + b;
      FilterAppend(a[1..], b, keep);
    } else {
      assert a + b == b;
    }
  }

  /** The positions from `from` on whose element satisfies `keep`, ascending. */
  ghost function KeptPositions<T>(s: seq<T>, keep: T -> bool, from: nat): (idx: seq<nat>)
    ensures forall j :: 0 <= j < |idx| ==> from <= idx[j] < |s| && keep(s[idx[j]])
    ensures forall j, k :: 0 <= j < k < |idx| ==> idx[j] < idx[k]
    ensures forall i :: from <= i < |s| && keep(s[i]) ==> i in idx
    decreases |s| - from
  {
    if from >= |s| then []
    else if !keep(s[from]) then KeptPositions(s, keep, from + 1)
    else
      var rest := KeptPositions(s, keep, from + 1);
      var idx := [from] + rest;
      assert forall j :: 1 <= j < |idx| ==> idx[j] == rest[j - 1];
      assert forall i :: from <= i < |s| && keep(s[i]) ==> i in idx by {
        forall i | from <= i < |s| && keep(s[i]) ensures i in idx {
          if i == from {
            assert idx[0] == from;
          } else {
            assert i in rest;
          }
        }
      }
      idx
  }

  /** `filter` keeps order: its result lists the elements at the kept positions, in ascending order. */
  lemma {:induction false} FilterKeepsOrder<T>(s: seq<T>, keep: T -> bool, from: nat)
    requires from <= |s|
    ensures |Filter(s[from..], keep)| == |KeptPositions(s, keep, from)|
    ensures forall j :: 0 <= j < |Filter(s[from..], keep)| ==>
      Filter(s[from..], keep)[j] == s[KeptPositions(s, keep, from)[j]]
    decreases |s| - from
  {
    if from < |s| {
      FilterKeepsOrder(s, keep, from + 1);
      var r1, idx1 := Filter(s[from + 1..], keep), KeptPositions(s, keep, from + 1);
      assert s[from..][1..] == s[from + 1..] && s[from..][0] == s[from];
      if keep(s[from]) {
        assert Filter(s[from..], keep) == [s[from]] + r1;
        assert KeptPositions(s, keep, from) == [from] + idx1;
        ConsPositions(s, from, r1, idx1);
      } else {
        assert Filter(s[from..], keep) == r1;
      }
    }
  }

  /** Putting the element at `from` in front of a listing of `s` at positions `idx` lists it at `[from] + idx`. */
  lemma ConsPositions<T>(s: seq<T>, from: nat, r: seq<T>, idx: seq<nat>)
    requires from < |s| && |r| == |idx|
    requires forall j :: 0 <= j < |idx| ==> idx[j] < |s| && r[j] == s[idx[j]]
    ensures forall j :: 0 <= j < |r| + 1 ==> ([from] + idx)[j] < |s| && ([s[from]] + r)[j] == s[([from] + idx)[j]]
  {
    forall j | 0 <= j < |r| + 1 ensures ([from] + idx)[j] < |s| && ([s[from]] + r)[j] == s[([from] + idx)[j]] {
      if j >= 1 {
        assert ([from] + idx)[j] == idx[j - 1] && ([s[from]] + r)[j] == r[j - 1];
      }
    }
  }

  /** The positions of `s` whose element satisfies `keep`. */
  ghost function IndexSet<T>(s: seq<T>, keep: T -> bool): set<nat> {
    set i: nat | i < |s| && keep(s[i])
  }

  /** One more element adds its position when it is kept. */
  lemma IndexSetSnoc<T>(init: seq<T>, last: T, keep: T -> bool)
    ensures IndexSet(init + [last], keep) == IndexSet(init, keep) + (if keep(last) then {|init|} else {})
  {
    var s := init + [last];
    forall i: nat
      ensures i in IndexSet(s, keep) <==> i in IndexSet(init, keep) || (keep(last) && i == |init|)
    {
      if i < |init| {
        assert s[i] == init[i];
      }
    }
  }

  /** `filter(..).count()` is the number of positions whose element is kept. */
  lemma {:induction false} FilterCount<T>(s: seq<T>, keep: T -> bool)
    ensures |Filter(s, keep)| == |IndexSet(s, keep)|
    decreases |s|
  {
    if s != [] {
      var init, last := s[..|s| - 1], s[|s| - 1];
      assert s == init + [last];
      FilterCount(init, keep);
      FilterAppend(init, [last], keep);
      assert Filter([last], keep) == if keep(last) then [last] else [] by {
        assert [last][1..] == [];
      }
      IndexSetSnoc(init, last, keep);
    }
  }

  /** `iter().max()` on a non-empty sequence: one of its elements, and none is larger. */
  function Max(s: seq<nat>): (m: nat)
    requires s != []
    ensures m in s
    ensures forall i :: 0 <= i < |s| ==> s[i] <= m
  {
    if |s| == 1 then s[0]
    else
      var rest := Max(s[1..]);
      assert forall i :: 1 <= i < |s| ==> s[i] == s[1..][i - 1];
      if s[0] >= rest then s[0] else rest
  }

  /** `iter().sum()`. */
  function Sum(s: seq<nat>): nat {
    if s == [] then 0 else s[0] + Sum(s[1..])
  }

  lemma {:induction false} SumAppend(a: seq<nat>, b: seq<nat>)
    ensures Sum(a + b) == Sum(a) + Sum(b)
  {
    if a == [] {
      assert a + b == b;
    } else {
      assert (a + b)[1..] == a[1..] + b;
      SumAppend(a[1..], b);
    }
  }

  /** `iter().product()`. */
  function Product(s: seq<nat>): nat {
    if s == [] then 1 else s[0] * Product(s[1..])
  }

  lemma {:induction false} ProductAppend(a: seq<nat>, b: seq<nat>)
    ensures Product(a + b) == Product(a) * Product(b)
  {
    if a == [] {
      assert a + b == b;
    } else {
      assert (a + b)[1..] == a[1..] + b;
      ProductAppend(a[1..], b);
    }
  }

  ghost predicate TotalPreorder<T(!new)>(le: (T, T) -> bool) {
    && (forall a, b :: le(a, b) || le(b, a))
    && (forall a, b, c :: le(a, b) && le(b, c) ==> le(a, c))
  }

  predicate SortedBy<T>(s: seq<T>, le: (T, T) -> bool) {
    forall i, j :: 0 <= i < j < |s| ==> le(s[i], s[j])
  }

  /** Puts `x` before the first element it is not after, keeping equal elements in order. */
  function Insert<T(!new)>(x: T, s: seq<T>, le: (T, T) -> bool): (r: seq<T>)
    requires TotalPreorder(le) && SortedBy(s, le)
    ensures SortedBy(r, le)
    ensures multiset(r) == multiset(s) + multiset{x}
  {
    if s == [] then [x]
    else if le(x, s[0]) then [x] + s
    else
      var rest := Insert(x, s[1..], le);
      assert s == [s[0]] + s[1..];
      assert forall k :: 0 <= k < |rest| ==> le(s[0], rest[k]) by {
        forall k | 0 <= k < |rest| ensures le(s[0], rest[k]) {
          assert rest[k] in multiset(rest);
          assert rest[k] == x || rest[k] in multiset(s[1..]);
        }
      }
      [s[0]] + rest
  }

  /** The standard library's stable sort by a total preorder: sorted, and a permutation. */
  function SortBy<T(!new)>(s: seq<T>, le: (T, T) -> bool): (r: seq<T>)
    requires TotalPreorder(le)
    ensures SortedBy(r, le)
    ensures multiset(r) == multiset(s)
    ensures |r| == |s|
  {
    if s == [] then []
    else
      assert s == [s[0]] + s[1..];
      var r := Insert(s[0], SortBy(s[1..], le), le);
      assert |r| == |multiset(r)|;
      r
  }

  /** The elements `le` ranks equal to `k`. */
  function SameKey<T>(le: (T, T) -> bool, k: T): T -> bool {
    x => le(x, k) && le(k, x)
  }

  /** Filtering by pointwise equal tests gives the same elements. */
  lemma {:induction false} FilterExt<T>(s: seq<T>, f: T -> bool, g: T -> bool)
    requires forall x :: f(x) == g(x)
    ensures Filter(s, f) == Filter(s, g)
  {
    if s != [] {
      FilterExt(s[1..], f, g);
    }
  }

  /** Two elements one of which is not after the other do not both rank equal to `k`. */
  lemma SameKeyOrdered<T(!new)>(le: (T, T) -> bool, k: T, x: T, y: T)
    requires TotalPreorder(le) && !le(x, y)
    ensures !(SameKey(le, k)(x) && SameKey(le, k)(y))
  {
  }

  /** Inserting `x` before the rest keeps it ahead of every element of equal rank. */
  lemma {:induction false} InsertStable<T(!new)>(x: T, s: seq<T>, le: (T, T) -> bool, k: T)
    requires TotalPreorder(le) && SortedBy(s, le)
    ensures Filter(Insert(x, s, le), SameKey(le, k)) == Filter([x] + s, SameKey(le, k))
  {
    if s != [] && !le(x, s[0]) {
      var y, tail := s[0], s[1..];
      InsertStable(x, tail, le, k);
      SameKeyOrdered(le, k, x, y);
      assert [x] + s == [x] + ([y] + tail);
      StableStep(x, y, tail, Insert(x, tail, le), SameKey(le, k));
    }
  }

  /** Putting `y` ahead of `x` does not reorder what `keep` keeps when it keeps at most one of them. */
  lemma StableStep<T>(x: T, y: T, tail: seq<T>, rest: seq<T>, keep: T -> bool)
    requires Filter(rest, keep) == Filter([x] + tail, keep)
    requires !(keep(x) && keep(y))
    ensures Filter([y] + rest, keep) == Filter([x] + ([y] + tail), keep)
  {
    FilterAppend([y], rest, keep);
    FilterAppend([x], tail, keep);
    FilterAppend([y], tail, keep);
    FilterAppend([x], [y] + tail, keep);
    SwapLone(Filter([x], keep), Filter([y], keep), Filter(tail, keep));
  }

  /** Two pieces one of which is empty commute in front of a third. */
  lemma SwapLone<T>(a: seq<T>, b: seq<T>, rest: seq<T>)
    requires a == [] || b == []
    ensures b + (a + rest) == a + (b + rest)
  {
  }

  /** `SortBy` is stable: the elements of each rank keep their order. */
  lemma {:induction false} SortByStable<T(!new)>(s: seq<T>, le: (T, T) -> bool, k: T)
    requires TotalPreorder(le)
    ensures Filter(SortBy(s, le), SameKey(le, k)) == Filter(s, SameKey(le, k))
  {
    if s != [] {
      var keep := SameKey(le, k);
      var sorted := SortBy(s[1..], le);
      SortByStable(s[1..], le, k);
      InsertStable(s[0], sorted, le, k);
      FilterAppend([s[0]], sorted, keep);
      FilterAppend([s[0]], s[1..], keep);
      assert s == [s[0]] + s[1..];
    }
  }
}

=== FILE: text.dfy ===
/**
 * The pieces of Rust's `str` API that the solvers use to read their input:
 * `lines`, `split`, `split_once`, `split_whitespace`, `trim` and integer `parse`.
 * Strings are sequences of characters; the solvers' inputs are ASCII, so a
 * character stands for a byte wherever the source indexes bytes.
 */
module Text {
  import opened Wrappers
  import NumUtils

  /** `char::is_whitespace`: the characters with the Unicode White_Space property. */
  predicate IsWhitespace(c: char) {
    || c == ' '
    || '\t' <= c <= '\r'
    || c == '\U{85}' || c == '\U{A0}' || c == '\U{1680}'
    || '\U{2000}' <= c <= '\U{200A}'
    || c == '\U{2028}' || c == '\U{2029}' || c == '\U{202F}' || c == '\U{205F}' || c == '\U{3000}'
  }

  predicate NoWhitespace(s: string) {
    forall i :: 0 <= i < |s| ==> !IsWhitespace(s[i])
  }

  /** Index of the first `c` in `s`, or `|s|` when `c` does not occur. */
  function IndexOf(s: string, c: char): (k: nat)
    ensures k <= |s|
    ensures forall i :: 0 <= i < k ==> s[i] != c
    ensures k < |s| ==> s[k] == c
  {
    if s == [] || s[0] == c then 0 else 1 + IndexOf(s[1..], c)
  }

  /** Index of the first whitespace character of `s`, or `|s|`. */
  function WordEnd(s: string): (k: nat)
    ensures k <= |s|
    ensures NoWhitespace(s[..k])
    ensures k < |s| ==> IsWhitespace(s[k])
  {
    if s == [] || IsWhitespace(s[0]) then 0 else 1 + WordEnd(s[1..])
  }

  /** The pieces of `parts` with `sep` between consecutive ones. */
  function Join(parts: seq<string>, sep: string): string {
    if parts == [] then []
    else if |parts| == 1 then parts[0]
    else parts[0] + sep + Join(parts[1..], sep)
  }

  /** `str::split` on a character: the maximal pieces between occurrences of `c`. */
  function Split(s: string, c: char): (r: seq<string>)
    ensures |r| >= 1
    ensures forall i :: 0 <= i < |r| ==> c !in r[i]
    ensures Join(r, [c]) == s
    decreases |s|
  {
    var k := IndexOf(s, c);
    if k == |s| then
      assert s[..k] == s;
      [s]
    else
      var rest := Split(s[k + 1..], c);
      assert c !in s[..k];
      assert ([s[..k]] + rest)[1..] == rest;
      assert s == s[..k] + [c] + s[k + 1..];
      [s[..k]] + rest
  }

  /** `pat` occurs in `s` at position `j`. */
  predicate IsAt(s: string, pat: string, j: nat) {
    j + |pat| <= |s| && s[j..j + |pat|] == pat
  }

  function FindFrom(s: string, pat: string, j: nat): (r: Option<nat>)
    requires pat != [] && j <= |s|
    ensures r.Some? ==> j <= r.value && IsAt(s, pat, r.value)
    ensures r.Some? ==> forall i :: j <= i < r.value ==> !IsAt(s, pat, i)
    ensures r.None? ==> forall i :: j <= i <= |s| ==> !IsAt(s, pat, i)
    decreases |s| - j
  {
    if j + |pat| > |s| then None
    else if s[j..j + |pat|] == pat then Some(j)
    else FindFrom(s, pat, j + 1)
  }

  /** The first occurrence of the non-empty pattern `pat` in `s`. */
  function Find(s: string, pat: string): (r: Option<nat>)
    requires pat != []
    ensures r.Some? ==> IsAt(s, pat, r.value)
    ensures r.Some? ==> forall i :: 0 <= i < r.value ==> !IsAt(s, pat, i)
    ensures r.None? ==> forall i :: 0 <= i <= |s| ==> !IsAt(s, pat, i)
  {
    FindFrom(s, pat, 0)
  }

  /** `str::split` on a non-empty string pattern, scanning left to right. */
  function SplitOn(s: string, pat: string): (r: seq<string>)
    requires pat != []
    ensures |r| >= 1
    ensures Join(r, pat) == s
    decreases |s|
  {
    match Find(s, pat)
    case None => [s]
    case Some(k) =>
      var rest := SplitOn(s[k + |pat|..], pat);
      assert ([s[..k]] + rest)[1..] == rest;
      assert s == s[..k] + pat + s[k + |pat|..];
      [s[..k]] + rest
  }

  /** `str::split_once`: the text before and after the first occurrence of `pat`. */
  function SplitOnce(s: string, pat: string): (r: Option<(string, string)>)
    requires pat != []
    ensures r.Some? ==> r.value.0 + pat + r.value.1 == s
    ensures r.Some? ==> forall i :: 0 <= i < |r.value.0| ==> !IsAt(s, pat, i)
    ensures r.None? ==> forall i :: 0 <= i <= |s| ==> !IsAt(s, pat, i)
  {
    match Find(s, pat)
    case None => None
    case Some(k) =>
      assert s == s[..k] + pat + s[k + |pat|..];
      Some((s[..k], s[k + |pat|..]))
  }

  /**
   * The last piece of `split` is the end of the text: it holds no `pat`,
   * and unless it is the whole text, a `pat` stands right before it.
   */
  /** Where the last piece of `SplitOn(s, pat)` starts. */
  ghost function LastStart(s: string, pat: string): (start: nat)
    requires pat != []
    ensures start <= |s|
    decreases |s|
  {
    match Find(s, pat)
    case None => 0
    case Some(k) => k + |pat| + LastStart(s[k + |pat|..], pat)
  }

  /** The last piece of `split` is the end of the text from `LastStart` on. */
  lemma {:induction false} SplitOnLast(s: string, pat: string)
    requires pat != []
    ensures SplitOn(s, pat)[|SplitOn(s, pat)| - 1] == s[LastStart(s, pat)..]
    decreases |s|
  {
    match Find(s, pat)
    case None =>
      assert SplitOn(s, pat) == [s];
      assert LastStart(s, pat) == 0 && s[0..] == s;
    case Some(k) =>
      SplitOnStep(s, pat, k);
      SplitOnLast(s[k + |pat|..], pat);
      SplitOnLastStep(s, pat, k);
  }

  lemma SplitOnLastStep(s: string, pat: string, k: nat)
    requires pat != [] && Find(s, pat) == Some(k) && k + |pat| <= |s|
    requires var t := s[k + |pat|..]; SplitOn(t, pat)[|SplitOn(t, pat)| - 1] == t[LastStart(t, pat)..]
    ensures SplitOn(s, pat)[|SplitOn(s, pat)| - 1] == s[LastStart(s, pat)..]
  {
    var t := s[k + |pat|..];
    var whole, rest := SplitOn(s, pat), SplitOn(t, pat);
    SplitOnStep(s, pat, k);
    LastOfCons(s[..k], rest, whole);
    DropDrop(s, k + |pat|, LastStart(t, pat), LastStart(s, pat));
    assert whole[|whole| - 1] == rest[|rest| - 1];
    assert rest[|rest| - 1] == t[LastStart(t, pat)..];
    assert t[LastStart(t, pat)..] == s[LastStart(s, pat)..];
  }

  /** The last piece of `split` holds no `pat`. */
  lemma {:induction false} LastHasNoPattern(s: string, pat: string)
    requires pat != []
    ensures forall i :: LastStart(s, pat) <= i <= |s| ==> !IsAt(s, pat, i)
    decreases |s|
  {
    match Find(s, pat)
    case None =>
    case Some(k) =>
      var t := s[k + |pat|..];
      SplitOnStep(s, pat, k);
      LastHasNoPattern(t, pat);
      NoneAfterShift(s, pat, k + |pat|, LastStart(t, pat));
  }

  /** `pat` ends right at position `e` of `s`. */
  predicate EndsAt(s: string, pat: string, e: nat) {
    |pat| <= e <= |s| && s[e - |pat|..e] == pat
  }

  /** Unless the last piece of `split` is the whole text, a `pat` stands right before it. */
  lemma {:induction false} LastAfterPattern(s: string, pat: string)
    requires pat != []
    ensures LastStart(s, pat) > 0 ==> EndsAt(s, pat, LastStart(s, pat))
    decreases |s|
  {
    match Find(s, pat)
    case None =>
    case Some(k) =>
      var t := s[k + |pat|..];
      SplitOnStep(s, pat, k);
      var u := LastStart(t, pat);
      if u > 0 {
        LastAfterPattern(t, pat);
        EndsAtShift(s, pat, k + |pat|, u, LastStart(s, pat));
      } else {
        assert s[k..k + |pat|] == pat;
      }
  }

  lemma EndsAtShift(s: string, pat: string, k: nat, e: nat, m: nat)
    requires k <= |s| && m == k + e
    ensures EndsAt(s[k..], pat, e) ==> EndsAt(s, pat, m)
  {
    if |pat| <= e && m <= |s| {
      assert s[k..][e - |pat|..e] == s[m - |pat|..m];
    }
  }

  /** Past the first occurrence of `pat`, `split` goes on with the rest of the text. */
  lemma SplitOnStep(s: string, pat: string, k: nat)
    requires pat != [] && Find(s, pat) == Some(k)
    ensures k + |pat| <= |s|
    ensures SplitOn(s, pat) == [s[..k]] + SplitOn(s[k + |pat|..], pat)
  {
  }

  lemma LastOfCons<T>(x: T, rest: seq<T>, whole: seq<T>)
    requires |rest| >= 1 && whole == [x] + rest
    ensures whole[|whole| - 1] == rest[|rest| - 1]
  {
  }

  lemma NoneAfterShift(s: string, pat: string, k: nat, u: nat)
    requires k <= |s| && forall i :: u <= i <= |s| - k ==> !IsAt(s[k..], pat, i)
    ensures forall i :: k + u <= i <= |s| ==> !IsAt(s, pat, i)
  {
    forall i | k + u <= i <= |s| ensures !IsAt(s, pat, i) {
      IsAtShift(s, pat, k, i - k, i);
    }
  }

  lemma DropDrop<T>(s: seq<T>, a: nat, b: nat, m: nat)
    requires a + b <= |s| && m == a + b
    ensures s[a..][b..] == s[m..]
  {
  }

  /** An occurrence in a suffix is an occurrence in the whole text, at a shifted position. */
  lemma IsAtShift(s: string, pat: string, k: nat, j: nat, m: nat)
    requires k <= |s| && m == k + j
    ensures IsAt(s[k..], pat, j) <==> IsAt(s, pat, m)
  {
    if m + |pat| <= |s| {
      assert s[k..][j..j + |pat|] == s[m..m + |pat|];
    }
  }

  /** Splitting once on a pattern whose first character the first part lacks gives the two parts back. */
  lemma SplitOnceAt(a: string, pat: string, b: string)
    requires pat != [] && pat[0] !in a
    ensures SplitOnce(a + pat + b, pat) == Some((a, b))
  {
    var s := a + pat + b;
    assert s[|a|..|a| + |pat|] == pat;
    forall i | 0 <= i < |a| ensures !IsAt(s, pat, i) {
      assert s[i] == a[i];
      assert i + |pat| <= |s| ==> s[i..i + |pat|][0] == s[i];
    }
    assert IsAt(s, pat, |a|);
    var f := Find(s, pat);
    assert f.Some?;
    assert IsAt(s, pat, f.value);
    assert f.value == |a|;
    assert s[..|a|] == a && s[|a| + |pat|..] == b;
  }

  /** Splitting once on a character that the first part lacks gives the two parts back. */
  lemma SplitOnceJoin(a: string, c: char, b: string)
    requires c !in a
    ensures SplitOnce(a + [c] + b, [c]) == Some((a, b))
  {
    var s := a + [c] + b;
    assert IsAt(s, [c], |a|) by {
      assert s[|a|..|a| + 1] == [c];
    }
    forall i | 0 <= i < |a| ensures !IsAt(s, [c], i) {
      assert s[i..i + 1] == [a[i]];
    }
    assert s[..|a|] == a && s[|a| + 1..] == b;
  }

  /** `str::split_whitespace`: the maximal non-empty runs of non-whitespace characters. */
  function SplitWhitespace(s: string): (r: seq<string>)
    ensures forall i :: 0 <= i < |r| ==> r[i] != [] && NoWhitespace(r[i])
    decreases |s|
  {
    if s == [] then []
    else if IsWhitespace(s[0]) then SplitWhitespace(s[1..])
    else
      var k := WordEnd(s);
      [s[..k]] + SplitWhitespace(s[k..])
  }

  /** A word followed by whitespace or by nothing ends where the word does. */
  lemma WordEndAfter(w: string, t: string)
    requires NoWhitespace(w) && (t == [] || IsWhitespace(t[0]))
    ensures WordEnd(w + t) == |w|
  {
    var s := w + t;
    assert forall i :: 0 <= i < |w| ==> s[i] == w[i];
    assert |w| < |s| ==> s[|w|] == t[0];
  }

  /** Words joined by single spaces split back into the same words. */
  lemma {:induction false} SplitWhitespaceJoin(ws: seq<string>)
    requires forall i :: 0 <= i < |ws| ==> ws[i] != [] && NoWhitespace(ws[i])
    ensures SplitWhitespace(Join(ws, " ")) == ws
  {
    if |ws| == 1 {
      var w := ws[0];
      WordEndAfter(w, []);
      assert w + [] == w && w[..|w|] == w && w[|w|..] == [];
    } else if |ws| > 1 {
      var w, rest := ws[0], Join(ws[1..], " ");
      var s := w + " " + rest;
      assert Join(ws, " ") == s;
      WordEndAfter(w, " " + rest);
      assert s == w + (" " + rest);
      assert s[..|w|] == w && s[|w|..] == " " + rest;
      assert (" " + rest)[1..] == rest;
      SplitWhitespaceJoin(ws[1..]);
      assert [w] + ws[1..] == ws;
    }
  }

  /** `str::trim_start`. */
  function TrimStart(s: string): (r: string)
    ensures |r| <= |s| && r == s[|s| - |r|..]
    ensures forall i :: 0 <= i < |s| - |r| ==> IsWhitespace(s[i])
    ensures r == [] || !IsWhitespace(r[0])
  {
    if s == [] || !IsWhitespace(s[0]) then s else TrimStart(s[1..])
  }

  /** `str::trim_end`. */
  function TrimEnd(s: string): (r: string)
    ensures |r| <= |s| && r == s[..|r|]
    ensures forall i :: |r| <= i < |s| ==> IsWhitespace(s[i])
    ensures r == [] || !IsWhitespace(r[|r| - 1])
  {
    if s == [] || !IsWhitespace(s[|s| - 1]) then s else TrimEnd(s[..|s| - 1])
  }

  /** `str::trim`. */
  function Trim(s: string): string {
    TrimEnd(TrimStart(s))
  }

  /** A line without its terminating '\n' loses one '\r' before it. */
  function StripCr(line: string): string {
    if line != [] && line[|line| - 1] == '\r' then line[..|line| - 1] else line
  }

  /**
   * `str::lines`: the pieces between '\n's, each without a '\r' that stood
   * right before its '\n'; a final '\n' does not start another line.
   */
  function Lines(s: string): (r: seq<string>)
    ensures forall i :: 0 <= i < |r| ==> '\n' !in r[i]
    ensures r == [] <==> s == []
    decreases |s|
  {
    if s == [] then []
    else
      var k := IndexOf(s, '\n');
      if k == |s| then [s]
      else
        assert '\n' !in s[..k];
        [StripCr(s[..k])] + Lines(s[k + 1..])
  }

  /** Without carriage returns, the lines joined by '\n' give back the text, up to a final '\n'. */
  lemma {:induction false} LinesJoin(s: string)
    requires '\r' !in s
    ensures s == Join(Lines(s), "\n") || s == Join(Lines(s), "\n") + "\n"
    decreases |s|
  {
    if s != [] {
      var k := IndexOf(s, '\n');
      if k < |s| {
        var rest := s[k + 1..];
        assert s == s[..k] + "\n" + rest;
        assert '\r' !in s[..k] by {
          forall i | 0 <= i < k ensures s[..k][i] != '\r' { assert s[..k][i] == s[i]; }
        }
        assert StripCr(s[..k]) == s[..k];
        if rest == [] {
          assert Lines(s) == [s[..k]];
        } else {
          LinesJoin(rest);
          var ls := Lines(rest);
          assert Lines(s) == [s[..k]] + ls;
          assert ([s[..k]] + ls)[1..] == ls;
        }
      }
    }
  }

  /** The first `c` in `a + [c] + b` is the one after `a` when `a` has none. */
  lemma IndexOfAfter(a: string, c: char, b: string)
    requires c !in a
    ensures IndexOf(a + [c] + b, c) == |a|
  {
    var s := a + [c] + b;
    var k := IndexOf(s, c);
    assert s[|a|] == c;
    assert forall i :: 0 <= i < |a| ==> s[i] == a[i];
  }

  /**
   * Every piece parsed by `parse` (a `map(..).collect()` over fallible
   * parses): all the values, or `None` when some piece does not parse.
   */
  function ParseAll<T>(pieces: seq<string>, parse: string -> Option<T>): (r: Option<seq<T>>)
    ensures r.Some? ==> |r.value| == |pieces|
    ensures r.Some? ==> forall i :: 0 <= i < |pieces| ==> parse(pieces[i]) == Some(r.value[i])
    ensures r.None? ==> exists i :: 0 <= i < |pieces| && parse(pieces[i]).None?
  {
    if pieces == [] then Some([])
    else
      match (parse(pieces[0]), ParseAll(pieces[1..], parse))
      case (Some(v), Some(rest)) =>
        var vs := [v] + rest;
        assert forall i :: 0 <= i < |pieces| ==> parse(pieces[i]) == Some(vs[i]) by {
          forall i | 0 <= i < |pieces| ensures parse(pieces[i]) == Some(vs[i]) {
            if i > 0 {
              assert pieces[i] == pieces[1..][i - 1] && vs[i] == rest[i - 1];
            }
          }
        }
        Some(vs)
      case (None, _) => None
      case (_, None) =>
        assert exists i :: 0 <= i < |pieces| && parse(pieces[i]).None? by {
          var i :| 0 <= i < |pieces[1..]| && parse(pieces[1..][i]).None?;
          assert pieces[i + 1] == pieces[1..][i];
        }
        None
  }

  /** `ParseAll` of one more piece. */
  lemma ParseAllCons<T>(p: string, rest: seq<string>, parse: string -> Option<T>)
    ensures ParseAll([p] + rest, parse) ==
      match (parse(p), ParseAll(rest, parse))
      case (Some(v), Some(vs)) => Some([v] + vs)
      case _ => None
  {
    assert ([p] + rest)[0] == p && ([p] + rest)[1..] == rest;
  }

  /** A piece without `c`, then `c`, starts the pieces `Split` gives. */
  lemma SplitCons(a: string, c: char, b: string)
    requires c !in a
    ensures Split(a + [c] + b, c) == [a] + Split(b, c)
  {
    var s := a + [c] + b;
    IndexOfAfter(a, c, b);
    assert s[..|a|] == a && s[|a| + 1..] == b;
  }

  /** A piece without `c` is the only piece `Split` gives. */
  lemma SplitSingle(a: string, c: char)
    requires c !in a
    ensures Split(a, c) == [a]
  {
    assert forall i :: 0 <= i < |a| ==> a[i] != c;
  }

  /** A line with no newline and no final '\r', then '\n', starts the lines of the text. */
  lemma LinesCons(a: string, rest: string)
    requires '\n' !in a && (a == [] || a[|a| - 1] != '\r')
    ensures Lines(a + "\n" + rest) == [a] + Lines(rest)
  {
    var s := a + "\n" + rest;
    IndexOfAfter(a, '\n', rest);
    assert s[..|a|] == a;
    assert s[|a| + 1..] == rest;
  }

  /** Lines that are not empty, hold no newline and do not end in '\r' come back from their join. */
  lemma {:induction false} LinesOfJoin(ls: seq<string>)
    requires forall l | l in ls :: l != [] && '\n' !in l && l[|l| - 1] != '\r'
    ensures Lines(Join(ls, "\n")) == ls
  {
    if |ls| == 1 {
      assert IndexOf(ls[0], '\n') == |ls[0]|;
    } else if |ls| > 1 {
      var rest := Join(ls[1..], "\n");
      assert Join(ls, "\n") == ls[0] + "\n" + rest;
      assert forall l | l in ls[1..] :: l in ls;
      LinesOfJoin(ls[1..]);
      LinesCons(ls[0], rest);
      assert [ls[0]] + ls[1..] == ls;
    }
  }

  predicate IsDigit(c: char) {
    '0' <= c <= '9'
  }

  predicate AllDigits(s: string) {
    forall i :: 0 <= i < |s| ==> IsDigit(s[i])
  }

  function DigitValue(c: char): (d: nat)
    requires IsDigit(c)
    ensures d < 10
  {
    (c as int) - ('0' as int)
  }

  function DigitChar(d: nat): (c: char)
    requires d < 10
    ensures IsDigit(c) && DigitValue(c) == d
  {
    (('0' as int) + d) as char
  }

  /** The decimal value of a string of digits, most significant first. */
  function DigitsValue(ds: string): nat
    requires AllDigits(ds)
  {
    if ds == [] then 0 else DigitsValue(ds[..|ds| - 1]) * 10 + DigitValue(ds[|ds| - 1])
  }

  /** The text of an unsigned integer after an optional '+' sign. */
  function UnsignedDigits(s: string): string {
    if s != [] && s[0] == '+' then s[1..] else s
  }

  /**
   * `str::parse` into an unsigned integer type: an optional '+', then at
   * least one ASCII digit and nothing else. Overflow of the target width is
   * not modelled.
   */
  function ParseNat(s: string): (r: Option<nat>)
    ensures r.Some? <==> UnsignedDigits(s) != [] && AllDigits(UnsignedDigits(s))
  {
    var ds := UnsignedDigits(s);
    if ds != [] && AllDigits(ds) then Some(DigitsValue(ds)) else None
  }

  /** `str::parse` into a signed integer type: as `ParseNat`, or '-' followed by digits. */
  function ParseInt(s: string): (r: Option<int>)
    ensures s != [] && s[0] != '-' ==> (r.Some? <==> ParseNat(s).Some?)
  {
    if s != [] && s[0] == '-' then
      var ds := s[1..];
      if ds != [] && AllDigits(ds) then Some(0 - DigitsValue(ds) as int) else None
    else
      match ParseNat(s)
      case Some(n) => Some(n)
      case None => None
  }

  /** The value of digits followed by one more digit. */
  lemma DigitsValueSnoc(a: string, c: char)
    requires AllDigits(a) && IsDigit(c)
    ensures AllDigits(a + [c])
    ensures DigitsValue(a + [c]) == DigitsValue(a) * 10 + DigitValue(c)
  {
    assert (a + [c])[..|a|] == a;
  }

  lemma Regroup(x: nat, p: nat, y: nat, d: nat)
    ensures (x * p + y) * 10 + d == x * (p * 10) + (y * 10 + d)
  {
  }

  lemma {:induction false} DigitsValueAppend(a: string, b: string)
    requires AllDigits(a) && AllDigits(b)
    ensures AllDigits(a + b)
    ensures DigitsValue(a + b) == DigitsValue(a) * NumUtils.Pow10(|b|) + DigitsValue(b)
    decreases |b|
  {
    if b == [] {
      assert a + b == a;
    } else {
      var b', c := b[..|b| - 1], b[|b| - 1];
      assert AllDigits(b');
      assert a + b == (a + b') + [c];
      DigitsValueAppend(a, b');
      DigitsValueSnoc(a + b', c);
      DigitsValueSnoc(b', c);
      assert b' + [c] == b;
      Regroup(DigitsValue(a), NumUtils.Pow10(|b'|), DigitsValue(b'), DigitValue(c));
    }
  }

  /** A text of `k` digits has a value below 10^k, and at least 10^(k-1) without a leading zero. */
  lemma {:induction false} DigitsValueBounds(s: string)
    requires AllDigits(s)
    ensures DigitsValue(s) < NumUtils.Pow10(|s|)
    ensures s != [] && s[0] != '0' ==> NumUtils.Pow10(|s| - 1) <= DigitsValue(s)
    decreases |s|
  {
    if s != [] {
      DigitsValueBounds(s[..|s| - 1]);
    }
  }

  /** The shortest decimal text of `n`. */
  function NatToString(n: nat): (s: string)
    ensures s != [] && AllDigits(s)
  {
    if n < 10 then [DigitChar(n)] else NatToString(n / 10) + [DigitChar(n % 10)]
  }

  function IntToString(i: int): string {
    if i < 0 then "-" + NatToString(-i) else NatToString(i)
  }

  lemma {:induction false} DigitsValueOfNatToString(n: nat)
    ensures DigitsValue(NatToString(n)) == n
  {
    if n >= 10 {
      DigitsValueOfNatToString(n / 10);
      var s := NatToString(n);
      assert s[..|s| - 1] == NatToString(n / 10);
    }
  }

  /** Digits alone parse to their decimal value. */
  lemma ParseDigits(s: string)
    requires s != [] && AllDigits(s)
    ensures ParseNat(s) == Some(DigitsValue(s))
  {
    assert IsDigit(s[0]);
  }

  /** Parsing the decimal text of a number gives the number back. */
  lemma ParseNatRoundTrip(n: nat)
    ensures ParseNat(NatToString(n)) == Some(n)
  {
    DigitsValueOfNatToString(n);
    var s := NatToString(n);
    assert IsDigit(s[0]);
  }

  /** A '-' followed by the decimal text of `n` parses to `-n`. */
  lemma ParseNegRoundTrip(n: nat)
    ensures ParseInt("-" + NatToString(n)) == Some(0 - n)
  {
    var s := NatToString(n);
    DigitsValueOfNatToString(n);
    assert ("-" + s)[1..] == s;
  }

  lemma ParseIntRoundTrip(i: int)
    ensures ParseInt(IntToString(i)) == Some(i)
  {
    if i < 0 {
      ParseNegRoundTrip(-i);
    } else {
      ParseNatRoundTrip(i);
      var s := NatToString(i);
      assert IsDigit(s[0]);
      assert s[0] != '-';
    }
  }
}

=== FILE: utils.dfy ===
/**
 * Number helpers: Euclid's greatest common divisor and the least common
 * multiple built on it, plus the small facts about multiplication, division
 * and remainder that the rest of the model leans on. The source works on
 * `u64`; numbers here are unbounded.
 */
module NumUtils {

  function Abs(n: int): nat {
    if n < 0 then -n else n
  }

  lemma MulSucc(y: nat, w: nat)
    ensures (y + 1) * w == y * w + w
  {
  }

  lemma MulMono(a: nat, b: nat, w: nat)
    requires a <= b
    ensures a * w <= b * w
  {
    assert b * w == a * w + (b - a) * w;
  }

  /** Products by the same factor are ordered like the other factors. */
  lemma MulOrder(a: nat, b: nat, w: nat)
    ensures a <= b ==> a * w <= b * w
    ensures a < b ==> a * w + w <= b * w
  {
    if a <= b {
      MulMono(a, b, w);
    }
    if a < b {
      MulSucc(a, w);
      MulMono(a + 1, b, w);
    }
  }

  /** Division with remainder has a unique quotient and remainder. */
  lemma DivModUnique(a: nat, w: nat, q: nat, r: nat)
    requires w > 0 && r < w && a == q * w + r
    ensures a / w == q && a % w == r
  {
    var q', r' := a / w, a % w;
    assert a == q' * w + r';
    MulOrder(q', q, w);
    MulOrder(q, q', w);
  }

  /** An exact division multiplies back. */
  lemma DivExact(n: nat, w: nat)
    requires w > 0 && n % w == 0
    ensures w * (n / w) == n
  {
  }

  lemma DivAtMost(n: nat, w: nat)
    requires w > 0
    ensures n / w <= n
  {
    var q := n / w;
    assert n == q * w + n % w;
    MulOrder(n, q, w);
    MulOrder(1, w, n);
  }

  function Pow10(k: nat): (r: nat)
    ensures r >= 1
  {
    if k == 0 then 1 else 10 * Pow10(k - 1)
  }

  lemma {:induction false} Pow10Add(a: nat, b: nat)
    ensures Pow10(a + b) == Pow10(a) * Pow10(b)
    decreases b
  {
    if b > 0 {
      Pow10Add(a, b - 1);
      assert Pow10(a + b) == 10 * Pow10(a + b - 1);
    }
  }

  lemma {:induction false} Pow10Mono(a: nat, b: nat)
    requires a <= b
    ensures Pow10(a) <= Pow10(b)
    decreases b
  {
    if a < b {
      Pow10Mono(a, b - 1);
    }
  }

  /** Powers of ten are ordered like their exponents. */
  lemma Pow10Order(a: nat, b: nat)
    ensures a <= b ==> Pow10(a) <= Pow10(b)
    ensures a < b ==> 10 * Pow10(a) <= Pow10(b)
  {
    if a <= b {
      Pow10Mono(a, b);
    }
    if a < b {
      Pow10Mono(a + 1, b);
    }
  }

  /** `d` divides `n`; zero divides only zero. */
  predicate Divides(d: nat, n: nat) {
    if d == 0 then n == 0 else n % d == 0
  }

  lemma DividesMultiple(d: nat, k: nat)
    ensures Divides(d, k * d)
  {
    if d > 0 {
      DivModUnique(k * d, d, k, 0);
    }
  }

  lemma MulSub(p: nat, q: nat, k: nat, d: nat)
    requires k * q <= p
    ensures p * d - k * (q * d) == (p - k * q) * d
  {
  }

  /** A common divisor of `m` and `n` divides `m + k * n`. */
  lemma DividesSum(d: nat, m: nat, n: nat, k: nat)
    requires Divides(d, m) && Divides(d, n)
    ensures Divides(d, m + k * n)
  {
    if d > 0 {
      var p, q := m / d, n / d;
      assert m == p * d && n == q * d;
      assert k * n == (k * q) * d;
      assert m + k * n == (p + k * q) * d;
      DividesMultiple(d, p + k * q);
    }
  }

  /** A common divisor of `m` and `n` divides `m - k * n` when that is not negative. */
  lemma DividesDifference(d: nat, m: nat, n: nat, k: nat)
    requires Divides(d, m) && Divides(d, n) && k * n <= m
    ensures Divides(d, m - k * n)
  {
    if d > 0 {
      var p, q := m / d, n / d;
      assert m == p * d && n == q * d;
      assert k * n == (k * q) * d;
      MulOrder(p, k * q, d);
      MulSub(p, q, k, d);
      DividesMultiple(d, p - k * q);
    }
  }

  /** The greatest common divisor, by Euclid's recursion. */
  function GcdOf(a: nat, b: nat): nat
    decreases b
  {
    if b == 0 then a else GcdOf(b, a % b)
  }

  /** `GcdOf(a, b)` divides both numbers, and every common divisor divides it. */
  lemma {:induction false} GcdOfIsGreatest(a: nat, b: nat, d: nat)
    ensures Divides(GcdOf(a, b), a) && Divides(GcdOf(a, b), b)
    ensures Divides(d, a) && Divides(d, b) ==> Divides(d, GcdOf(a, b))
    decreases b
  {
    if b == 0 {
      if GcdOf(a, b) > 0 {
        DivModUnique(a, a, 1, 0);
      }
    } else {
      var r, k := a % b, a / b;
      GcdOfIsGreatest(b, r, d);
      var g := GcdOf(b, r);
      assert a == r + k * b;
      DividesSum(g, r, b, k);
      if Divides(d, a) && Divides(d, b) {
        DividesDifference(d, a, b, k);
      }
    }
  }

  /** The greatest common divisor is zero exactly when both numbers are. */
  lemma {:induction false} GcdOfZero(a: nat, b: nat)
    ensures GcdOf(a, b) == 0 <==> a == 0 && b == 0
    decreases b
  {
    if b != 0 {
      GcdOfZero(b, a % b);
    }
  }

  /** `gcd`: Euclid's loop, replacing `(a, b)` by `(b, a % b)` until `b` is zero. */
  method Gcd(a: nat, b: nat) returns (g: nat)
    ensures g == GcdOf(a, b)
    ensures Divides(g, a) && Divides(g, b)
    ensures forall d: nat :: Divides(d, a) && Divides(d, b) ==> Divides(d, g)
    ensures g == 0 <==> a == 0 && b == 0
  {
    var x, y := a, b;
    while y != 0
      invariant GcdOf(x, y) == GcdOf(a, b)
      decreases y
    {
      x, y := y, x % y;
    }
    g := x;
    forall d: nat | Divides(d, a) && Divides(d, b) ensures Divides(d, g) {
      GcdOfIsGreatest(a, b, d);
    }
    GcdOfIsGreatest(a, b, 0);
    GcdOfZero(a, b);
  }

  /**
   * `lcm`: `a / gcd(a, b) * b`, a common multiple whose product with the
   * greatest common divisor is `a * b`. Both numbers zero divide by zero.
   */
  method Lcm(a: nat, b: nat) returns (m: nat)
    requires a != 0 || b != 0
    ensures Divides(a, m) && Divides(b, m)
    ensures m * GcdOf(a, b) == a * b
  {
    var g := Gcd(a, b);
    GcdOfIsGreatest(a, b, g);
    m := a / g * b;
    CommonMultiple(a, b, g);
  }

  lemma CommonMultiple(a: nat, b: nat, g: nat)
    requires g > 0 && Divides(g, a) && Divides(g, b)
    ensures Divides(a, a / g * b) && Divides(b, a / g * b)
    ensures (a / g * b) * g == a * b
  {
    var k, j := a / g, b / g;
    assert a == k * g && b == j * g;
    DividesMultiple(b, k);
    assert k * b == a * j by {
      assert k * b == k * (j * g) == (k * g) * j;
    }
    DividesMultiple(a, j);
    assert (k * b) * g == (k * g) * b;
  }
}

=== FILE: wrappers.dfy ===
/** Optional values: `None` stands for a Rust `None`, or for a panic on the modelled path. */
module Wrappers {

  datatype Option<+T> = None | Some(value: T)
}
